=== FILE: README.md ===
# TuneBot music core in Dafny

TuneBot is a Discord music bot written in Go. This project models its music core and proves properties of the model:

- **Queue store.** A Redis sorted set per guild, ordered by a priority-and-time score, with a settings hash beside it.
- **Resolvers.** yt-dlp lookups and the Spotify Web API client.
- **Service.** The layer that turns user input into queued tracks.
- **Player.** Its signal channels, voice connection and worker loop.
- **Ogg demultiplexer.** It cuts the transcoder's output into Opus packets.
- **Dashboard.** Its snapshot, caches and render hash.
- **Views.** The queue and search views.
- **Handlers.** The repeat and queue commands, the dashboard's repeat button, the channel-message gate, the modal readers, and the configuration and database settings.

Modelling conventions:

- **Modules.** Each module follows one package or file of the repository.
- **Pure functions.** Operations are pure functions over immutable values: a store, a cache or a player goes in and the updated value comes out.
- **Outside the process.** The clock, random choices, Redis availability, yt-dlp runs, HTTP replies and Discord lookups are parameters.
- **Strings.** Go strings are byte strings. Every `char` of a Dafny `string` here stands for one byte, and non-ASCII text is written as its UTF-8 bytes. `strings.TrimSpace` drops the UTF-8 encodings of every rune `unicode.IsSpace` accepts, so non-breaking and other wide spaces are trimmed as in Go.

| module | models |
|---|---|
| `Wrappers`, `GoStrings` | `Option`/`Result`, and the `strings`/`strconv` functions the code calls |
| `MusicTypes` | `internal/music/types.go`: tracks, queue items, settings, playback state, errors, time |
| `QueueStore` | `internal/music/queue.go` |
| `Resolver` | `internal/music/resolve.go` |
| `SpotifyWeb` | `internal/music/spotify.go` |
| `Service` | `internal/music/service.go` |
| `SearchCache` | `internal/music/search.go` |
| `Player`, `Worker`, `Ogg` | `internal/music/player.go`: the player's operations, the worker loop as a step function, the Ogg reader |
| `DashboardText`, `DashboardCache`, `Dashboard` | `internal/features/dashboard/shared.go` |
| `QueueView` | `internal/features/music/queueview/queueview.go` |
| `SearchView` | `internal/features/music/search/search.go` |
| `SourceHints`, `Modal` | the duplicated helpers of `music/commands/helpers.go` and `dashboard/listeners/helpers.go`, modelled once |
| `DashboardListeners` | `dashboard/listeners/helpers.go` (truncation) and `dashboard/listeners/loop.go` |
| `MusicCommands` | `internal/features/commands.go` |
| `MusicMessages` | `internal/features/music/listeners/message.go` |
| `Config` | `config/config.go` |
| `Database` | `internal/database/database.go` |

Two places in the code do not do what they evidently set out to do:

- **A packet that spans Ogg pages.** Section 5 of RFC 3533 says a packet whose last lacing value on a page is 255 continues on the next page. `extractPacketsFromPage` closes the open packet at the end of every page, so such a packet is sent as two.
- **A truncated title.** The search view's `truncate` (internal/features/music/search/search.go:211) ends a cut title in "…", the bytes e2 80 a6. `truncateForDisplay` in the dashboard listeners does the same cut, but its literal holds a misencoded suffix.

The model follows the code in both places. Both appear under Findings, each with a corrected version.

## Model

| member | source | states |
|---|---|---|
| QueueStore.BuildScore | internal/music/queue.go:272-280 | a zero enqueue time is replaced by `now`; the score is the priority times the weight plus that time in Unix milliseconds, the score Enqueue gives the stored member |
| QueueStore.Insert | internal/music/queue.go:49-71 | adding a member keeps the set sorted by score and duplicate-free, and adds exactly that member |
| QueueStore.PopFront | internal/music/queue.go:73-95 | the head of a sorted set has the least score; the rest stays sorted and together with the head is the whole set |
| QueueStore.RemoveAt | internal/music/queue.go:97-135 | removing one member keeps the set sorted and removes exactly that member |
| QueueStore.Enqueue | internal/music/queue.go:36-71 | fails exactly on a missing client or empty guild ID; otherwise the item, stamped with `now` when its time is zero, is in the guild's queue with buildScore's score, the store stays sorted and other guilds are untouched |
| QueueStore.Dequeue | internal/music/queue.go:73-95 | fails exactly on a missing client, empty guild ID or empty queue; returns a least-score item and removes exactly it |
| QueueStore.DequeueRandom | internal/music/queue.go:97-135 | the same errors as Dequeue; returns the member at index `pick` modulo the queue size and removes exactly it; other guilds' queues and every settings hash are untouched |
| QueueStore.Peek | internal/music/queue.go:137-159 | the returned item is in the queue |
| QueueStore.List | internal/music/queue.go:161-189 | a non-positive limit lists the whole queue, a positive one lists its first `limit` items in order |
| QueueStore.QueueSize | internal/music/queue.go:191-200 | the size is the length of the full listing |
| QueueStore.Clear | internal/music/queue.go:202-211 | the guild's queue is emptied; other queues and every settings hash are untouched |
| QueueStore.ClearPreservesValid | internal/music/queue.go:202-211 | clearing keeps every queue sorted |
| QueueStore.EncodeSettings | internal/music/queue.go:247-262 | SetSettings writes exactly the three fields repeat mode, shuffle and volume |
| QueueStore.GetSettings | internal/music/queue.go:213-245 | an empty hash reads as the defaults (none, false, 100); the mode read is never empty and the volume fits 64 bits |
| QueueStore.SetSettings | internal/music/queue.go:247-262 | the guild's hash holds the three encoded fields and keeps its other fields; the queues and every other guild's hash are untouched |
| QueueStore.DecodeSettings | internal/music/queue.go:222-244 | each field overrides its default on its own: a non-empty mode, shuffle only for "true", and the volume when it parses; the mode read is never empty |
| QueueStore.SettingsRoundTrip | internal/music/queue.go:213-262 | GetSettings reads back what SetSettings wrote whenever the mode is non-empty |
| QueueStore.EmptyRepeatModeReadsAsNone | internal/music/queue.go:232-235 | an empty repeat mode is not stored faithfully and reads back as none |
| QueueStore.LowerPriorityFirst | internal/music/queue.go:272-280 | a lower priority value scores lower whenever the timestamps differ by less than the priority weight |
| QueueStore.EqualPriorityFifo | internal/music/queue.go:272-280 | for equal priorities the order of scores is the order of timestamps |
| QueueStore.PeekIsDequeueHead | internal/music/queue.go:73-159 | Peek succeeds exactly when Dequeue does, with the same item or the same error |
| QueueStore.EmptyQueueErrors | internal/music/queue.go:73-159 | Dequeue, Peek and DequeueRandom all report ErrQueueEmpty on an empty queue |
| QueueStore.EmptyGuildRejected | internal/music/queue.go:36-262 | every operation rejects an empty guild ID once a client is available |
| QueueStore.ClearEmptiesQueue | internal/music/queue.go:191-211 | after Clear the queue size is zero |
| QueueStore.TwoEnqueuesDequeueOrder | internal/music/queue.go:49-95 | two items enqueued into an empty queue come out lowest score first, then the other |
| Resolver.SearchTarget | internal/music/resolve.go:32-40 | a URL is passed as is; anything else becomes an `scsearch1:` query for SoundCloud and a `ytsearch1:` query otherwise |
| Resolver.LooksLikeURL | internal/music/resolve.go:297-304 | an http or https prefix always counts; otherwise only a parse with both a scheme and a host does |
| Resolver.DetectSourceFromURL | internal/music/resolve.go:306-323 | unknown for an unparsable URL; otherwise YouTube exactly when the lower-cased host names youtube.com or youtu.be, else SoundCloud exactly when it names soundcloud.com, else Spotify exactly when it names spotify.com |
| Resolver.KnownHostsDetected | internal/music/resolve.go:312-321 | www.YouTube.com, SoundCloud.com and open.spotify.com are recognised as their services whatever the letter case |
| Resolver.PickItem | internal/music/resolve.go:253-265 | the root without entries, otherwise the first entry with a URL, otherwise an error |
| Resolver.PickItemIsFirstUsable | internal/music/resolve.go:253-295 | the single pick is the first of the entries the multiple pick would return |
| Resolver.PickItems | internal/music/resolve.go:267-295 | the loop returns what Picked states without a loop: at most `limit` usable entries (one for a non-positive limit), as a prefix of the usable entries in order; an error exactly when none is usable |
| Resolver.PickItemIsFirstPick | internal/music/resolve.go:253-295 | with entries, pickYTDLPItem succeeds exactly when pickYTDLPItems with limit one does, and picks its one item |
| Resolver.TrackOf | internal/music/resolve.go:69-100 | the track's link, trimmed title or placeholder, source (hint or detected) and non-negative duration |
| Resolver.Resolve | internal/music/resolve.go:27-101 | blank input fails before yt-dlp runs; then a failed run, pickYTDLPItem's error, or "missing track url" for a picked item without a link; otherwise the picked item's track |
| Resolver.ResolveTakesFirstUsable | internal/music/resolve.go:27-101 | a search with entries resolves to the track of the first usable entry, and only when that entry has a link |
| Resolver.ClampSearchLimit | internal/music/resolve.go:108-113 | the limit is brought into 1..10, defaulting to 6 |
| Resolver.TracksOf | internal/music/resolve.go:159-193 | as many tracks as there are items with a link |
| Resolver.TracksOfLinked | internal/music/resolve.go:159-193 | the k-th track is the track of the k-th item with a link: items without one are skipped and the order is kept |
| Resolver.TracksHaveLinks | internal/music/resolve.go:159-193 | every track built has a link and no requester |
| Resolver.ResolveSearch | internal/music/resolve.go:103-200 | blank input is refused; a URL gives exactly Resolve's track or its error; a query gives the tracks of the picked flat-search entries that have a link, between one and the clamped limit, with the same errors as FlatSearch (SearchOutcome) |
| Resolver.ResolveOne | internal/music/resolve.go:116-122 | Resolve's track as a one-track list, or Resolve's error unchanged |
| Resolver.FlatSearch | internal/music/resolve.go:124-199 | a failed run, pickYTDLPItems' error, or "no usable entries" when no picked entry has a link; otherwise the tracks of the picked entries that have one, between one and `n` |
| Resolver.ResolveStreamURL | internal/music/resolve.go:202-241 | blank input fails before yt-dlp runs; a failed run is "yt-dlp failed"; blank output is an error; any other output gives exactly its trimmed text, asked of the same target Resolve uses |
| Resolver.BlankInputRejected | internal/music/resolve.go:27-241 | both lookups refuse blank input with the same error |
| Resolver.StreamTargetMatchesResolve | internal/music/resolve.go:27-241 | Resolve and ResolveStreamURL ask yt-dlp about the same target |
| SpotifyWeb.ExtractTrackID | internal/music/spotify.go:222-248 | blank input gives ""; a `spotify:track:` URI gives its remainder; any other input gives "" unless it parses with a spotify.com host, and then the segment after the path's first `track` segment that has a successor |
| SpotifyWeb.AfterTrack | internal/music/spotify.go:240-247 | the segment after the first `track` segment (from the start index) that has a successor, and "" when there is none |
| SpotifyWeb.TrackURLGivesID | internal/music/spotify.go:222-248 | an open.spotify.com track link gives back its ID |
| SpotifyWeb.URIGivesID | internal/music/spotify.go:222-248 | a `spotify:track:` URI gives back its ID |
| SpotifyWeb.ArtistNames | internal/music/spotify.go:281-292 | the artist text is empty exactly when no artist has a name, and a single named artist stands alone |
| SpotifyWeb.AlbumImageURL | internal/music/spotify.go:294-299 | the first image, or "" when there is none |
| SpotifyWeb.TitleBase | internal/music/spotify.go:68-71 | never empty: the trimmed name, or "Unknown Title" for a blank one |
| SpotifyWeb.ComposeTitle | internal/music/spotify.go:68-74 | the trimmed name or placeholder alone when no artist has a name, otherwise followed by " — " and the joined artist names |
| SpotifyWeb.ArtistsJoinedInOrder | internal/music/spotify.go:68-74 | artists ["a", "", "b"] give the title "name — a, b": unnamed artists are skipped and the rest kept in order |
| SpotifyWeb.TrackFromPayload | internal/music/spotify.go:76-86 | an open.spotify.com link, the Spotify source, the composed title, the first image and the duration in milliseconds |
| SpotifyWeb.GetAccessToken | internal/music/spotify.go:175-220 | a token is reused exactly while it is non-empty and unexpired; otherwise credentials are required, and a fetch succeeds exactly with a 2xx reply carrying a token, failing with the transport error, "token status" or "empty access token"; a new token is kept until 30 seconds before its lifetime ends |
| SpotifyWeb.TokenReuseWindow | internal/music/spotify.go:175-220 | a fetched token is reused by any request made before its expiry |
| SpotifyWeb.ResolveTrack | internal/music/spotify.go:36-87 | an unsupported input fails before any token is requested; then a token error, a transport error and a non-2xx status ("spotify api status") fail in that order, and a 2xx reply gives exactly the payload's track |
| SpotifyWeb.ClampLimit | internal/music/spotify.go:89-162 | the search limit is brought into 1..10 |
| SpotifyWeb.SearchTracks | internal/music/spotify.go:89-162 | a blank query fails before any token is requested; then a token error, a transport error, a non-2xx status and an empty item list fail in that order, and otherwise the results are the payload items converted one by one, searched with the trimmed query and the clamped limit |
| SpotifyWeb.TracksFromPayloads | internal/music/spotify.go:138-159 | one track per payload item, in order |
| SpotifyWeb.SearchTrack | internal/music/spotify.go:164-173 | the first result of a one-result search |
| Service.Bridge | internal/music/service.go:60-80 | the YouTube track keeps its playable fields but takes the Spotify title, the Spotify thumbnail when there is one, and the requester |
| Service.ResolveInput | internal/music/service.go:44-83 | blank input, a missing resolver and a missing Spotify client are errors in that order; a result carries the requester |
| Service.PlainPathKeepsResolverTrack | internal/music/service.go:44-83 | outside the Spotify path the resolver's track is returned with only the requester set |
| Service.SpotifyPathBridges | internal/music/service.go:60-80 | on the Spotify path the YouTube search is for the Spotify title, and the result is the bridged track |
| Service.ResolveAndEnqueue | internal/music/service.go:85-106 | a failed resolution or a missing queue store leaves the queue unchanged; otherwise the item is the resolved track with the priority and `now`, and the call succeeds exactly when the store's Enqueue does, returning the store it produced or its error; the queue stays sorted |
| Service.EnqueuedIsQueued | internal/music/service.go:85-106 | an item stamped with the enqueue time is in the queue afterwards |
| Service.Dequeue | internal/music/service.go:108-113 | a missing store is ErrQueueStoreNil; otherwise the store's Dequeue |
| Service.Peek | internal/music/service.go:115-120 | a missing store is ErrQueueStoreNil; otherwise the store's Peek |
| Service.List | internal/music/service.go:122-127 | a missing store is ErrQueueStoreNil; otherwise the store's List |
| Service.Clear | internal/music/service.go:129-134 | a missing store is ErrQueueStoreNil; otherwise the store's Clear |
| Service.GetSettings | internal/music/service.go:136-141 | a missing store is ErrQueueStoreNil; otherwise the store's GetSettings |
| Service.SetSettings | internal/music/service.go:143-148 | a missing store is ErrQueueStoreNil; otherwise the store's SetSettings |
| Service.ResolveSpotifySearch | internal/music/service.go:157-181 | the Spotify client is checked before the resolver; a result is bridged from the Spotify match |
| Service.Validate | internal/music/service.go:183-191 | valid exactly when both store and resolver are set, the store reported first |
| Service.IsSpotifyInput | internal/music/service.go:150-155 | the Spotify hint always counts; text holding "spotify.com" or starting with "spotify:track:" counts whatever the hint |
| Service.SpotifyInputIgnoresCase | internal/music/service.go:150-155 | upper- or lower-casing the input never changes whether it is Spotify input |
| SearchCache.ClampLimit | internal/music/search.go:40-45 | the limit is brought into 1..10, defaulting to 4 |
| SearchCache.CacheKey | internal/music/search.go:90-93 | the key is the hint's name, a colon, and the trimmed lower-cased query |
| SearchCache.CacheKeyIgnoresPadding | internal/music/search.go:90-93 | padding around a query does not change its key |
| SearchCache.KeysSeparateSources | internal/music/search.go:90-93 | different hints never share a key |
| SearchCache.GetCached | internal/music/search.go:95-109 | a hit exactly while the entry has not expired; an expired entry is deleted |
| SearchCache.SetCached | internal/music/search.go:111-118 | the entry expires five minutes after `now`; other entries are untouched |
| SearchCache.StoredAnswerLivesFiveMinutes | internal/music/search.go:95-118 | a stored answer is served until five minutes after it was stored and not after |
| SearchCache.CacheServesAnyLimit | internal/music/search.go:47-50 | a cached answer serves every later search for the same hint and trimmed query, whatever its limit |
| SearchCache.Fetch | internal/music/search.go:52-84 | Spotify input needs the client and goes to ResolveTrack for links and SearchTracks otherwise; other input needs the resolver and ends exactly as ResolveSearch does (Resolve's track for a URL, the flat-search outcome for a query); a result is non-empty |
| SearchCache.FetchAndStore | internal/music/search.go:52-87 | on a miss, a successful non-empty answer is stored under the key with a five-minute lifetime and a failure stores nothing |
| SearchCache.SearchTracks | internal/music/search.go:27-88 | a blank query fails; a cache hit is returned as stored; a fresh answer is cached under the key and a failure only sweeps expired entries; Spotify input goes to the Web API and other input to yt-dlp, at most the clamped limit of tracks |
| Player.Offer | internal/music/player.go:162-174 | a non-blocking send leaves a signal pending on a made channel and drops it on a full one |
| Player.Take | internal/music/player.go:250-256 | a receive takes a pending signal exactly when there is one, and leaves the channel empty |
| Player.NewPlayer | internal/music/player.go:51-72 | a new player has volume 100, five fresh signal channels, no worker, no voice connection and the idle state |
| Player.Get | internal/music/player.go:51-72 | one player per guild, created on first use; existing players are untouched |
| Player.GetIsStable | internal/music/player.go:51-72 | a second Get for the same guild returns the same player and changes nothing |
| Player.GetSeparatesGuilds | internal/music/player.go:51-72 | different guilds get different players |
| Player.Skip | internal/music/player.go:162-174 | without a channel ErrPlaybackStopped; otherwise a skip signal is pending and nothing else changes |
| Player.Cleanup | internal/music/player.go:749-775 | ffmpeg, the voice connection and both contexts are released; nothing else changes |
| Player.Stop | internal/music/player.go:176-194 | a stop signal is pending, everything is released, and the queue is cleared exactly when asked and a service exists |
| Player.StopIdempotent | internal/music/player.go:176-194 | stopping twice is stopping once |
| Player.TogglePause | internal/music/player.go:196-218 | the flag flips, the pause time is recorded exactly when paused, and the matching signal is sent |
| Player.ToggleTwiceRestores | internal/music/player.go:196-218 | two toggles restore the flag and whether a pause time is recorded |
| Player.EnsureWorker | internal/music/player.go:226-240 | a running worker is left alone; otherwise a new one starts with a fresh wake channel |
| Player.EnsureWorkerIdempotent | internal/music/player.go:226-240 | a second call starts nothing |
| Player.SignalWake | internal/music/player.go:777-788 | a no-op before any worker started; otherwise a wake signal is pending |
| Player.JoinVoice | internal/music/player.go:119-137 | the session and the channel ID are checked in that order; on success the connection is stored |
| Player.EnsureVoiceConnection | internal/music/player.go:721-747 | an existing connection is kept; without a session it fails; a success leaves the player with a connection and otherwise unchanged, and a failure changes nothing |
| Player.Attach | internal/music/player.go:153-159 | after connecting the worker runs and is woken |
| Player.EnqueueAndPlay | internal/music/player.go:139-160 | the service and session are checked first; on success the track is queued, the voice is connected and the worker is running |
| Player.PlayItemStart | internal/music/player.go:387-400 | without a voice connection nothing changes; otherwise the state is reset to the item, playing |
| Player.PlayItem | internal/music/player.go:387-425 | succeeds exactly with a voice connection and a resolved stream URL, which clears the pause |
| Player.FailedPlayLeavesPauseUnrecorded | internal/music/player.go:393-409 | a paused player whose stream lookup fails stays paused with no pause time |
| Player.SendFrame | internal/music/player.go:600-607 | one packet sent advances the frame count, and the position is the count times 20 ms |
| Player.PositionCountsFrames | internal/music/player.go:600-607 | after n frames the position is n times 20 ms, whatever the wall clock did |
| Worker.ReadSettings | internal/music/player.go:290-294 | a settings read fails once the worker's context is done |
| Worker.Latest | internal/music/player.go:329-334 | without a service or under a cancelled context the settings in hand are kept; otherwise the service's settings when they can be read |
| Worker.NextQueueItem | internal/music/player.go:372-385 | the next item is a member of the queue and is removed from it |
| Worker.ShuffleUsesDequeueRandom | internal/music/player.go:377-381 | with shuffle on, the next item is a random member |
| Worker.NoShuffleUsesDequeue | internal/music/player.go:377-384 | without shuffle, or when the settings cannot be read, the next item is the one Dequeue pops |
| Worker.Exit | internal/music/player.go:243-247 | the worker's return clears `running` |
| Worker.Requeue | internal/music/player.go:359-368 | in repeat-queue mode the item is resolved and enqueued again; the player is untouched |
| Worker.Begin | internal/music/player.go:387-425 | the queue stays sorted; a play begins only for the given item; the worker keeps its running flag unless it exits, and is marked stopped when it does; a playing state is never lost |
| Worker.After | internal/music/player.go:296-357 | ErrPlaybackStopped ends the worker and any other outcome does not |
| Worker.AfterOnce | internal/music/player.go:319-368 | after the single play, a skip returns to the top, a stop ends the worker, and repeat-track or repeat-queue follow the re-read settings |
| Worker.Resume | internal/music/player.go:336-368 | after a single play the worker never exits; the queue stays sorted, `running` is kept, and any play begun is of the same item |
| Worker.TopStep | internal/music/player.go:249-285 | a cancelled context or a pending stop ends the worker; an empty queue waits |
| Worker.WaitStep | internal/music/player.go:259-280 | the wait returns to the top only on a wake or a timer, and never touches the store |
| Worker.StreamStep | internal/music/player.go:509-531 | the queue stays sorted; the worker keeps its running flag unless it exits, and is marked stopped when it does; a playing state is never lost |
| Worker.Step | internal/music/player.go:242-370 | every step keeps the queue sorted, keeps `running` until the worker exits, and stays with the playing item |
| Worker.SkipReplaysUnderRepeatTrack | internal/music/player.go:296-315 | under repeat-track a skip ends the stream without an error, so the same item plays again |
| Worker.RepeatEndsWhenModeChanges | internal/music/player.go:311-314 | repeat-track stops once the settings say otherwise |
| Worker.RepeatEndsOnError | internal/music/player.go:297-306 | repeat-track stops on a play error |
| Worker.RepeatQueueEnqueuesAgain | internal/music/player.go:359-368 | after a single play in repeat-queue mode the item is enqueued again with its URL, source, requester and priority |
| Worker.StopEndsWorker | internal/music/player.go:176-256 | after Stop the worker's next step ends it |
| Worker.EmptyQueueWaits | internal/music/player.go:258-269 | an empty queue parks the worker |
| Ogg.SyncFrom | internal/music/player.go:665-686 | the scan stops right after the first complete capture pattern, or reports EOF when there is none |
| Ogg.SyncConsumesThroughFirstCapture | internal/music/player.go:665-686 | syncToOggPage succeeds exactly when the input holds "OggS", and no earlier capture pattern is skipped |
| Ogg.SyncToOggPage | internal/music/player.go:665-686 | a success stops right after a capture pattern; the only failure is EOF |
| Ogg.ReadFull | internal/music/player.go:628-648 | a full read succeeds exactly when enough bytes remain; EOF exactly when none do |
| Ogg.ReadRawPageLayout | internal/music/player.go:622-648 | header_type is the second of the 23 header bytes and the segment count the last; the body is as long as the lacing values add up to |
| Ogg.ReadRawPage | internal/music/player.go:622-648 | a read consumes a non-empty prefix; no capture pattern is EOF; a capture pattern without 23 header bytes after it is an error |
| Ogg.IsHeaderPage | internal/music/player.go:650-656 | the BOS flag, or a body of at least 8 bytes opening with "OpusHead" or "OpusTags", marks a header page; without the flag a body shorter than 8 bytes never does |
| Ogg.BosFlagIsBitTest | internal/music/player.go:650 | the flag test on the byte value is the source's `&0x02 != 0` |
| Ogg.ReadOggPage | internal/music/player.go:622-663 | a page read consumes a non-empty prefix of the input |
| Ogg.LaceIsReassemble | internal/music/player.go:688-719 | on a whole page the extracted packets are the groups of section 5 of RFC 3533 (segments up to and including one below 255), each group's bytes one packet, except that zero-length packets are dropped where the RFC keeps them |
| Ogg.LaceConcat | internal/music/player.go:688-719 | no byte is lost or duplicated: the packets, concatenated, are the page body |
| Ogg.LaceNonEmpty | internal/music/player.go:703-716 | every emitted packet is non-empty |
| Ogg.LacePacketCount | internal/music/player.go:688-719 | a page yields at most one packet per lacing value, plus the carried one |
| Ogg.ExtractPacketsFromPage | internal/music/player.go:688-719 | the loop emits the lacing of the page: non-empty packets that concatenate to the body and match the reference reassembly |
| Ogg.ReadEncodedPage | internal/music/player.go:622-663 | reading an encoded page gives the page back and stops right after it |
| Ogg.Demux | internal/music/player.go:543-560 | the loop fails only on an unexpected EOF, and a stream without a capture pattern yields nothing and ends cleanly |
| Ogg.DemuxPages | internal/music/player.go:543-559 | a stream of well-formed pages is demultiplexed page by page and ends cleanly |
| Ogg.HeaderPagesOnly | internal/music/player.go:553-555 | a stream of header pages yields no audio packet |
| Ogg.DemuxCarriedJoinsPages | internal/music/player.go:688-719 | with the carried packet, the packets depend only on the concatenated lacing values and bodies |
| Ogg.DemuxCarriedIsReassembly | internal/music/player.go:688-719 | with the carried packet, a stream of audio pages yields the reference reassembly of the whole stream |
| Ogg.SpanningPacketIsSplit | internal/music/player.go:712-716 | as written, a packet laced as 255 bytes closing one page and n bytes opening the next is sent as two frames |
| Ogg.SpanningPacketIsJoined | internal/music/player.go:693-710 | with the packet carried across the page boundary, it is sent once, whole |
| DashboardText.LoopLabel | internal/features/dashboard/shared.go:151-161 | track and queue have their own labels; anything else reads as off |
| DashboardText.LoopLabelsDistinct | internal/features/dashboard/shared.go:151-161 | the three labels differ, so the label shows the mode |
| DashboardText.SourceLabel | internal/features/dashboard/shared.go:191-205 | the three known sources by name, another non-empty source in capitals, and unknown otherwise |
| DashboardText.SourceLabelIgnoresCaseAndPadding | internal/features/dashboard/shared.go:191-192 | case and outer white space do not change the label |
| DashboardText.SourceKey | internal/features/dashboard/shared.go:191-192 | as long as the trimmed name, empty exactly for a blank name, and free of upper-case ASCII |
| DashboardText.FormatDuration | internal/features/dashboard/shared.go:321-329 | the live text for a non-positive duration, otherwise mm:ss of whole seconds |
| DashboardText.SearchViewBracketsDashboardDuration | internal/features/dashboard/shared.go:321-329 | the search view shows the same reading in brackets |
| DashboardText.FormatDurationReadsBack | internal/features/dashboard/shared.go:321-329 | a positive duration reads back as its whole seconds |
| DashboardText.GlyphsAreUtf8 | internal/features/dashboard/shared.go:331-345 | the bar glyphs are the UTF-8 encodings of their code points |
| DashboardText.BuildProgressBar | internal/features/dashboard/shared.go:331-345 | the bar has size plus one glyphs: hollow and light without a duration, otherwise heavy, knob and light |
| DashboardText.ProgressBarReadsBack | internal/features/dashboard/shared.go:331-345 | the knob sits where the clamped marker put it |
| DashboardText.ClampMarker | internal/features/dashboard/shared.go:331-345 | the marker is kept in [0, size], unchanged inside it and moved to the nearer end outside it |
| DashboardText.EscapeDashboardText | internal/features/dashboard/shared.go:347-357 | every special byte is preceded by a backslash, the length grows by exactly the number of special bytes, and unescaping gives the text back |
| DashboardText.DashboardEscapeExtendsMarkdown | internal/features/dashboard/shared.go:347-357 | on text without a pipe or a `>` the dashboard escapes as the search view does |
| DashboardCache.RedisSettings | internal/features/dashboard/shared.go:417-440 | a value only for a guild with a client and a live key |
| DashboardCache.RedisCount | internal/features/dashboard/shared.go:462-485 | a live key's text read as a 64-bit decimal |
| DashboardCache.SetRedisSettings | internal/features/dashboard/shared.go:442-460 | the guild's settings read back from Redis until thirty seconds have passed and not after; other guilds' keys and every count are untouched; nothing changes without a guild or client |
| DashboardCache.SetRedisCount | internal/features/dashboard/shared.go:487-500 | the guild's count reads back until fifteen seconds have passed and not after; other guilds' keys and every settings value are untouched; nothing changes without a guild or client |
| DashboardCache.RedisCountRoundTrip | internal/features/dashboard/shared.go:462-500 | a stored count reads back as stored for fifteen seconds |
| DashboardCache.ClearRedis | internal/features/dashboard/shared.go:502-515 | both keys of the guild are gone |
| DashboardCache.GetCachedSettings | internal/features/dashboard/shared.go:517-563 | Redis first, then live memory, then the store, whose value is cached in both layers |
| DashboardCache.GetCachedQueueCount | internal/features/dashboard/shared.go:565-611 | the same layering for the queue length |
| DashboardCache.CachedSettingsComeFromALayer | internal/features/dashboard/shared.go:517-563 | a lookup only returns a value one of the layers held |
| DashboardCache.UpdateSettings | internal/features/dashboard/shared.go:669-681 | memory takes the value; with a client, Redis serves it for thirty seconds and then nothing; other guilds, in memory and in Redis, and every Redis count are untouched |
| DashboardCache.UpdateQueueCount | internal/features/dashboard/shared.go:683-695 | memory takes the count; with a client, Redis serves it for fifteen seconds and then nothing; other guilds, in memory and in Redis, and every Redis settings value are untouched |
| DashboardCache.ClearGuild | internal/features/dashboard/shared.go:613-621 | both layers forget the guild |
| DashboardCache.UpdatedSettingsServedThirtySeconds | internal/features/dashboard/shared.go:517-563 | for thirty seconds after an update the value is served, whatever the store holds |
| DashboardCache.UpdatedCountServedFifteenSeconds | internal/features/dashboard/shared.go:565-611 | for fifteen seconds after an update the count is served, whatever the store holds |
| DashboardCache.FetchedSettingsAreCached | internal/features/dashboard/shared.go:517-563 | a value fetched from the store is served again within thirty seconds without the store |
| DashboardCache.PeekSummary | internal/features/dashboard/shared.go:623-667 | only the caches are read, never the store |
| DashboardCache.SummaryAgreesWithLookups | internal/features/dashboard/shared.go:623-667 | where a lookup would be served from a cache, the summary reports the same label and count |
| Dashboard.SnapshotOf | internal/features/dashboard/shared.go:133-221 | the labels, count and connection from the caches and player; exactly when a track plays, its escaped title line, requester mention, progress line, trimmed thumbnail, status and source; otherwise the idle title and empty lines |
| Dashboard.RequesterLine | internal/features/dashboard/shared.go:209-212 | empty exactly when the trimmed requester is empty, otherwise the mention of the trimmed requester |
| Dashboard.TitleLine | internal/features/dashboard/shared.go:174-183 | the title opens with the bold head (with "[" when there is a URL), closes with "**" or "](url)**", and between them grows by one backslash per special byte of the shown title |
| Dashboard.ProgressLine | internal/features/dashboard/shared.go:215-216 | three code spans: the position, the twelve-slot bar and the duration, each readable from its place |
| Dashboard.NowPlaying | internal/features/dashboard/shared.go:170-218 | the labels, count and connection of the snapshot are kept; the track fields are set and the pause status follows the pause time |
| Dashboard.BuildDashboardSnapshot | internal/features/dashboard/shared.go:133-221 | nothing is looked up for an empty guild; otherwise the loop label from the settings lookup, the count from the queue-count lookup made after it, the cache that lookup leaves, and the player's track and connection |
| Dashboard.TitleKeepsText | internal/features/dashboard/shared.go:174-183 | linked or not, the text between the opening and the closing unescapes to the trimmed title (or the placeholder for a blank one); a linked title opens with "🎧 **[" and closes with "](url)**" |
| Dashboard.PlaybackHash | internal/features/dashboard/shared.go:359-371 | "stopped" exactly when nothing plays; otherwise it starts with the track ID |
| Dashboard.Bucket | internal/features/dashboard/shared.go:363 | the position divided by eight seconds, truncated toward zero as Go does: the remainder has the sign of the position and is smaller than a bucket |
| Dashboard.SameBucketSameHash | internal/features/dashboard/shared.go:359-371 | positions in the same eight-second bucket give the same hash |
| Dashboard.PauseChangesHash | internal/features/dashboard/shared.go:359-371 | pausing or resuming changes the hash |
| Dashboard.ShouldAutoUpdate | internal/features/dashboard/shared.go:373-388 | refresh exactly when the guild has no recorded hash or a different one |
| Dashboard.AutoUpdateIgnoresClock | internal/features/dashboard/shared.go:373-388 | the minimum-interval check never changes the outcome |
| Dashboard.RecordRender | internal/features/dashboard/shared.go:390-402 | the guild's hash is recorded; other guilds are untouched |
| Dashboard.ClearRender | internal/features/dashboard/shared.go:404-411 | the guild's record is gone |
| Dashboard.RenderedStateIsNotRefreshed | internal/features/dashboard/shared.go:373-402 | a rendered state never triggers another refresh; a state with a different hash does |
| Dashboard.ClearedGuildIsRefreshed | internal/features/dashboard/shared.go:373-411 | after clearing, the next check refreshes |
| Dashboard.ControlsOf | internal/features/dashboard/shared.go:252-262 | pause is disabled without a track and reads resume when paused; join reads leave when connected |
| Dashboard.ControlsFollowPlayback | internal/features/dashboard/shared.go:252-262 | a guild with nothing playing offers no pause button to press |
| QueueView.Clamp | internal/features/music/queueview/queueview.go:138-146 | the value is kept within the bounds, and the lower bound wins when they cross |
| QueueView.CeilDiv | internal/features/music/queueview/queueview.go:34 | the smallest page count that covers the items |
| QueueView.Paginate | internal/features/music/queueview/queueview.go:29-38 | a page size in 1..25, a page in range, and a window of at most one page size inside the items, full on all but the last page |
| QueueView.DisplayTitle | internal/features/music/queueview/queueview.go:43-46 | the trimmed title, or a placeholder for a blank one |
| QueueView.LineShape | internal/features/music/queueview/queueview.go:42-51 | the number and ". ", then the display title linked as `[title](url)` when the track has a URL and bare otherwise |
| QueueView.LineShowsTitleAndLink | internal/features/music/queueview/queueview.go:42-51 | a line contains the display title, and the URL when the track has one |
| QueueView.Lines | internal/features/music/queueview/queueview.go:41-52 | the k-th line of a page is the line of item start + k, numbered start + k + 1 (NumberedLines) |
| QueueView.BuildQueueComponents | internal/features/music/queueview/queueview.go:28-105 | the paging, the page's lines, their newline join as the text or the empty-queue text exactly when there is no line, and the buttons disabled at the ends |
| QueueView.NumberedTextIsNotPlaceholder | internal/features/music/queueview/queueview.go:54-57 | a listed page is never mistaken for the empty-queue text |
| QueueView.MakeQueuePageCustomID | internal/features/music/queueview/queueview.go:107-113 | the ID starts with the prefix and a colon |
| QueueView.ParseQueuePageCustomID | internal/features/music/queueview/queueview.go:115-136 | exactly the prefix and three colon-separated parts with positive numbers are accepted, and the size is clamped |
| QueueView.CustomIDRoundTrip | internal/features/music/queueview/queueview.go:107-136 | parsing a made ID gives back the page (at least 1) and the clamped size |
| SearchView.EllipsisIsUtf8 | internal/features/music/search/search.go:204-212 | the suffix is the UTF-8 encoding of "…" |
| SearchView.SaveSession | internal/features/music/search/search.go:41-49 | a session is stored with `now`; ignored without a guild or user ID |
| SearchView.GetSession | internal/features/music/search/search.go:51-63 | a session older than two minutes is deleted and reported absent |
| SearchView.DeleteSession | internal/features/music/search/search.go:65-69 | only that key is removed |
| SearchView.SavedSessionLivesTwoMinutes | internal/features/music/search/search.go:41-63 | a saved session is found for two minutes and not after |
| SearchView.Truncate | internal/features/music/search/search.go:204-212 | at most `max` bytes are kept, and a cut text ends in "…" after max - 1 of them |
| SearchView.EscapeMarkdown | internal/features/music/search/search.go:194-202 | every special byte is preceded by a backslash, the length grows by exactly the number of special bytes, and unescaping gives the text back |
| SearchView.ClockReadsBack | internal/features/music/search/search.go:184-192 | a clock reading gives back its seconds |
| SearchView.FormatDuration | internal/features/music/search/search.go:184-192 | the live label for a non-positive duration, otherwise "[mm:ss]" |
| SearchView.FormatResultDescription | internal/features/music/search/search.go:176-182 | the raw source name (or the placeholder for an empty one), the bullet and the duration, each readable from its place |
| SearchView.Options | internal/features/music/search/search.go:84-96 | at most 25 options, one per result in order |
| SearchView.OptionValuesIndexResults | internal/features/music/search/search.go:94 | option values read back as their result index |
| SearchView.SummaryLines | internal/features/music/search/search.go:156-168 | one line for each of the first four results (fewer when there are fewer results) |
| SearchView.SummaryLineAt | internal/features/music/search/search.go:158-167 | line i is the line for result i, numbered i + 1, so the lines follow the results in order |
| SearchView.SummaryLineShape | internal/features/music/search/search.go:156-174 | a line shows its number, then the escaped, truncated title, then the description |
| SearchView.BuildResultSummary | internal/features/music/search/search.go:156-174 | the no-results text without results, otherwise the joined lines |
| SearchView.BuildSearchComponents | internal/features/music/search/search.go:71-121 | the default custom ID, the options, the summary, and the escaped query or placeholder |
| SourceHints.DetectSourceHint | internal/features/music/commands/helpers.go:10-22 | Spotify before SoundCloud before YouTube, else unknown; each exactly when its mention appears first in that order |
| SourceHints.DetectIgnoresCase | internal/features/dashboard/listeners/helpers.go:155-167 | the detection ignores letter case |
| SourceHints.ParseProviderHint | internal/features/music/commands/helpers.go:100-113 | names and two-letter aliases of the three services, ignoring case and padding |
| SourceHints.ProviderHintIgnoresCase | internal/features/dashboard/listeners/helpers.go:169-182 | a provider typed in capitals means the same as in lower case |
| SourceHints.ResolveSourceHint | internal/features/music/listeners/message.go:182-188 | the detected source, with YouTube when none is detected |
| Modal.WidgetsAppend | internal/features/dashboard/listeners/helpers.go:12-37 | the widgets of two row lists are the widgets of each, in order |
| Modal.InputOf | internal/features/dashboard/listeners/helpers.go:23-32 | a text input answers exactly for its own ID with its value |
| Modal.SelectOf | internal/features/dashboard/listeners/helpers.go:51-81 | a select menu, bare or under a label, answers for its ID with its first chosen value |
| Modal.First | internal/features/dashboard/listeners/helpers.go:12-37 | no answer exactly when no widget answers |
| Modal.FirstIsEarliest | internal/features/dashboard/listeners/helpers.go:12-37 | the earliest widget that answers decides |
| Modal.FindFirst | internal/features/dashboard/listeners/helpers.go:13-36 | the nested loop over rows and widgets returns the first answer |
| Modal.GetModalInputValue | internal/features/dashboard/listeners/helpers.go:12-37 | the value of the first text input with the ID, or "" |
| Modal.GetModalSelectValue | internal/features/dashboard/listeners/helpers.go:39-86 | the first chosen value of the first matching select menu, or "" |
| Modal.InputReadsBack | internal/features/music/commands/helpers.go:24-49 | a modal whose first row starts with the input reads back its value |
| Modal.LabelIsTransparent | internal/features/music/commands/helpers.go:51-98 | a select menu is found under a label as it is alone |
| DashboardListeners.TruncateForDisplayAsWritten | internal/features/dashboard/listeners/helpers.go:135-143 | as written: a cut text keeps max - 1 bytes and ends in the 7-byte misencoded suffix |
| DashboardListeners.TruncateForDisplay | internal/features/dashboard/listeners/helpers.go:135-143 | as intended: a cut text ends in "…", as the search view's truncate does |
| DashboardListeners.TruncationDiffersOnlyInSuffix | internal/features/dashboard/listeners/helpers.go:135-143 | the two agree except on a cut text's suffix, which as written is never "…" |
| DashboardListeners.TruncateForDisplayCounterexample | internal/features/dashboard/listeners/helpers.go:135-143 | "abcdef" cut to 3 shows "ab" and the misencoded suffix |
| DashboardListeners.MisencodedEllipsisIsMojibake | internal/features/dashboard/listeners/helpers.go:141-142 | the suffix is "…" read as Windows-1252 and encoded again |
| DashboardListeners.LoopPress | internal/features/dashboard/listeners/loop.go:33-40 | off, track, queue, then off again; an unnamed mode goes to off |
| DashboardListeners.ThreePressesRestore | internal/features/dashboard/listeners/loop.go:33-40 | three presses bring a named mode back, and each press changes it |
| DashboardListeners.PressChangesLabel | internal/features/dashboard/listeners/loop.go:33-40 | every press changes the dashboard label |
| DashboardListeners.HandleDashboardLoop | internal/features/dashboard/listeners/loop.go:12-49 | the settings are read, pressed, written back and cached; a read error changes nothing |
| DashboardListeners.ThreeHandledPressesRestore | internal/features/dashboard/listeners/loop.go:12-49 | three presses give the guild back its settings |
| MusicCommands.GetSubcommandOption | internal/features/commands.go:252-259 | the first option of sub-command type, or none exactly when there is none |
| MusicCommands.ParseRepeatOption | internal/features/commands.go:222-236 | exactly "off", "track" and "queue" are accepted |
| MusicCommands.ChoicesParseBack | internal/features/commands.go:222-236 | every offered choice selects the mode it was offered for |
| MusicCommands.ApplyRepeat | internal/features/commands.go:195-250 | load failure, unsupported mode and success are told apart; on success only the mode changes and the dashboard cache takes it |
| MusicCommands.HandleRepeat | internal/features/commands.go:195-250 | the guild and the trimmed mode are checked first |
| MusicCommands.RepeatKeepsOtherSettings | internal/features/commands.go:222-241 | shuffle and volume are written back as read |
| MusicCommands.ButtonMatchesCommand | internal/features/commands.go:195-250 | pressing the repeat button stores what choosing the next mode with the command would |
| MusicCommands.PressedChoice | internal/features/commands.go:75-88 | the choice naming the pressed mode is a trimmed value that selects it |
| MusicCommands.QueueLimit | internal/features/commands.go:155-158 | a non-positive limit becomes 10 |
| MusicCommands.HandleQueue | internal/features/commands.go:149-193 | guild, load failure and empty queue are reported; otherwise the first page of the whole queue |
| MusicCommands.FirstPageListsHead | internal/features/commands.go:149-193 | the first page lists the first min(limit, 25) items |
| MusicMessages.HandleMusicMessage | internal/features/music/listeners/message.go:19-54 | only a human's non-blank message in the dashboard channel counts; a slash command is deleted later, anything else is searched |
| MusicMessages.ActionFor | internal/features/music/listeners/message.go:19-54 | only a human's message with a guild, in the dashboard channel and with text is acted on; deletion exactly for a slash command; a search carries the text, its source hint and a non-empty author ID |
| MusicMessages.NoBreakSpaceIgnored | internal/features/music/listeners/message.go:42-45 | a message holding only a no-break space is blank under `strings.TrimSpace` and is ignored |
| MusicMessages.SearchesAreWellFormed | internal/features/music/listeners/message.go:19-54 | a search is never for blank text or a slash command, and always has a source |
| MusicMessages.RegisteredChannelDecides | internal/features/music/listeners/message.go:30-34 | with a registered channel only that channel counts, whatever the channel's name |
| MusicMessages.UnregisteredNeedsDefaultName | internal/features/music/listeners/message.go:30-39 | without one, only a channel with the default name counts |
| MusicMessages.PaddingIsIgnored | internal/features/music/listeners/message.go:42-54 | outer white space does not change what happens to a message |
| Config.Getenv | config/config.go:40-77 | an unset variable reads as "" |
| Config.GetEnvAsIntWithDefault | config/config.go:107-114 | the parsed value when set and parsable, the default otherwise |
| Config.GetEnvAsInt | config/config.go:103-105 | the parsed value when set and parsable, 0 otherwise |
| Config.IntSettingRoundTrip | config/config.go:107-114 | a decimal written to the environment reads back; an unset or empty one gives the default |
| Config.GetEnvWithDefault | config/config.go:116-121 | the value whenever the variable is set, even when empty |
| Config.EmptySettingIsKept | config/config.go:116-121 | an empty setting is kept, unlike a missing one |
| GoStrings.BlankIffSpaceRunes | internal/music/resolve.go:28-30 | input counts as blank exactly when it is made of white-space runes only |
| GoStrings.SpaceRuneIsEncodedSpace | internal/features/music/listeners/message.go:42 | the runes TrimSpace drops are exactly the UTF-8 encodings of the code points `unicode.IsSpace` accepts |
| GoStrings.ParseBool | config/config.go:123-130 | the spellings strconv.ParseBool accepts |
| Config.GetEnvAsBool | config/config.go:123-130 | true exactly for one of ParseBool's true spellings |
| Config.BoolSettingRoundTrip | config/config.go:123-130 | "true" and "false" read back; unset is false |
| Config.Validate | config/config.go:79-97 | the first failing check, in the order token, application ID, volume in 0..200, queue size at least 1 |
| Config.IsDevelopment | config/config.go:99-101 | development exactly when a guild ID is set |
| Config.Load | config/config.go:40-77 | the configuration when it validates, the first failure otherwise |
| Config.FromEnv | config/config.go:43-70 | each field from its own variable: strings as set, the log level "info" only when unset, numbers their defaults (0, 300, 100, 500, 0) when unset or unparsable |
| Config.FromEnvIgnoresOtherVariables | config/config.go:43-70 | setting a variable Load does not read changes neither the configuration nor the outcome |
| Config.LoadDefaults | config/config.go:40-77 | with only the two required variables: info, 300, 100, 500, 0, 0, and no guild |
| Config.TokenCheckedFirst | config/config.go:79-82 | without a token nothing else is looked at |
| Database.ConnectionFields | internal/database/database.go:28-38 | six fields with a password, five without |
| Database.ConnectionString | internal/database/database.go:28-38 | the fields rendered `key=value` and separated by single spaces |
| Database.ParseField | internal/database/database.go:28-38 | a field splits at its first `=`, and rendering it gives the text back |
| Database.JoinRenderedRoundTrip | internal/database/database.go:28-38 | rendered fields without spaces read back as themselves |
| Database.ConnectionStringRoundTrip | internal/database/database.go:28-38 | with no spaces in the settings, a reader gets back exactly the written fields |
| Database.PortReadsBack | internal/database/database.go:28-38 | the port field reads back as the port |
| Database.SpacedPasswordSplits | internal/database/database.go:35-37 | values are not quoted, so a password with a space comes out as a cut password and a stray field |

## Left out

- Concurrency: goroutines, mutexes and timers are left out. A `select` with several ready cases takes them in the order written. Pacing (the 20 ms ticker, the sleeps while paused, the one-second send timeout) is not modelled; only the frame count is.
- External programs and services: ffmpeg, yt-dlp, the Spotify HTTP API and Discord are parameters, and their failures are opaque `Err` values. Redis is a map inside the queue store (see QueueStore below). JSON decoding is assumed done.
- QueueStore: Redis commands, JSON encoding and member decoding never fail once a client exists. The error returns at queue.go:61-62, 82-83, 90-91, 122-123, 130-131 and 146-147 are not modelled, so the worker's error wait (player.go:270-281) is reached only through a missing client.
- Floating point: the score's float64 rounding and the progress bar's position fraction are out. The marker comes in as an integer `rawMarker`. yt-dlp durations arrive already converted to nanoseconds.
- QueueStore.Insert: members with equal scores are ordered by insertion, where Redis orders them by member bytes.
- QueueStore.DequeueRandom: the Lua script's random index is the caller's `pick`, taken modulo the queue size.
- QueueStore.BuildScore: the score is an unbounded integer; the int64 wrap-around of `int64(priority)*priorityWeight + millis` and the float64 rounding above 2^53 are not modelled, because priorities in use are small and times are current.
- Pointers the code only tests for nil are booleans or options: the Discord session, the service, the queue store and the resolver.
- The worker loop: it is a step function over three events: a tick of the loop head, a poll of the wait, and the end of a stream. The frames a stream sends and the pages it reads are not traced through it; the Ogg module and Player.SendFrame cover those.
- Dashboard: the component tree, the message edits (UpdateDashboardByGuild, RespondUpdateDashboardMessage, DeletePreviousDashboard), the auto-updater goroutine and the dashboard entry registry are Discord I/O and are out. Only the snapshot, the hash and the controls row are modelled.
- DashboardCache: a Redis write always succeeds, where the code ignores a failed write and the key stays as it was; a failed read is an absent key, as in the code. The queue store behind the caches is an `Option`, so the branches for a missing store are kept.
- GoStrings.ToLower: only ASCII letters change case; the code's inputs are compared against ASCII words.
- GoStrings.ToUpper: only ASCII letters change case, where `strings.ToUpper` (the source label at internal/features/dashboard/shared.go:203) also changes non-ASCII letters; the source keys it sees are ASCII service names.
- Modal: the value and pointer forms of each widget are merged. formatModalComponents is logging only, and getInteractionUserID is a plain field read; both are out.
- MusicCommands: group-command dispatch and the Discord replies are out; replies are named by what they say.
- MusicMessages.HandleMusicMessage: the search after the gate, the Spotify client built from the environment, and the delayed deletes are out.
- Config: loading `.env` files and the GetDBConfig/GetRedisConfig copies are out.
- Database: libpq's reading of quoted values is not modelled; the reader is a plain split on spaces. Initalize (so spelled at database.go:40), migrations and Close are database I/O.
- SpotifyWeb: `basicAuth` and the request headers are out; the token endpoint takes the credentials directly.

## Findings

| source | as written | input that shows it | evidently intended | confidence | as-written member | corrected member |
|---|---|---|---|---|---|---|
| internal/music/player.go:688-719 | extractPacketsFromPage closes the open packet at the end of every page, so a packet whose last lacing value on a page is 255 is sent as two frames | two audio pages with lacing tables [255] and [n], 0 < n < 255 | the packet continues into the next page and is sent once, whole, as section 5 of RFC 3533 describes | not executed; proved on the model | Ogg.SpanningPacketIsSplit | Ogg.SpanningPacketIsJoined, Ogg.DemuxCarriedIsReassembly |
| internal/features/dashboard/listeners/helpers.go:135-143 | the suffix literal holds the bytes of "…" read as Windows-1252 and encoded again (c3 a2 e2 82 ac c2 a6) | "abcdef" with max 3 | "ab…", as the search view's truncate produces | not executed; proved on the model | DashboardListeners.TruncateForDisplayAsWritten, DashboardListeners.TruncateForDisplayCounterexample | DashboardListeners.TruncateForDisplay, DashboardListeners.TruncationDiffersOnlyInSuffix |

=== FILE: config.dfy ===
/** The process configuration of config/config.go, read from the environment.
    The environment is a map from variable name to value: a name in the map
    is set (possibly to ""), a name outside it is unset. Loading a `.env`
    file into the environment happens before this model starts. */
module Config {
  import opened Wrappers
  import opened GoStrings

  type Env = map<string, string>

  /** os.Getenv: an unset variable reads as "". */
  function Getenv(env: Env, key: string): (r: string)
    ensures key !in env ==> r == ""
    ensures key in env ==> r == env[key]
  {
    if key in env then env[key] else ""
  }

  /** getEnvAsIntWithDefault: the parsed value when the variable is set and
      strconv.Atoi accepts it, the default otherwise. */
  function GetEnvAsIntWithDefault(env: Env, key: string, default: int): (r: int)
    ensures key in env && Atoi(env[key]).Some? ==> r == Atoi(env[key]).value
    ensures key !in env || Atoi(env[key]).None? ==> r == default
  {
    if key in env && Atoi(env[key]).Some? then Atoi(env[key]).value else default
  }

  /** getEnvAsInt: the same with default 0. */
  function GetEnvAsInt(env: Env, key: string): (r: int)
    ensures key in env && Atoi(env[key]).Some? ==> r == Atoi(env[key]).value
    ensures key !in env || Atoi(env[key]).None? ==> r == 0
  {
    GetEnvAsIntWithDefault(env, key, 0)
  }

  /** A decimal value written into the environment is read back; an unset
      or unparsable one gives the default. */
  lemma IntSettingRoundTrip(env: Env, key: string, n: int, default: int)
    requires InInt64(n)
    ensures GetEnvAsIntWithDefault(env[key := FormatInt(n)], key, default) == n
    ensures GetEnvAsIntWithDefault(env - {key}, key, default) == default
    ensures GetEnvAsIntWithDefault(env[key := ""], key, default) == default
  {
    AtoiFormatInt(n);
  }

  /** getEnvWithDefault: the value whenever the variable is set, even when
      it is empty. */
  function GetEnvWithDefault(env: Env, key: string, default: string): (r: string)
    ensures key in env ==> r == env[key]
    ensures key !in env ==> r == default
  {
    if key in env then env[key] else default
  }

  /** An empty setting is kept, unlike a missing one. */
  lemma EmptySettingIsKept(env: Env, key: string, default: string)
    ensures GetEnvWithDefault(env[key := ""], key, default) == ""
    ensures GetEnvWithDefault(env - {key}, key, default) == default
  {
  }

  /** getEnvAsBool: false unless the variable holds one of ParseBool's true spellings. */
  function GetEnvAsBool(env: Env, key: string): (r: bool)
    ensures r <==> ParseBool(Getenv(env, key)) == Some(true)
  {
    var value := Getenv(env, key);
    if value != "" && ParseBool(value).Some? then ParseBool(value).value else false
  }

  /** The spellings `%t` writes are read back. */
  lemma BoolSettingRoundTrip(env: Env, key: string, b: bool)
    ensures GetEnvAsBool(env[key := if b then "true" else "false"], key) == b
    ensures !GetEnvAsBool(env - {key}, key)
  {
  }

  datatype Config = Config(
    discordToken: string,
    applicationID: string,
    guildID: string,
    shardCount: int,
    logLevel: string,
    autoLeaveTimeout: int,
    defaultVolume: int,
    maxQueueSize: int,
    dbHost: string,
    dbPort: int,
    dbUser: string,
    dbPassword: string,
    dbName: string,
    dbSSLMode: string,
    redisHost: string,
    redisPort: int,
    redisPassword: string,
    redisDB: int,
    spotifyClientID: string,
    spotifyClientSecret: string)

  datatype ConfigError =
    | TokenRequired          // "DISCORD_TOKEN is required"
    | ApplicationIDRequired  // "DISCORD_APPLICATION_ID is required"
    | VolumeOutOfRange       // "DEFAULT_VOLUME must be between 0 and 200"
    | QueueSizeTooSmall      // "MAX_QUEUE_SIZE must be at least 1"

  const MaxDefaultVolume := 200

  /** Validate: the first failing check, in the order token, application
      ID, default volume, queue size. */
  function Validate(c: Config): (r: Option<ConfigError>)
    ensures r.None? <==>
      c.discordToken != "" && c.applicationID != "" && 0 <= c.defaultVolume <= MaxDefaultVolume && c.maxQueueSize >= 1
    ensures r == Some(TokenRequired) <==> c.discordToken == ""
    ensures r == Some(ApplicationIDRequired) <==> c.discordToken != "" && c.applicationID == ""
    ensures r == Some(VolumeOutOfRange) <==>
      c.discordToken != "" && c.applicationID != "" && !(0 <= c.defaultVolume <= MaxDefaultVolume)
    ensures r == Some(QueueSizeTooSmall) <==>
      c.discordToken != "" && c.applicationID != "" && 0 <= c.defaultVolume <= MaxDefaultVolume && c.maxQueueSize < 1
  {
    if c.discordToken == "" then Some(TokenRequired)
    else if c.applicationID == "" then Some(ApplicationIDRequired)
    else if c.defaultVolume < 0 || c.defaultVolume > MaxDefaultVolume then Some(VolumeOutOfRange)
    else if c.maxQueueSize < 1 then Some(QueueSizeTooSmall)
    else None
  }

  /** IsDevelopment: commands are registered for one guild. */
  function IsDevelopment(c: Config): (r: bool)
    ensures r <==> c.guildID != ""
  {
    c.guildID != ""
  }

  /** The variables Load reads. */
  const ConfigKeys: set<string> := {
    "DISCORD_TOKEN", "DISCORD_APPLICATION_ID", "DISCORD_GUILD_ID", "SHARD_COUNT", "LOG_LEVEL",
    "AUTO_LEAVE_TIMEOUT", "DEFAULT_VOLUME", "MAX_QUEUE_SIZE", "DB_HOST", "DB_PORT", "DB_USER",
    "DB_PASSWORD", "DB_NAME", "DB_SSLMODE", "REDIS_HOST", "REDIS_PORT", "REDIS_PASSWORD",
    "REDIS_DB", "SPOTIFY_CLIENT_ID", "SPOTIFY_CLIENT_SECRET"}

  /** The fields Load reads, before validation: the strings as set (unset
      reads as ""), the log level "info" only when unset, and each number
      its default when unset or unparsable. */
  function FromEnv(env: Env): (r: Config)
    ensures r.discordToken == Getenv(env, "DISCORD_TOKEN") && r.applicationID == Getenv(env, "DISCORD_APPLICATION_ID")
    ensures r.guildID == Getenv(env, "DISCORD_GUILD_ID")
    ensures r.logLevel == (if "LOG_LEVEL" in env then env["LOG_LEVEL"] else "info")
    ensures r.autoLeaveTimeout == GetEnvAsIntWithDefault(env, "AUTO_LEAVE_TIMEOUT", 300)
    ensures r.defaultVolume == GetEnvAsIntWithDefault(env, "DEFAULT_VOLUME", 100)
    ensures r.maxQueueSize == GetEnvAsIntWithDefault(env, "MAX_QUEUE_SIZE", 500)
    ensures r.shardCount == GetEnvAsIntWithDefault(env, "SHARD_COUNT", 0) && r.redisDB == GetEnvAsIntWithDefault(env, "REDIS_DB", 0)
    ensures r.dbPort == GetEnvAsInt(env, "DB_PORT") && r.redisPort == GetEnvAsInt(env, "REDIS_PORT")
    ensures r.spotifyClientID == Getenv(env, "SPOTIFY_CLIENT_ID") && r.spotifyClientSecret == Getenv(env, "SPOTIFY_CLIENT_SECRET")
  {
    Config(
      Getenv(env, "DISCORD_TOKEN"),
      Getenv(env, "DISCORD_APPLICATION_ID"),
      Getenv(env, "DISCORD_GUILD_ID"),
      GetEnvAsIntWithDefault(env, "SHARD_COUNT", 0),
      GetEnvWithDefault(env, "LOG_LEVEL", "info"),
      GetEnvAsIntWithDefault(env, "AUTO_LEAVE_TIMEOUT", 300),
      GetEnvAsIntWithDefault(env, "DEFAULT_VOLUME", 100),
      GetEnvAsIntWithDefault(env, "MAX_QUEUE_SIZE", 500),
      Getenv(env, "DB_HOST"),
      GetEnvAsInt(env, "DB_PORT"),
      Getenv(env, "DB_USER"),
      Getenv(env, "DB_PASSWORD"),
      Getenv(env, "DB_NAME"),
      Getenv(env, "DB_SSLMODE"),
      Getenv(env, "REDIS_HOST"),
      GetEnvAsInt(env, "REDIS_PORT"),
      Getenv(env, "REDIS_PASSWORD"),
      GetEnvAsIntWithDefault(env, "REDIS_DB", 0),
      Getenv(env, "SPOTIFY_CLIENT_ID"),
      Getenv(env, "SPOTIFY_CLIENT_SECRET"))
  }

  /** Load: the configuration when it validates, the first failure otherwise. */
  function Load(env: Env): (r: Result<Config, ConfigError>)
    ensures r.Ok? <==> Validate(FromEnv(env)).None?
    ensures r.Ok? ==> r.value == FromEnv(env)
    ensures r.Err? ==> Some(r.error) == Validate(FromEnv(env))
  {
    match Validate(FromEnv(env))
    case Some(e) => Err(e)
    case None => Ok(FromEnv(env))
  }

  /** An environment that sets only the two required variables loads with
      the defaults: log level info, auto-leave 300, volume 100, queue 500,
      shard count 0, Redis database 0, and no guild. */
  lemma LoadDefaults(env: Env, token: string, appID: string)
    requires token != "" && appID != ""
    requires env.Keys == {"DISCORD_TOKEN", "DISCORD_APPLICATION_ID"}
    requires env["DISCORD_TOKEN"] == token && env["DISCORD_APPLICATION_ID"] == appID
    ensures Load(env).Ok?
    ensures var c := Load(env).value;
      && c.discordToken == token && c.applicationID == appID
      && c.logLevel == "info" && c.autoLeaveTimeout == 300 && c.defaultVolume == 100
      && c.maxQueueSize == 500 && c.shardCount == 0 && c.redisDB == 0
      && !IsDevelopment(c)
  {
    var c := FromEnv(env);
    assert "DISCORD_GUILD_ID" !in env;
    assert "LOG_LEVEL" !in env;
    assert "AUTO_LEAVE_TIMEOUT" !in env;
    assert "DEFAULT_VOLUME" !in env;
    assert "MAX_QUEUE_SIZE" !in env;
    assert "SHARD_COUNT" !in env;
    assert "REDIS_DB" !in env;
  }

  /** Only the variables of ConfigKeys are read: setting any other one
      changes nothing. */
  lemma FromEnvIgnoresOtherVariables(env: Env, key: string, value: string)
    requires key !in ConfigKeys
    ensures FromEnv(env[key := value]) == FromEnv(env)
    ensures Load(env[key := value]) == Load(env)
  {
    var e := env[key := value];
    forall k | k in ConfigKeys
      ensures (k in e) == (k in env) && (k in env ==> e[k] == env[k])
    {
    }
  }

  /** Without a token nothing else is looked at. */
  lemma TokenCheckedFirst(env: Env)
    requires "DISCORD_TOKEN" !in env || env["DISCORD_TOKEN"] == ""
    ensures Load(env) == Err(TokenRequired)
  {
  }
}

=== FILE: dashboard.dfy ===
/** The dashboard of internal/features/dashboard/shared.go: the snapshot
    built from the caches and the guild's player, the playback hash that
    decides whether an automatic refresh is due, and the controls row. */
module Dashboard {
  import opened Wrappers
  import opened GoStrings
  import opened MusicTypes
  import QS = QueueStore
  import P = Player
  import opened DashboardText
  import DC = DashboardCache

  const AutoUpdateBucket: Duration := 8 * Second
  const MinUpdateInterval: Duration := 5 * Second
  const ProgressBarSize := 12

  // ---------------------------------------------------------------------
  // Snapshot
  // ---------------------------------------------------------------------

  datatype Snapshot = Snapshot(
    loopLabel: string,
    queueCount: int,
    title: string,
    status: string,
    meta: string,
    requester: string,
    progress: string,
    thumb: string,
    hasTrack: bool,
    isPaused: bool,
    isVoiceConnected: bool)

  /** "\U{1F7E1} **재생 중인 곡이 없습니다**" in UTF-8. */
  const IdleTitle := "\U{F0}\U{9F}\U{9F}\U{A1} **\U{EC}\U{9E}\U{AC}\U{EC}\U{83}\U{9D} \U{EC}\U{A4}\U{91}\U{EC}\U{9D}\U{B8} \U{EA}\U{B3}\U{A1}\U{EC}\U{9D}\U{B4} \U{EC}\U{97}\U{86}\U{EC}\U{8A}\U{B5}\U{EB}\U{8B}\U{88}\U{EB}\U{8B}\U{A4}**"
  /** "알 수 없는 제목" in UTF-8. */
  const UnknownTitle := "\U{EC}\U{95}\U{8C} \U{EC}\U{88}\U{98} \U{EC}\U{97}\U{86}\U{EB}\U{8A}\U{94} \U{EC}\U{A0}\U{9C}\U{EB}\U{AA}\U{A9}"
  /** "\U{23F8}\U{FE0F} **일시정지됨**" in UTF-8. */
  const PausedStatus := "\U{E2}\U{8F}\U{B8}\U{EF}\U{B8}\U{8F} **\U{EC}\U{9D}\U{BC}\U{EC}\U{8B}\U{9C}\U{EC}\U{A0}\U{95}\U{EC}\U{A7}\U{80}\U{EB}\U{90}\U{A8}**"
  /** "\U{25B6}\U{FE0F} **재생 중**" in UTF-8. */
  const PlayingStatus := "\U{E2}\U{96}\U{B6}\U{EF}\U{B8}\U{8F} **\U{EC}\U{9E}\U{AC}\U{EC}\U{83}\U{9D} \U{EC}\U{A4}\U{91}**"
  /** "\U{1F3A7} **" in UTF-8. */
  const TitleHead := "\U{F0}\U{9F}\U{8E}\U{A7} **"
  /** "\U{1F3A7} **[" in UTF-8. */
  const LinkedTitleHead := "\U{F0}\U{9F}\U{8E}\U{A7} **["
  /** "`요청자: <@" in UTF-8. */
  const RequesterHead := "`\U{EC}\U{9A}\U{94}\U{EC}\U{B2}\U{AD}\U{EC}\U{9E}\U{90}: <@"
  /** "\U{1F3B5} " in UTF-8. */
  const MetaHead := "\U{F0}\U{9F}\U{8E}\U{B5} "

  /** The snapshot of a guild with nothing known about it. */
  const DefaultSnapshot := Snapshot(LoopOffLabel, 0, IdleTitle, "", "", "", "", "", false, false, false)

  /** The title shown for a track: the trimmed title, or a placeholder for a blank one. */
  function DisplayTitle(t: Track): string {
    if IsBlank(t.title) then UnknownTitle else TrimSpace(t.title)
  }

  /** What the now-playing title opens with: a bold link for a track with a URL. */
  function TitleOpen(t: Track): string {
    if t.url != "" then LinkedTitleHead else TitleHead
  }

  /** What the now-playing title closes with: the link target for a track with a URL. */
  function TitleClose(t: Track): string {
    if t.url != "" then "](" + t.url + ")**" else "**"
  }

  /** The now-playing title: the escaped title between its opening and its
      closing, which grows by one backslash per special byte. */
  function TitleLine(t: Track): (r: string)
    ensures HasPrefix(r, TitleOpen(t))
    ensures |r| == |TitleOpen(t)| + |DisplayTitle(t)| + SpecialCount(DisplayTitle(t), DashboardSpecials) + |TitleClose(t)|
    ensures r[|r| - |TitleClose(t)|..] == TitleClose(t)
  {
    Framed(TitleOpen(t), DisplayTitle(t), TitleClose(t))
  }

  /** The escaped text between an opening and a closing. */
  function Framed(open: string, text: string, close: string): (r: string)
    ensures HasPrefix(r, open)
    ensures |r| == |open| + |text| + SpecialCount(text, DashboardSpecials) + |close|
    ensures r[|r| - |close|..] == close
  {
    var r := open + EscapeDashboardText(text) + close;
    assert r[..|open|] == open;
    assert r[|r| - |close|..] == close;
    r
  }

  /** The requester mention, or nothing when no requester is recorded. */
  function RequesterLine(t: Track): (r: string)
    ensures r == "" <==> TrimSpace(t.requestedBy) == ""
    ensures r != "" ==> HasPrefix(r, RequesterHead) && r[|RequesterHead|..] == TrimSpace(t.requestedBy) + ">`"
  {
    Mention(TrimSpace(t.requestedBy))
  }

  /** The mention of a trimmed requester ID. */
  function Mention(requester: string): (r: string)
    ensures r == "" <==> requester == ""
    ensures r != "" ==> HasPrefix(r, RequesterHead) && r[|RequesterHead|..] == requester + ">`"
  {
    if requester == "" then "" else
      assert (RequesterHead + requester + ">`")[|RequesterHead|..] == requester + ">`";
      RequesterHead + requester + ">`"
  }

  /** The progress line: three code spans holding the position, the bar and
      the track's duration. */
  function ProgressLine(state: PlaybackState, t: Track, rawMarker: int): (r: string)
    ensures CodeSpans(r, FormatDuration(state.position), BuildProgressBar(t.duration, ProgressBarSize, rawMarker), FormatDuration(t.duration))
  {
    var a := FormatDuration(state.position);
    var b := BuildProgressBar(t.duration, ProgressBarSize, rawMarker);
    var c := FormatDuration(t.duration);
    SpansJoin(a, b, c);
    "`" + a + "` `" + b + "` `" + c + "`"
  }

  /** `r` is the code spans of `a`, `b` and `c`, separated by single spaces. */
  predicate CodeSpans(r: string, a: string, b: string, c: string) {
    && |r| == |a| + |b| + |c| + 8
    && r[..|a| + 4] == "`" + a + "` `"
    && r[|a| + 4..|a| + 4 + |b|] == b
    && r[|a| + 4 + |b|..] == "` `" + c + "`"
  }

  lemma SpansJoin(a: string, b: string, c: string)
    ensures CodeSpans("`" + a + "` `" + b + "` `" + c + "`", a, b, c)
  {
    var head, tail := "`" + a + "` `", "` `" + c + "`";
    var r := head + b + tail;
    assert r == "`" + a + "` `" + b + "` `" + c + "`";
    assert r[..|head|] == head;
    assert r[|head|..|head| + |b|] == b;
    assert r[|head| + |b|..] == tail;
  }

  /** The now-playing part of the snapshot, for a playing state with a track:
      the labels, count and connection of `s` are kept. */
  function NowPlaying(s: Snapshot, state: PlaybackState, t: Track, rawMarker: int): (r: Snapshot)
    ensures r.loopLabel == s.loopLabel && r.queueCount == s.queueCount && r.isVoiceConnected == s.isVoiceConnected
    ensures r.hasTrack && (r.isPaused <==> state.pausedAt.Some?)
    ensures r.status == (if r.isPaused then PausedStatus else PlayingStatus)
    ensures r.title == TitleLine(t) && r.requester == RequesterLine(t) && r.progress == ProgressLine(state, t, rawMarker)
    ensures r.meta == MetaHead + SourceLabel(t.source) && r.thumb == TrimSpace(t.thumbnail)
  {
    s.(hasTrack := true,
       isPaused := state.pausedAt.Some?,
       title := TitleLine(t),
       status := if state.pausedAt.Some? then PausedStatus else PlayingStatus,
       meta := MetaHead + SourceLabel(t.source),
       requester := RequesterLine(t),
       progress := ProgressLine(state, t, rawMarker),
       thumb := TrimSpace(t.thumbnail))
  }

  /** The snapshot of what the caches and the player report. `rawMarker` is
      the progress bar's floating-point marker. */
  function SnapshotOf(settings: Option<QueueSettings>, count: Option<int>, state: PlaybackState, connected: bool, rawMarker: int): (s: Snapshot)
    ensures s.loopLabel == if settings.Some? then LoopLabel(settings.value.repeatMode) else LoopOffLabel
    ensures s.queueCount == if count.Some? then count.value else 0
    ensures s.isVoiceConnected == connected
    ensures s.hasTrack <==> state.isPlaying && state.track.Some?
    ensures s.isPaused <==> s.hasTrack && state.pausedAt.Some?
    ensures !s.hasTrack ==> s.title == IdleTitle && s.status == "" && s.meta == "" && s.progress == "" && s.thumb == ""
    ensures s.hasTrack ==> s.meta == MetaHead + SourceLabel(state.track.value.source)
    ensures s.hasTrack ==> s.status == if s.isPaused then PausedStatus else PlayingStatus
    ensures !s.hasTrack ==> s.requester == ""
    ensures s.hasTrack ==>
      var t := state.track.value;
      && s.title == TitleLine(t)
      && s.requester == RequesterLine(t)
      && s.progress == ProgressLine(state, t, rawMarker)
      && s.thumb == TrimSpace(t.thumbnail)
  {
    var base := DefaultSnapshot.(
      loopLabel := if settings.Some? then LoopLabel(settings.value.repeatMode) else LoopOffLabel,
      queueCount := if count.Some? then count.value else 0,
      isVoiceConnected := connected);
    if state.isPlaying && state.track.Some? then NowPlaying(base, state, state.track.value, rawMarker)
    else base
  }

  /** buildDashboardSnapshot: nothing is looked up for an empty guild;
      otherwise settings, then queue count, then the guild's player (which
      the manager creates on first use). */
  function BuildDashboardSnapshot(c: DC.Cache, m: P.Manager, guildID: string, now: Time, store: Option<QS.Store>, rawMarker: int): (r: (Snapshot, DC.Cache, P.Manager))
    ensures guildID == "" ==> r == (DefaultSnapshot, c, m)
    ensures guildID != "" ==>
      && r.0.hasTrack == (guildID in m.players && m.players[guildID].state.isPlaying && m.players[guildID].state.track.Some?)
      && r.0.isVoiceConnected == (guildID in m.players && m.players[guildID].vc.Some?)
      && r.0.loopLabel == (if DC.GetCachedSettings(c, guildID, now, store).0.Some?
                           then LoopLabel(DC.GetCachedSettings(c, guildID, now, store).0.value.repeatMode)
                           else LoopOffLabel)
      && guildID in r.2.players
    ensures guildID != "" ==>
      var (count, c2) := DC.GetCachedQueueCount(DC.GetCachedSettings(c, guildID, now, store).1, guildID, now, store);
      r.0.queueCount == (if count.Some? then count.value else 0) && r.1 == c2
  {
    if guildID == "" then (DefaultSnapshot, c, m)
    else
      var (settings, c1) := DC.GetCachedSettings(c, guildID, now, store);
      var (count, c2) := DC.GetCachedQueueCount(c1, guildID, now, store);
      var (p, m') := P.Get(m, guildID);
      (SnapshotOf(settings, count, p.state, P.HasVoiceConnection(p), rawMarker), c2, m')
  }

  /** The text between the title's opening and its closing unescapes to the
      trimmed title, linked or not, and to the placeholder for a blank title. */
  lemma TitleKeepsText(t: Track)
    ensures var line := TitleLine(t);
      Unescape(line[|TitleOpen(t)|..|line| - |TitleClose(t)|], DashboardSpecials) == DisplayTitle(t)
    ensures !IsBlank(t.title) && t.url != "" ==>
      && HasPrefix(TitleLine(t), LinkedTitleHead)
      && TitleLine(t)[|TitleLine(t)| - |t.url| - 5..] == "](" + t.url + ")**"
    ensures !IsBlank(t.title) && t.url == "" ==> HasPrefix(TitleLine(t), TitleHead)
    ensures !IsBlank(t.title) ==> DisplayTitle(t) == TrimSpace(t.title)
  {
    FramedTextUnescapes(TitleLine(t), TitleOpen(t), DisplayTitle(t), TitleClose(t));
  }

  lemma FramedTextUnescapes(line: string, open: string, text: string, close: string)
    requires line == Framed(open, text, close)
    ensures |open| <= |line| - |close|
    ensures Unescape(line[|open|..|line| - |close|], DashboardSpecials) == text
  {
    assert line[|open|..|line| - |close|] == EscapeDashboardText(text);
  }

  // ---------------------------------------------------------------------
  // Playback hash and automatic refresh
  // ---------------------------------------------------------------------

  function FormatBool(b: bool): string {
    if b then "true" else "false"
  }

  /** The eight-second bucket of a position, with Go's integer division,
      which truncates toward zero. */
  function Bucket(position: Duration): (b: int)
    ensures position >= 0 ==> 0 <= position - b * AutoUpdateBucket < AutoUpdateBucket
    ensures position < 0 ==> 0 <= b * AutoUpdateBucket - position < AutoUpdateBucket
  {
    if position >= 0 then position / AutoUpdateBucket else -((-position) / AutoUpdateBucket)
  }

  /** buildPlaybackHash: "stopped" when nothing plays; otherwise the track
      ID, the eight-second position bucket and the pause flag, with the
      cached repeat label and queue count when a summary is available. */
  function PlaybackHash(state: PlaybackState, summary: Option<DC.Summary>): (h: string)
    ensures h == "stopped" <==> !state.isPlaying || state.track.None?
    ensures state.isPlaying && state.track.Some? ==> HasPrefix(h, "playing:" + state.track.value.id + ":")
  {
    if !state.isPlaying || state.track.None? then "stopped"
    else
      var prefix := "playing:" + state.track.value.id + ":";
      var paused := state.pausedAt.Some?;
      var tail :=
        if summary.Some? then
          ":paused=" + FormatBool(paused) + ":loop=" + summary.value.loopLabel +
          ":queue=" + FormatInt(summary.value.queueCount)
        else ":" + FormatBool(paused);
      var h := prefix + (FormatInt(Bucket(state.position)) + tail);
      assert h[0] == prefix[0] == 'p';
      assert h[..|prefix|] == prefix;
      h
  }

  /** Positions in the same eight-second bucket give the same hash, so the
      dashboard is not refreshed for every frame. */
  lemma SameBucketSameHash(state: PlaybackState, position: Duration, summary: Option<DC.Summary>)
    requires Bucket(position) == Bucket(state.position)
    ensures PlaybackHash(state.(position := position), summary) == PlaybackHash(state, summary)
  {
  }

  /** Without a summary, pausing or resuming changes the hash. */
  lemma PauseChangesHash(state: PlaybackState, at: Time)
    requires state.isPlaying && state.track.Some? && state.pausedAt.None?
    ensures PlaybackHash(state.(pausedAt := Some(at)), None) != PlaybackHash(state, None)
  {
    var prefix := "playing:" + state.track.value.id + ":";
    var digits := FormatInt(Bucket(state.position));
    var a := PlaybackHash(state.(pausedAt := Some(at)), None);
    var b := PlaybackHash(state, None);
    assert a == prefix + (digits + ":true");
    assert b == prefix + (digits + ":false");
    assert |a| != |b|;
  }

  datatype RenderState = RenderState(lastHash: string, lastUpdated: Time)
  type RenderCache = map<string, RenderState>

  /** shouldAutoUpdateDashboard, with both of the source's checks. */
  function ShouldAutoUpdate(rc: RenderCache, guildID: string, state: PlaybackState, summary: Option<DC.Summary>, now: Time): (r: bool)
    ensures r <==> guildID != "" && (guildID !in rc || rc[guildID].lastHash != PlaybackHash(state, summary))
  {
    if guildID == "" then false
    else
      var hash := PlaybackHash(state, summary);
      if guildID in rc && rc[guildID].lastHash == hash && Sub(now, rc[guildID].lastUpdated) < MinUpdateInterval then false
      else guildID !in rc || rc[guildID].lastHash != hash
  }

  /** The minimum-interval check never changes the outcome: the clock is irrelevant. */
  lemma AutoUpdateIgnoresClock(rc: RenderCache, guildID: string, state: PlaybackState, summary: Option<DC.Summary>, t1: Time, t2: Time)
    ensures ShouldAutoUpdate(rc, guildID, state, summary, t1) == ShouldAutoUpdate(rc, guildID, state, summary, t2)
  {
  }

  /** recordDashboardRenderState. */
  function RecordRender(rc: RenderCache, guildID: string, state: PlaybackState, summary: Option<DC.Summary>, now: Time): (rc': RenderCache)
    ensures guildID == "" ==> rc' == rc
    ensures guildID != "" ==> rc'.Keys == rc.Keys + {guildID} && rc'[guildID].lastHash == PlaybackHash(state, summary)
    ensures forall g :: g in rc && g != guildID ==> g in rc' && rc'[g] == rc[g]
  {
    if guildID == "" then rc else rc[guildID := RenderState(PlaybackHash(state, summary), now)]
  }

  /** clearDashboardRenderState. */
  function ClearRender(rc: RenderCache, guildID: string): (rc': RenderCache)
    ensures guildID != "" ==> guildID !in rc'
    ensures guildID == "" ==> rc' == rc
  {
    if guildID == "" then rc else rc - {guildID}
  }

  /** Once a state is rendered, the same state never triggers another refresh;
      a changed hash always does. */
  lemma RenderedStateIsNotRefreshed(rc: RenderCache, guildID: string, s1: PlaybackState, s2: PlaybackState, summary: Option<DC.Summary>, t1: Time, t2: Time)
    requires guildID != ""
    ensures !ShouldAutoUpdate(RecordRender(rc, guildID, s1, summary, t1), guildID, s1, summary, t2)
    ensures PlaybackHash(s2, summary) != PlaybackHash(s1, summary) ==>
      ShouldAutoUpdate(RecordRender(rc, guildID, s1, summary, t1), guildID, s2, summary, t2)
  {
  }

  /** After the render state is cleared the next check always refreshes. */
  lemma ClearedGuildIsRefreshed(rc: RenderCache, guildID: string, state: PlaybackState, summary: Option<DC.Summary>, now: Time)
    requires guildID != ""
    ensures ShouldAutoUpdate(ClearRender(rc, guildID), guildID, state, summary, now)
  {
  }

  // ---------------------------------------------------------------------
  // Controls
  // ---------------------------------------------------------------------

  datatype ButtonStyle = Primary | Secondary | Success
  datatype Controls = Controls(joinLabel: string, pauseLabel: string, pauseStyle: ButtonStyle, pauseDisabled: bool)

  /** "참가" in UTF-8. */
  const JoinLabel := "\U{EC}\U{B0}\U{B8}\U{EA}\U{B0}\U{80}"
  /** "퇴장" in UTF-8. */
  const LeaveLabel := "\U{ED}\U{87}\U{B4}\U{EC}\U{9E}\U{A5}"
  /** "일시정지" in UTF-8. */
  const PauseLabel := "\U{EC}\U{9D}\U{BC}\U{EC}\U{8B}\U{9C}\U{EC}\U{A0}\U{95}\U{EC}\U{A7}\U{80}"
  /** "재개" in UTF-8. */
  const ResumeLabel := "\U{EC}\U{9E}\U{AC}\U{EA}\U{B0}\U{9C}"

  /** The controls row of buildDashboardComponentsFromSnapshot. */
  function ControlsOf(s: Snapshot): (c: Controls)
    ensures c.pauseDisabled <==> !s.hasTrack
    ensures c.pauseLabel == (if s.isPaused then ResumeLabel else PauseLabel)
    ensures c.pauseStyle == (if s.isPaused then Success else Secondary)
    ensures c.joinLabel == (if s.isVoiceConnected then LeaveLabel else JoinLabel)
  {
    Controls(
      if s.isVoiceConnected then LeaveLabel else JoinLabel,
      if s.isPaused then ResumeLabel else PauseLabel,
      if s.isPaused then Success else Secondary,
      !s.hasTrack)
  }

  /** A guild with nothing playing offers no pause button to press, and a
      paused player always offers resume. */
  lemma ControlsFollowPlayback(settings: Option<QueueSettings>, count: Option<int>, state: PlaybackState, connected: bool, rawMarker: int)
    ensures var c := ControlsOf(SnapshotOf(settings, count, state, connected, rawMarker));
      && (c.pauseDisabled <==> !state.isPlaying || state.track.None?)
      && (c.pauseLabel == ResumeLabel <==> state.isPlaying && state.track.Some? && state.pausedAt.Some?)
  {
  }
}

=== FILE: dashboardcache.dfy ===
/** The dashboard's read-through cache of queue settings and queue length
    (internal/features/dashboard/shared.go:413-695): a Redis layer with key
    expiry, an in-memory layer per guild, and the queue store behind both.
    Reads prefer Redis, then an unexpired memory entry, then the store; when
    the store is missing or fails, a stale memory entry is still served. */
module DashboardCache {
  import opened Wrappers
  import opened GoStrings
  import opened MusicTypes
  import QS = QueueStore
  import DashboardText

  const SettingsCacheTTL: Duration := 30 * Second
  const QueueCacheTTL: Duration := 15 * Second
  const SettingsCacheKey := "dashboard:cache:settings:"
  const QueueCacheKey := "dashboard:cache:queue:"

  /** A Redis value with the instant its key expires. */
  datatype Stamped<T> = Stamped(value: T, expiresAt: Time)

  /** The Redis client, or its absence. Settings are held as the values the
      JSON payload decodes to; queue counts as the decimal text stored. */
  datatype Redis =
    | NoClient
    | Client(settings: map<string, Stamped<QueueSettings>>, counts: map<string, Stamped<string>>)

  /** One guild's in-memory entry; its zero value has neither part. */
  datatype Entry = Entry(
    settings: QueueSettings,
    queueCount: int,
    settingsExpires: Time,
    queueExpires: Time,
    hasSettings: bool,
    hasQueueCount: bool)

  const ZeroEntry := Entry(QueueSettings(RepeatMode(""), false, 0), 0, ZeroTime, ZeroTime, false, false)

  datatype Cache = Cache(redis: Redis, memory: map<string, Entry>)

  /** The memory entry of a guild, the zero entry when there is none. */
  function EntryOf(c: Cache, guildID: string): Entry {
    if guildID in c.memory then c.memory[guildID] else ZeroEntry
  }

  // ---------------------------------------------------------------------
  // The Redis layer
  // ---------------------------------------------------------------------

  /** getRedisSettingsCache: a live key's value; nothing without a guild or client. */
  function RedisSettings(r: Redis, guildID: string, now: Time): (s: Option<QueueSettings>)
    ensures s.Some? ==> guildID != "" && r.Client?
  {
    if guildID == "" || r.NoClient? then None
    else
      var key := SettingsCacheKey + guildID;
      if key in r.settings && Before(now, r.settings[key].expiresAt) then Some(r.settings[key].value)
      else None
  }

  /** getRedisQueueCountCache: a live key's text, read as a 64-bit decimal. */
  function RedisCount(r: Redis, guildID: string, now: Time): (n: Option<int>)
    ensures n.Some? ==> guildID != "" && r.Client? && InInt64(n.value)
  {
    if guildID == "" || r.NoClient? then None
    else
      var key := QueueCacheKey + guildID;
      if key in r.counts && Before(now, r.counts[key].expiresAt) then Atoi(r.counts[key].value)
      else None
  }

  /** Keys under one prefix are distinct for distinct guilds. */
  lemma KeysSeparateGuilds(prefix: string, guildID: string)
    ensures forall g :: g != guildID ==> prefix + g != prefix + guildID
  {
    forall g | g != guildID
      ensures prefix + g != prefix + guildID
    {
      assert (prefix + g)[|prefix|..] == g;
      assert (prefix + guildID)[|prefix|..] == guildID;
    }
  }

  /** setRedisSettingsCache: stored for thirty seconds; every other key,
      and every count, is left as it was. */
  function SetRedisSettings(r: Redis, guildID: string, s: QueueSettings, now: Time): (r': Redis)
    ensures guildID != "" && r.Client? ==>
      forall t :: RedisSettings(r', guildID, t) == if t.unixNanos < now.unixNanos + SettingsCacheTTL then Some(s) else None
    ensures forall g, t :: g != guildID ==> RedisSettings(r', g, t) == RedisSettings(r, g, t)
    ensures forall g, t :: RedisCount(r', g, t) == RedisCount(r, g, t)
    ensures guildID == "" || r.NoClient? ==> r' == r
  {
    if guildID == "" || r.NoClient? then r
    else
      KeysSeparateGuilds(SettingsCacheKey, guildID);
      r.(settings := r.settings[SettingsCacheKey + guildID := Stamped(s, Add(now, SettingsCacheTTL))])
  }

  /** setRedisQueueCountCache: stored in decimal for fifteen seconds; every
      other key, and every settings value, is left as it was. */
  function SetRedisCount(r: Redis, guildID: string, n: int, now: Time): (r': Redis)
    ensures guildID != "" && r.Client? && InInt64(n) ==>
      forall t :: RedisCount(r', guildID, t) == if t.unixNanos < now.unixNanos + QueueCacheTTL then Some(n) else None
    ensures forall g, t :: g != guildID ==> RedisCount(r', g, t) == RedisCount(r, g, t)
    ensures forall g, t :: RedisSettings(r', g, t) == RedisSettings(r, g, t)
    ensures guildID == "" || r.NoClient? ==> r' == r
  {
    if guildID == "" || r.NoClient? then r
    else
      KeysSeparateGuilds(QueueCacheKey, guildID);
      if InInt64(n) then AtoiFormatInt(n); CountStored(r, guildID, n, now)
      else CountStored(r, guildID, n, now)
  }

  /** The client with the count stored under the guild's key. */
  function CountStored(r: Redis, guildID: string, n: int, now: Time): Redis
    requires r.Client?
  {
    r.(counts := r.counts[QueueCacheKey + guildID := Stamped(FormatInt(n), Add(now, QueueCacheTTL))])
  }

  /** A stored count reads back, for fifteen seconds, as the number stored. */
  lemma RedisCountRoundTrip(r: Redis, guildID: string, n: int, now: Time, later: Time)
    requires guildID != "" && r.Client? && InInt64(n)
    ensures RedisCount(SetRedisCount(r, guildID, n, now), guildID, later) ==
      if later.unixNanos < now.unixNanos + QueueCacheTTL then Some(n) else None
  {
    AtoiFormatInt(n);
  }

  /** clearRedisDashboardCache: both keys of the guild are deleted. */
  function ClearRedis(r: Redis, guildID: string): (r': Redis)
    ensures forall t :: RedisSettings(r', guildID, t).None? && RedisCount(r', guildID, t).None?
  {
    if guildID == "" || r.NoClient? then r
    else Client(r.settings - {SettingsCacheKey + guildID}, r.counts - {QueueCacheKey + guildID})
  }

  // ---------------------------------------------------------------------
  // Read-through lookups
  // ---------------------------------------------------------------------

  /** The memory entry after a fresh settings value was stored in it. */
  function WithSettings(e: Entry, s: QueueSettings, now: Time): Entry {
    e.(settings := s, settingsExpires := Add(now, SettingsCacheTTL), hasSettings := true)
  }

  function WithQueueCount(e: Entry, n: int, now: Time): Entry {
    e.(queueCount := n, queueExpires := Add(now, QueueCacheTTL), hasQueueCount := true)
  }

  /** getCachedSettings. `store` is the default queue store, None when it is
      not configured. */
  function GetCachedSettings(c: Cache, guildID: string, now: Time, store: Option<QS.Store>): (r: (Option<QueueSettings>, Cache))
    ensures guildID == "" ==> r == (None, c)
    ensures RedisSettings(c.redis, guildID, now).Some? ==> r == (RedisSettings(c.redis, guildID, now), c)
    ensures var e := EntryOf(c, guildID);
      guildID != "" && RedisSettings(c.redis, guildID, now).None? && e.hasSettings && Before(now, e.settingsExpires) ==>
        r == (Some(e.settings), c)
    ensures var e := EntryOf(c, guildID);
      guildID != "" && RedisSettings(c.redis, guildID, now).None? && !(e.hasSettings && Before(now, e.settingsExpires)) ==>
        if store.None? || QS.GetSettings(store.value, guildID).Err? then
          r == (if e.hasSettings then Some(e.settings) else None, c)
        else
          var s := QS.GetSettings(store.value, guildID).value;
          && r.0 == Some(s)
          && r.1.memory == c.memory[guildID := WithSettings(e, s, now)]
          && r.1.redis == SetRedisSettings(c.redis, guildID, s, now)
  {
    if guildID == "" then (None, c)
    else if RedisSettings(c.redis, guildID, now).Some? then (RedisSettings(c.redis, guildID, now), c)
    else
      var e := EntryOf(c, guildID);
      if e.hasSettings && Before(now, e.settingsExpires) then (Some(e.settings), c)
      else if store.None? || QS.GetSettings(store.value, guildID).Err? then
        (if e.hasSettings then Some(e.settings) else None, c)
      else
        var s := QS.GetSettings(store.value, guildID).value;
        (Some(s), Cache(SetRedisSettings(c.redis, guildID, s, now), c.memory[guildID := WithSettings(e, s, now)]))
  }

  /** getCachedQueueCount: the same layering for the queue length. */
  function GetCachedQueueCount(c: Cache, guildID: string, now: Time, store: Option<QS.Store>): (r: (Option<int>, Cache))
    ensures guildID == "" ==> r == (None, c)
    ensures RedisCount(c.redis, guildID, now).Some? ==> r == (RedisCount(c.redis, guildID, now), c)
    ensures var e := EntryOf(c, guildID);
      guildID != "" && RedisCount(c.redis, guildID, now).None? && e.hasQueueCount && Before(now, e.queueExpires) ==>
        r == (Some(e.queueCount), c)
    ensures var e := EntryOf(c, guildID);
      guildID != "" && RedisCount(c.redis, guildID, now).None? && !(e.hasQueueCount && Before(now, e.queueExpires)) ==>
        if store.None? || QS.QueueSize(store.value, guildID).Err? then
          r == (if e.hasQueueCount then Some(e.queueCount) else None, c)
        else
          var n := QS.QueueSize(store.value, guildID).value;
          && r.0 == Some(n)
          && r.1.memory == c.memory[guildID := WithQueueCount(e, n, now)]
          && r.1.redis == SetRedisCount(c.redis, guildID, n, now)
  {
    if guildID == "" then (None, c)
    else if RedisCount(c.redis, guildID, now).Some? then (RedisCount(c.redis, guildID, now), c)
    else
      var e := EntryOf(c, guildID);
      if e.hasQueueCount && Before(now, e.queueExpires) then (Some(e.queueCount), c)
      else if store.None? || QS.QueueSize(store.value, guildID).Err? then
        (if e.hasQueueCount then Some(e.queueCount) else None, c)
      else
        var n := QS.QueueSize(store.value, guildID).value;
        (Some(n), Cache(SetRedisCount(c.redis, guildID, n, now), c.memory[guildID := WithQueueCount(e, n, now)]))
  }

  /** A lookup only ever returns a value one of the layers held. */
  lemma CachedSettingsComeFromALayer(c: Cache, guildID: string, now: Time, store: Option<QS.Store>)
    requires GetCachedSettings(c, guildID, now, store).0.Some?
    ensures var s := GetCachedSettings(c, guildID, now, store).0.value;
      || RedisSettings(c.redis, guildID, now) == Some(s)
      || (EntryOf(c, guildID).hasSettings && EntryOf(c, guildID).settings == s)
      || (store.Some? && QS.GetSettings(store.value, guildID) == Ok(s))
  {
  }

  // ---------------------------------------------------------------------
  // Writes
  // ---------------------------------------------------------------------

  /** UpdateDashboardSettingsCache: memory and Redis both take the value;
      Redis serves it for thirty seconds; nothing else changes. */
  function UpdateSettings(c: Cache, guildID: string, s: QueueSettings, now: Time): (c': Cache)
    ensures guildID == "" ==> c' == c
    ensures guildID != "" ==> EntryOf(c', guildID) == WithSettings(EntryOf(c, guildID), s, now)
    ensures forall g :: g != guildID ==> EntryOf(c', g) == EntryOf(c, g)
    ensures guildID != "" && c.redis.Client? ==>
      forall t :: RedisSettings(c'.redis, guildID, t) == if t.unixNanos < now.unixNanos + SettingsCacheTTL then Some(s) else None
    ensures forall g, t :: g != guildID ==> RedisSettings(c'.redis, g, t) == RedisSettings(c.redis, g, t)
    ensures forall g, t :: RedisCount(c'.redis, g, t) == RedisCount(c.redis, g, t)
    ensures c'.redis.Client? == c.redis.Client?
  {
    if guildID == "" then c
    else Cache(SetRedisSettings(c.redis, guildID, s, now), c.memory[guildID := WithSettings(EntryOf(c, guildID), s, now)])
  }

  /** UpdateDashboardQueueCountCache: memory and Redis both take the count;
      Redis serves it for fifteen seconds; nothing else changes. */
  function UpdateQueueCount(c: Cache, guildID: string, n: int, now: Time): (c': Cache)
    ensures guildID == "" ==> c' == c
    ensures guildID != "" ==> EntryOf(c', guildID) == WithQueueCount(EntryOf(c, guildID), n, now)
    ensures forall g :: g != guildID ==> EntryOf(c', g) == EntryOf(c, g)
    ensures guildID != "" && c.redis.Client? && InInt64(n) ==>
      forall t :: RedisCount(c'.redis, guildID, t) == if t.unixNanos < now.unixNanos + QueueCacheTTL then Some(n) else None
    ensures forall g, t :: g != guildID ==> RedisCount(c'.redis, g, t) == RedisCount(c.redis, g, t)
    ensures forall g, t :: RedisSettings(c'.redis, g, t) == RedisSettings(c.redis, g, t)
    ensures c'.redis.Client? == c.redis.Client?
  {
    if guildID == "" then c
    else Cache(SetRedisCount(c.redis, guildID, n, now), c.memory[guildID := WithQueueCount(EntryOf(c, guildID), n, now)])
  }

  /** clearDashboardStoreCache: both layers forget the guild. */
  function ClearGuild(c: Cache, guildID: string): (c': Cache)
    ensures guildID != "" ==> EntryOf(c', guildID) == ZeroEntry
    ensures guildID != "" ==> forall t :: RedisSettings(c'.redis, guildID, t).None? && RedisCount(c'.redis, guildID, t).None?
    ensures guildID == "" ==> c' == c
  {
    if guildID == "" then c
    else Cache(ClearRedis(c.redis, guildID), c.memory - {guildID})
  }

  /** For thirty seconds after an update the value is served whatever the
      store holds or whether it is reachable. */
  lemma UpdatedSettingsServedThirtySeconds(c: Cache, guildID: string, s: QueueSettings, now: Time, later: Time, store: Option<QS.Store>)
    requires guildID != ""
    requires now.unixNanos <= later.unixNanos < now.unixNanos + SettingsCacheTTL
    ensures GetCachedSettings(UpdateSettings(c, guildID, s, now), guildID, later, store).0 == Some(s)
  {
  }

  /** For fifteen seconds after an update the count is served whatever the store holds. */
  lemma UpdatedCountServedFifteenSeconds(c: Cache, guildID: string, n: int, now: Time, later: Time, store: Option<QS.Store>)
    requires guildID != "" && InInt64(n)
    requires now.unixNanos <= later.unixNanos < now.unixNanos + QueueCacheTTL
    ensures GetCachedQueueCount(UpdateQueueCount(c, guildID, n, now), guildID, later, store).0 == Some(n)
  {
    AtoiFormatInt(n);
  }

  /** A value fetched from the store is cached: a second lookup within thirty
      seconds returns it without consulting the store. */
  lemma FetchedSettingsAreCached(c: Cache, guildID: string, now: Time, later: Time, store: Option<QS.Store>, store2: Option<QS.Store>)
    requires GetCachedSettings(c, guildID, now, store).0.Some?
    requires now.unixNanos <= later.unixNanos < now.unixNanos + SettingsCacheTTL
    requires RedisSettings(c.redis, guildID, now).None?
    requires !(EntryOf(c, guildID).hasSettings && Before(now, EntryOf(c, guildID).settingsExpires))
    requires store.Some? && QS.GetSettings(store.value, guildID).Ok?
    ensures GetCachedSettings(GetCachedSettings(c, guildID, now, store).1, guildID, later, store2).0 ==
      GetCachedSettings(c, guildID, now, store).0
  {
  }

  // ---------------------------------------------------------------------
  // The summary the render hash uses
  // ---------------------------------------------------------------------

  /** The repeat label (blank when no settings are cached) and queue count
      (zero when none is cached). */
  datatype Summary = Summary(loopLabel: string, queueCount: int)

  /** peekDashboardStoreSummary: only the caches, never the store; present
      when either the settings or the count is cached and unexpired. */
  function PeekSummary(c: Cache, guildID: string, now: Time): (r: Option<Summary>)
    ensures guildID == "" ==> r.None?
    ensures var e := EntryOf(c, guildID);
      var hasS := RedisSettings(c.redis, guildID, now).Some? || (e.hasSettings && Before(now, e.settingsExpires));
      var hasN := RedisCount(c.redis, guildID, now).Some? || (e.hasQueueCount && Before(now, e.queueExpires));
      && (r.Some? <==> guildID != "" && (hasS || hasN))
      && (r.Some? && !hasS ==> r.value.loopLabel == "")
      && (r.Some? && !hasN ==> r.value.queueCount == 0)
  {
    if guildID == "" then None
    else
      var e := EntryOf(c, guildID);
      var settings :=
        if RedisSettings(c.redis, guildID, now).Some? then RedisSettings(c.redis, guildID, now)
        else if e.hasSettings && Before(now, e.settingsExpires) then Some(e.settings)
        else None;
      var count :=
        if RedisCount(c.redis, guildID, now).Some? then RedisCount(c.redis, guildID, now)
        else if e.hasQueueCount && Before(now, e.queueExpires) then Some(e.queueCount)
        else None;
      if settings.None? && count.None? then None
      else
        Some(Summary(
          if settings.Some? then DashboardText.LoopLabel(settings.value.repeatMode) else "",
          if count.Some? then count.value else 0))
  }

  /** The summary agrees with a lookup: when a lookup would be served from a
      cache, the summary shows the same settings and count. */
  lemma SummaryAgreesWithLookups(c: Cache, guildID: string, now: Time, store: Option<QS.Store>)
    requires guildID != ""
    requires RedisSettings(c.redis, guildID, now).Some? ||
      (EntryOf(c, guildID).hasSettings && Before(now, EntryOf(c, guildID).settingsExpires))
    requires RedisCount(c.redis, guildID, now).Some? ||
      (EntryOf(c, guildID).hasQueueCount && Before(now, EntryOf(c, guildID).queueExpires))
    ensures PeekSummary(c, guildID, now) == Some(Summary(
      DashboardText.LoopLabel(GetCachedSettings(c, guildID, now, store).0.value.repeatMode),
      GetCachedQueueCount(c, guildID, now, store).0.value))
  {
  }
}

=== FILE: dashboardlisteners.dfy ===
/** The dashboard's interaction helpers (internal/features/dashboard/listeners):
    the display truncation of helpers.go and the repeat button of loop.go. */
module DashboardListeners {
  import opened Wrappers
  import opened GoStrings
  import opened MusicTypes
  import QS = QueueStore
  import DC = DashboardCache
  import DashboardText
  import SearchView

  // ---------------------------------------------------------------------
  // truncateForDisplay
  // ---------------------------------------------------------------------

  /** The suffix truncateForDisplay appends: the three UTF-8 bytes of "…"
      read as Windows-1252 ("â€¦") and encoded in UTF-8 again. */
  const MisencodedEllipsis := "\U{C3}\U{A2}\U{E2}\U{82}\U{AC}\U{C2}\U{A6}"

  /** The suffix is the UTF-8 encoding of U+00E2 U+20AC U+00A6. */
  lemma MisencodedEllipsisIsMojibake()
    ensures Utf8("\U{E2}\U{20AC}\U{A6}") == MisencodedEllipsis
  {
  }

  /** truncateForDisplay as written: the same cut as the search view's
      truncate, with the misencoded suffix. */
  function TruncateForDisplayAsWritten(text: string, max: int): (r: string)
    ensures max <= 0 || |text| <= max ==> r == text
    ensures max == 1 && |text| > 1 ==> r == text[..1]
    ensures max > 1 && |text| > max ==>
      |r| == max + 6 && r[..max - 1] == text[..max - 1] && r[max - 1..] == MisencodedEllipsis
  {
    if max <= 0 || |text| <= max then text
    else if max <= 1 then text[..max]
    else
      var r := text[..max - 1] + MisencodedEllipsis;
      assert r[..max - 1] == text[..max - 1];
      r
  }

  /** truncateForDisplay as intended: the cut ends in "…", exactly as the
      search view's truncate does. */
  function TruncateForDisplay(text: string, max: int): (r: string)
    ensures max <= 0 || |text| <= max ==> r == text
    ensures max == 1 && |text| > 1 ==> r == text[..1]
    ensures max > 1 && |text| > max ==>
      |r| == max + 2 && r[..max - 1] == text[..max - 1] && r[max - 1..] == Utf8("\U{2026}")
  {
    SearchView.EllipsisIsUtf8();
    SearchView.Truncate(text, max)
  }

  /** The two agree on the kept bytes and differ exactly in a cut text's
      suffix, which as written is never the ellipsis. */
  lemma TruncationDiffersOnlyInSuffix(text: string, max: int)
    ensures !(max > 1 && |text| > max) ==> TruncateForDisplayAsWritten(text, max) == TruncateForDisplay(text, max)
    ensures max > 1 && |text| > max ==>
      var a := TruncateForDisplayAsWritten(text, max);
      var b := TruncateForDisplay(text, max);
      && a[..max - 1] == b[..max - 1]
      && a[|a| - 3..] != Utf8("\U{2026}")
      && a != b
  {
    SearchView.EllipsisIsUtf8();
    if max > 1 && |text| > max {
      var a := TruncateForDisplayAsWritten(text, max);
      assert a[|a| - 3..] == MisencodedEllipsis[4..];
      assert a[|a| - 3] != SearchView.Ellipsis[0];
    }
  }

  /** A six-byte title cut to three shows "ab" and the misencoded suffix
      instead of "ab…". */
  lemma TruncateForDisplayCounterexample()
    ensures TruncateForDisplayAsWritten("abcdef", 3) == "ab" + MisencodedEllipsis
    ensures TruncateForDisplay("abcdef", 3) == "ab" + SearchView.Ellipsis
    ensures TruncateForDisplayAsWritten("abcdef", 3) != TruncateForDisplay("abcdef", 3)
  {
    TruncationDiffersOnlyInSuffix("abcdef", 3);
  }

  // ---------------------------------------------------------------------
  // The repeat button
  // ---------------------------------------------------------------------

  /** One press of the repeat button: off, track, queue, off again; a mode
      the cycle does not name goes back to off. */
  function LoopPress(mode: RepeatMode): (r: RepeatMode)
    ensures mode == RepeatNone ==> r == RepeatTrack
    ensures mode == RepeatTrack ==> r == RepeatQueue
    ensures mode != RepeatNone && mode != RepeatTrack ==> r == RepeatNone
  {
    if mode == RepeatNone then RepeatTrack
    else if mode == RepeatTrack then RepeatQueue
    else RepeatNone
  }

  predicate NamedMode(mode: RepeatMode) {
    mode == RepeatNone || mode == RepeatTrack || mode == RepeatQueue
  }

  /** Three presses bring a named mode back; any mode is named after one press. */
  lemma ThreePressesRestore(mode: RepeatMode)
    ensures NamedMode(LoopPress(mode))
    ensures NamedMode(mode) ==> LoopPress(LoopPress(LoopPress(mode))) == mode
    ensures NamedMode(mode) ==> LoopPress(mode) != mode
  {
  }

  /** The dashboard labels of consecutive named modes differ, so every press
      shows on the dashboard. */
  lemma PressChangesLabel(mode: RepeatMode)
    requires NamedMode(mode)
    ensures DashboardText.LoopLabel(LoopPress(mode)) != DashboardText.LoopLabel(mode)
  {
    DashboardText.LoopLabelsDistinct();
  }

  /** The ephemeral replies of handleDashboardLoop, and the dashboard update. */
  datatype LoopReply = LoopNotInGuild | LoopLoadFailed | LoopSaveFailed | LoopUpdated

  /** handleDashboardLoop: read the settings, press, write them back and
      refresh the dashboard's settings cache. */
  function HandleDashboardLoop(st: QS.Store, c: DC.Cache, guildID: string, now: Time): (r: (LoopReply, QS.Store, DC.Cache))
    ensures guildID == "" ==> r == (LoopNotInGuild, st, c)
    ensures guildID != "" && QS.GetSettings(st, guildID).Err? ==> r == (LoopLoadFailed, st, c)
    ensures guildID != "" && QS.GetSettings(st, guildID).Ok? ==>
      var s := QS.GetSettings(st, guildID).value;
      var pressed := s.(repeatMode := LoopPress(s.repeatMode));
      && r.0 == LoopUpdated
      && QS.GetSettings(r.1, guildID) == Ok(pressed)
      && r.1.queues == st.queues
      && DC.EntryOf(r.2, guildID) == DC.WithSettings(DC.EntryOf(c, guildID), pressed, now)
  {
    if guildID == "" then (LoopNotInGuild, st, c)
    else
      match QS.GetSettings(st, guildID)
      case Err(_) => (LoopLoadFailed, st, c)
      case Ok(s) =>
        var pressed := s.(repeatMode := LoopPress(s.repeatMode));
        match QS.SetSettings(st, guildID, pressed)
        case Err(_) => (LoopSaveFailed, st, c)
        case Ok(st') =>
          QS.SettingsRoundTrip(st, guildID, pressed);
          (LoopUpdated, st', DC.UpdateSettings(c, guildID, pressed, now))
  }

  /** Three presses give the guild back the settings it started with, with
      shuffle and volume untouched all along. */
  lemma ThreeHandledPressesRestore(st: QS.Store, c: DC.Cache, guildID: string, now: Time)
    requires guildID != "" && QS.GetSettings(st, guildID).Ok?
    requires NamedMode(QS.GetSettings(st, guildID).value.repeatMode)
    ensures var (_, st1, c1) := HandleDashboardLoop(st, c, guildID, now);
      var (_, st2, c2) := HandleDashboardLoop(st1, c1, guildID, now);
      var (_, st3, _) := HandleDashboardLoop(st2, c2, guildID, now);
      QS.GetSettings(st3, guildID) == QS.GetSettings(st, guildID)
  {
    var s := QS.GetSettings(st, guildID).value;
    var (_, st1, c1) := HandleDashboardLoop(st, c, guildID, now);
    var (_, st2, c2) := HandleDashboardLoop(st1, c1, guildID, now);
    var (_, st3, _) := HandleDashboardLoop(st2, c2, guildID, now);
    ThreePressesRestore(s.repeatMode);
    assert QS.GetSettings(st1, guildID) == Ok(s.(repeatMode := LoopPress(s.repeatMode)));
    assert QS.GetSettings(st2, guildID) == Ok(s.(repeatMode := LoopPress(LoopPress(s.repeatMode))));
    assert QS.GetSettings(st3, guildID) == Ok(s.(repeatMode := LoopPress(LoopPress(LoopPress(s.repeatMode)))));
  }
}

=== FILE: dashboardtext.dfy ===
/** The text pieces of the dashboard in internal/features/dashboard/shared.go:
    the repeat and source labels, the clock, the progress bar and the
    Markdown escaping of titles. Text is Go byte strings; every non-ASCII
    literal is written through its UTF-8 encoding. */
module DashboardText {
  import opened Wrappers
  import opened GoStrings
  import opened MusicTypes
  import SearchView

  // ---------------------------------------------------------------------
  // Labels
  // ---------------------------------------------------------------------

  /** "꺼짐" in UTF-8. */
  const LoopOffLabel := "\U{EA}\U{BA}\U{BC}\U{EC}\U{A7}\U{90}"
  /** "곡 반복" in UTF-8. */
  const LoopTrackLabel := "\U{EA}\U{B3}\U{A1} \U{EB}\U{B0}\U{98}\U{EB}\U{B3}\U{B5}"
  /** "대기열 반복" in UTF-8. */
  const LoopQueueLabel := "\U{EB}\U{8C}\U{80}\U{EA}\U{B8}\U{B0}\U{EC}\U{97}\U{B4} \U{EB}\U{B0}\U{98}\U{EB}\U{B3}\U{B5}"

  /** The repeat label: track and queue have their own, anything else reads as off. */
  function LoopLabel(mode: RepeatMode): (r: string)
    ensures mode == RepeatTrack ==> r == LoopTrackLabel
    ensures mode == RepeatQueue ==> r == LoopQueueLabel
    ensures mode != RepeatTrack && mode != RepeatQueue ==> r == LoopOffLabel
  {
    if mode == RepeatTrack then LoopTrackLabel
    else if mode == RepeatQueue then LoopQueueLabel
    else LoopOffLabel
  }

  /** The three repeat labels are pairwise distinct, so the label shows the mode. */
  lemma LoopLabelsDistinct()
    ensures LoopOffLabel != LoopTrackLabel && LoopOffLabel != LoopQueueLabel && LoopTrackLabel != LoopQueueLabel
  {
  }

  /** "유튜브" in UTF-8. */
  const YouTubeLabel := "\U{EC}\U{9C}\U{A0}\U{ED}\U{8A}\U{9C}\U{EB}\U{B8}\U{8C}"
  /** "스포티파이" in UTF-8. */
  const SpotifyLabel := "\U{EC}\U{8A}\U{A4}\U{ED}\U{8F}\U{AC}\U{ED}\U{8B}\U{B0}\U{ED}\U{8C}\U{8C}\U{EC}\U{9D}\U{B4}"
  /** "사운드클라우드" in UTF-8. */
  const SoundCloudLabel := "\U{EC}\U{82}\U{AC}\U{EC}\U{9A}\U{B4}\U{EB}\U{93}\U{9C}\U{ED}\U{81}\U{B4}\U{EB}\U{9D}\U{BC}\U{EC}\U{9A}\U{B0}\U{EB}\U{93}\U{9C}"
  /** "알 수 없음" in UTF-8. */
  const UnknownSourceLabel := "\U{EC}\U{95}\U{8C} \U{EC}\U{88}\U{98} \U{EC}\U{97}\U{86}\U{EC}\U{9D}\U{8C}"

  /** The key a source is recognised by: trimmed and lower-cased, so it is
      empty exactly for a blank name and holds no upper-case ASCII letter. */
  function SourceKey(source: TrackSource): (r: string)
    ensures |r| == |TrimSpace(source.name)|
    ensures r == "" <==> IsBlank(source.name)
    ensures forall i :: 0 <= i < |r| ==> !('A' <= r[i] <= 'Z')
    ensures ToLower(r) == r
  {
    LowerKey(TrimSpace(source.name))
  }

  /** Lower-casing a trimmed name. */
  function LowerKey(name: string): (r: string)
    ensures |r| == |name|
    ensures forall i :: 0 <= i < |r| ==> !('A' <= r[i] <= 'Z')
    ensures ToLower(r) == r
  {
    var r := ToLower(name);
    assert forall i :: 0 <= i < |r| ==> LowerChar(r[i]) == r[i];
    r
  }

  /** The source label: the three known sources by name, any other
      non-blank source in upper case, and a placeholder for a blank one. */
  function SourceLabel(source: TrackSource): (r: string)
    ensures SourceKey(source) == "youtube" ==> r == YouTubeLabel
    ensures SourceKey(source) == "spotify" ==> r == SpotifyLabel
    ensures SourceKey(source) == "soundcloud" ==> r == SoundCloudLabel
    ensures SourceKey(source) !in {"youtube", "spotify", "soundcloud"} ==>
      r == if SourceKey(source) == "" then UnknownSourceLabel else ToUpper(SourceKey(source))
  {
    var key := SourceKey(source);
    if key == "youtube" then YouTubeLabel
    else if key == "spotify" then SpotifyLabel
    else if key == "soundcloud" then SoundCloudLabel
    else if key != "" then ToUpper(key)
    else UnknownSourceLabel
  }

  /** Case and outer white space do not change the label. */
  lemma SourceLabelIgnoresCaseAndPadding(a: TrackSource, b: TrackSource)
    requires ToLower(TrimSpace(a.name)) == ToLower(TrimSpace(b.name))
    ensures SourceLabel(a) == SourceLabel(b)
  {
  }

  // ---------------------------------------------------------------------
  // Durations
  // ---------------------------------------------------------------------

  /** "실시간" in UTF-8. */
  const LiveText := "\U{EC}\U{8B}\U{A4}\U{EC}\U{8B}\U{9C}\U{EA}\U{B0}\U{84}"

  /** formatDuration: zero-padded mm:ss of whole seconds, or the live text. */
  function FormatDuration(d: Duration): (r: string)
    ensures d <= 0 ==> r == LiveText
    ensures d > 0 ==> r == SearchView.Clock(d / Second)
  {
    if d <= 0 then LiveText else SearchView.Clock(d / Second)
  }

  /** The search view shows the same reading in brackets. */
  lemma SearchViewBracketsDashboardDuration(d: Duration)
    ensures SearchView.FormatDuration(d) == "[" + FormatDuration(d) + "]"
  {
  }

  /** A positive duration reads back as its whole seconds. */
  lemma FormatDurationReadsBack(d: Duration)
    requires d > 0
    ensures var c := FormatDuration(d);
      && |c| >= 5 && c[|c| - 3] == ':'
      && DecimalValue(c[..|c| - 3]) * 60 + DecimalValue(c[|c| - 2..]) == d / Second
  {
    SearchView.ClockReadsBack(d / Second);
  }

  // ---------------------------------------------------------------------
  // Progress bar
  // ---------------------------------------------------------------------

  /** "\u2501" (heavy horizontal) in UTF-8: the played part of the bar. */
  const Heavy := "\U{E2}\U{94}\U{81}"
  /** "\u2500" (light horizontal) in UTF-8: the part still to play. */
  const Light := "\U{E2}\U{94}\U{80}"
  /** "\u25C9" (fisheye) in UTF-8: the position. */
  const Knob := "\U{E2}\U{97}\U{89}"
  /** "\u25CB" (white circle) in UTF-8: the start of a bar without a duration. */
  const Hollow := "\U{E2}\U{97}\U{8B}"

  /** The glyphs are the UTF-8 encodings of their code points. */
  lemma GlyphsAreUtf8()
    ensures Heavy == EncodeRune('\U{2501}') && Light == EncodeRune('\U{2500}')
    ensures Knob == EncodeRune('\U{25C9}') && Hollow == EncodeRune('\U{25CB}')
  {
  }

  const DefaultBarSize := 12

  function BarSize(size: int): (n: nat)
    ensures n > 0
  {
    if size <= 0 then DefaultBarSize else size
  }

  /** The marker clamped into [0, n]. */
  function ClampMarker(rawMarker: int, n: nat): (m: nat)
    ensures m <= n
    ensures 0 <= rawMarker <= n ==> m == rawMarker
    ensures rawMarker < 0 ==> m == 0
    ensures rawMarker > n ==> m == n
  {
    if rawMarker < 0 then 0 else if rawMarker > n then n else rawMarker
  }

  /** buildProgressBar. `rawMarker` is the source's floating-point
      `int(ratio * size)`, which the model takes as given and only clamps. */
  function BuildProgressBar(duration: Duration, size: int, rawMarker: int): (r: string)
    ensures |r| == 3 * (BarSize(size) + 1)
    ensures duration <= 0 ==> r == Hollow + Repeat(Light, BarSize(size))
    ensures duration > 0 ==>
      var m := ClampMarker(rawMarker, BarSize(size));
      && r[..3 * m] == Repeat(Heavy, m)
      && r[3 * m..3 * m + 3] == Knob
      && r[3 * m + 3..] == Repeat(Light, BarSize(size) - m)
  {
    var n := BarSize(size);
    if duration <= 0 then Hollow + Repeat(Light, n)
    else
      var m := ClampMarker(rawMarker, n);
      var r := Repeat(Heavy, m) + Knob + Repeat(Light, n - m);
      assert r[..3 * m] == Repeat(Heavy, m);
      assert r[3 * m..3 * m + 3] == Knob;
      assert r[3 * m + 3..] == Repeat(Light, n - m);
      r
  }

  /** Reads a bar back: the number of heavy segments before the knob, or
      None for a bar without a knob. */
  function ReadMarker(bar: string): (r: Option<nat>)
    decreases |bar|
  {
    if HasPrefix(bar, Knob) then Some(0)
    else if HasPrefix(bar, Heavy) then
      match ReadMarker(bar[3..])
      case Some(m) => Some(m + 1)
      case None => None
    else None
  }

  lemma {:induction false} ReadMarkerAfterHeavy(m: nat, rest: string)
    requires HasPrefix(rest, Knob)
    ensures ReadMarker(Repeat(Heavy, m) + rest) == Some(m)
    decreases m
  {
    if m == 0 {
      assert Repeat(Heavy, 0) + rest == rest;
    } else {
      var s := Repeat(Heavy, m) + rest;
      assert s == Heavy + (Repeat(Heavy, m - 1) + rest);
      assert s[..3] == Heavy;
      assert !HasPrefix(s, Knob) by {
        assert s[1] != Knob[1];
      }
      assert s[3..] == Repeat(Heavy, m - 1) + rest;
      ReadMarkerAfterHeavy(m - 1, rest);
    }
  }

  /** The knob sits where the clamped marker put it; a bar for an unknown
      duration has no knob. */
  lemma ProgressBarReadsBack(duration: Duration, size: int, rawMarker: int)
    ensures ReadMarker(BuildProgressBar(duration, size, rawMarker)) ==
      if duration <= 0 then None else Some(ClampMarker(rawMarker, BarSize(size)))
  {
    var n := BarSize(size);
    var bar := BuildProgressBar(duration, size, rawMarker);
    if duration <= 0 {
      assert bar[..3] == Hollow;
      assert bar[2] != Knob[2] && bar[2] != Heavy[2];
    } else {
      var m := ClampMarker(rawMarker, n);
      KnobBarSplits(bar, m, n);
      ReadMarkerAfterHeavy(m, Knob + Repeat(Light, n - m));
    }
  }

  lemma KnobBarSplits(bar: string, m: nat, n: nat)
    requires m <= n && |bar| == 3 * (n + 1)
    requires bar[..3 * m] == Repeat(Heavy, m) && bar[3 * m..3 * m + 3] == Knob
    ensures bar == Repeat(Heavy, m) + (Knob + bar[3 * m + 3..])
  {
    assert bar[3 * m..] == bar[3 * m..3 * m + 3] + bar[3 * m + 3..];
    assert bar == bar[..3 * m] + bar[3 * m..];
  }

  // ---------------------------------------------------------------------
  // Escaping
  // ---------------------------------------------------------------------

  /** The six bytes escapeDashboardText escapes. */
  const DashboardSpecials: set<char> := {'*', '_', '`', '~', '|', '>'}

  /** escapeDashboardText: a backslash before each special byte and nothing
      else added; nothing is lost. */
  function EscapeDashboardText(text: string): (r: string)
    ensures Unescape(r, DashboardSpecials) == text
    ensures (forall k :: 0 <= k < |text| ==> text[k] !in DashboardSpecials) ==> r == text
    ensures |r| == |text| + SpecialCount(text, DashboardSpecials)
    ensures Guarded(r, DashboardSpecials)
  {
    UnescapeEscape(text, DashboardSpecials);
    EscapeGuarded(text, DashboardSpecials);
    if forall k :: 0 <= k < |text| ==> text[k] !in DashboardSpecials then
      EscapePlain(text, DashboardSpecials);
      Escape(text, DashboardSpecials)
    else Escape(text, DashboardSpecials)
  }

  /** On text without `|` or `>` the dashboard escapes exactly as the search view does. */
  lemma DashboardEscapeExtendsMarkdown(text: string)
    requires forall k :: 0 <= k < |text| ==> text[k] != '|' && text[k] != '>'
    ensures EscapeDashboardText(text) == SearchView.EscapeMarkdown(text)
  {
    EscapeSameOn(text, DashboardSpecials, SearchView.MarkdownSpecials);
  }
}

=== FILE: database.dfy ===
/** The PostgreSQL connection settings of internal/database/database.go and
    the key=value connection string they are written as. The reader side,
    `Fields` and `ParseField`, splits at spaces and at the first `=`, which
    is how a libpq-style reader takes an unquoted connection string apart. */
module Database {
  import opened Wrappers
  import opened GoStrings

  datatype Config = Config(host: string, port: int, user: string, password: string, dbName: string, sslMode: string)

  datatype Field = Field(key: string, value: string)

  function Render(f: Field): string {
    f.key + "=" + f.value
  }

  /** Rendered fields separated by single spaces. */
  function JoinRendered(fs: seq<Field>): string
    requires |fs| >= 1
  {
    Render(fs[0]) + Spaced(fs[1..])
  }

  /** Each field rendered after a single space. */
  function Spaced(fs: seq<Field>): string {
    if fs == [] then "" else " " + fs[0].key + "=" + fs[0].value + Spaced(fs[1..])
  }

  /** The fields ConnectionString writes, in order: host, port, user,
      dbname, sslmode, and the password last when there is one. */
  function ConnectionFields(cfg: Config): (fs: seq<Field>)
    ensures |fs| == if cfg.password != "" then 6 else 5
  {
    [Field("host", cfg.host), Field("port", FormatInt(cfg.port)), Field("user", cfg.user),
     Field("dbname", cfg.dbName), Field("sslmode", cfg.sslMode)] +
    (if cfg.password != "" then [Field("password", cfg.password)] else [])
  }

  /** Config.ConnectionString: the values go in verbatim, the port in
      decimal, and the password only when it is set. */
  function ConnectionString(cfg: Config): (r: string)
    ensures r == JoinRendered(ConnectionFields(cfg))
  {
    var tail := if cfg.password != "" then " password=" + cfg.password else "";
    var r := "host=" + cfg.host + (" port=" + FormatInt(cfg.port) + (" user=" + cfg.user +
             (" dbname=" + cfg.dbName + (" sslmode=" + cfg.sslMode + tail))));
    SpacedFields(cfg);
    r
  }

  lemma SpacedFields(cfg: Config)
    ensures var fs := ConnectionFields(cfg);
      var tail := if cfg.password != "" then " password=" + cfg.password else "";
      Spaced(fs[1..]) == " port=" + FormatInt(cfg.port) + (" user=" + cfg.user +
             (" dbname=" + cfg.dbName + (" sslmode=" + cfg.sslMode + tail)))
  {
    SpacedLast(cfg);
    SpacedMiddle(cfg);
  }

  lemma SpacedLast(cfg: Config)
    ensures var fs := ConnectionFields(cfg);
      Spaced(fs[4..]) == " sslmode=" + cfg.sslMode + (if cfg.password != "" then " password=" + cfg.password else "")
  {
    var fs := ConnectionFields(cfg);
    assert fs[4] == Field("sslmode", cfg.sslMode);
    assert Spaced(fs[5..]) == if cfg.password != "" then " password=" + cfg.password else "";
    SpacedStep(fs, 4, " sslmode=");
  }

  lemma SpacedMiddle(cfg: Config)
    ensures var fs := ConnectionFields(cfg);
      Spaced(fs[1..]) == " port=" + FormatInt(cfg.port) + (" user=" + cfg.user + (" dbname=" + cfg.dbName + Spaced(fs[4..])))
  {
    var fs := ConnectionFields(cfg);
    assert fs[1] == Field("port", FormatInt(cfg.port));
    assert fs[2] == Field("user", cfg.user);
    assert fs[3] == Field("dbname", cfg.dbName);
    SpacedStep(fs, 3, " dbname=");
    SpacedStep(fs, 2, " user=");
    SpacedStep(fs, 1, " port=");
  }

  /** The field at k written after a space, `lead` being its " key=". */
  lemma SpacedStep(fs: seq<Field>, k: nat, lead: string)
    requires k < |fs| && lead == " " + fs[k].key + "="
    ensures Spaced(fs[k..]) == lead + fs[k].value + Spaced(fs[k + 1..])
  {
    assert fs[k..][1..] == fs[k + 1..];
  }

  // ---------------------------------------------------------------------
  // Reading a connection string back
  // ---------------------------------------------------------------------

  /** The text between single spaces. */
  function Fields(s: string): (r: seq<string>)
    ensures |r| >= 1
    decreases |s|
  {
    if s == [] then [""]
    else if s[0] == ' ' then [""] + Fields(s[1..])
    else
      var rest := Fields(s[1..]);
      [[s[0]] + rest[0]] + rest[1..]
  }

  /** A field's key and value, split at its first `=`; None without one. */
  function ParseField(f: string): (r: Option<Field>)
    ensures r.Some? <==> '=' in f
    ensures r.Some? ==> '=' !in r.value.key && Render(r.value) == f
    decreases |f|
  {
    if f == [] then None
    else if f[0] == '=' then Some(Field("", f[1..]))
    else
      match ParseField(f[1..])
      case None => None
      case Some(p) => Some(Field([f[0]] + p.key, p.value))
  }

  function ParseFields(s: string): (r: seq<Option<Field>>)
    ensures |r| == |Fields(s)|
  {
    var fs := Fields(s);
    seq(|fs|, i requires 0 <= i < |fs| => ParseField(fs[i]))
  }

  lemma {:induction false} FieldsOfUnspaced(a: string)
    requires ' ' !in a
    ensures Fields(a) == [a]
    decreases |a|
  {
    if a != [] {
      assert a == [a[0]] + a[1..];
      FieldsOfUnspaced(a[1..]);
    }
  }

  lemma {:induction false} FieldsOfJoin(a: string, b: string)
    requires ' ' !in a
    ensures Fields(a + " " + b) == [a] + Fields(b)
    decreases |a|
  {
    var s := a + " " + b;
    if a == [] {
      assert s == " " + b && s[1..] == b;
    } else {
      assert s[0] == a[0];
      assert s[1..] == a[1..] + " " + b;
      FieldsOfJoin(a[1..], b);
      assert [a[0]] + a[1..] == a;
    }
  }

  lemma {:induction false} ParseRendered(f: Field)
    requires '=' !in f.key
    ensures ParseField(Render(f)) == Some(f)
    decreases |f.key|
  {
    var s := Render(f);
    if f.key == [] {
      assert s == "=" + f.value;
      assert s[1..] == f.value;
    } else {
      assert s[0] == f.key[0];
      assert s[1..] == Render(Field(f.key[1..], f.value));
      ParseRendered(Field(f.key[1..], f.value));
      assert [f.key[0]] + f.key[1..] == f.key;
    }
  }

  /** The fields a reader can take back unchanged: keys without `=`,
      nothing with a space. */
  predicate Readable(fs: seq<Field>) {
    forall k :: 0 <= k < |fs| ==> '=' !in fs[k].key && ' ' !in fs[k].key && ' ' !in fs[k].value
  }

  lemma {:induction false} FieldsOfSpaced(a: string, fs: seq<Field>)
    requires ' ' !in a && Readable(fs)
    ensures Fields(a + Spaced(fs)) == [a] + seq(|fs|, i requires 0 <= i < |fs| => Render(fs[i]))
    decreases |fs|
  {
    if fs == [] {
      assert a + Spaced(fs) == a;
      FieldsOfUnspaced(a);
    } else {
      var head := Render(fs[0]);
      var rest := Spaced(fs[1..]);
      assert ' ' !in head;
      SpacedCons(fs);
      assert a + (" " + (head + rest)) == a + " " + (head + rest);
      FieldsOfJoin(a, head + rest);
      FieldsOfSpaced(head, fs[1..]);
    }
  }

  lemma SpacedCons(fs: seq<Field>)
    requires fs != []
    ensures Spaced(fs) == " " + (Render(fs[0]) + Spaced(fs[1..]))
  {
  }

  /** Rendered readable fields parse back to themselves. */
  lemma JoinRenderedRoundTrip(fs: seq<Field>)
    requires |fs| >= 1 && Readable(fs)
    ensures ParseFields(JoinRendered(fs)) == seq(|fs|, i requires 0 <= i < |fs| => Some(fs[i]))
  {
    assert ' ' !in Render(fs[0]);
    FieldsOfSpaced(Render(fs[0]), fs[1..]);
    assert Fields(JoinRendered(fs)) == seq(|fs|, i requires 0 <= i < |fs| => Render(fs[i]));
    forall i | 0 <= i < |fs|
      ensures ParseField(Render(fs[i])) == Some(fs[i])
    {
      ParseRendered(fs[i]);
    }
  }

  /** One more field goes after a single space. */
  lemma {:induction false} JoinAppend(fs: seq<Field>, g: Field)
    requires |fs| >= 1
    ensures JoinRendered(fs + [g]) == JoinRendered(fs) + " " + Render(g)
  {
    assert (fs + [g])[1..] == fs[1..] + [g];
    SpacedAppend(fs[1..], g);
  }

  lemma {:induction false} SpacedAppend(fs: seq<Field>, g: Field)
    ensures Spaced(fs + [g]) == Spaced(fs) + " " + Render(g)
    decreases |fs|
  {
    if fs == [] {
      assert fs + [g] == [g];
    } else {
      assert (fs + [g])[0] == fs[0];
      assert (fs + [g])[1..] == fs[1..] + [g];
      SpacedAppend(fs[1..], g);
    }
  }

  lemma FormatIntUnspaced(n: int)
    ensures ' ' !in FormatInt(n)
  {
    var s := FormatInt(n);
    if n < 0 {
      assert s == "-" + NatToDecimal(-n);
      assert forall k :: 1 <= k < |s| ==> s[k] == NatToDecimal(-n)[k - 1];
    }
  }

  /** With no spaces in the settings, a reader gets back exactly the fields
      written, the password last and only when it is set. */
  lemma ConnectionStringRoundTrip(cfg: Config)
    requires ' ' !in cfg.host && ' ' !in cfg.user && ' ' !in cfg.dbName
    requires ' ' !in cfg.sslMode && ' ' !in cfg.password
    ensures var fs := ConnectionFields(cfg);
      ParseFields(ConnectionString(cfg)) == seq(|fs|, i requires 0 <= i < |fs| => Some(fs[i]))
  {
    FormatIntUnspaced(cfg.port);
    JoinRenderedRoundTrip(ConnectionFields(cfg));
  }

  /** The port field reads back as the port. */
  lemma PortReadsBack(cfg: Config)
    requires InInt64(cfg.port)
    ensures ConnectionFields(cfg)[1] == Field("port", FormatInt(cfg.port))
    ensures Atoi(ConnectionFields(cfg)[1].value) == Some(cfg.port)
  {
    AtoiFormatInt(cfg.port);
  }

  /** A password's text after a space is written after the rest of the string. */
  lemma PasswordTailIsLast(cfg: Config, a: string, b: string)
    requires a != "" && cfg.password == a + " " + b
    ensures ConnectionString(cfg) == ConnectionString(cfg.(password := a)) + " " + b
  {
    var fs := ConnectionFields(cfg.(password := a));
    var full := Field("password", a + " " + b);
    assert ConnectionFields(cfg) == fs[..5] + [full];
    assert fs == fs[..5] + [fs[5]];
    JoinAppend(fs[..5], fs[5]);
    JoinAppend(fs[..5], full);
    assert Render(full) == Render(fs[5]) + " " + b;
  }

  /** Values are not quoted: a password with a space in it comes out as an
      extra field without `=`, which no reader accepts. */
  lemma SpacedPasswordSplits(cfg: Config, a: string, b: string)
    requires ' ' !in cfg.host && ' ' !in cfg.user && ' ' !in cfg.dbName && ' ' !in cfg.sslMode
    requires ' ' !in a && ' ' !in b && '=' !in b && a != ""
    requires cfg.password == a + " " + b
    ensures var p := ParseFields(ConnectionString(cfg));
      |p| == 7 && p[5] == Some(Field("password", a)) && p[6].None?
  {
    var head := cfg.(password := a);
    HeadParses(head);
    PasswordTailIsLast(cfg, a, b);
    ParseFieldsAppend(ConnectionString(head), b);
  }

  lemma HeadParses(cfg: Config)
    requires ' ' !in cfg.host && ' ' !in cfg.user && ' ' !in cfg.dbName && ' ' !in cfg.sslMode
    requires ' ' !in cfg.password && cfg.password != ""
    ensures var p := ParseFields(ConnectionString(cfg));
      |p| == 6 && p[5] == Some(Field("password", cfg.password))
  {
    ConnectionStringRoundTrip(cfg);
  }

  lemma ParseFieldsAppend(s: string, b: string)
    requires ' ' !in b
    ensures ParseFields(s + " " + b) == ParseFields(s) + [ParseField(b)]
  {
    FieldsAppend(s, b);
  }

  lemma {:induction false} FieldsAppend(s: string, b: string)
    requires ' ' !in b
    ensures Fields(s + " " + b) == Fields(s) + [b]
    decreases |s|
  {
    var t := s + " " + b;
    if s == [] {
      assert t[1..] == b;
      FieldsOfUnspaced(b);
    } else {
      assert t[0] == s[0] && t[1..] == s[1..] + " " + b;
      FieldsAppend(s[1..], b);
    }
  }
}

=== FILE: gostrings.dfy ===
/** Byte-string helpers with the semantics of the Go `strings` and `strconv`
    functions the bot calls. A Dafny `char` here stands for one byte of a Go
    string: Go's `len`, slicing and byte comparisons are byte-based. */
module GoStrings {
  import opened Wrappers

  /** ASCII white space: the bytes `strings.TrimSpace` drops on its ASCII path. */
  predicate IsSpace(c: char) {
    c == ' ' || c == '\t' || c == '\n' || c == '\r' || c == '\U{000B}' || c == '\U{000C}'
  }

  /** The code points `unicode.IsSpace` accepts: ASCII white space, U+0085,
      U+00A0 and the other characters with the Unicode White_Space property. */
  predicate IsUnicodeSpace(c: char) {
    || IsSpace(c) || c == '\U{0085}' || c == '\U{00A0}' || c == '\U{1680}'
    || ('\U{2000}' <= c <= '\U{200A}')
    || c == '\U{2028}' || c == '\U{2029}' || c == '\U{202F}' || c == '\U{205F}' || c == '\U{3000}'
  }

  /** The two-byte UTF-8 forms of white space: U+0085 and U+00A0. */
  predicate IsWideSpace2(b0: char, b1: char) {
    b0 == '\U{C2}' && (b1 == '\U{85}' || b1 == '\U{A0}')
  }

  /** The three-byte UTF-8 forms of white space: U+1680, U+2000 to U+200A,
      U+2028, U+2029, U+202F, U+205F and U+3000. */
  predicate IsWideSpace3(b0: char, b1: char, b2: char) {
    || (b0 == '\U{E1}' && b1 == '\U{9A}' && b2 == '\U{80}')
    || (b0 == '\U{E2}' && b1 == '\U{80}' &&
        (('\U{80}' <= b2 <= '\U{8A}') || b2 == '\U{A8}' || b2 == '\U{A9}' || b2 == '\U{AF}'))
    || (b0 == '\U{E2}' && b1 == '\U{81}' && b2 == '\U{9F}')
    || (b0 == '\U{E3}' && b1 == '\U{80}' && b2 == '\U{80}')
  }

  /** The bytes of one white-space rune as they sit in a Go string: an ASCII
      space byte, or the two- or three-byte UTF-8 form of a wider space. */
  predicate IsSpaceRune(w: string) {
    || (|w| == 1 && IsSpace(w[0]))
    || (|w| == 2 && IsWideSpace2(w[0], w[1]))
    || (|w| == 3 && IsWideSpace3(w[0], w[1], w[2]))
  }

  /** The length of the white-space rune `s` starts with, 0 when it starts
      with none. The forms differ in their first byte, so at most one fits. */
  function SpacePrefixLen(s: string): (n: nat)
    ensures n <= |s| && n <= 3
    ensures n > 0 ==> IsSpaceRune(s[..n])
  {
    if |s| >= 1 && IsSpace(s[0]) then 1
    else if |s| >= 2 && IsWideSpace2(s[0], s[1]) then 2
    else if |s| >= 3 && IsWideSpace3(s[0], s[1], s[2]) then 3
    else 0
  }

  /** The length of the white-space rune `s` ends with, 0 when it ends with
      none. Go's backward decoding finds the same rune, since every form
      after its first byte holds only continuation bytes. */
  function SpaceSuffixLen(s: string): (n: nat)
    ensures n <= |s| && n <= 3
    ensures n > 0 ==> IsSpaceRune(s[|s| - n..])
  {
    var k := |s|;
    if k >= 1 && IsSpace(s[k - 1]) then 1
    else if k >= 2 && IsWideSpace2(s[k - 2], s[k - 1]) then 2
    else if k >= 3 && IsWideSpace3(s[k - 3], s[k - 2], s[k - 1]) then 3
    else 0
  }

  /** Drops leading white-space runes: the result is the suffix after them. */
  function TrimLeft(s: string): (r: string)
    ensures |r| <= |s| && r == s[|s| - |r|..]
    ensures SpacePrefixLen(r) == 0
    decreases |s|
  {
    var n := SpacePrefixLen(s);
    if n > 0 then
      var t := TrimLeft(s[n..]);
      assert s[n..][|s| - n - |t|..] == s[|s| - |t|..];
      t
    else s
  }

  /** Drops trailing white-space runes: the result is the prefix before them. */
  function TrimRight(s: string): (r: string)
    ensures |r| <= |s| && r == s[..|r|]
    ensures SpaceSuffixLen(r) == 0
    decreases |s|
  {
    var n := SpaceSuffixLen(s);
    if n > 0 then TrimRight(s[..|s| - n]) else s
  }

  /** `strings.TrimSpace`: leading and trailing runes that `unicode.IsSpace`
      accepts are dropped; its ASCII fast path drops the same bytes. */
  function TrimSpace(s: string): string {
    TrimRight(TrimLeft(s))
  }

  /** True when the string is empty after `strings.TrimSpace`. */
  predicate IsBlank(s: string) {
    TrimSpace(s) == ""
  }

  /** A string made of white-space runes only, read from the front. */
  predicate SpaceRunes(s: string)
    decreases |s|
  {
    s == [] || (SpacePrefixLen(s) > 0 && SpaceRunes(s[SpacePrefixLen(s)..]))
  }

  /** The rune bytes are the UTF-8 encodings of exactly the white-space code points. */
  lemma SpaceRuneIsEncodedSpace(c: char)
    ensures IsUnicodeSpace(c) <==> IsSpaceRune(EncodeRune(c))
  {
    var n := c as int;
    if n >= 0x80 && n < 0x800 {
      assert EncodeRune(c) == [(0xC0 + n / 0x40) as char, (0x80 + n % 0x40) as char];
    } else if 0x800 <= n < 0x10000 {
      assert EncodeRune(c) == [(0xE0 + n / 0x1000) as char, (0x80 + (n / 0x40) % 0x40) as char, (0x80 + n % 0x40) as char];
    }
  }

  /** A white-space rune is a whole prefix: a longer string that starts
      with it starts with the same rune. */
  lemma PrefixRuneExtends(u: string, t: string)
    requires HasPrefix(t, u) && SpacePrefixLen(u) > 0
    ensures SpacePrefixLen(t) == SpacePrefixLen(u)
  {
    var n := SpacePrefixLen(u);
    assert t[..n] == u[..n] && t[0] == u[0];
    if n >= 2 { assert t[1] == u[1]; }
    if n == 3 { assert t[2] == u[2]; }
  }

  /** Trimming the front leaves nothing exactly on a run of white space. */
  lemma {:induction false} TrimLeftEmpty(s: string)
    ensures TrimLeft(s) == [] <==> SpaceRunes(s)
    decreases |s|
  {
    var n := SpacePrefixLen(s);
    if n > 0 {
      TrimLeftEmpty(s[n..]);
    }
  }

  /** Trimming the back of a string that does not start with white space
      keeps a non-empty string that still does not. */
  lemma {:induction false} TrimRightKeepsHead(t: string)
    requires t != [] && SpacePrefixLen(t) == 0
    ensures TrimRight(t) != [] && SpacePrefixLen(TrimRight(t)) == 0
    decreases |t|
  {
    var m := SpaceSuffixLen(t);
    if m > 0 {
      var u := t[..|t| - m];
      if u == [] {
        assert false;
      }
      if SpacePrefixLen(u) > 0 {
        PrefixRuneExtends(u, t);
        assert false;
      }
      TrimRightKeepsHead(u);
    }
  }

  /** A string is blank exactly when it is white-space runes only. */
  lemma BlankIffSpaceRunes(s: string)
    ensures IsBlank(s) <==> SpaceRunes(s)
  {
    TrimLeftEmpty(s);
    var t := TrimLeft(s);
    if t != [] {
      TrimRightKeepsHead(t);
    }
  }

  lemma TrimSpaceIdempotent(s: string)
    ensures TrimSpace(TrimSpace(s)) == TrimSpace(s)
  {
    var t := TrimLeft(s);
    if t != [] {
      TrimRightKeepsHead(t);
    }
  }

  /** A string that neither starts nor ends with white space is its own trim. */
  lemma TrimUnpadded(s: string)
    requires SpacePrefixLen(s) == 0 && SpaceSuffixLen(s) == 0
    ensures TrimSpace(s) == s
  {
  }

  /** Outer ASCII bytes that are not white space leave nothing to trim. */
  lemma AsciiEdgesUnpadded(s: string)
    requires s != [] && s[0] < '\U{80}' && !IsSpace(s[0])
    requires s[|s| - 1] < '\U{80}' && !IsSpace(s[|s| - 1])
    ensures SpacePrefixLen(s) == 0 && SpaceSuffixLen(s) == 0 && TrimSpace(s) == s
  {
    AsciiHeadNoSpace(s);
    AsciiTailNoSpace(s);
  }

  lemma AsciiHeadNoSpace(s: string)
    requires s != [] && s[0] < '\U{80}' && !IsSpace(s[0])
    ensures SpacePrefixLen(s) == 0
  {
  }

  lemma AsciiTailNoSpace(s: string)
    requires s != [] && s[|s| - 1] < '\U{80}' && !IsSpace(s[|s| - 1])
    ensures SpaceSuffixLen(s) == 0
  {
  }

  /** After an ASCII byte, a non-empty tail ends in white space exactly as
      it does alone: the rune a string ends with is decided by its last bytes. */
  lemma SuffixAfterAscii(a: string, b: string)
    requires b != [] && (a != [] ==> a[|a| - 1] < '\U{80}')
    ensures SpaceSuffixLen(a + b) == SpaceSuffixLen(b)
  {
    var s := a + b;
    var n, m := |s|, |b|;
    if a == [] {
      assert s == b;
    } else if m >= 3 {
      assert s[n - 1] == b[m - 1] && s[n - 2] == b[m - 2] && s[n - 3] == b[m - 3];
      SameLastThree(s, b);
    } else if m == 2 {
      assert s[n - 1] == b[1] && s[n - 2] == b[0] && s[n - 3] == a[|a| - 1];
      AsciiBeforeTwo(s, b);
    } else {
      assert s[n - 1] == b[0] && s[n - 2] == a[|a| - 1];
      AsciiBeforeOne(s, b);
    }
  }

  lemma SameLastThree(s: string, t: string)
    requires |s| >= 3 && |t| >= 3
    requires s[|s| - 1] == t[|t| - 1] && s[|s| - 2] == t[|t| - 2] && s[|s| - 3] == t[|t| - 3]
    ensures SpaceSuffixLen(s) == SpaceSuffixLen(t)
  {
  }

  lemma AsciiBeforeTwo(s: string, t: string)
    requires |s| >= 3 && |t| == 2
    requires s[|s| - 1] == t[1] && s[|s| - 2] == t[0] && s[|s| - 3] < '\U{80}'
    ensures SpaceSuffixLen(s) == SpaceSuffixLen(t)
  {
  }

  lemma AsciiBeforeOne(s: string, t: string)
    requires |s| >= 2 && |t| == 1
    requires s[|s| - 1] == t[0] && s[|s| - 2] < '\U{80}'
    ensures SpaceSuffixLen(s) == SpaceSuffixLen(t)
  {
  }

  /** The byte `strings.ToLower` produces for an ASCII byte. */
  function LowerChar(c: char): char {
    if 'A' <= c <= 'Z' then (c as int + 32) as char else c
  }

  /** The byte `strings.ToUpper` produces for an ASCII byte. */
  function UpperChar(c: char): char {
    if 'a' <= c <= 'z' then (c as int - 32) as char else c
  }

  /** `strings.ToLower` on ASCII bytes. */
  function ToLower(s: string): (r: string)
    ensures |r| == |s|
    ensures forall i :: 0 <= i < |s| ==> r[i] == LowerChar(s[i])
  {
    seq(|s|, i requires 0 <= i < |s| => LowerChar(s[i]))
  }

  /** `strings.ToUpper` on ASCII bytes. */
  function ToUpper(s: string): (r: string)
    ensures |r| == |s|
    ensures forall i :: 0 <= i < |s| ==> r[i] == UpperChar(s[i])
  {
    seq(|s|, i requires 0 <= i < |s| => UpperChar(s[i]))
  }

  /** `strings.HasPrefix`. */
  predicate HasPrefix(s: string, p: string) {
    |p| <= |s| && s[..|p|] == p
  }

  /** A string starts with any of its leading pieces. */
  lemma PrefixOfConcat(a: string, b: string)
    ensures HasPrefix(a + b, a)
  {
    assert (a + b)[..|a|] == a;
  }

  /** `strings.Contains`. */
  predicate Contains(s: string, sub: string) {
    exists i :: 0 <= i <= |s| - |sub| && HasPrefix(s[i..], sub)
  }

  /** Lower-casing keeps every occurrence of a lower-case piece. */
  lemma ContainsLower(s: string, sub: string)
    requires ToLower(sub) == sub
    ensures Contains(s, sub) ==> Contains(ToLower(s), sub)
    ensures HasPrefix(s, sub) ==> HasPrefix(ToLower(s), sub)
  {
    if Contains(s, sub) {
      var i :| 0 <= i <= |s| - |sub| && HasPrefix(s[i..], sub);
      assert ToLower(s)[i..i + |sub|] == ToLower(s[i..i + |sub|]);
      ContainsAt(ToLower(s), sub, i);
    }
    if HasPrefix(s, sub) {
      assert ToLower(s)[..|sub|] == ToLower(s[..|sub|]);
    }
  }

  /** Lower-casing twice is lower-casing once. */
  lemma LowerIdempotent(s: string)
    ensures ToLower(ToLower(s)) == ToLower(s)
  {
    assert forall i :: 0 <= i < |s| ==> LowerChar(LowerChar(s[i])) == LowerChar(s[i]);
  }

  /** Upper-casing first does not change the lower-cased text. */
  lemma LowerOfUpper(s: string)
    ensures ToLower(ToUpper(s)) == ToLower(s)
  {
    assert forall i :: 0 <= i < |s| ==> LowerChar(UpperChar(s[i])) == LowerChar(s[i]);
  }

  /** Witness form of `Contains`: an occurrence at `i` is enough. */
  lemma ContainsAt(s: string, sub: string, i: nat)
    requires i + |sub| <= |s| && s[i..i + |sub|] == sub
    ensures Contains(s, sub)
  {
    assert HasPrefix(s[i..], sub);
  }

  /** A string contains any of its middle pieces. */
  lemma ContainsMiddle(a: string, b: string, c: string)
    ensures Contains(a + b + c, b)
  {
    var s := a + b + c;
    assert s[|a|..|a| + |b|] == b;
    ContainsAt(s, b, |a|);
  }

  /** `strings.CutPrefix`: the remainder after `p`, if `s` starts with it. */
  function CutPrefix(s: string, p: string): (r: Option<string>)
    ensures r.Some? <==> HasPrefix(s, p)
    ensures r.Some? ==> s == p + r.value
  {
    if HasPrefix(s, p) then Some(s[|p|..]) else None
  }

  /** Index of the first occurrence of `c`. */
  function IndexOf(s: string, c: char): (i: nat)
    requires c in s
    ensures i < |s| && s[i] == c && c !in s[..i]
  {
    if s[0] == c then 0 else 1 + IndexOf(s[1..], c)
  }

  /** `strings.Split` with a one-byte separator. */
  function Split(s: string, sep: char): (parts: seq<string>)
    ensures |parts| >= 1
    decreases |s|
  {
    if sep !in s then [s]
    else
      var i := IndexOf(s, sep);
      [s[..i]] + Split(s[i + 1..], sep)
  }

  /** `strings.Join`. */
  function Join(parts: seq<string>, sep: string): string {
    if |parts| == 0 then ""
    else if |parts| == 1 then parts[0]
    else parts[0] + sep + Join(parts[1..], sep)
  }

  /** Splitting the join of separator-free parts gives the parts back. */
  lemma {:induction false} SplitJoin(parts: seq<string>, sep: char)
    requires |parts| >= 1
    requires forall k :: 0 <= k < |parts| ==> sep !in parts[k]
    ensures Split(Join(parts, [sep]), sep) == parts
  {
    if |parts| == 1 {
    } else {
      var rest := Join(parts[1..], [sep]);
      var s := parts[0] + [sep] + rest;
      assert s[|parts[0]|] == sep;
      assert s[..|parts[0]|] == parts[0];
      assert sep in s;
      assert IndexOf(s, sep) == |parts[0]|;
      assert s[|parts[0]| + 1..] == rest;
      SplitJoin(parts[1..], sep);
    }
  }

  /** The smaller of two integers. */
  function Min(a: int, b: int): (r: int)
    ensures r <= a && r <= b && (r == a || r == b)
  {
    if a <= b then a else b
  }

  /** `strings.Repeat`. */
  function Repeat(s: string, n: nat): (r: string)
    ensures |r| == n * |s|
  {
    if n == 0 then "" else s + Repeat(s, n - 1)
  }

  /** `strings.Trim(s, cutset)` for a one-byte cut set. */
  function TrimChar(s: string, c: char): (r: string)
    decreases |s|
  {
    if |s| > 0 && s[0] == c then TrimChar(s[1..], c)
    else if |s| > 0 && s[|s| - 1] == c then TrimChar(s[..|s| - 1], c)
    else s
  }

  /** A `strings.NewReplacer` whose old strings are the single bytes of
      `special`, each replaced by a backslash followed by itself. */
  function Escape(s: string, special: set<char>): (r: string)
    ensures |r| == |s| + SpecialCount(s, special)
  {
    if |s| == 0 then ""
    else (if s[0] in special then ['\\', s[0]] else [s[0]]) + Escape(s[1..], special)
  }

  /** The inverse of `Escape`: drops a backslash that precedes a special byte. */
  function Unescape(s: string, special: set<char>): string
    decreases |s|
  {
    if |s| == 0 then ""
    else if |s| >= 2 && s[0] == '\\' && s[1] in special then [s[1]] + Unescape(s[2..], special)
    else [s[0]] + Unescape(s[1..], special)
  }

  /** How many bytes of `s` are special. */
  function SpecialCount(s: string, special: set<char>): nat {
    if |s| == 0 then 0
    else (if s[0] in special then 1 else 0) + SpecialCount(s[1..], special)
  }

  /** Byte `k` of `r` is special. */
  predicate SpecialAt(r: string, k: int, special: set<char>) {
    0 <= k < |r| && r[k] in special
  }

  /** Every special byte of `r` directly follows a backslash. */
  ghost predicate Guarded(r: string, special: set<char>) {
    forall k :: SpecialAt(r, k, special) ==> k > 0 && r[k - 1] == '\\'
  }

  /** A non-empty escaped string does not start with a special byte: the
      first special byte is preceded by its inserted backslash. */
  lemma {:induction false} EscapeHead(s: string, special: set<char>)
    requires |s| > 0 && '\\' !in special
    ensures |Escape(s, special)| > 0 && Escape(s, special)[0] !in special
  {
  }

  /** In an escaped string every special byte is preceded by a backslash. */
  lemma {:induction false} EscapeGuarded(s: string, special: set<char>)
    requires '\\' !in special
    ensures Guarded(Escape(s, special), special)
    decreases |s|
  {
    if |s| > 0 {
      var head := if s[0] in special then ['\\', s[0]] else [s[0]];
      var tail := Escape(s[1..], special);
      EscapeGuarded(s[1..], special);
      assert Escape(s, special) == head + tail;
      if |s| > 1 {
        EscapeHead(s[1..], special);
      }
      forall k | SpecialAt(head + tail, k, special)
        ensures k > 0 && (head + tail)[k - 1] == '\\'
      {
        if k >= |head| {
          assert SpecialAt(tail, k - |head|, special);
        }
      }
    }
  }

  /** Escaping loses nothing: unescaping restores the text, provided the
      backslash itself is not among the special bytes. */
  lemma {:induction false} UnescapeEscape(s: string, special: set<char>)
    requires '\\' !in special
    ensures Unescape(Escape(s, special), special) == s
    decreases |s|
  {
    if |s| > 0 {
      var tail := Escape(s[1..], special);
      UnescapeEscape(s[1..], special);
      if s[0] in special {
        assert Escape(s, special) == ['\\', s[0]] + tail;
        assert (['\\', s[0]] + tail)[2..] == tail;
      } else {
        assert Escape(s, special) == [s[0]] + tail;
        assert ([s[0]] + tail)[1..] == tail;
        if s[0] == '\\' && |tail| > 0 {
          EscapeHead(s[1..], special);
        }
      }
    }
  }

  /** Bytes outside `special` pass through: escaping a string without special
      bytes is the identity. */
  lemma {:induction false} EscapePlain(s: string, special: set<char>)
    requires forall k :: 0 <= k < |s| ==> s[k] !in special
    ensures Escape(s, special) == s
    decreases |s|
  {
    if |s| > 0 {
      EscapePlain(s[1..], special);
    }
  }

  // ---------------------------------------------------------------------
  // Decimal numbers (`fmt` %d and `strconv.Atoi`)
  // ---------------------------------------------------------------------

  const MinInt64: int := -0x8000_0000_0000_0000
  const MaxInt64: int := 0x7FFF_FFFF_FFFF_FFFF

  /** Go's 64-bit `int`. */
  predicate InInt64(n: int) {
    MinInt64 <= n <= MaxInt64
  }

  predicate IsDigit(c: char) {
    '0' <= c <= '9'
  }

  predicate AllDigits(s: string) {
    forall i :: 0 <= i < |s| ==> IsDigit(s[i])
  }

  function DigitChar(d: nat): (c: char)
    requires d < 10
    ensures IsDigit(c)
  {
    ('0' as int + d) as char
  }

  function DigitValue(c: char): (d: nat)
    requires IsDigit(c)
    ensures d < 10
  {
    c as int - '0' as int
  }

  /** Decimal digits of a natural number, most significant first, no leading zero. */
  function NatToDecimal(n: nat): (r: string)
    ensures |r| >= 1 && AllDigits(r)
    decreases n
  {
    if n < 10 then [DigitChar(n)] else NatToDecimal(n / 10) + [DigitChar(n % 10)]
  }

  /** `fmt.Sprintf("%d", n)`. */
  function FormatInt(n: int): string {
    if n < 0 then "-" + NatToDecimal(-n) else NatToDecimal(n)
  }

  /** `fmt.Sprintf("%02d", n)` for a non-negative `n`. */
  function Pad2(n: nat): (r: string)
    ensures |r| >= 2 && AllDigits(r)
  {
    if n < 10 then "0" + NatToDecimal(n) else NatToDecimal(n)
  }

  /** The value of a string of decimal digits. */
  function DecimalValue(s: string): nat
    requires AllDigits(s)
    decreases |s|
  {
    if |s| == 0 then 0 else DecimalValue(s[..|s| - 1]) * 10 + DigitValue(s[|s| - 1])
  }

  /** `strconv.Atoi` on a 64-bit platform: an optional sign, at least one digit,
      nothing else, and a value that fits in 64 bits. */
  function Atoi(s: string): (r: Option<int>)
    ensures r.Some? ==> InInt64(r.value)
  {
    if |s| == 0 then None
    else
      var body := if s[0] == '-' || s[0] == '+' then s[1..] else s;
      if |body| == 0 || !AllDigits(body) then None
      else
        var v: int := if s[0] == '-' then -(DecimalValue(body) as int) else DecimalValue(body);
        if InInt64(v) then Some(v) else None
  }

  lemma {:induction false} DecimalValueOfNat(n: nat)
    ensures DecimalValue(NatToDecimal(n)) == n
    decreases n
  {
    if n >= 10 {
      var p := NatToDecimal(n / 10);
      var s := p + [DigitChar(n % 10)];
      assert s[..|s| - 1] == p;
      DecimalValueOfNat(n / 10);
    }
  }

  /** Formatting then parsing a Go `int` gives it back. */
  lemma {:induction false} AtoiFormatInt(n: int)
    requires InInt64(n)
    ensures Atoi(FormatInt(n)) == Some(n)
  {
    if n < 0 {
      var d := NatToDecimal(-n);
      var s := "-" + d;
      assert s == FormatInt(n);
      assert s[0] == '-' && s[1..] == d;
      DecimalValueOfNat(-n);
      assert DecimalValue(s[1..]) == -n;
    } else {
      var s := NatToDecimal(n);
      assert s == FormatInt(n);
      assert IsDigit(s[0]);
      DecimalValueOfNat(n);
      assert DecimalValue(s) == n;
    }
  }

  /** A decimal rendering never contains a byte other than a digit or a leading minus. */
  lemma FormatIntNoByte(n: int, c: char)
    requires !IsDigit(c) && c != '-'
    ensures c !in FormatInt(n)
  {
  }

  /** `strconv.ParseBool`. */
  function ParseBool(s: string): (r: Option<bool>)
    ensures r == Some(true) <==> s in {"1", "t", "T", "TRUE", "true", "True"}
    ensures r == Some(false) <==> s in {"0", "f", "F", "FALSE", "false", "False"}
  {
    if s in {"1", "t", "T", "TRUE", "true", "True"} then Some(true)
    else if s in {"0", "f", "F", "FALSE", "false", "False"} then Some(false)
    else None
  }

  /** The value of a two-digit field is the number it was made from. */
  lemma Pad2Value(n: nat)
    ensures DecimalValue(Pad2(n)) == n
  {
    DecimalValueOfNat(n);
    if n < 10 {
      var d := NatToDecimal(n);
      assert d == [DigitChar(n)];
      assert ("0" + d)[..1] == "0";
    }
  }

  // ---------------------------------------------------------------------
  // UTF-8: Go source literals are UTF-8 byte strings
  // ---------------------------------------------------------------------

  /** The UTF-8 bytes of one code point. */
  function EncodeRune(c: char): (r: string)
    ensures 1 <= |r| <= 4
    ensures c as int < 0x80 <==> |r| == 1
    ensures c as int < 0x80 ==> r == [c]
    ensures forall k :: 0 <= k < |r| ==> r[k] as int < 0x100
  {
    var n := c as int;
    if n < 0x80 then [c]
    else if n < 0x800 then [(0xC0 + n / 0x40) as char, (0x80 + n % 0x40) as char]
    else if n < 0x10000 then
      [(0xE0 + n / 0x1000) as char, (0x80 + (n / 0x40) % 0x40) as char, (0x80 + n % 0x40) as char]
    else
      [(0xF0 + n / 0x40000) as char, (0x80 + (n / 0x1000) % 0x40) as char,
       (0x80 + (n / 0x40) % 0x40) as char, (0x80 + n % 0x40) as char]
  }

  /** A literal written in the source as text, as the bytes Go stores. */
  function Utf8(s: string): (r: string)
    ensures |r| >= |s|
    ensures (forall k :: 0 <= k < |s| ==> s[k] as int < 0x80) ==> r == s
    ensures forall k :: 0 <= k < |r| ==> r[k] as int < 0x100
  {
    if |s| == 0 then "" else EncodeRune(s[0]) + Utf8(s[1..])
  }
  /** Encoding a concatenation encodes the parts one after the other. */
  lemma {:induction false} Utf8Concat(a: string, b: string)
    ensures Utf8(a + b) == Utf8(a) + Utf8(b)
    decreases |a|
  {
    if |a| > 0 {
      assert (a + b)[0] == a[0] && (a + b)[1..] == a[1..] + b;
      Utf8Concat(a[1..], b);
      calc {
        Utf8(a + b);
        EncodeRune(a[0]) + Utf8(a[1..] + b);
        EncodeRune(a[0]) + (Utf8(a[1..]) + Utf8(b));
        (EncodeRune(a[0]) + Utf8(a[1..])) + Utf8(b);
        Utf8(a) + Utf8(b);
      }
    } else {
      assert a + b == b;
    }
  }

  /** Two escapers agree on a text whose every byte they classify alike. */
  lemma {:induction false} EscapeSameOn(s: string, a: set<char>, b: set<char>)
    requires forall k :: 0 <= k < |s| ==> (s[k] in a <==> s[k] in b)
    ensures Escape(s, a) == Escape(s, b)
    decreases |s|
  {
    if |s| > 0 {
      EscapeSameOn(s[1..], a, b);
    }
  }
}

=== FILE: modal.dfy ===
/** Reading a submitted modal: getModalInputValue and getModalSelectValue.
    The same two functions are written out in
    internal/features/dashboard/listeners/helpers.go and
    internal/features/music/commands/helpers.go; the copies are identical and
    are modelled once here. A value and a pointer to it are the same widget
    in the model. */
module Modal {
  import opened Wrappers

  /** The widgets a modal row can hold. A label wraps one inner widget. */
  datatype Widget =
    | TextInput(customID: string, value: string)
    | SelectMenu(customID: string, values: seq<string>)
    | Label(inner: Widget)
    | OtherWidget

  /** A top-level component of the submitted data: only action rows are searched. */
  datatype Component = ActionsRow(widgets: seq<Widget>) | OtherComponent

  function RowWidgets(c: Component): seq<Widget> {
    if c.ActionsRow? then c.widgets else []
  }

  /** Every widget of every action row, in order. */
  function Widgets(rows: seq<Component>): (ws: seq<Widget>)
    ensures rows == [] ==> ws == []
  {
    if rows == [] then [] else Widgets(rows[..|rows| - 1]) + RowWidgets(rows[|rows| - 1])
  }

  lemma {:induction false} WidgetsAppend(a: seq<Component>, b: seq<Component>)
    ensures Widgets(a + b) == Widgets(a) + Widgets(b)
    decreases |b|
  {
    if b == [] {
      assert a + b == a;
    } else {
      var ab, b', last := a + b, b[..|b| - 1], b[|b| - 1];
      assert ab[..|ab| - 1] == a + b' && ab[|ab| - 1] == last;
      assert Widgets(ab) == Widgets(a + b') + RowWidgets(last);
      assert Widgets(b) == Widgets(b') + RowWidgets(last);
      WidgetsAppend(a, b');
      assert (Widgets(a) + Widgets(b')) + RowWidgets(last) == Widgets(a) + (Widgets(b') + RowWidgets(last));
    }
  }

  /** A text input answers for `id` with its value. */
  function InputOf(w: Widget, id: string): (r: Option<string>)
    ensures r.Some? <==> w.TextInput? && w.customID == id
    ensures r.Some? ==> r.value == w.value
  {
    if w.TextInput? && w.customID == id then Some(w.value) else None
  }

  /** A select menu with at least one chosen value answers with the first
      of them, whether it stands alone or inside a label. */
  function SelectOf(w: Widget, id: string): (r: Option<string>)
    ensures r.Some? <==>
      || (w.SelectMenu? && w.customID == id && |w.values| > 0)
      || (w.Label? && w.inner.SelectMenu? && w.inner.customID == id && |w.inner.values| > 0)
    ensures r.Some? && w.SelectMenu? ==> r.value == w.values[0]
    ensures r.Some? && w.Label? ==> r.value == w.inner.values[0]
  {
    match w
    case SelectMenu(cid, values) => if cid == id && |values| > 0 then Some(values[0]) else None
    case Label(SelectMenu(cid, values)) => if cid == id && |values| > 0 then Some(values[0]) else None
    case _ => None
  }

  /** The answer of the first widget that has one. */
  function First(ws: seq<Widget>, pick: Widget -> Option<string>): (r: Option<string>)
    ensures r.None? <==> forall k :: 0 <= k < |ws| ==> pick(ws[k]).None?
  {
    if ws == [] then None
    else if pick(ws[0]).Some? then pick(ws[0])
    else
      var rest := First(ws[1..], pick);
      assert forall k :: 1 <= k < |ws| ==> ws[k] == ws[1..][k - 1];
      rest
  }

  lemma {:induction false} FirstAppend(a: seq<Widget>, b: seq<Widget>, pick: Widget -> Option<string>)
    ensures First(a + b, pick) == if First(a, pick).Some? then First(a, pick) else First(b, pick)
    decreases |a|
  {
    if a != [] {
      assert (a + b)[0] == a[0];
      assert (a + b)[1..] == a[1..] + b;
      FirstAppend(a[1..], b, pick);
    } else {
      assert a + b == b;
    }
  }

  /** First picks the earliest widget that answers, and nothing before it answers. */
  lemma {:induction false} FirstIsEarliest(ws: seq<Widget>, pick: Widget -> Option<string>, k: nat)
    requires k < |ws| && pick(ws[k]).Some?
    requires forall j :: 0 <= j < k ==> pick(ws[j]).None?
    ensures First(ws, pick) == pick(ws[k])
    decreases k
  {
    if k > 0 {
      assert ws[1..][k - 1] == ws[k];
      FirstIsEarliest(ws[1..], pick, k - 1);
    }
  }

  /** The loop shared by both readers: rows in order, widgets of each action
      row in order, the first answer wins. */
  method FindFirst(rows: seq<Component>, pick: Widget -> Option<string>) returns (r: Option<string>)
    ensures r == First(Widgets(rows), pick)
  {
    var i := 0;
    while i < |rows|
      invariant 0 <= i <= |rows|
      invariant First(Widgets(rows[..i]), pick).None?
    {
      var row := rows[i];
      if row.ActionsRow? {
        var answer := FindInRow(row.widgets, pick);
        if answer.Some? {
          Found(rows, i, pick);
          return answer;
        }
      }
      NextRow(rows, i, pick);
      i := i + 1;
    }
    assert rows[..i] == rows;
    return None;
  }

  /** The inner loop: the widgets of one row in order. */
  method FindInRow(ws: seq<Widget>, pick: Widget -> Option<string>) returns (r: Option<string>)
    ensures r == First(ws, pick)
  {
    var j := 0;
    while j < |ws|
      invariant 0 <= j <= |ws|
      invariant First(ws[..j], pick).None?
    {
      var answer := pick(ws[j]);
      if answer.Some? {
        FoundInRow(ws, j, pick);
        return answer;
      }
      assert ws[..j + 1] == ws[..j] + [ws[j]];
      FirstAppend(ws[..j], [ws[j]], pick);
      j := j + 1;
    }
    assert ws[..j] == ws;
    return None;
  }

  /** A row without an answer extends the answerless prefix by one. */
  lemma NextRow(rows: seq<Component>, i: nat, pick: Widget -> Option<string>)
    requires i < |rows|
    requires First(Widgets(rows[..i]), pick).None?
    requires First(RowWidgets(rows[i]), pick).None?
    ensures First(Widgets(rows[..i + 1]), pick).None?
  {
    assert rows[..i + 1][..i] == rows[..i];
    FirstAppend(Widgets(rows[..i]), RowWidgets(rows[i]), pick);
  }

  /** The first answer is in row i when no earlier row answers. */
  lemma Found(rows: seq<Component>, i: nat, pick: Widget -> Option<string>)
    requires i < |rows| && rows[i].ActionsRow?
    requires First(Widgets(rows[..i]), pick).None?
    requires First(rows[i].widgets, pick).Some?
    ensures First(Widgets(rows), pick) == First(rows[i].widgets, pick)
  {
    var ws := rows[i].widgets;
    RowSplit(rows, i);
    FirstAppend(ws, Widgets(rows[i + 1..]), pick);
    FirstAppend(Widgets(rows[..i]), ws + Widgets(rows[i + 1..]), pick);
  }

  lemma FoundInRow(ws: seq<Widget>, j: nat, pick: Widget -> Option<string>)
    requires j < |ws| && First(ws[..j], pick).None? && pick(ws[j]).Some?
    ensures First(ws, pick) == pick(ws[j])
  {
    assert ws == ws[..j] + ws[j..];
    FirstAppend(ws[..j], ws[j..], pick);
    assert ws[j..][0] == ws[j];
  }

  /** The widgets of the rows before, of row i, and of the rows after. */
  lemma RowSplit(rows: seq<Component>, i: nat)
    requires i < |rows| && rows[i].ActionsRow?
    ensures Widgets(rows) == Widgets(rows[..i]) + (rows[i].widgets + Widgets(rows[i + 1..]))
  {
    assert rows == rows[..i] + ([rows[i]] + rows[i + 1..]);
    WidgetsAppend(rows[..i], [rows[i]] + rows[i + 1..]);
    WidgetsAppend([rows[i]], rows[i + 1..]);
    assert Widgets([rows[i]]) == rows[i].widgets by {
      assert [rows[i]][..0] == [];
    }
  }

  /** getModalInputValue: the value of the first text input with the ID, or "". */
  method GetModalInputValue(rows: seq<Component>, customID: string) returns (r: string)
    ensures First(Widgets(rows), w => InputOf(w, customID)).Some? ==>
      r == First(Widgets(rows), w => InputOf(w, customID)).value
    ensures First(Widgets(rows), w => InputOf(w, customID)).None? ==> r == ""
  {
    var found := FindFirst(rows, w => InputOf(w, customID));
    r := if found.Some? then found.value else "";
  }

  /** getModalSelectValue: the first chosen value of the first matching
      select menu, direct or in a label, or "". */
  method GetModalSelectValue(rows: seq<Component>, customID: string) returns (r: string)
    ensures First(Widgets(rows), w => SelectOf(w, customID)).Some? ==>
      r == First(Widgets(rows), w => SelectOf(w, customID)).value
    ensures First(Widgets(rows), w => SelectOf(w, customID)).None? ==> r == ""
  {
    var found := FindFirst(rows, w => SelectOf(w, customID));
    r := if found.Some? then found.value else "";
  }

  /** A modal holding one row with a single matching text input reads back
      that input's value, whatever else the row holds after it. */
  lemma InputReadsBack(id: string, value: string, rest: seq<Widget>, later: seq<Component>)
    ensures First(Widgets([ActionsRow([TextInput(id, value)] + rest)] + later), w => InputOf(w, id)) == Some(value)
  {
    var rows := [ActionsRow([TextInput(id, value)] + rest)] + later;
    var pick := w => InputOf(w, id);
    FoundInRow(rows[0].widgets, 0, pick);
    Found(rows, 0, pick);
  }

  /** A select menu is found under a label exactly as it is found alone. */
  lemma LabelIsTransparent(id: string, values: seq<string>)
    ensures SelectOf(Label(SelectMenu(id, values)), id) == SelectOf(SelectMenu(id, values), id)
  {
  }
}

=== FILE: musiccommands.dfy ===
/** The music command group of internal/features/commands.go: the repeat
    and queue sub-commands and the sub-command lookup. Option values arrive
    already extracted from the interaction; the replies are named by what
    they say. */
module MusicCommands {
  import opened Wrappers
  import opened GoStrings
  import opened MusicTypes
  import QS = QueueStore
  import DC = DashboardCache
  import DashboardText
  import QueueView
  import DashboardListeners

  // ---------------------------------------------------------------------
  // Sub-command lookup
  // ---------------------------------------------------------------------

  /** discordgo's ApplicationCommandOptionSubCommand. */
  const SubCommandType := 1

  datatype CommandOption = CommandOption(kind: int, name: string)

  /** getSubcommandOption: the first option of sub-command type, if any. */
  method GetSubcommandOption(options: seq<CommandOption>) returns (r: Option<CommandOption>)
    ensures r.None? <==> forall k :: 0 <= k < |options| ==> options[k].kind != SubCommandType
    ensures r.Some? ==> r.value.kind == SubCommandType
    ensures r.Some? ==>
      exists k :: 0 <= k < |options| && options[k] == r.value && (forall j :: 0 <= j < k ==> options[j].kind != SubCommandType)
  {
    var i := 0;
    while i < |options|
      invariant 0 <= i <= |options|
      invariant forall j :: 0 <= j < i ==> options[j].kind != SubCommandType
    {
      if options[i].kind == SubCommandType {
        return Some(options[i]);
      }
      i := i + 1;
    }
    return None;
  }

  // ---------------------------------------------------------------------
  // The repeat sub-command
  // ---------------------------------------------------------------------

  /** The three choices the repeat option offers. */
  function ChoiceValue(mode: RepeatMode): string {
    if mode == RepeatTrack then "track" else if mode == RepeatQueue then "queue" else "off"
  }

  /** The mode a trimmed choice value selects; the match is exact. */
  function ParseRepeatOption(value: string): (r: Option<RepeatMode>)
    ensures r.Some? <==> value in {"off", "track", "queue"}
    ensures r.Some? ==> DashboardListeners.NamedMode(r.value)
  {
    if value == "off" then Some(RepeatNone)
    else if value == "track" then Some(RepeatTrack)
    else if value == "queue" then Some(RepeatQueue)
    else None
  }

  /** Every offered choice selects the mode it was offered for. */
  lemma ChoicesParseBack(mode: RepeatMode)
    requires DashboardListeners.NamedMode(mode)
    ensures ParseRepeatOption(ChoiceValue(mode)) == Some(mode)
  {
  }

  /** The label the confirmation names for each choice. */
  function ChoiceLabel(value: string): string {
    if value == "off" then DashboardText.LoopOffLabel
    else if value == "track" then DashboardText.LoopTrackLabel
    else DashboardText.LoopQueueLabel
  }

  datatype RepeatReply =
    | RepeatNotInGuild
    | RepeatModeMissing
    | RepeatLoadFailed
    | RepeatUnsupported
    | RepeatSaveFailed
    | RepeatSet(text: string)

  /** handleMusicRepeatSubcommand after the guild and blank-mode checks:
      `mode` is the trimmed, non-blank option value. */
  function ApplyRepeat(st: QS.Store, c: DC.Cache, guildID: string, mode: string, now: Time): (r: (RepeatReply, QS.Store, DC.Cache))
    requires guildID != ""
    ensures r.0 == RepeatLoadFailed <==> QS.GetSettings(st, guildID).Err?
    ensures r.0 == RepeatUnsupported <==> QS.GetSettings(st, guildID).Ok? && ParseRepeatOption(mode).None?
    ensures r.0.RepeatSet? <==> QS.GetSettings(st, guildID).Ok? && ParseRepeatOption(mode).Some?
    ensures !r.0.RepeatSet? ==> r.1 == st && r.2 == c
    ensures r.0.RepeatSet? ==>
      var s := QS.GetSettings(st, guildID).value;
      var chosen := s.(repeatMode := ParseRepeatOption(mode).value);
      && QS.GetSettings(r.1, guildID) == Ok(chosen)
      && r.1.queues == st.queues
      && DC.EntryOf(r.2, guildID) == DC.WithSettings(DC.EntryOf(c, guildID), chosen, now)
      && r.0.text == DashboardText.LoopLabel(chosen.repeatMode)
  {
    match QS.GetSettings(st, guildID)
    case Err(_) => (RepeatLoadFailed, st, c)
    case Ok(s) =>
      match ParseRepeatOption(mode)
      case None => (RepeatUnsupported, st, c)
      case Some(m) =>
        var chosen := s.(repeatMode := m);
        match QS.SetSettings(st, guildID, chosen)
        case Err(_) => (RepeatSaveFailed, st, c)
        case Ok(st') =>
          QS.SettingsRoundTrip(st, guildID, chosen);
          (RepeatSet(ChoiceLabel(mode)), st', DC.UpdateSettings(c, guildID, chosen, now))
  }

  /** handleMusicRepeatSubcommand. `option` is the raw option value. */
  function HandleRepeat(st: QS.Store, c: DC.Cache, guildID: string, option: string, now: Time): (r: (RepeatReply, QS.Store, DC.Cache))
    ensures guildID == "" ==> r == (RepeatNotInGuild, st, c)
    ensures guildID != "" && TrimSpace(option) == "" ==> r == (RepeatModeMissing, st, c)
    ensures guildID != "" && TrimSpace(option) != "" ==> r == ApplyRepeat(st, c, guildID, TrimSpace(option), now)
  {
    var mode := TrimSpace(option);
    if guildID == "" then (RepeatNotInGuild, st, c)
    else if mode == "" then (RepeatModeMissing, st, c)
    else ApplyRepeat(st, c, guildID, mode, now)
  }

  /** Only the repeat mode changes: shuffle and volume are written back as read. */
  lemma RepeatKeepsOtherSettings(st: QS.Store, c: DC.Cache, guildID: string, option: string, now: Time)
    requires HandleRepeat(st, c, guildID, option, now).0.RepeatSet?
    ensures var s := QS.GetSettings(st, guildID).value;
      var s' := QS.GetSettings(HandleRepeat(st, c, guildID, option, now).1, guildID).value;
      s'.shuffle == s.shuffle && s'.volume == s.volume
  {
  }

  /** Pressing the dashboard's repeat button stores what choosing the next
      mode with the command would. */
  lemma ButtonMatchesCommand(st: QS.Store, c: DC.Cache, guildID: string, now: Time)
    requires guildID != "" && QS.GetSettings(st, guildID).Ok?
    ensures var mode := QS.GetSettings(st, guildID).value.repeatMode;
      var (reply, st', c') := HandleRepeat(st, c, guildID, ChoiceValue(DashboardListeners.LoopPress(mode)), now);
      var (press, stB, cB) := DashboardListeners.HandleDashboardLoop(st, c, guildID, now);
      reply.RepeatSet? && press == DashboardListeners.LoopUpdated &&
      QS.GetSettings(st', guildID) == QS.GetSettings(stB, guildID) &&
      DC.EntryOf(c', guildID) == DC.EntryOf(cB, guildID)
  {
    var mode := QS.GetSettings(st, guildID).value.repeatMode;
    var v := ChoiceValue(DashboardListeners.LoopPress(mode));
    PressedChoice(mode);
    assert HandleRepeat(st, c, guildID, v, now) == ApplyRepeat(st, c, guildID, v, now);
  }

  /** The choice naming the pressed mode is a trimmed option value that
      selects that mode. */
  lemma PressedChoice(mode: RepeatMode)
    ensures var next := DashboardListeners.LoopPress(mode);
      var v := ChoiceValue(next);
      v != "" && TrimSpace(v) == v && ParseRepeatOption(v) == Some(next)
  {
    var next := DashboardListeners.LoopPress(mode);
    DashboardListeners.ThreePressesRestore(mode);
    ChoicesParseBack(next);
    TrimUnpadded(ChoiceValue(next));
  }

  // ---------------------------------------------------------------------
  // The queue sub-command
  // ---------------------------------------------------------------------

  const QueueDefaultLimit := 10

  /** The page size the queue sub-command asks for. */
  function QueueLimit(limit: int): (n: int)
    ensures n > 0
    ensures limit > 0 ==> n == limit
  {
    if limit <= 0 then QueueDefaultLimit else limit
  }

  datatype QueueReply =
    | QueueNotInGuild
    | QueueLoadFailed
    | QueueIsEmpty
    | QueueShown(page: QueueView.QueuePage)

  /** handleMusicQueueSubcommand: the whole queue is read and its first page shown. */
  function HandleQueue(st: QS.Store, guildID: string, limit: int): (r: QueueReply)
    ensures guildID == "" ==> r == QueueNotInGuild
    ensures guildID != "" ==> (r == QueueLoadFailed <==> QS.Check(st, guildID).Some?)
    ensures guildID != "" && QS.Check(st, guildID).None? ==>
      (r == QueueIsEmpty <==> QS.Queue(st, guildID) == [])
    ensures r.QueueShown? ==>
      && guildID != ""
      && r.page == QueueView.BuildQueueComponents(QS.Queue(st, guildID), 1, QueueLimit(limit))
      && r.page.info.page == 1
      && r.page.info.perPage == QueueView.Clamp(QueueLimit(limit), 1, QueueView.MaxPerPage)
  {
    if guildID == "" then QueueNotInGuild
    else
      match QS.List(st, guildID, 0)
      case Err(_) => QueueLoadFailed
      case Ok(items) =>
        assert items == QS.Queue(st, guildID);
        if |items| == 0 then QueueIsEmpty
        else QueueShown(QueueView.BuildQueueComponents(items, 1, QueueLimit(limit)))
  }

  /** The first page lists the first `min(limit, 25)` items, numbered from 1. */
  lemma FirstPageListsHead(st: QS.Store, guildID: string, limit: int)
    requires HandleQueue(st, guildID, limit).QueueShown?
    ensures var info := HandleQueue(st, guildID, limit).page.info;
      && info.startIndex == 0
      && var n := QueueView.Clamp(QueueLimit(limit), 1, QueueView.MaxPerPage);
      info.endIndex == if |QS.Queue(st, guildID)| < n then |QS.Queue(st, guildID)| else n
  {
  }
}

=== FILE: musicmessages.dfy ===
/** The gate of HandleMusicMessage (internal/features/music/listeners/message.go):
    which channel messages become searches. The search itself, the Discord
    replies and the delayed deletions are not part of this model. */
module MusicMessages {
  import opened Wrappers
  import opened GoStrings
  import opened MusicTypes
  import SourceHints

  /** "🎵-tunebot" in UTF-8: the name a dashboard channel gets by default. */
  const DefaultDashboardChannelName := "\U{F0}\U{9F}\U{8E}\U{B5}-tunebot"

  /** The dashboard registered for a guild. */
  datatype DashboardEntry = DashboardEntry(channelID: string, messageID: string)

  datatype Author = Author(id: string, bot: bool)

  datatype Message = Message(author: Option<Author>, guildID: string, channelID: string, content: string)

  /** What the handler does with a message: nothing, schedule its deletion
      (a slash command typed as text), or search for its content. */
  datatype Action = Ignore | DeleteLater | Search(query: string, hint: TrackSource, userID: string)

  /** The channel gate: the registered dashboard channel when there is one,
      otherwise any channel with the default dashboard name. `channelName`
      is the looked-up channel's name, None when the lookup fails. */
  predicate InDashboardChannel(m: Message, entries: map<string, DashboardEntry>, channelName: Option<string>) {
    if m.guildID in entries && entries[m.guildID].channelID != "" then entries[m.guildID].channelID == m.channelID
    else channelName == Some(DefaultDashboardChannelName)
  }

  /** A human's message in a guild's dashboard channel with some text. */
  predicate Admitted(m: Message, entries: map<string, DashboardEntry>, channelName: Option<string>) {
    && m.author.Some? && !m.author.value.bot
    && m.guildID != ""
    && InDashboardChannel(m, entries, channelName)
    && TrimSpace(m.content) != ""
  }

  /** HandleMusicMessage up to the search. */
  function HandleMusicMessage(m: Message, entries: map<string, DashboardEntry>, channelName: Option<string>): (a: Action)
    ensures !Admitted(m, entries, channelName) ==> a == Ignore
    ensures a == DeleteLater <==> Admitted(m, entries, channelName) && HasPrefix(TrimSpace(m.content), "/")
    ensures a.Search? <==>
      Admitted(m, entries, channelName) && !HasPrefix(TrimSpace(m.content), "/") && m.author.value.id != ""
    ensures a.Search? ==>
      a.query == TrimSpace(m.content) && a.userID == m.author.value.id &&
      a.hint == SourceHints.ResolveSourceHint(a.query)
  {
    ActionFor(m, entries, channelName, TrimSpace(m.content))
  }

  /** HandleMusicMessage once the message text is trimmed to `content`: only a
      human's message with a guild, in the dashboard channel and with some
      text, is acted on; a slash command is deleted, and a search needs the
      author's ID. */
  function ActionFor(m: Message, entries: map<string, DashboardEntry>, channelName: Option<string>, content: string): (a: Action)
    ensures a != Ignore ==>
      m.author.Some? && !m.author.value.bot && m.guildID != "" && InDashboardChannel(m, entries, channelName) && content != ""
    ensures a == DeleteLater <==>
      m.author.Some? && !m.author.value.bot && m.guildID != "" && InDashboardChannel(m, entries, channelName) && HasPrefix(content, "/")
    ensures a.Search? ==>
      && a.query == content && !HasPrefix(content, "/")
      && a.userID == m.author.value.id && a.userID != ""
      && a.hint == SourceHints.ResolveSourceHint(content)
  {
    if m.author.None? || m.author.value.bot || m.guildID == "" then Ignore
    else if !InDashboardChannel(m, entries, channelName) then Ignore
    else
      if content == "" then Ignore
      else if HasPrefix(content, "/") then DeleteLater
      else if m.author.value.id == "" then Ignore
      else Search(content, SourceHints.ResolveSourceHint(content), m.author.value.id)
  }

  /** A search is never for blank text or a slash command, and always has a source. */
  lemma SearchesAreWellFormed(m: Message, entries: map<string, DashboardEntry>, channelName: Option<string>)
    ensures var a := HandleMusicMessage(m, entries, channelName);
      a.Search? ==> a.query != "" && !HasPrefix(a.query, "/") && a.hint != UnknownSource && a.userID != ""
  {
  }

  /** With a registered dashboard channel the channel's name plays no part:
      only messages in that channel get through. */
  lemma RegisteredChannelDecides(m: Message, entries: map<string, DashboardEntry>, n1: Option<string>, n2: Option<string>)
    requires m.guildID in entries && entries[m.guildID].channelID != ""
    ensures HandleMusicMessage(m, entries, n1) == HandleMusicMessage(m, entries, n2)
    ensures m.channelID != entries[m.guildID].channelID ==> HandleMusicMessage(m, entries, n1) == Ignore
  {
  }

  /** Without a registered channel, a message outside a channel with the
      default dashboard name is ignored. */
  lemma UnregisteredNeedsDefaultName(m: Message, entries: map<string, DashboardEntry>, channelName: Option<string>)
    requires m.guildID !in entries || entries[m.guildID].channelID == ""
    requires channelName != Some(DefaultDashboardChannelName)
    ensures HandleMusicMessage(m, entries, channelName) == Ignore
  {
  }

  /** A message holding only a no-break space (U+00A0, bytes c2 a0) is blank
      and is ignored, as message.go:42-45 returns for it. */
  lemma NoBreakSpaceIgnored(m: Message, entries: map<string, DashboardEntry>, channelName: Option<string>)
    requires m.content == "\U{C2}\U{A0}"
    ensures HandleMusicMessage(m, entries, channelName) == Ignore
  {
    var s := m.content;
    assert SpacePrefixLen(s) == 2 && s[2..] == [];
    assert TrimLeft(s) == TrimLeft(s[2..]);
  }

  /** Outer white space around a message does not change what happens to it. */
  lemma PaddingIsIgnored(m: Message, entries: map<string, DashboardEntry>, channelName: Option<string>)
    ensures HandleMusicMessage(m.(content := TrimSpace(m.content)), entries, channelName) ==
            HandleMusicMessage(m, entries, channelName)
  {
    TrimSpaceIdempotent(m.content);
    SameTextSameAction(m.(content := TrimSpace(m.content)), m, entries, channelName);
  }

  /** The handler sees a message's text only through TrimSpace. */
  lemma SameTextSameAction(m1: Message, m2: Message, entries: map<string, DashboardEntry>, channelName: Option<string>)
    requires m1.author == m2.author && m1.guildID == m2.guildID && m1.channelID == m2.channelID
    requires TrimSpace(m1.content) == TrimSpace(m2.content)
    ensures HandleMusicMessage(m1, entries, channelName) == HandleMusicMessage(m2, entries, channelName)
  {
    var t := TrimSpace(m1.content);
    assert HandleMusicMessage(m1, entries, channelName) == ActionFor(m1, entries, channelName, t);
    assert HandleMusicMessage(m2, entries, channelName) == ActionFor(m2, entries, channelName, t);
    assert m2 == m1.(content := m2.content);
    ActionIgnoresContent(m1, m2.content, entries, channelName, t);
  }

  lemma ActionIgnoresContent(m: Message, c: string, entries: map<string, DashboardEntry>, channelName: Option<string>, t: string)
    ensures ActionFor(m.(content := c), entries, channelName, t) == ActionFor(m, entries, channelName, t)
  {
  }
}

=== FILE: musictypes.dfy ===
/** The records of internal/music/types.go and the error values of the music
    package. Go's named string types `TrackSource` and `RepeatMode` can hold any
    string (the code compares them with "" and handles unknown modes), so each
    is a one-field wrapper around its name, with the declared values as constants. */
module MusicTypes {
  import opened Wrappers

  datatype TrackSource = TrackSource(name: string)

  const YouTube := TrackSource("youtube")
  const Spotify := TrackSource("spotify")
  const SoundCloud := TrackSource("soundcloud")
  const UnknownSource := TrackSource("unknown")

  datatype RepeatMode = RepeatMode(name: string)

  const RepeatNone := RepeatMode("none")
  const RepeatTrack := RepeatMode("track")
  const RepeatQueue := RepeatMode("queue")

  /** `time.Duration`: a count of nanoseconds. */
  type Duration = int

  const Millisecond: int := 1_000_000
  const Second: int := 1_000_000_000
  const Minute: int := 60 * Second

  /** `time.Time` as nanoseconds since the Unix epoch. */
  datatype Time = Time(unixNanos: int)

  /** Go's zero time, January 1 of year 1 UTC, which `IsZero` recognises. */
  const ZeroTime := Time(-62_135_596_800 * Second)

  predicate IsZero(t: Time) {
    t == ZeroTime
  }

  /** `Time.UnixMilli`: Go floors, since the nanosecond part of a time is
      never negative. */
  function UnixMilli(t: Time): int {
    t.unixNanos / Millisecond
  }

  /** `t.Add(d)`. */
  function Add(t: Time, d: Duration): Time {
    Time(t.unixNanos + d)
  }

  /** `a.Before(b)`. */
  predicate Before(a: Time, b: Time) {
    a.unixNanos < b.unixNanos
  }

  /** `a.After(b)`. */
  predicate After(a: Time, b: Time) {
    a.unixNanos > b.unixNanos
  }

  /** `b.Sub(a)`, as `time.Since(a)` is `now.Sub(a)`. */
  function Sub(b: Time, a: Time): Duration {
    b.unixNanos - a.unixNanos
  }

  datatype Track = Track(
    id: string,
    title: string,
    url: string,
    source: TrackSource,
    duration: Duration,
    thumbnail: string,
    requestedBy: string)

  /** The zero `Track{}`. */
  const EmptyTrack := Track("", "", "", TrackSource(""), 0, "", "")

  datatype QueueItem = QueueItem(track: Track, priority: int, enqueuedAt: Time)

  datatype QueueSettings = QueueSettings(repeatMode: RepeatMode, shuffle: bool, volume: int)

  /** The settings a guild has before anything was stored: none, false, 100. */
  const DefaultSettings := QueueSettings(RepeatNone, false, 100)

  datatype PlaybackState = PlaybackState(
    track: Option<Track>,
    startedAt: Time,
    pausedAt: Option<Time>,
    position: Duration,
    volume: int,
    isPlaying: bool)

  /** The zero `PlaybackState{}`. */
  const IdleState := PlaybackState(None, ZeroTime, None, 0, 0, false)

  /** The error values of the music package. Wrapped errors (`fmt.Errorf("%w: …")`)
      are represented by the sentinel they wrap; `errors.Is` is a constructor test. */
  datatype Error =
    | ErrNoVoiceChannel
    | ErrVoiceNotConnected
    | ErrPlaybackStopped
    | ErrPlaybackSkipped
    | ErrPlaybackRestarted
    | ErrQueueEmpty
    | ErrMissingInput
    | ErrSpotifyClientNil
    | ErrResolverNil
    | ErrQueueStoreNil
    | ErrResolveFailed(detail: string)
    | ErrSpotifyResolveFailed(detail: string)
    | ErrGuildIDRequired        // "guild id is required"
    | ErrRedisClientNil         // "redis client is nil"
    | ErrSessionNil             // "discord session is nil"
    | ErrChannelIDEmpty         // "channel ID is empty"
    | ErrExternal(what: string) // a failure reported by Redis, HTTP, ffmpeg or Discord
}

=== FILE: ogg.dfy ===
/** The Ogg page demultiplexer of internal/music/player.go (syncToOggPage,
    readOggPageHeader, extractPacketsFromPage and the page loop of
    streamOpusFromOgg), as pure functions over the transcoder's output bytes.
    The page layout is that of section 6 of RFC 3533; header pages are
    recognised by the BOS flag or by the Opus identification and comment
    magic of sections 5.1 and 5.2 of RFC 7845. Version and CRC are never
    checked, and a packet left open at the end of a page is emitted as it is. */
module Ogg {
  import opened Wrappers

  /** An octet of the transcoder's output. */
  type byte = b: int | 0 <= b < 256

  /** "OggS" */
  const CapturePattern: seq<byte> := [0x4F, 0x67, 0x67, 0x53]
  /** "OpusHead" */
  const OpusHead: seq<byte> := [0x4F, 0x70, 0x75, 0x73, 0x48, 0x65, 0x61, 0x64]
  /** "OpusTags" */
  const OpusTags: seq<byte> := [0x4F, 0x70, 0x75, 0x73, 0x54, 0x61, 0x67, 0x73]

  /** Bytes of the fixed page header that follow the capture pattern. */
  const HeaderRestLength: nat := 23
  /** header_type flag: beginning of stream. */
  const BosFlag: byte := 0x02
  /** The lacing value that continues a packet into the next segment. */
  const MaxLacing: byte := 255

  /** `io.EOF` (nothing left) versus `io.ErrUnexpectedEOF` (a short read). */
  datatype ReadError = EOF | UnexpectedEOF

  /** A page as laid out on the wire, after its capture pattern. */
  datatype RawPage = RawPage(
    version: byte,
    headerType: byte,
    middle: seq<byte>,        // granule position, serial number, sequence number, CRC
    segmentTable: seq<byte>,
    body: seq<byte>)

  /** `oggPage` of the source. */
  datatype OggPage = OggPage(isHeader: bool, packets: seq<seq<byte>>)

  predicate CaptureAt(s: seq<byte>, i: int) {
    0 <= i && i + 4 <= |s| && s[i..i + 4] == CapturePattern
  }

  /** Sum of the lacing values. */
  function Sum(t: seq<byte>): nat {
    if |t| == 0 then 0 else t[0] + Sum(t[1..])
  }

  /** Concatenation of packets. */
  function Concat(ps: seq<seq<byte>>): seq<byte> {
    if |ps| == 0 then [] else ps[0] + Concat(ps[1..])
  }

  // ---------------------------------------------------------------------
  // syncToOggPage
  // ---------------------------------------------------------------------

  /** The scan of syncToOggPage from position `i`: read a byte; on 'O' peek
      three more, failing with EOF if they are not there; on "ggS" consume
      them. The result is the position just after the capture pattern. */
  function SyncFrom(s: seq<byte>, i: nat): (r: Result<nat, ReadError>)
    requires i <= |s|
    ensures r.Ok? ==> i + 4 <= r.value <= |s| && CaptureAt(s, r.value - 4)
    ensures r.Ok? ==> forall j :: i <= j < r.value - 4 ==> !CaptureAt(s, j)
    ensures r.Err? ==> r.error == EOF && forall j :: i <= j < |s| ==> !CaptureAt(s, j)
    decreases |s| - i
  {
    if i == |s| then Err(EOF)
    else if s[i] != 0x4F then
      assert !CaptureAt(s, i) by {
        if i + 4 <= |s| { assert s[i..i + 4][0] == s[i]; }
      }
      SyncFrom(s, i + 1)
    else if i + 4 > |s| then Err(EOF)
    else if s[i + 1..i + 4] == [0x67, 0x67, 0x53] then
      assert s[i..i + 4] == [s[i]] + s[i + 1..i + 4];
      Ok(i + 4)
    else
      assert !CaptureAt(s, i) by {
        assert s[i..i + 4][1..] == s[i + 1..i + 4];
      }
      SyncFrom(s, i + 1)
  }

  /** syncToOggPage on a whole stream: on success, the position just after a
      capture pattern; the only failure is EOF. */
  function SyncToOggPage(s: seq<byte>): (r: Result<nat, ReadError>)
    ensures r.Ok? ==> 4 <= r.value <= |s| && CaptureAt(s, r.value - 4)
    ensures r.Err? ==> r.error == EOF
  {
    SyncFrom(s, 0)
  }

  /** syncToOggPage consumes the input exactly through the first complete
      capture pattern, and fails when there is none. */
  lemma SyncConsumesThroughFirstCapture(s: seq<byte>)
    ensures SyncToOggPage(s).Ok? <==> exists j :: CaptureAt(s, j)
    ensures SyncToOggPage(s).Ok? ==>
      var k := SyncToOggPage(s).value;
      forall j :: 0 <= j < k - 4 ==> !CaptureAt(s, j)
  {
  }

  // ---------------------------------------------------------------------
  // readOggPageHeader
  // ---------------------------------------------------------------------

  /** `io.ReadFull` of `n` bytes at `pos`: the position after them. */
  function ReadFull(s: seq<byte>, pos: nat, n: nat): (r: Result<nat, ReadError>)
    requires pos <= |s|
    ensures r.Ok? <==> pos + n <= |s|
    ensures r.Ok? ==> r.value == pos + n
    ensures r.Err? ==> (r.error == EOF <==> pos == |s|)
  {
    if n == 0 then Ok(pos)
    else if pos == |s| then Err(EOF)
    else if pos + n > |s| then Err(UnexpectedEOF)
    else Ok(pos + n)
  }

  /** The reads of readOggPageHeader: synchronise, read the 23 header bytes,
      the segment table (page_segments long) and a body as long as the sum of
      the table. The result is the page and the position after it. */
  function ReadRawPage(s: seq<byte>): (r: Result<(RawPage, nat), ReadError>)
    ensures r.Ok? ==> 0 < r.value.1 <= |s|
    ensures SyncToOggPage(s).Err? ==> r == Err(EOF)
    ensures SyncToOggPage(s).Ok? && SyncToOggPage(s).value + HeaderRestLength > |s| ==> r.Err?
  {
    match SyncToOggPage(s)
    case Err(e) => Err(e)
    case Ok(h) =>
      match ReadFull(s, h, HeaderRestLength)
      case Err(e) => Err(e)
      case Ok(t) =>
        var pageSegments := s[h + 22];
        match ReadFull(s, t, pageSegments)
        case Err(e) => Err(e)
        case Ok(b) =>
          var table := s[t..b];
          match ReadFull(s, b, Sum(table))
          case Err(e) => Err(e)
          case Ok(e) => Ok((RawPage(s[h], s[h + 1], s[h + 2..h + 22], table, s[b..e]), e))
  }

  /** Where the fields of a page sit: header_type is the second of the 23 bytes
      after the capture pattern, page_segments the 23rd, the segment table
      follows, and the body is as long as the sum of the table. */
  lemma ReadRawPageLayout(s: seq<byte>)
    requires ReadRawPage(s).Ok?
    ensures SyncToOggPage(s).Ok?
    ensures
      var h := SyncToOggPage(s).value;
      var (p, e) := ReadRawPage(s).value;
      && h + HeaderRestLength <= |s|
      && p.headerType == s[h + 1]
      && |p.segmentTable| == s[h + 22]
      && p.segmentTable == s[h + 23..h + 23 + |p.segmentTable|]
      && |p.body| == Sum(p.segmentTable)
      && p.body == s[h + 23 + |p.segmentTable|..e]
      && WellFormed(p)
  {
  }

  /** `headerType&0x02 != 0`, on the byte's value. */
  predicate HasBosFlag(headerType: byte) {
    (headerType / BosFlag) % 2 == 1
  }

  /** The arithmetic flag test is the source's bit test `&0x02 != 0`. */
  lemma BosFlagIsBitTest(h: bv8)
    ensures (h & 0x02 != 0) <==> HasBosFlag(h as int)
  {
  }

  /** The header-page test of readOggPageHeader: the BOS flag, or a body
      opening with the Opus identification or comment magic. */
  predicate IsHeaderPage(p: RawPage): (r: bool)
    ensures HasBosFlag(p.headerType) ==> r
    ensures |p.body| >= 8 && (p.body[..8] == OpusHead || p.body[..8] == OpusTags) ==> r
    ensures !HasBosFlag(p.headerType) && |p.body| < 8 ==> !r
  {
    HasBosFlag(p.headerType)
    || (|p.body| >= 8 && (p.body[..8] == OpusHead || p.body[..8] == OpusTags))
  }

  /** readOggPageHeader: the page, classified and split into packets, and the
      position after it. */
  function ReadOggPage(s: seq<byte>): (r: Result<(OggPage, nat), ReadError>)
    ensures r.Ok? ==> 0 < r.value.1 <= |s|
  {
    match ReadRawPage(s)
    case Err(e) => Err(e)
    case Ok((p, e)) => Ok((OggPage(IsHeaderPage(p), Lace([], p.segmentTable, p.body)), e))
  }

  // ---------------------------------------------------------------------
  // extractPacketsFromPage
  // ---------------------------------------------------------------------

  function Flush(cur: seq<byte>): seq<seq<byte>> {
    if |cur| > 0 then [cur] else []
  }

  /** The packets extractPacketsFromPage emits from the segments `table` over
      `data` when `carry` holds the bytes of a packet begun by earlier
      segments: a lacing value below 255 ends the packet (an empty one is
      dropped), a segment that does not fit in the data stops the scan, and
      whatever is open at the end is emitted as a packet of its own. */
  function Lace(carry: seq<byte>, table: seq<byte>, data: seq<byte>): seq<seq<byte>>
    decreases |table|
  {
    if |table| == 0 then Flush(carry)
    else
      var size := table[0];
      if size > |data| then Flush(carry)
      else
        var cur := carry + data[..size];
        if table[0] < MaxLacing then Flush(cur) + Lace([], table[1..], data[size..])
        else Lace(cur, table[1..], data[size..])
  }

  /** Number of segments in the first packet of a table: up to and including
      the first lacing value below 255, or the whole table if there is none. */
  function GroupLength(t: seq<byte>): (g: nat)
    requires |t| > 0
    ensures 1 <= g <= |t|
    ensures forall k :: 0 <= k < g - 1 ==> t[k] == MaxLacing
    ensures t[g - 1] < MaxLacing || g == |t|
  {
    if t[0] < MaxLacing || |t| == 1 then 1 else 1 + GroupLength(t[1..])
  }

  /** Number of body bytes in the first packet of a table. */
  function GroupBytes(t: seq<byte>): (n: nat)
    requires |t| > 0
    ensures n <= Sum(t)
  {
    SumSplit(t, GroupLength(t));
    Sum(t[..GroupLength(t)])
  }

  /** Reference reassembly following section 5 of RFC 3533, confined to one
      page: split the table into groups each ended by a lacing value below 255
      (the last group may end with the table instead), and take each group's
      bytes as a packet. Unlike the RFC, which keeps zero-length packets,
      empty ones are dropped, as the code drops them. */
  function Reassemble(t: seq<byte>, d: seq<byte>): seq<seq<byte>>
    requires |d| == Sum(t)
    decreases |t|
  {
    if |t| == 0 then []
    else
      var g := GroupLength(t);
      var n := GroupBytes(t);
      SumSplit(t, g);
      Flush(d[..n]) + Reassemble(t[g..], d[n..])
  }

  lemma {:induction false} SumSplit(t: seq<byte>, k: nat)
    requires k <= |t|
    ensures Sum(t) == Sum(t[..k]) + Sum(t[k..])
    decreases k
  {
    if k > 0 {
      assert t[..k][1..] == t[1..][..k - 1];
      assert t[k..] == t[1..][k - 1..];
      SumSplit(t[1..], k - 1);
    }
  }

  /** Lace with a carry, over whole groups, is the reference reassembly. */
  lemma {:induction false} LaceGroup(c: seq<byte>, t: seq<byte>, d: seq<byte>)
    requires |t| > 0 && |d| == Sum(t)
    ensures
      var n := GroupBytes(t);
      Lace(c, t, d) == Flush(c + d[..n]) + Lace([], t[GroupLength(t)..], d[n..])
    decreases |t|
  {
    var g := GroupLength(t);
    SumSplit(t, g);
    var n := Sum(t[..g]);
    var size := t[0];
    assert size <= |d|;
    if t[0] < MaxLacing {
      assert g == 1;
      assert t[..1] == [t[0]];
      assert Sum(t[..1]) == size;
    } else if |t| == 1 {
      assert g == 1;
      assert t[..1] == t;
      assert d[..n] == d;
      assert Lace(c + d[..size], t[1..], d[size..]) == Flush(c + d[..size]);
      assert Lace([], t[g..], d[n..]) == [];
    } else {
      var t' := t[1..];
      var d' := d[size..];
      GroupContinues(t, d);
      LaceGroup(c + d[..size], t', d');
      var n' := GroupBytes(t');
      assert c + d[..size] + d'[..n'] == c + (d[..size] + d'[..n']);
    }
  }

  /** A group that goes on past a 255 is that lacing value followed by the
      group of the rest of the table. */
  lemma GroupContinues(t: seq<byte>, d: seq<byte>)
    requires |t| > 1 && t[0] == MaxLacing && |d| == Sum(t)
    ensures t[0] as int <= |d| && |d[t[0]..]| == Sum(t[1..])
    ensures var t', d' := t[1..], d[t[0]..];
      var g', n' := GroupLength(t'), GroupBytes(t');
      && n' <= |d'|
      && GroupLength(t) == 1 + g'
      && GroupBytes(t) == t[0] as int + n'
      && t'[g'..] == t[GroupLength(t)..]
      && d'[n'..] == d[GroupBytes(t)..]
      && d[..t[0]] + d'[..n'] == d[..GroupBytes(t)]
  {
    SumSplit(t, 1);
    assert t[..1] == [t[0]];
    GroupBytesStep(t);
    var n' := GroupBytes(t[1..]);
    SliceAfter(d, t[0], n');
  }

  /** The bytes of a group that goes on past a 255: that segment's, then the
      rest of the group's. */
  lemma GroupBytesStep(t: seq<byte>)
    requires |t| > 1 && t[0] == MaxLacing
    ensures GroupBytes(t) == t[0] as int + GroupBytes(t[1..])
  {
    var t' := t[1..];
    var g' := GroupLength(t');
    assert t[..1 + g'] == [t[0]] + t'[..g'];
    assert ([t[0]] + t'[..g'])[1..] == t'[..g'];
  }

  lemma SliceAfter(d: seq<byte>, a: nat, b: nat)
    requires a + b <= |d|
    ensures d[a..][b..] == d[a + b..]
    ensures d[..a] + d[a..][..b] == d[..a + b]
  {
  }

  /** The code's packet extraction agrees with the reference reassembly on any
      page whose body is as long as its lacing values say. */
  lemma {:induction false} LaceIsReassemble(t: seq<byte>, d: seq<byte>)
    requires |d| == Sum(t)
    ensures Lace([], t, d) == Reassemble(t, d)
    decreases |t|
  {
    if |t| > 0 {
      var g := GroupLength(t);
      SumSplit(t, g);
      var n := GroupBytes(t);
      LaceGroup([], t, d);
      assert [] + d[..n] == d[..n];
      LaceIsReassemble(t[g..], d[n..]);
    }
  }

  lemma {:induction false} ConcatAppend(a: seq<seq<byte>>, b: seq<seq<byte>>)
    ensures Concat(a + b) == Concat(a) + Concat(b)
    decreases |a|
  {
    if |a| == 0 {
      assert a + b == b;
    } else {
      assert (a + b)[1..] == a[1..] + b;
      ConcatAppend(a[1..], b);
    }
  }

  /** No byte is lost or duplicated: the packets, concatenated, are the carry
      followed by the page body. */
  lemma {:induction false} LaceConcat(c: seq<byte>, t: seq<byte>, d: seq<byte>)
    requires |d| == Sum(t)
    ensures Concat(Lace(c, t, d)) == c + d
    decreases |t|
  {
    if |t| == 0 {
      assert d == [];
      assert c + d == c;
    } else {
      var size := t[0];
      var cur := c + d[..size];
      var d' := d[size..];
      assert |d'| == Sum(t[1..]);
      assert cur + d' == c + d;
      if t[0] < MaxLacing {
        assert Lace(c, t, d) == Flush(cur) + Lace([], t[1..], d');
        LaceConcat([], t[1..], d');
        ConcatAppend(Flush(cur), Lace([], t[1..], d'));
        assert Concat(Flush(cur)) == cur by {
          if |cur| > 0 {
            assert Concat([cur]) == cur + Concat([]);
          }
        }
        assert [] + d' == d';
      } else {
        assert Lace(c, t, d) == Lace(cur, t[1..], d');
        LaceConcat(cur, t[1..], d');
      }
    }
  }

  /** Every emitted packet is non-empty. */
  lemma {:induction false} LaceNonEmpty(c: seq<byte>, t: seq<byte>, d: seq<byte>)
    ensures forall k :: 0 <= k < |Lace(c, t, d)| ==> |Lace(c, t, d)[k]| > 0
    decreases |t|
  {
    if |t| > 0 && t[0] <= |d| {
      var size := t[0];
      var cur := c + d[..size];
      if t[0] < MaxLacing {
        LaceNonEmpty([], t[1..], d[size..]);
      } else {
        LaceNonEmpty(cur, t[1..], d[size..]);
      }
    }
  }

  /** Every packet but one left open by earlier pages ends at a segment of its
      own, so a page yields at most one packet per lacing value, plus the
      carried one. */
  lemma {:induction false} LacePacketCount(c: seq<byte>, t: seq<byte>, d: seq<byte>)
    ensures |Lace(c, t, d)| <= |t| + (if c == [] then 0 else 1)
    decreases |t|
  {
    if |t| > 0 && t[0] <= |d| {
      var size := t[0];
      var cur := c + d[..size];
      if t[0] < MaxLacing {
        LacePacketCount([], t[1..], d[size..]);
      } else {
        LacePacketCount(cur, t[1..], d[size..]);
      }
    }
  }

  /** Lace at segment i with the data read up to `offset`. */
  lemma LaceAt(carry: seq<byte>, table: seq<byte>, data: seq<byte>, i: nat, offset: nat)
    requires i < |table| && offset <= |data|
    ensures offset + table[i] > |data| ==> Lace(carry, table[i..], data[offset..]) == Flush(carry)
    ensures offset + table[i] <= |data| ==>
      var cur := carry + data[offset..offset + table[i]];
      var rest := data[offset + table[i]..];
      Lace(carry, table[i..], data[offset..]) ==
        if table[i] < MaxLacing then Flush(cur) + Lace([], table[i + 1..], rest) else Lace(cur, table[i + 1..], rest)
  {
    var t := table[i..];
    var d := data[offset..];
    assert t[0] == table[i] && t[1..] == table[i + 1..];
    if offset + table[i] <= |data| {
      assert d[..table[i]] == data[offset..offset + table[i]];
      assert d[table[i]..] == data[offset + table[i]..];
    }
  }

  /** One segment of the loop keeps "emitted so far, then the packets of the
      rest" equal to all the packets of the page. */
  lemma ExtractStep(packets: seq<seq<byte>>, current: seq<byte>, table: seq<byte>, data: seq<byte>, i: nat, offset: nat)
    requires i < |table| && offset + table[i] <= |data|
    requires packets + Lace(current, table[i..], data[offset..]) == Lace([], table, data)
    ensures var cur := current + data[offset..offset + table[i]];
      var rest := data[offset + table[i]..];
      && (table[i] < MaxLacing && |cur| > 0 ==> (packets + [cur]) + Lace([], table[i + 1..], rest) == Lace([], table, data))
      && (table[i] < MaxLacing && |cur| == 0 ==> packets + Lace([], table[i + 1..], rest) == Lace([], table, data))
      && (table[i] >= MaxLacing ==> packets + Lace(cur, table[i + 1..], rest) == Lace([], table, data))
  {
    LaceAt(current, table, data, i, offset);
    var cur := current + data[offset..offset + table[i]];
    var later := Lace([], table[i + 1..], data[offset + table[i]..]);
    if table[i] < MaxLacing {
      if |cur| > 0 {
        assert (packets + [cur]) + later == packets + ([cur] + later);
      } else {
        assert Flush(cur) + later == later;
      }
    }
  }

  /** Where the loop stops, the open packet is all that is left to emit. */
  lemma LaceFinish(packets: seq<seq<byte>>, current: seq<byte>, table: seq<byte>, data: seq<byte>, i: nat, offset: nat)
    requires i <= |table| && offset <= |data|
    requires i == |table| || offset + table[i] > |data|
    requires packets + Lace(current, table[i..], data[offset..]) == Lace([], table, data)
    ensures packets + Flush(current) == Lace([], table, data)
  {
    if i < |table| {
      LaceAt(current, table, data, i, offset);
    } else {
      assert table[i..] == [];
    }
  }

  /** extractPacketsFromPage, written as the source's loop. */
  method ExtractPacketsFromPage(table: seq<byte>, data: seq<byte>) returns (packets: seq<seq<byte>>)
    ensures packets == Lace([], table, data)
    ensures forall k :: 0 <= k < |packets| ==> |packets[k]| > 0
    ensures |data| == Sum(table) ==> Concat(packets) == data
    ensures |data| == Sum(table) ==> packets == Reassemble(table, data)
  {
    packets := [];
    var current: seq<byte> := [];
    var offset := 0;
    var i := 0;
    while i < |table|
      invariant 0 <= i <= |table| && 0 <= offset <= |data|
      invariant packets + Lace(current, table[i..], data[offset..]) == Lace([], table, data)
    {
      var size := table[i];
      LaceAt(current, table, data, i, offset);
      if offset + size > |data| {
        break;
      }
      ExtractStep(packets, current, table, data, i, offset);
      var cur := current + data[offset..offset + size];
      if table[i] < MaxLacing {
        if |cur| > 0 {
          packets := packets + [cur];
        }
        current := [];
      } else {
        current := cur;
      }
      offset := offset + size;
      i := i + 1;
    }
    LaceFinish(packets, current, table, data, i, offset);
    if |current| > 0 {
      packets := packets + [current];
    }
    LacedPage(table, data);
  }

  /** What the packets of a whole page are: none is empty and, when the
      table accounts for every data byte, they are the page's data cut at
      packet boundaries. */
  lemma LacedPage(table: seq<byte>, data: seq<byte>)
    ensures forall k :: 0 <= k < |Lace([], table, data)| ==> |Lace([], table, data)[k]| > 0
    ensures |data| == Sum(table) ==> Concat(Lace([], table, data)) == data
    ensures |data| == Sum(table) ==> Lace([], table, data) == Reassemble(table, data)
  {
    LaceNonEmpty([], table, data);
    if |data| == Sum(table) {
      LaceConcat([], table, data);
      LaceIsReassemble(table, data);
    }
  }

  // ---------------------------------------------------------------------
  // The page loop of streamOpusFromOgg
  // ---------------------------------------------------------------------

  /** How the read loop ends: EOF is a normal end (nil), any other read error
      is returned. */
  datatype StreamEnd = CleanEnd | ReadFailed(error: ReadError)

  /** The audio packets streamOpusFromOgg hands to the voice sink, in order,
      and how the loop ends (pacing, pausing and control signals aside):
      header pages are skipped and empty packets are never sent. */
  function Demux(s: seq<byte>): (r: (seq<seq<byte>>, StreamEnd))
    ensures r.1.ReadFailed? ==> r.1.error == UnexpectedEOF
    ensures (forall j :: !CaptureAt(s, j)) ==> r == ([], CleanEnd)
    decreases |s|
  {
    match ReadOggPage(s)
    case Err(EOF) => ([], CleanEnd)
    case Err(e) => ([], ReadFailed(e))
    case Ok((page, next)) =>
      var (rest, end) := Demux(s[next..]);
      ((if page.isHeader then [] else page.packets) + rest, end)
  }

  // ---------------------------------------------------------------------
  // Pages on the wire
  // ---------------------------------------------------------------------

  predicate WellFormed(p: RawPage) {
    |p.middle| == 20 && |p.segmentTable| <= 255 && |p.body| == Sum(p.segmentTable)
  }

  /** The bytes of a page. */
  function EncodePage(p: RawPage): (r: seq<byte>)
    requires WellFormed(p)
  {
    CapturePattern + [p.version, p.headerType] + p.middle + [|p.segmentTable|]
      + p.segmentTable + p.body
  }

  /** Reading an encoded page gives the page back and stops right after it. */
  lemma ReadEncodedPage(p: RawPage, rest: seq<byte>)
    requires WellFormed(p)
    ensures ReadRawPage(EncodePage(p) + rest) == Ok((p, |EncodePage(p)|))
  {
    var n := |p.segmentTable|;
    var m := |p.body|;
    var head := CapturePattern + [p.version, p.headerType] + p.middle + [n];
    var s := EncodePage(p) + rest;
    assert |head| == 27;
    assert s == head + (p.segmentTable + (p.body + rest));
    assert s[0] == 0x4F && s[1..4] == [0x67, 0x67, 0x53];
    assert SyncFrom(s, 0) == Ok(4);
    assert ReadFull(s, 4, HeaderRestLength) == Ok(27);
    assert s[4] == p.version && s[5] == p.headerType && s[26] == n;
    assert s[6..26] == p.middle;
    assert ReadFull(s, 27, n) == Ok(27 + n);
    assert s[27..27 + n] == p.segmentTable;
    assert ReadFull(s, 27 + n, m) == Ok(27 + n + m);
    assert s[27 + n..27 + n + m] == p.body;
  }

  predicate AllWellFormed(pages: seq<RawPage>) {
    forall k :: 0 <= k < |pages| ==> WellFormed(pages[k])
  }

  function EncodePages(pages: seq<RawPage>): seq<byte>
    requires AllWellFormed(pages)
  {
    if |pages| == 0 then [] else EncodePage(pages[0]) + EncodePages(pages[1..])
  }

  /** The packets the code takes from each page of a sequence. */
  function PagePackets(pages: seq<RawPage>): seq<seq<byte>> {
    if |pages| == 0 then []
    else
      (if IsHeaderPage(pages[0]) then [] else Lace([], pages[0].segmentTable, pages[0].body))
        + PagePackets(pages[1..])
  }

  /** A stream of well-formed pages is demultiplexed page by page and ends
      cleanly. */
  lemma {:induction false} DemuxPages(pages: seq<RawPage>)
    requires AllWellFormed(pages)
    ensures Demux(EncodePages(pages)) == (PagePackets(pages), CleanEnd)
    decreases |pages|
  {
    var s := EncodePages(pages);
    if |pages| == 0 {
      assert SyncFrom(s, 0) == Err(EOF);
    } else {
      var tail := EncodePages(pages[1..]);
      ReadEncodedPage(pages[0], tail);
      assert s[|EncodePage(pages[0])|..] == tail;
      DemuxPages(pages[1..]);
    }
  }

  /** A stream holding only header pages yields no audio packet. */
  lemma {:induction false} HeaderPagesOnly(pages: seq<RawPage>)
    requires AllWellFormed(pages)
    requires forall k :: 0 <= k < |pages| ==> IsHeaderPage(pages[k])
    ensures Demux(EncodePages(pages)).0 == []
  {
    DemuxPages(pages);
    HeaderPagesHaveNoPackets(pages);
  }

  lemma {:induction false} HeaderPagesHaveNoPackets(pages: seq<RawPage>)
    requires forall k :: 0 <= k < |pages| ==> IsHeaderPage(pages[k])
    ensures PagePackets(pages) == []
    decreases |pages|
  {
    if |pages| > 0 {
      HeaderPagesHaveNoPackets(pages[1..]);
    }
  }

  // ---------------------------------------------------------------------
  // Packets that span pages
  // ---------------------------------------------------------------------

  /** Lacing that hands the still-open packet back instead of emitting it:
      the packets completed and the bytes of the packet left open. */
  function LaceOpen(carry: seq<byte>, table: seq<byte>, data: seq<byte>): (seq<seq<byte>>, seq<byte>)
    decreases |table|
  {
    if |table| == 0 then ([], carry)
    else
      var size := table[0];
      if size > |data| then ([], carry)
      else
        var cur := carry + data[..size];
        if table[0] < MaxLacing then
          var (ps, open) := LaceOpen([], table[1..], data[size..]);
          (Flush(cur) + ps, open)
        else LaceOpen(cur, table[1..], data[size..])
  }

  /** Demultiplexing that carries a packet left open at the end of a page into
      the next audio page, as section 5 of RFC 3533 lays packets out. */
  function DemuxCarried(s: seq<byte>, carry: seq<byte>): (seq<seq<byte>>, StreamEnd)
    decreases |s|
  {
    match ReadRawPage(s)
    case Err(EOF) => (Flush(carry), CleanEnd)
    case Err(e) => (Flush(carry), ReadFailed(e))
    case Ok((p, next)) =>
      if IsHeaderPage(p) then DemuxCarried(s[next..], carry)
      else
        var (ps, open) := LaceOpen(carry, p.segmentTable, p.body);
        var (rest, end) := DemuxCarried(s[next..], open);
        (ps + rest, end)
  }

  function AllTables(pages: seq<RawPage>): seq<byte> {
    if |pages| == 0 then [] else pages[0].segmentTable + AllTables(pages[1..])
  }

  function AllBodies(pages: seq<RawPage>): seq<byte> {
    if |pages| == 0 then [] else pages[0].body + AllBodies(pages[1..])
  }

  lemma {:induction false} AllBodiesLength(pages: seq<RawPage>)
    requires AllWellFormed(pages)
    ensures |AllBodies(pages)| == Sum(AllTables(pages))
    decreases |pages|
  {
    if |pages| > 0 {
      AllBodiesLength(pages[1..]);
      var t := pages[0].segmentTable + AllTables(pages[1..]);
      SumSplit(t, |pages[0].segmentTable|);
      assert t[..|pages[0].segmentTable|] == pages[0].segmentTable;
      assert t[|pages[0].segmentTable|..] == AllTables(pages[1..]);
    }
  }

  /** Lacing two tables in a row is lacing the first, keeping its open packet,
      then lacing the second from there. */
  lemma {:induction false} LaceSplit(c: seq<byte>, t1: seq<byte>, d1: seq<byte>, t2: seq<byte>, d2: seq<byte>)
    requires |d1| == Sum(t1)
    ensures Lace(c, t1 + t2, d1 + d2)
         == LaceOpen(c, t1, d1).0 + Lace(LaceOpen(c, t1, d1).1, t2, d2)
    decreases |t1|
  {
    if |t1| == 0 {
      assert t1 + t2 == t2;
      assert d1 + d2 == d2;
    } else {
      var size := t1[0];
      assert (t1 + t2)[0] == size;
      assert (t1 + t2)[1..] == t1[1..] + t2;
      assert (d1 + d2)[..size] == d1[..size];
      assert (d1 + d2)[size..] == d1[size..] + d2;
      var cur := c + d1[..size];
      if t1[0] < MaxLacing {
        LaceSplit([], t1[1..], d1[size..], t2, d2);
      } else {
        LaceSplit(cur, t1[1..], d1[size..], t2, d2);
      }
    }
  }

  /** With the carry, packet boundaries depend only on the lacing values of the
      audio pages taken together, not on where the pages break. */
  lemma {:induction false} DemuxCarriedJoinsPages(pages: seq<RawPage>, c: seq<byte>)
    requires AllWellFormed(pages)
    requires forall k :: 0 <= k < |pages| ==> !IsHeaderPage(pages[k])
    ensures DemuxCarried(EncodePages(pages), c) == (Lace(c, AllTables(pages), AllBodies(pages)), CleanEnd)
    decreases |pages|
  {
    var s := EncodePages(pages);
    if |pages| == 0 {
      assert SyncFrom(s, 0) == Err(EOF);
    } else {
      var p := pages[0];
      var tail := EncodePages(pages[1..]);
      ReadEncodedPage(p, tail);
      assert s[|EncodePage(p)|..] == tail;
      var (ps, open) := LaceOpen(c, p.segmentTable, p.body);
      DemuxCarriedJoinsPages(pages[1..], open);
      LaceSplit(c, p.segmentTable, p.body, AllTables(pages[1..]), AllBodies(pages[1..]));
    }
  }

  /** The intended packets of a stream of audio pages: the reference
      reassembly over all of their lacing values and bodies. */
  lemma DemuxCarriedIsReassembly(pages: seq<RawPage>)
    requires AllWellFormed(pages)
    requires forall k :: 0 <= k < |pages| ==> !IsHeaderPage(pages[k])
    ensures |AllBodies(pages)| == Sum(AllTables(pages))
    ensures DemuxCarried(EncodePages(pages), []).0 == Reassemble(AllTables(pages), AllBodies(pages))
  {
    AllBodiesLength(pages);
    DemuxCarriedJoinsPages(pages, []);
    LaceIsReassemble(AllTables(pages), AllBodies(pages));
  }

  /** A packet of 255 + n bytes laced as 255 bytes of `f1` closing one page
      and n bytes of `f2` opening the next. */
  function SpanningPages(n: byte, f1: byte, f2: byte): (pages: seq<RawPage>)
    ensures AllWellFormed(pages)
  {
    SumSingle(255);
    SumSingle(n);
    [AudioPage(255, f1), AudioPage(n, f2)]
  }

  /** A page of one segment of `n` copies of `fill`. */
  function AudioPage(n: byte, fill: byte): RawPage {
    RawPage(0, 0, seq(20, _ => 0), [n], seq(n, _ => fill))
  }

  lemma SumSingle(n: byte)
    ensures Sum([n]) == n
  {
    assert [n][1..] == [];
  }

  lemma SingleSegmentPacket(n: byte, fill: byte)
    requires 0 < n
    ensures !IsHeaderPage(AudioPage(n, fill)) <== fill != 0x4F
    ensures Lace([], [n], seq(n, _ => fill)) == [seq(n, _ => fill)]
    ensures LaceOpen([], [n], seq(n, _ => fill))
         == if n < MaxLacing then ([seq(n, _ => fill)], []) else ([], seq(n, _ => fill))
  {
    var b := seq(n, _ => fill);
    assert [n][1..] == [];
    assert b[..n] == b && [] + b == b;
    if fill != 0x4F && |b| >= 8 {
      assert b[..8][0] == fill;
    }
  }

  /** As written: the packet is sent to the voice connection as two frames. */
  lemma SpanningPacketIsSplit(n: byte, f1: byte, f2: byte)
    requires 0 < n && f1 != 0x4F && f2 != 0x4F
    ensures Demux(EncodePages(SpanningPages(n, f1, f2))).0
         == [seq(255, _ => f1), seq(n, _ => f2)]
  {
    var pages := SpanningPages(n, f1, f2);
    DemuxPages(pages);
    SingleSegmentPacket(255, f1);
    SingleSegmentPacket(n, f2);
    var p1, p2 := AudioPage(255, f1), AudioPage(n, f2);
    assert pages[1..] == [p2] && [p2][1..] == [];
    assert PagePackets([p2]) == Lace([], p2.segmentTable, p2.body) + PagePackets([]);
    assert PagePackets(pages) == Lace([], p1.segmentTable, p1.body) + PagePackets([p2]);
  }

  /** Corrected: the packet is sent once, whole. */
  lemma SpanningPacketIsJoined(n: byte, f1: byte, f2: byte)
    requires 0 < n && f1 != 0x4F && f2 != 0x4F
    ensures DemuxCarried(EncodePages(SpanningPages(n, f1, f2)), []).0
         == [seq(255, _ => f1) + seq(n, _ => f2)]
  {
    var pages := SpanningPages(n, f1, f2);
    SingleSegmentPacket(255, f1);
    SingleSegmentPacket(n, f2);
    DemuxCarriedJoinsPages(pages, []);
    SpanningLayout(n, f1, f2);
    SpanningLace(n, f1, f2);
  }

  /** The two spanning pages' segments and bodies, run together. */
  lemma SpanningLayout(n: byte, f1: byte, f2: byte)
    ensures AllTables(SpanningPages(n, f1, f2)) == [255, n]
    ensures AllBodies(SpanningPages(n, f1, f2)) == seq(255, _ => f1) + seq(n, _ => f2)
  {
    var pages := SpanningPages(n, f1, f2);
    var p1, p2 := AudioPage(255, f1), AudioPage(n, f2);
    assert pages[1..] == [p2] && [p2][1..] == [];
    assert AllTables([p2]) == [n] + AllTables([]);
    assert AllTables(pages) == [255] + AllTables([p2]);
    assert AllBodies([p2]) == seq(n, _ => f2) + AllBodies([]);
    assert AllBodies(pages) == seq(255, _ => f1) + AllBodies([p2]);
  }

  /** A full segment followed by a short one laces into a single packet. */
  lemma SpanningLace(n: byte, f1: byte, f2: byte)
    requires 0 < n
    ensures Lace([], [255, n], seq(255, _ => f1) + seq(n, _ => f2)) == [seq(255, _ => f1) + seq(n, _ => f2)]
  {
    var b1 := seq(255, _ => f1);
    var b2 := seq(n, _ => f2);
    SingleSegmentPacket(255, f1);
    SingleSegmentPacket(n, f2);
    SumSingle(255);
    SumSingle(n);
    LaceSplit([], [255], b1, [n], b2);
    LaceSplit(b1, [n], b2, [], []);
    assert [n] + [] == [n] && b2 + [] == b2;
    assert [255] + [n] == [255, n];
    assert [n][1..] == [];
    assert (b1 + b2)[..|b1 + b2|] == b1 + b2;
  }

}

=== FILE: player.dfy ===
/** The Player of internal/music/player.go as an immutable record: the
    capacity-1 signal channels become pending flags, the ffmpeg process, its
    pipe and the cancel functions become "held" flags, and whether a context
    has been cancelled is recorded explicitly. */
module Player {
  import opened Wrappers
  import opened MusicTypes
  import QS = QueueStore
  import Service
  import Resolver

  /** A `chan struct{}` of capacity 1: nil, or made, with a signal pending or not. */
  datatype Chan = NilChan | Chan(pending: bool)

  /** `select { case c <- struct{}{}: default: }`: a full channel drops the
      signal and a nil channel is never ready. */
  function Offer(c: Chan): (c': Chan)
    ensures c.NilChan? <==> c'.NilChan?
    ensures c'.Chan? ==> c'.pending
  {
    if c.NilChan? then c else Chan(true)
  }

  /** A non-blocking receive: whether a signal was taken, and the channel after. */
  function Take(c: Chan): (r: (bool, Chan))
    ensures r.0 <==> c.Chan? && c.pending
    ensures r.1.NilChan? <==> c.NilChan?
    ensures r.1.Chan? ==> !r.1.pending
  {
    if c.Chan? && c.pending then (true, Chan(false)) else (false, c)
  }

  /** A voice connection, identified by the channel it joined. */
  datatype VoiceConn = VoiceConn(channelID: string)

  /** The five signal channels every player is made with. */
  datatype Signals = Signals(stop: Chan, skip: Chan, pause: Chan, resume: Chan, restart: Chan)

  /** What a playing stream holds: the ffmpeg process, its stdout pipe and its
      cancel function, and the play context (whether its cancel function is
      held, and whether it has been cancelled). */
  datatype Media = Media(ffmpegCmd: bool, ffmpegStdout: bool, ffmpegCancel: bool, playCancel: bool, playCtxDone: bool)

  const NoMedia := Media(false, false, false, false, false)

  /** The worker goroutine's handle: its wake channel, whether its cancel
      function is held, whether its context has been cancelled, and `running`. */
  datatype WorkerRef = WorkerRef(wakeCh: Chan, cancel: bool, ctxDone: bool, running: bool)

  datatype Player = Player(
    guildID: string,
    hasService: bool,
    volume: int,
    hasSession: bool,
    vc: Option<VoiceConn>,
    state: PlaybackState,
    signals: Signals,
    media: Media,
    frameCount: int,
    paused: bool,
    worker: WorkerRef)

  /** The player PlayerManager.Get creates for a guild. */
  function NewPlayer(guildID: string, hasService: bool): (p: Player)
    ensures p.guildID == guildID && p.hasService == hasService && p.volume == 100
    ensures p.signals == Signals(Chan(false), Chan(false), Chan(false), Chan(false), Chan(false))
    ensures p.worker.wakeCh == NilChan && !p.worker.running && p.vc.None? && !p.paused && p.state == IdleState
  {
    Player(guildID, hasService, 100, false, None, IdleState,
           Signals(Chan(false), Chan(false), Chan(false), Chan(false), Chan(false)),
           NoMedia, 0, false, WorkerRef(NilChan, false, false, false))
  }

  /** The PlayerManager: whether it has a service, and its players by guild. */
  datatype Manager = Manager(hasService: bool, players: map<string, Player>)

  /** PlayerManager.Get: one player per guild, created on first use. */
  function Get(m: Manager, guildID: string): (r: (Player, Manager))
    ensures guildID in m.players ==> r == (m.players[guildID], m)
    ensures guildID !in m.players ==> r.0 == NewPlayer(guildID, m.hasService)
    ensures r.1.hasService == m.hasService
    ensures r.1.players.Keys == m.players.Keys + {guildID}
    ensures r.1.players[guildID] == r.0
    ensures forall g :: g in m.players ==> r.1.players[g] == m.players[g]
  {
    if guildID in m.players then (m.players[guildID], m)
    else
      var p := NewPlayer(guildID, m.hasService);
      (p, m.(players := m.players[guildID := p]))
  }

  /** A second Get for the same guild returns the same player and changes nothing. */
  lemma GetIsStable(m: Manager, guildID: string)
    ensures Get(Get(m, guildID).1, guildID) == (Get(m, guildID).0, Get(m, guildID).1)
  {
  }

  /** Players made by the manager for different guilds are distinct. */
  lemma GetSeparatesGuilds(m: Manager, g1: string, g2: string)
    requires forall g :: g in m.players ==> m.players[g].guildID == g
    requires g1 != g2
    ensures Get(m, g1).0 != Get(Get(m, g1).1, g2).0
  {
  }

  /** HasVoiceConnection. */
  predicate HasVoiceConnection(p: Player) {
    p.vc.Some?
  }

  /** Skip: a skip signal is left pending. */
  function Skip(p: Player): (r: (Option<Error>, Player))
    ensures p.signals.skip.NilChan? ==> r == (Some(ErrPlaybackStopped), p)
    ensures p.signals.skip.Chan? ==> r.0.None? && r.1 == p.(signals := p.signals.(skip := Chan(true)))
  {
    if p.signals.skip.NilChan? then (Some(ErrPlaybackStopped), p)
    else (None, p.(signals := p.signals.(skip := Offer(p.signals.skip))))
  }

  /** Everything cleanupVoiceLocked releases is released. */
  predicate Released(p: Player) {
    && !p.media.ffmpegCancel && !p.media.ffmpegCmd && !p.media.ffmpegStdout && !p.media.playCancel
    && p.vc.None? && !p.worker.cancel
  }

  /** cleanupVoiceLocked: cancels ffmpeg, kills and closes it, disconnects the
      voice connection, and fires and drops both cancel functions. */
  function Cleanup(p: Player): (p': Player)
    ensures Released(p')
    ensures p.worker.cancel ==> p'.worker.ctxDone
    ensures p.media.playCancel ==> p'.media.playCtxDone
    ensures p'.worker.running == p.worker.running && p'.worker.wakeCh == p.worker.wakeCh
    ensures p'.(vc := p.vc, media := p.media, worker := p.worker) == p
  {
    p.(vc := None,
       media := NoMedia.(playCtxDone := p.media.playCtxDone || p.media.playCancel),
       worker := p.worker.(cancel := false, ctxDone := p.worker.ctxDone || p.worker.cancel))
  }

  /** Stop: a stop signal is left pending, the guild's queue is cleared when
      asked and a service exists (a failure to clear is ignored), and the voice
      resources are released. The playback state is not touched. */
  function Stop(p: Player, clearQueue: bool, svc: Service.Service, store: QS.Store): (r: (Option<Error>, Player, QS.Store))
    ensures p.signals.stop.NilChan? ==> r == (Some(ErrPlaybackStopped), p, store)
    ensures p.signals.stop.Chan? ==> r.0.None? && Released(r.1) && r.1.signals.stop == Chan(true)
    ensures p.signals.stop.Chan? && p.worker.cancel ==> r.1.worker.ctxDone
    ensures r.1.state == p.state && r.1.paused == p.paused && r.1.worker.running == p.worker.running
    ensures !(clearQueue && p.hasService) ==> r.2 == store
    ensures p.signals.stop.Chan? && clearQueue && p.hasService ==>
      r.2 == (match Service.Clear(svc, store, p.guildID) case Ok(st) => st case Err(_) => store)
  {
    if p.signals.stop.NilChan? then (Some(ErrPlaybackStopped), p, store)
    else
      var p1 := p.(signals := p.signals.(stop := Offer(p.signals.stop)));
      var store' :=
        if clearQueue && p.hasService then
          match Service.Clear(svc, store, p.guildID) case Ok(st) => st case Err(_) => store
        else store;
      (None, Cleanup(p1), store')
  }

  /** Stopping twice is stopping once. */
  lemma StopIdempotent(p: Player, clearQueue: bool, svc: Service.Service, store: QS.Store)
    ensures
      var (_, p1, s1) := Stop(p, clearQueue, svc, store);
      var (_, p2, s2) := Stop(p1, clearQueue, svc, s1);
      p2 == p1 && s2 == s1
  {
    var (_, p1, s1) := Stop(p, clearQueue, svc, store);
    if p.signals.stop.Chan? && clearQueue && p.hasService && svc.hasQueue && Service.Clear(svc, store, p.guildID).Ok? {
      assert s1 == store.(queues := store.queues - {p.guildID});
      assert Service.Clear(svc, s1, p.guildID) == Ok(s1.(queues := s1.queues - {p.guildID}));
      assert s1.queues - {p.guildID} == s1.queues;
    }
  }

  /** The pause flag and the recorded pause time agree. */
  predicate PauseCoherent(p: Player) {
    p.state.pausedAt.Some? <==> p.paused
  }

  /** TogglePause: resuming clears the pause time and signals resume; pausing
      records `now` and signals pause. */
  function TogglePause(p: Player, now: Time): (p': Player)
    ensures p'.paused == !p.paused
    ensures PauseCoherent(p')
    ensures p'.paused ==> p'.state.pausedAt == Some(now) && p'.signals == p.signals.(pause := Offer(p.signals.pause))
    ensures !p'.paused ==> p'.signals == p.signals.(resume := Offer(p.signals.resume))
    ensures p'.state.(pausedAt := p.state.pausedAt) == p.state
    ensures p'.(paused := p.paused, state := p.state, signals := p.signals) == p
  {
    if p.paused then
      p.(paused := false, state := p.state.(pausedAt := None), signals := p.signals.(resume := Offer(p.signals.resume)))
    else
      p.(paused := true, state := p.state.(pausedAt := Some(now)), signals := p.signals.(pause := Offer(p.signals.pause)))
  }

  /** Two toggles restore the pause flag and whether a pause time is recorded. */
  lemma ToggleTwiceRestores(p: Player, t1: Time, t2: Time)
    requires PauseCoherent(p)
    ensures TogglePause(TogglePause(p, t1), t2).paused == p.paused
    ensures TogglePause(TogglePause(p, t1), t2).state.pausedAt.Some? == p.state.pausedAt.Some?
  {
  }

  /** ensureWorker: a running worker is left alone; otherwise a fresh wake
      channel and worker context are made and the worker is marked running. */
  function EnsureWorker(p: Player): (r: (bool, Player))
    ensures r.0 <==> !p.worker.running
    ensures r.1.worker.running
    ensures p.worker.running ==> r.1 == p
    ensures !p.worker.running ==> r.1 == p.(worker := WorkerRef(Chan(false), true, false, true))
  {
    if p.worker.running then (false, p)
    else (true, p.(worker := WorkerRef(Chan(false), true, false, true)))
  }

  lemma EnsureWorkerIdempotent(p: Player)
    ensures EnsureWorker(EnsureWorker(p).1) == (false, EnsureWorker(p).1)
  {
  }

  /** signalWake: a no-op before any worker was started. */
  function SignalWake(p: Player): (p': Player)
    ensures p.worker.wakeCh.NilChan? ==> p' == p
    ensures p.worker.wakeCh.Chan? ==> p'.worker.wakeCh == Chan(true)
    ensures p'.(worker := p.worker) == p && p'.worker.(wakeCh := p.worker.wakeCh) == p.worker
  {
    p.(worker := p.worker.(wakeCh := Offer(p.worker.wakeCh)))
  }

  /** How Discord is reached: finding a user's voice channel and joining one. */
  datatype Discord = Discord(
    findUserVoiceChannel: (string, string) -> Result<string, Error>,
    join: (string, string) -> Result<VoiceConn, Error>)

  /** JoinVoice. */
  function JoinVoice(p: Player, session: bool, channelID: string, d: Discord): (r: (Option<Error>, Player))
    ensures !session ==> r == (Some(ErrSessionNil), p)
    ensures session && channelID == "" ==> r == (Some(ErrChannelIDEmpty), p)
    ensures r.0.None? <==> session && channelID != "" && d.join(p.guildID, channelID).Ok?
    ensures r.0.None? ==> r.1 == p.(hasSession := true, vc := Some(d.join(p.guildID, channelID).value))
    ensures r.0.Some? ==> r.1 == p
  {
    if !session then (Some(ErrSessionNil), p)
    else if channelID == "" then (Some(ErrChannelIDEmpty), p)
    else
      match d.join(p.guildID, channelID)
      case Err(e) => (Some(e), p)
      case Ok(vc) => (None, p.(hasSession := true, vc := Some(vc)))
  }

  /** ensureVoiceConnection: an existing connection is kept; otherwise the
      user's channel is looked up and joined. */
  function EnsureVoiceConnection(p: Player, userID: string, d: Discord): (r: (Option<Error>, Player))
    ensures p.vc.Some? ==> r == (None, p)
    ensures p.vc.None? && !p.hasSession ==> r == (Some(ErrSessionNil), p)
    ensures r.0.None? ==> r.1.vc.Some? && r.1 == p.(vc := r.1.vc)
    ensures r.0.Some? ==> r.1 == p
  {
    if p.vc.Some? then (None, p)
    else if !p.hasSession then (Some(ErrSessionNil), p)
    else
      match d.findUserVoiceChannel(p.guildID, userID)
      case Err(e) => (Some(e), p)
      case Ok(channelID) =>
        match d.join(p.guildID, channelID)
        case Err(e) => (Some(e), p)
        case Ok(vc) => (None, p.(vc := Some(vc)))
  }

  /** The world the player acts on: the shared service and the queue store. */
  datatype World = World(player: Player, svc: Service.Service, store: QS.Store)

  /** A running worker always has a wake channel. */
  predicate Wired(p: Player) {
    p.worker.running ==> p.worker.wakeCh.Chan?
  }

  /** The tail of EnqueueAndPlay: connect to voice, then start and wake the worker. */
  function Attach(p: Player, userID: string, d: Discord): (r: (Option<Error>, Player))
    ensures r.0 == EnsureVoiceConnection(p, userID, d).0
    ensures r.0.Some? ==> r.1 == p
    ensures r.0.None? ==> r.1.vc.Some? && r.1.worker.running
    ensures r.0.None? && Wired(p) ==> r.1.worker.wakeCh == Chan(true)
  {
    var (verr, p2) := EnsureVoiceConnection(p, userID, d);
    if verr.Some? then (verr, p2)
    else (None, SignalWake(EnsureWorker(p2).1))
  }

  /** EnqueueAndPlay: the service and session are checked first; the track is
      resolved and enqueued before the voice connection is ensured, so a voice
      failure leaves the item queued. On success a worker runs and is woken. */
  function EnqueueAndPlay(w: World, session: bool, userID: string, input: string, hint: TrackSource, priority: int,
                          now: Time, ext: Service.Externals, d: Discord): (r: (Result<QueueItem, Error>, World))
    requires QS.Valid(w.store)
    ensures QS.Valid(r.1.store)
    ensures !w.player.hasService ==> r == (Err(ErrQueueStoreNil), w)
    ensures w.player.hasService && !session ==> r == (Err(ErrSessionNil), w)
    ensures w.player.hasService && session ==>
      && r.1.store == Service.ResolveAndEnqueue(w.svc, w.store, w.player.guildID, input, hint, userID, priority, now, ext).2
      && (Service.ResolveAndEnqueue(w.svc, w.store, w.player.guildID, input, hint, userID, priority, now, ext).0.Err? ==>
            r.0 == Service.ResolveAndEnqueue(w.svc, w.store, w.player.guildID, input, hint, userID, priority, now, ext).0)
      && (Service.ResolveAndEnqueue(w.svc, w.store, w.player.guildID, input, hint, userID, priority, now, ext).0.Ok? ==>
            (r.0.Err? <==> EnsureVoiceConnection(w.player.(hasSession := true), userID, d).0.Some?))
    ensures r.0.Ok? ==>
      && r.0.value.priority == priority && r.0.value.track.requestedBy == userID
      && r.0.value in QS.Queue(r.1.store, w.player.guildID)
      && r.1.player.vc.Some? && r.1.player.worker.running
    ensures r.0.Ok? && Wired(w.player) ==> r.1.player.worker.wakeCh == Chan(true)
  {
    var p := w.player;
    if !p.hasService then (Err(ErrQueueStoreNil), w)
    else if !session then (Err(ErrSessionNil), w)
    else
      var p1 := p.(hasSession := true);
      var enq := Service.ResolveAndEnqueue(w.svc, w.store, p.guildID, input, hint, userID, priority, now, ext);
      if enq.0.Err? then (Err(enq.0.error), World(p1, enq.1, enq.2))
      else
        var att := Attach(p1, userID, d);
        if att.0.Some? then (Err(att.0.value), World(att.1, enq.1, enq.2))
        else (Ok(enq.0.value), World(att.1, enq.1, enq.2))
  }

  /** The first half of playItem: without a voice connection nothing changes;
      otherwise the state is reset to the item, playing from 0 at the player's
      volume. The pause flag is not touched here. */
  function PlayItemStart(p: Player, item: QueueItem, now: Time): (r: (Option<Error>, Player))
    ensures p.vc.None? ==> r == (Some(ErrVoiceNotConnected), p)
    ensures p.vc.Some? ==> r.0.None? && r.1 == p.(state := PlaybackState(Some(item.track), now, None, 0, p.volume, true))
  {
    if p.vc.None? then (Some(ErrVoiceNotConnected), p)
    else (None, p.(state := PlaybackState(Some(item.track), now, None, 0, p.volume, true)))
  }

  /** playItem up to the start of streaming: the stream URL is resolved and,
      on success, the frame count, pause flag and pause time are reset and a
      fresh play context is made. */
  function PlayItem(p: Player, item: QueueItem, now: Time, parse: Resolver.UrlParser, streamRun: Resolver.YtDlpStreamRun)
    : (r: (Result<string, Error>, Player))
    ensures p.vc.None? ==> r == (Err(ErrVoiceNotConnected), p)
    ensures p.vc.Some? ==>
      && r.1.state.track == Some(item.track) && r.1.state.isPlaying && r.1.state.volume == p.volume
      && r.1.state.position == 0 && r.1.state.startedAt == now && r.1.state.pausedAt.None?
    ensures r.0.Ok? <==> p.vc.Some? && Resolver.ResolveStreamURL(item.track.url, item.track.source, parse, streamRun).Ok?
    ensures r.0.Ok? ==>
      && r.0.value == Resolver.ResolveStreamURL(item.track.url, item.track.source, parse, streamRun).value
      && r.1.frameCount == 0 && !r.1.paused && PauseCoherent(r.1) && r.1.media.playCancel && !r.1.media.playCtxDone
    ensures p.vc.Some? && r.0.Err? ==> r.1.paused == p.paused
  {
    var (e, p1) := PlayItemStart(p, item, now);
    if e.Some? then (Err(e.value), p1)
    else
      match Resolver.ResolveStreamURL(item.track.url, item.track.source, parse, streamRun)
      case Err(err) => (Err(err), p1)
      case Ok(url) =>
        (Ok(url), p1.(frameCount := 0, paused := false, state := p1.state.(pausedAt := None),
                      media := p1.media.(playCancel := true, playCtxDone := false)))
  }

  /** A paused player whose next stream lookup fails stays paused with no
      pause time recorded, so the state reads as not paused. */
  lemma FailedPlayLeavesPauseUnrecorded(p: Player, item: QueueItem, now: Time, parse: Resolver.UrlParser,
                                        streamRun: Resolver.YtDlpStreamRun)
    requires p.vc.Some? && p.paused
    requires Resolver.ResolveStreamURL(item.track.url, item.track.source, parse, streamRun).Err?
    ensures PlayItem(p, item, now, parse, streamRun).1.paused
    ensures PlayItem(p, item, now, parse, streamRun).1.state.pausedAt.None?
    ensures !PauseCoherent(PlayItem(p, item, now, parse, streamRun).1)
  {
  }

  /** The frame period of the Opus stream: 20 ms. */
  const FrameDuration: Duration := 20 * Millisecond

  /** One packet handed to the voice connection: the frame count advances and
      the position is recomputed from it. */
  function SendFrame(p: Player): (p': Player)
    ensures p'.frameCount == p.frameCount + 1
    ensures p'.state.position == p'.frameCount * FrameDuration
    ensures p'.(frameCount := p.frameCount, state := p.state) == p
    ensures p'.state.(position := p.state.position) == p.state
  {
    var n := p.frameCount + 1;
    p.(frameCount := n, state := p.state.(position := n * FrameDuration))
  }

  function SendFrames(p: Player, n: nat): (p': Player)
    decreases n
  {
    if n == 0 then p else SendFrame(SendFrames(p, n - 1))
  }

  /** After a play starts, n frames sent put the position at n times 20 ms. */
  lemma {:induction false} PositionCountsFrames(p: Player, n: nat)
    requires p.frameCount == 0 && p.state.position == 0
    ensures SendFrames(p, n).frameCount == n
    ensures SendFrames(p, n).state.position == n * FrameDuration
    ensures SendFrames(p, n).state.track == p.state.track
    decreases n
  {
    if n > 0 {
      PositionCountsFrames(p, n - 1);
    }
  }
}

=== FILE: queuestore.dfy ===
/** The Redis-backed queue of internal/music/queue.go. Each guild's queue is a
    sorted set whose member is the JSON payload of a QueueItem and whose score
    is `priority * 10^12 + enqueuedAt in milliseconds`; here it is the
    sequence of items in ascending score, and JSON encoding is taken to be
    injective (equal payloads are equal items). Settings live in a per-guild
    string hash with three fields. */
module QueueStore {
  import opened Wrappers
  import opened GoStrings
  import opened MusicTypes

  const PriorityWeight: int := 1_000_000_000_000
  const QueueKeyPrefix := "music:queue:"
  const SettingsKeyPrefix := "music:settings:"

  const RepeatModeField := "repeat_mode"
  const ShuffleField := "shuffle"
  const VolumeField := "volume"

  /** The store's view of Redis: whether a client can be had (ensureClient),
      the sorted set per guild and the settings hash per guild. A guild
      without a key has an empty queue and an empty hash. */
  datatype Store = Store(
    clientAvailable: bool,
    queues: map<string, seq<QueueItem>>,
    hashes: map<string, map<string, string>>)

  function Queue(st: Store, guildID: string): seq<QueueItem> {
    if guildID in st.queues then st.queues[guildID] else []
  }

  function Hash(st: Store, guildID: string): map<string, string> {
    if guildID in st.hashes then st.hashes[guildID] else map[]
  }

  /** The score of a stored item. */
  function Score(item: QueueItem): int {
    item.priority * PriorityWeight + UnixMilli(item.enqueuedAt)
  }

  /** buildScore: a zero timestamp is replaced by `now` before scoring. */
  function BuildScore(priority: int, enqueuedAt: Time, now: Time): (score: int)
    ensures !IsZero(enqueuedAt) ==> score == Score(QueueItem(EmptyTrack, priority, enqueuedAt))
    ensures IsZero(enqueuedAt) ==> score == Score(QueueItem(EmptyTrack, priority, now))
  {
    var t := if IsZero(enqueuedAt) then now else enqueuedAt;
    priority * PriorityWeight + UnixMilli(t)
  }

  /** A well-formed sorted set: no member twice, ascending score. */
  predicate ValidQueue(q: seq<QueueItem>) {
    && (forall i, j :: 0 <= i < j < |q| ==> q[i] != q[j])
    && (forall i, j :: 0 <= i < j < |q| ==> Score(q[i]) <= Score(q[j]))
  }

  predicate Valid(st: Store) {
    forall g :: g in st.queues ==> ValidQueue(st.queues[g])
  }

  /** ZADD of a new member: placed after every member whose score is not
      greater. */
  function Insert(q: seq<QueueItem>, item: QueueItem): (r: seq<QueueItem>)
    requires ValidQueue(q) && item !in q
    ensures ValidQueue(r)
    ensures multiset(r) == multiset(q) + multiset{item}
  {
    if |q| == 0 then [item]
    else if Score(item) < Score(q[0]) then
      ConsValid(item, q);
      [item] + q
    else
      assert q == [q[0]] + q[1..];
      var rest := Insert(q[1..], item);
      InsertStep(q, item, rest);
      [q[0]] + rest
  }

  lemma ConsValid(x: QueueItem, q: seq<QueueItem>)
    requires ValidQueue(q)
    requires forall k :: 0 <= k < |q| ==> q[k] != x && Score(x) <= Score(q[k])
    ensures ValidQueue([x] + q)
  {
    var r := [x] + q;
    forall i, j | 0 <= i < j < |r|
      ensures r[i] != r[j] && Score(r[i]) <= Score(r[j])
    {
      if i > 0 {
        assert r[i] == q[i - 1] && r[j] == q[j - 1];
      }
    }
  }

  lemma InsertStep(q: seq<QueueItem>, item: QueueItem, rest: seq<QueueItem>)
    requires ValidQueue(q) && |q| > 0 && item !in q && Score(q[0]) <= Score(item)
    requires ValidQueue(rest) && multiset(rest) == multiset(q[1..]) + multiset{item}
    ensures ValidQueue([q[0]] + rest)
  {
    forall k | 0 <= k < |rest|
      ensures rest[k] != q[0] && Score(q[0]) <= Score(rest[k])
    {
      assert rest[k] in multiset(rest);
      if rest[k] != item {
        assert rest[k] in multiset(q[1..]);
        var j :| 0 <= j < |q[1..]| && q[1..][j] == rest[k];
        assert rest[k] == q[j + 1];
      }
    }
    ConsValid(q[0], rest);
  }

  /** The head of a sorted set has the least score; the rest stays sorted. */
  lemma PopFront(q: seq<QueueItem>)
    requires ValidQueue(q) && |q| > 0
    ensures forall x :: x in q ==> Score(q[0]) <= Score(x)
    ensures ValidQueue(q[1..])
    ensures multiset(q[1..]) + multiset{q[0]} == multiset(q)
  {
    assert q == [q[0]] + q[1..];
    forall x | x in q
      ensures Score(q[0]) <= Score(x)
    {
      var j :| 0 <= j < |q| && q[j] == x;
      if j > 0 {
        assert Score(q[0]) <= Score(q[j]);
      }
    }
  }

  lemma UpdateValid(st: Store, guildID: string, q: seq<QueueItem>)
    requires Valid(st) && ValidQueue(q)
    ensures Valid(st.(queues := st.queues[guildID := q]))
  {
  }

  /** The `ensureClient` then `guild id is required` prologue of every store
      operation. */
  function Check(st: Store, guildID: string): Option<Error> {
    if !st.clientAvailable then Some(ErrRedisClientNil)
    else if guildID == "" then Some(ErrGuildIDRequired)
    else None
  }

  /** Enqueue: stamp a zero EnqueuedAt with `now`, then ZADD. Adding a payload
      that is already a member with the same score leaves the set as it was. */
  function Enqueue(st: Store, guildID: string, item: QueueItem, now: Time): (r: Result<Store, Error>)
    requires Valid(st)
    ensures r.Ok? <==> Check(st, guildID).None?
    ensures r.Err? ==> r.error == Check(st, guildID).value
    ensures r.Ok? ==> Valid(r.value)
    ensures r.Ok? ==>
      var stamped := if IsZero(item.enqueuedAt) then item.(enqueuedAt := now) else item;
      && multiset(Queue(r.value, guildID)) == multiset(Queue(st, guildID)) + (if stamped in Queue(st, guildID) then multiset{} else multiset{stamped})
      && (forall g :: g != guildID ==> Queue(r.value, g) == Queue(st, g))
      && r.value.hashes == st.hashes && r.value.clientAvailable == st.clientAvailable
    ensures r.Ok? ==>
      var stamped := if IsZero(item.enqueuedAt) then item.(enqueuedAt := now) else item;
      stamped in Queue(r.value, guildID) && Score(stamped) == BuildScore(item.priority, item.enqueuedAt, now)
  {
    if Check(st, guildID).Some? then Err(Check(st, guildID).value)
    else
      var stamped := if IsZero(item.enqueuedAt) then item.(enqueuedAt := now) else item;
      var q := Queue(st, guildID);
      if stamped in q then Ok(st)
      else Ok(st.(queues := st.queues[guildID := Insert(q, stamped)]))
  }

  /** Dequeue: ZPOPMIN. */
  function Dequeue(st: Store, guildID: string): (r: Result<(QueueItem, Store), Error>)
    requires Valid(st)
    ensures r.Err? <==> Check(st, guildID).Some? || Queue(st, guildID) == []
    ensures r.Err? ==> r.error == if Check(st, guildID).Some? then Check(st, guildID).value else ErrQueueEmpty
    ensures r.Ok? ==> forall x :: x in Queue(st, guildID) ==> Score(r.value.0) <= Score(x)
    ensures r.Ok? ==> multiset(Queue(r.value.1, guildID)) + multiset{r.value.0} == multiset(Queue(st, guildID))
    ensures r.Ok? ==> Valid(r.value.1)
    ensures r.Ok? ==> forall g :: g != guildID ==> Queue(r.value.1, g) == Queue(st, g)
  {
    if Check(st, guildID).Some? then Err(Check(st, guildID).value)
    else
      var q := Queue(st, guildID);
      if |q| == 0 then Err(ErrQueueEmpty)
      else
        PopFront(q);
        UpdateValid(st, guildID, q[1..]);
        Ok((q[0], st.(queues := st.queues[guildID := q[1..]])))
  }

  /** DequeueRandom: the script removes the member at a random index; `pick`
      stands for the random draw, reduced to the set's size. */
  function DequeueRandom(st: Store, guildID: string, pick: nat): (r: Result<(QueueItem, Store), Error>)
    requires Valid(st)
    ensures r.Err? <==> Check(st, guildID).Some? || Queue(st, guildID) == []
    ensures r.Err? ==> r.error == if Check(st, guildID).Some? then Check(st, guildID).value else ErrQueueEmpty
    ensures r.Ok? ==>
      var (item, st') := r.value;
      && item == Queue(st, guildID)[pick % |Queue(st, guildID)|]
      && item !in Queue(st', guildID)
      && multiset(Queue(st', guildID)) + multiset{item} == multiset(Queue(st, guildID))
      && |Queue(st', guildID)| == |Queue(st, guildID)| - 1
      && Valid(st')
      && (forall g :: g != guildID ==> Queue(st', g) == Queue(st, g))
      && st'.hashes == st.hashes && st'.clientAvailable == st.clientAvailable
  {
    if Check(st, guildID).Some? then Err(Check(st, guildID).value)
    else
      var q := Queue(st, guildID);
      if |q| == 0 then Err(ErrQueueEmpty)
      else
        var idx := pick % |q|;
        var q' := RemoveAt(q, idx);
        UpdateValid(st, guildID, q');
        Ok((q[idx], st.(queues := st.queues[guildID := q'])))
  }

  /** ZREM of the member at `idx`: the rest keep their order, and the
      removed member, being unique, is gone. */
  function RemoveAt(q: seq<QueueItem>, idx: nat): (r: seq<QueueItem>)
    requires ValidQueue(q) && idx < |q|
    ensures ValidQueue(r)
    ensures q[idx] !in r
    ensures multiset(r) + multiset{q[idx]} == multiset(q)
    ensures |r| == |q| - 1
  {
    var r := q[..idx] + q[idx + 1..];
    assert q == q[..idx] + [q[idx]] + q[idx + 1..];
    assert forall i | 0 <= i < |r| :: r[i] == q[if i < idx then i else i + 1];
    r
  }

  /** Peek: ZRANGE 0 0. */
  function Peek(st: Store, guildID: string): (r: Result<QueueItem, Error>)
    requires Valid(st)
    ensures r.Ok? ==> r.value in Queue(st, guildID)
  {
    if Check(st, guildID).Some? then Err(Check(st, guildID).value)
    else
      var q := Queue(st, guildID);
      if |q| == 0 then Err(ErrQueueEmpty) else Ok(q[0])
  }

  /** List: ZRANGE 0 stop with stop = limit - 1, or -1 (to the end) when
      limit is not positive. */
  function List(st: Store, guildID: string, limit: int): (r: Result<seq<QueueItem>, Error>)
    ensures r.Ok? <==> Check(st, guildID).None?
    ensures r.Ok? ==>
      && |r.value| == (if 0 < limit < |Queue(st, guildID)| then limit else |Queue(st, guildID)|)
      && r.value == Queue(st, guildID)[..|r.value|]
  {
    if Check(st, guildID).Some? then Err(Check(st, guildID).value)
    else
      var q := Queue(st, guildID);
      var stop := if limit > 0 then limit - 1 else -1;
      if stop < 0 || stop >= |q| then Ok(q) else Ok(q[..stop + 1])
  }

  /** QueueSize: ZCARD. */
  function QueueSize(st: Store, guildID: string): (r: Result<int, Error>)
    ensures r.Ok? <==> Check(st, guildID).None?
    ensures r.Ok? ==> r.value == |List(st, guildID, 0).value|
  {
    if Check(st, guildID).Some? then Err(Check(st, guildID).value)
    else Ok(|Queue(st, guildID)|)
  }

  /** Clear: DEL of the guild's queue key. */
  function Clear(st: Store, guildID: string): (r: Result<Store, Error>)
    ensures r.Ok? <==> Check(st, guildID).None?
    ensures r.Ok? ==> Queue(r.value, guildID) == []
    ensures r.Ok? ==> forall g :: g != guildID ==> Queue(r.value, g) == Queue(st, g)
    ensures r.Ok? ==> r.value.hashes == st.hashes
  {
    if Check(st, guildID).Some? then Err(Check(st, guildID).value)
    else Ok(st.(queues := st.queues - {guildID}))
  }

  lemma ClearPreservesValid(st: Store, guildID: string)
    requires Valid(st) && Clear(st, guildID).Ok?
    ensures Valid(Clear(st, guildID).value)
  {
  }

  // ---------------------------------------------------------------------
  // Settings hash codec
  // ---------------------------------------------------------------------

  /** The default-filling parse of GetSettings: a present, non-empty field
      overrides its default; shuffle is true only for "true"; a volume that
      does not parse keeps 100. */
  function DecodeSettings(h: map<string, string>): (r: QueueSettings)
    ensures r.repeatMode == (if RepeatModeField in h && h[RepeatModeField] != "" then RepeatMode(h[RepeatModeField]) else DefaultSettings.repeatMode)
    ensures r.shuffle == (ShuffleField in h && h[ShuffleField] == "true")
    ensures r.volume == (if VolumeField in h && Atoi(h[VolumeField]).Some? then Atoi(h[VolumeField]).value else DefaultSettings.volume)
    ensures r.repeatMode.name != ""
  {
    var repeat := if RepeatModeField in h && h[RepeatModeField] != "" then RepeatMode(h[RepeatModeField]) else RepeatNone;
    var shuffle := if ShuffleField in h && h[ShuffleField] != "" then h[ShuffleField] == "true" else false;
    var volume :=
      if VolumeField in h && h[VolumeField] != "" && Atoi(h[VolumeField]).Some? then Atoi(h[VolumeField]).value
      else 100;
    QueueSettings(repeat, shuffle, volume)
  }

  /** The three fields SetSettings writes: the mode's name, `%t` and `%d`. */
  function EncodeSettings(s: QueueSettings): (h: map<string, string>)
    ensures h.Keys == {RepeatModeField, ShuffleField, VolumeField}
  {
    map[RepeatModeField := s.repeatMode.name,
        ShuffleField := if s.shuffle then "true" else "false",
        VolumeField := FormatInt(s.volume)]
  }

  function GetSettings(st: Store, guildID: string): (r: Result<QueueSettings, Error>)
    ensures r.Ok? <==> Check(st, guildID).None?
    ensures r.Ok? && Hash(st, guildID) == map[] ==> r.value == DefaultSettings
    ensures r.Ok? ==> r.value.repeatMode.name != "" && InInt64(r.value.volume)
  {
    if Check(st, guildID).Some? then Err(Check(st, guildID).value)
    else Ok(DecodeSettings(Hash(st, guildID)))
  }

  /** SetSettings: HSET of the three fields over whatever the hash holds. */
  function SetSettings(st: Store, guildID: string, s: QueueSettings): (r: Result<Store, Error>)
    ensures r.Ok? <==> Check(st, guildID).None?
    ensures r.Ok? ==> r.value.queues == st.queues
    ensures r.Ok? ==> forall k :: k in Hash(st, guildID) && k !in EncodeSettings(s) ==> k in Hash(r.value, guildID) && Hash(r.value, guildID)[k] == Hash(st, guildID)[k]
    ensures r.Ok? ==> forall k :: k in EncodeSettings(s) ==> k in Hash(r.value, guildID) && Hash(r.value, guildID)[k] == EncodeSettings(s)[k]
    ensures r.Ok? ==> forall g :: g != guildID ==> Hash(r.value, g) == Hash(st, g)
    ensures r.Ok? ==> r.value.clientAvailable == st.clientAvailable
  {
    if Check(st, guildID).Some? then Err(Check(st, guildID).value)
    else Ok(st.(hashes := st.hashes[guildID := Hash(st, guildID) + EncodeSettings(s)]))
  }

  /** GetSettings reads back what SetSettings wrote, whenever the repeat mode
      is non-empty (an empty one reads back as none) and the volume fits a Go
      int. */
  lemma {:induction false} SettingsRoundTrip(st: Store, guildID: string, s: QueueSettings)
    requires Check(st, guildID).None?
    requires s.repeatMode.name != "" && InInt64(s.volume)
    ensures GetSettings(SetSettings(st, guildID, s).value, guildID) == Ok(s)
  {
    var h := Hash(SetSettings(st, guildID, s).value, guildID);
    assert h[VolumeField] == FormatInt(s.volume);
    AtoiFormatInt(s.volume);
    assert h[ShuffleField] == (if s.shuffle then "true" else "false");
  }

  /** An empty repeat mode is not stored faithfully: it reads back as none. */
  lemma EmptyRepeatModeReadsAsNone(st: Store, guildID: string, s: QueueSettings)
    requires Check(st, guildID).None? && s.repeatMode.name == ""
    ensures GetSettings(SetSettings(st, guildID, s).value, guildID).value.repeatMode == RepeatNone
  {
  }

  // ---------------------------------------------------------------------
  // Ordering
  // ---------------------------------------------------------------------

  /** A lower priority value is served first whenever the two timestamps are
      less than 10^12 ms (about 31 years) apart. */
  lemma LowerPriorityFirst(a: QueueItem, b: QueueItem)
    requires a.priority < b.priority
    requires -PriorityWeight < UnixMilli(a.enqueuedAt) - UnixMilli(b.enqueuedAt) < PriorityWeight
    ensures Score(a) < Score(b)
  {
  }

  /** Equal priorities are served in timestamp order. */
  lemma EqualPriorityFifo(a: QueueItem, b: QueueItem)
    requires a.priority == b.priority
    ensures Score(a) <= Score(b) <==> UnixMilli(a.enqueuedAt) <= UnixMilli(b.enqueuedAt)
  {
  }

  /** Peek returns what Dequeue would return, and fails exactly when it does,
      with the same error. */
  lemma PeekIsDequeueHead(st: Store, guildID: string)
    requires Valid(st)
    ensures Peek(st, guildID).Ok? <==> Dequeue(st, guildID).Ok?
    ensures Peek(st, guildID).Ok? ==> Peek(st, guildID).value == Dequeue(st, guildID).value.0
    ensures Peek(st, guildID).Err? ==> Peek(st, guildID).error == Dequeue(st, guildID).error
  {
  }

  /** Dequeue, Peek and DequeueRandom all report ErrQueueEmpty on an empty
      queue. */
  lemma EmptyQueueErrors(st: Store, guildID: string, pick: nat)
    requires Valid(st) && Check(st, guildID).None? && Queue(st, guildID) == []
    ensures Dequeue(st, guildID) == Err(ErrQueueEmpty)
    ensures Peek(st, guildID) == Err(ErrQueueEmpty)
    ensures DequeueRandom(st, guildID, pick) == Err(ErrQueueEmpty)
  {
  }

  /** Every operation rejects an empty guild ID once a client is available. */
  lemma EmptyGuildRejected(st: Store, item: QueueItem, now: Time, pick: nat, limit: int, s: QueueSettings)
    requires Valid(st) && st.clientAvailable
    ensures Enqueue(st, "", item, now) == Err(ErrGuildIDRequired)
    ensures Dequeue(st, "") == Err(ErrGuildIDRequired)
    ensures DequeueRandom(st, "", pick) == Err(ErrGuildIDRequired)
    ensures Peek(st, "") == Err(ErrGuildIDRequired)
    ensures List(st, "", limit) == Err(ErrGuildIDRequired)
    ensures QueueSize(st, "") == Err(ErrGuildIDRequired)
    ensures Clear(st, "") == Err(ErrGuildIDRequired)
    ensures GetSettings(st, "") == Err(ErrGuildIDRequired)
    ensures SetSettings(st, "", s) == Err(ErrGuildIDRequired)
  {
  }

  /** After Clear the queue size is zero. */
  lemma ClearEmptiesQueue(st: Store, guildID: string)
    requires Clear(st, guildID).Ok?
    ensures QueueSize(Clear(st, guildID).value, guildID) == Ok(0)
  {
  }

  /** Two items enqueued into an empty queue come out lowest score first. On
      a tie the one enqueued first comes out first: that is the model's
      insertion-order rule for equal scores (Insert), which stands in for the
      byte order of the members Redis uses. */
  lemma {:induction false} TwoEnqueuesDequeueOrder(st: Store, guildID: string, a: QueueItem, b: QueueItem, now: Time)
    requires Valid(st) && Check(st, guildID).None? && Queue(st, guildID) == []
    requires !IsZero(a.enqueuedAt) && !IsZero(b.enqueuedAt) && a != b
    ensures
      var st1 := Enqueue(st, guildID, a, now).value;
      var st2 := Enqueue(st1, guildID, b, now).value;
      Dequeue(st2, guildID).Ok? &&
      Dequeue(st2, guildID).value.0 == (if Score(b) < Score(a) then b else a)
  {
    var st1 := Enqueue(st, guildID, a, now).value;
    assert Queue(st1, guildID) == [a];
    var st2 := Enqueue(st1, guildID, b, now).value;
    assert Queue(st2, guildID) == Insert([a], b);
    assert [a][1..] == [];
  }
}

=== FILE: queueview.dfy ===
/** Queue pagination and the page-button custom IDs of
    internal/features/music/queueview/queueview.go. */
module QueueView {
  import opened Wrappers
  import opened GoStrings
  import opened MusicTypes

  const CustomIDPrefix := "music_queue_page"
  const DefaultPerPage := 10
  const MaxPerPage := 25
  /** "알 수 없는 제목" in UTF-8. */
  const UntitledPlaceholder := "\U{EC}\U{95}\U{8C} \U{EC}\U{88}\U{98} \U{EC}\U{97}\U{86}\U{EB}\U{8A}\U{94} \U{EC}\U{A0}\U{9C}\U{EB}\U{AA}\U{A9}"
  /** "대기열이 비어 있습니다." in UTF-8. */
  const EmptyQueueText := "\U{EB}\U{8C}\U{80}\U{EA}\U{B8}\U{B0}\U{EC}\U{97}\U{B4}\U{EC}\U{9D}\U{B4} \U{EB}\U{B9}\U{84}\U{EC}\U{96}\U{B4} \U{EC}\U{9E}\U{88}\U{EC}\U{8A}\U{B5}\U{EB}\U{8B}\U{88}\U{EB}\U{8B}\U{A4}."

  /** clamp: the lower bound wins when the bounds cross. */
  function Clamp(value: int, lo: int, hi: int): (r: int)
    ensures lo <= hi ==> lo <= r <= hi
    ensures lo <= value <= hi ==> r == value
    ensures value < lo ==> r == lo
    ensures lo <= hi < value ==> r == hi
  {
    if value < lo then lo else if value > hi then hi else value
  }

  datatype PageInfo = PageInfo(page: int, perPage: int, totalItems: int, totalPages: int, startIndex: int, endIndex: int)

  /** ⌈a / b⌉ for a non-negative numerator and a positive denominator. */
  function CeilDiv(a: nat, b: nat): (q: nat)
    requires b > 0
    ensures a == 0 ==> q == 0
    ensures a > 0 ==> q >= 1 && (q - 1) * b < a <= q * b
  {
    var q := (a + b - 1) / b;
    var r := (a + b - 1) % b;
    assert a + b - 1 == q * b + r && 0 <= r < b;
    assert (q - 1) * b == q * b - b;
    q
  }

  lemma MulMono(a: int, b: int, c: nat)
    requires a <= b
    ensures a * c <= b * c
  {
  }

  /** The paging arithmetic of BuildQueueComponents. */
  function Paginate(total: nat, page: int, perPage: int): (info: PageInfo)
    ensures info.totalItems == total
    ensures perPage <= 0 ==> info.perPage == DefaultPerPage
    ensures perPage > 0 ==> info.perPage == Clamp(perPage, 1, MaxPerPage)
    ensures 1 <= info.perPage <= MaxPerPage
    ensures total == 0 ==> info.totalPages == 1
    ensures total > 0 ==> (info.totalPages - 1) * info.perPage < total <= info.totalPages * info.perPage
    ensures 1 <= info.page <= info.totalPages
    ensures 1 <= page <= info.totalPages ==> info.page == page
    ensures info.startIndex == (info.page - 1) * info.perPage
    ensures 0 <= info.startIndex <= info.endIndex <= total
    ensures info.endIndex - info.startIndex <= info.perPage
    ensures info.page < info.totalPages ==> info.endIndex - info.startIndex == info.perPage
  {
    var pp := Clamp(if perPage <= 0 then DefaultPerPage else perPage, 1, MaxPerPage);
    var totalPages := if total == 0 then 1 else CeilDiv(total, pp);
    var pg := Clamp(page, 1, totalPages);
    var start := (pg - 1) * pp;
    var end := if start + pp < total then start + pp else total;
    PageWindow(total, pp, totalPages, pg);
    PageInfo(pg, pp, total, totalPages, start, end)
  }

  /** A page that exists starts inside the items, and every page but the
      last is full. */
  lemma PageWindow(total: nat, pp: int, totalPages: int, pg: int)
    requires 1 <= pp && 1 <= pg <= totalPages
    requires total == 0 ==> totalPages == 1
    requires total > 0 ==> (totalPages - 1) * pp < total
    ensures 0 <= (pg - 1) * pp <= total
    ensures pg < totalPages ==> (pg - 1) * pp + pp <= total
  {
    MulMono(0, pg - 1, pp);
    if total > 0 {
      MulMono(pg - 1, totalPages - 1, pp);
      if pg < totalPages {
        MulMono(pg, totalPages - 1, pp);
        assert (pg - 1) * pp + pp == pg * pp;
      }
    }
  }

  /** The title shown for an item: trimmed, with a placeholder for a blank one. */
  function DisplayTitle(t: Track): (r: string)
    ensures r != ""
    ensures IsBlank(t.title) ==> r == UntitledPlaceholder
    ensures !IsBlank(t.title) ==> r == TrimSpace(t.title)
  {
    var title := TrimSpace(t.title);
    if title == "" then UntitledPlaceholder else title
  }

  /** One numbered line: a Markdown link when the track has a URL. */
  function Line(index: int, item: QueueItem): (r: string)
    ensures HasPrefix(r, FormatInt(index) + ". ")
  {
    var title := DisplayTitle(item.track);
    var body := if item.track.url != "" then "[" + title + "](" + item.track.url + ")" else title;
    assert (FormatInt(index) + ". " + body)[..|FormatInt(index) + ". "|] == FormatInt(index) + ". ";
    FormatInt(index) + ". " + body
  }

  /** After the number, the line is the display title, linked as
      `[title](url)` when the track has a URL. */
  lemma LineShape(index: int, item: QueueItem)
    ensures item.track.url != "" ==>
      Line(index, item) == FormatInt(index) + ". " + ("[" + DisplayTitle(item.track) + "](" + item.track.url + ")")
    ensures item.track.url == "" ==> Line(index, item) == FormatInt(index) + ". " + DisplayTitle(item.track)
  {
  }

  /** A line shows the track's display title, and its URL when it has one. */
  lemma LineShowsTitleAndLink(index: int, item: QueueItem)
    ensures Contains(Line(index, item), DisplayTitle(item.track))
    ensures item.track.url != "" ==> Contains(Line(index, item), item.track.url)
  {
    var head := FormatInt(index) + ". ";
    var title := DisplayTitle(item.track);
    LineShape(index, item);
    if item.track.url != "" {
      LinkParts(head, title, item.track.url);
    } else {
      ContainsMiddle(head, title, "");
      assert head + title + "" == head + title;
    }
  }

  lemma LinkParts(head: string, title: string, url: string)
    ensures Contains(head + ("[" + title + "](" + url + ")"), title)
    ensures Contains(head + ("[" + title + "](" + url + ")"), url)
  {
    var r := head + ("[" + title + "](" + url + ")");
    assert r == (head + "[") + title + ("](" + url + ")");
    ContainsMiddle(head + "[", title, "](" + url + ")");
    assert r == (head + "[" + title + "](") + url + ")";
    ContainsMiddle(head + "[" + title + "](", url, ")");
  }

  /** The lines for items[start..end]: the k-th carries the number
      start + k + 1, so a page's lines are numbered start+1 .. end. */
  function Lines(items: seq<QueueItem>, start: nat, end: nat): (r: seq<string>)
    requires start <= end <= |items|
    ensures |r| == end - start
    ensures NumberedLines(r, items, start)
    ensures forall k :: 0 <= k < |r| ==> HasPrefix(r[k], FormatInt(start + k + 1) + ". ")
  {
    var r := seq(end - start, k requires 0 <= k < end - start => Line(start + k + 1, items[start + k]));
    assert NumberedLines(r, items, start);
    NumberedLinesArePrefixed(r, items, start);
    r
  }

  lemma NumberedLinesArePrefixed(r: seq<string>, items: seq<QueueItem>, start: nat)
    requires NumberedLines(r, items, start)
    ensures forall k :: 0 <= k < |r| ==> HasPrefix(r[k], FormatInt(start + k + 1) + ". ")
  {
    forall k | 0 <= k < |r|
      ensures HasPrefix(r[k], FormatInt(start + k + 1) + ". ")
    {
      LineIsNumbered(r[k], start + k + 1, items[start + k]);
    }
  }

  /** `r[k]` is the line of item `start + k`, numbered from one. */
  predicate NumberedLines(r: seq<string>, items: seq<QueueItem>, start: nat) {
    start + |r| <= |items| && forall k :: 0 <= k < |r| ==> r[k] == Line(start + k + 1, items[start + k])
  }

  lemma LineIsNumbered(l: string, index: int, item: QueueItem)
    requires l == Line(index, item)
    ensures HasPrefix(l, FormatInt(index) + ". ")
  {
  }

  /** The buttons and text BuildQueueComponents produces. */
  datatype QueuePage = QueuePage(
    info: PageInfo,
    lines: seq<string>,
    listContent: string,
    prevDisabled: bool,
    nextDisabled: bool,
    prevCustomID: string,
    nextCustomID: string)

  function BuildQueueComponents(items: seq<QueueItem>, page: int, perPage: int): (v: QueuePage)
    ensures v.info == Paginate(|items|, page, perPage)
    ensures v.lines == Lines(items, v.info.startIndex, v.info.endIndex)
    ensures v.lines == [] <==> v.listContent == EmptyQueueText
    ensures v.lines != [] ==> v.listContent == Join(v.lines, "\n")
    ensures v.prevDisabled <==> v.info.page <= 1
    ensures v.nextDisabled <==> v.info.page >= v.info.totalPages
    ensures v.prevCustomID == MakeQueuePageCustomID(v.info.page - 1, v.info.perPage)
    ensures v.nextCustomID == MakeQueuePageCustomID(v.info.page + 1, v.info.perPage)
  {
    var info := Paginate(|items|, page, perPage);
    var lines := Lines(items, info.startIndex, info.endIndex);
    QueuePage(info, lines, ListContent(lines, info.startIndex + 1), info.page <= 1, info.page >= info.totalPages,
              MakeQueuePageCustomID(info.page - 1, info.perPage),
              MakeQueuePageCustomID(info.page + 1, info.perPage))
  }

  /** The page text: the lines joined by newlines, or the placeholder when
      there are none; lines numbered from `n` never read as the placeholder. */
  function ListContent(lines: seq<string>, n: nat): (content: string)
    requires n >= 1 && (|lines| >= 1 ==> HasPrefix(lines[0], FormatInt(n) + ". "))
    ensures lines == [] <==> content == EmptyQueueText
    ensures lines != [] ==> content == Join(lines, "\n")
  {
    if |lines| > 0 then
      NumberedTextIsNotPlaceholder(lines, n);
      Join(lines, "\n")
    else EmptyQueueText
  }

  /** Joined lines that start with a line number are never the empty-queue text. */
  lemma NumberedTextIsNotPlaceholder(lines: seq<string>, n: nat)
    requires |lines| >= 1 && n >= 1 && HasPrefix(lines[0], FormatInt(n) + ". ")
    ensures Join(lines, "\n") != EmptyQueueText
  {
    JoinStartsWithFirst(lines, "\n");
    var d := NatToDecimal(n);
    assert FormatInt(n) == d;
    assert lines[0][0] == d[0];
    assert Join(lines, "\n")[0] == lines[0][0];
    assert IsDigit(d[0]);
    assert !IsDigit(EmptyQueueText[0]);
  }

  /** A join starts with its first part. */
  lemma {:induction false} JoinStartsWithFirst(parts: seq<string>, sep: string)
    requires |parts| >= 1
    ensures HasPrefix(Join(parts, sep), parts[0])
  {
    if |parts| > 1 {
      assert Join(parts, sep) == parts[0] + (sep + Join(parts[1..], sep));
    }
  }

  /** MakeQueuePageCustomID: the page is raised to 1 and the page size clamped. */
  function MakeQueuePageCustomID(page: int, perPage: int): (id: string)
    ensures HasPrefix(id, CustomIDPrefix + ":")
  {
    var pg := if page < 1 then 1 else page;
    CustomIDPrefix + ":" + FormatInt(pg) + ":" + FormatInt(Clamp(perPage, 1, MaxPerPage))
  }

  /** ParseQueuePageCustomID: the prefix, exactly three colon-separated parts,
      and two integers of at least 1; the page size is clamped to 25. */
  function ParseQueuePageCustomID(customID: string): (r: Option<(int, int)>)
    ensures !HasPrefix(customID, CustomIDPrefix + ":") ==> r.None?
    ensures |Split(customID, ':')| != 3 ==> r.None?
    ensures r.Some? ==> r.value.0 >= 1 && 1 <= r.value.1 <= MaxPerPage
    ensures r.Some? <==>
      && HasPrefix(customID, CustomIDPrefix + ":")
      && |Split(customID, ':')| == 3
      && Atoi(Split(customID, ':')[1]).Some? && Atoi(Split(customID, ':')[1]).value >= 1
      && Atoi(Split(customID, ':')[2]).Some? && Atoi(Split(customID, ':')[2]).value >= 1
    ensures r.Some? ==>
      && r.value.0 == Atoi(Split(customID, ':')[1]).value
      && r.value.1 == Clamp(Atoi(Split(customID, ':')[2]).value, 1, MaxPerPage)
  {
    if !HasPrefix(customID, CustomIDPrefix + ":") then None
    else
      var parts := Split(customID, ':');
      if |parts| != 3 then None
      else
        match Atoi(parts[1])
        case None => None
        case Some(pg) =>
          if pg < 1 then None
          else
            match Atoi(parts[2])
            case None => None
            case Some(pp) => if pp < 1 then None else Some((pg, Clamp(pp, 1, MaxPerPage)))
  }

  /** Parsing a made ID gives back the page (at least 1) and the clamped size. */
  lemma CustomIDRoundTrip(page: int, perPage: int)
    requires InInt64(page)
    ensures ParseQueuePageCustomID(MakeQueuePageCustomID(page, perPage))
      == Some((if page < 1 then 1 else page, Clamp(perPage, 1, MaxPerPage)))
  {
    var pg := if page < 1 then 1 else page;
    var pp := Clamp(perPage, 1, MaxPerPage);
    var parts := [CustomIDPrefix, FormatInt(pg), FormatInt(pp)];
    assert parts[1..][1..] == [FormatInt(pp)];
    assert Join(parts[1..], ":") == FormatInt(pg) + ":" + FormatInt(pp);
    assert MakeQueuePageCustomID(page, perPage) == Join(parts, ":");
    FormatIntNoByte(pg, ':');
    FormatIntNoByte(pp, ':');
    assert ':' !in CustomIDPrefix;
    SplitJoin(parts, ':');
    AtoiFormatInt(pg);
    AtoiFormatInt(pp);
  }
}

=== FILE: resolver.dfy ===
/** The yt-dlp resolution policy of internal/music/resolve.go. Running yt-dlp
    and decoding its JSON are outside the model: a run is a function from the
    target argument to the decoded item or a failure, and `url.Parse` is an
    uninterpreted parser from a string to its scheme, host and path. */
module Resolver {
  import opened Wrappers
  import opened GoStrings
  import opened MusicTypes

  /** The parts of a parsed URL the code looks at. */
  datatype Url = Url(scheme: string, host: string, path: string)

  /** `url.Parse`: None when it reports an error. */
  type UrlParser = string -> Option<Url>

  /** The decoded `--dump-single-json` output; `duration` is already converted
      from float seconds to nanoseconds. */
  datatype YtDlpItem = YtDlpItem(
    id: string,
    title: string,
    webpageUrl: string,
    url: string,
    duration: Duration,
    thumbnail: string,
    entries: seq<YtDlpItem>)

  /** One yt-dlp run: the target argument to the decoded output, or the
      failure (non-zero exit or invalid JSON). */
  type YtDlpRun = string -> Result<YtDlpItem, string>

  /** One `-g` run: the target argument to its combined output, or the
      failure. */
  type YtDlpStreamRun = string -> Result<string, string>

  const UnknownTitle := "Unknown Title"
  const DefaultSearchLimit := 6
  const MaxSearchLimit := 10

  /** looksLikeURL. */
  predicate LooksLikeURL(value: string, parse: UrlParser): (r: bool)
    ensures HasPrefix(value, "http://") || HasPrefix(value, "https://") ==> r
    ensures parse(value).None? ==> (r <==> HasPrefix(value, "http://") || HasPrefix(value, "https://"))
    ensures parse(value).Some? && (parse(value).value.scheme == "" || parse(value).value.host == "") ==>
      (r <==> HasPrefix(value, "http://") || HasPrefix(value, "https://"))
  {
    HasPrefix(value, "http://") || HasPrefix(value, "https://")
    || (parse(value).Some? && parse(value).value.scheme != "" && parse(value).value.host != "")
  }

  /** The yt-dlp argument for a single lookup: the trimmed input itself when
      it looks like a URL, otherwise a one-result search on SoundCloud for a
      SoundCloud hint and on YouTube for any other hint. */
  function SearchTarget(input: string, hint: TrackSource, parse: UrlParser): (target: string)
    ensures LooksLikeURL(TrimSpace(input), parse) ==> target == TrimSpace(input)
    ensures !LooksLikeURL(TrimSpace(input), parse) && hint == SoundCloud ==> target == "scsearch1:" + TrimSpace(input)
    ensures !LooksLikeURL(TrimSpace(input), parse) && hint != SoundCloud ==> target == "ytsearch1:" + TrimSpace(input)
  {
    var t := TrimSpace(input);
    if LooksLikeURL(t, parse) then t
    else if hint == SoundCloud then "scsearch1:" + t
    else "ytsearch1:" + t
  }

  /** A YouTube host: youtube.com or the youtu.be short links. */
  predicate YouTubeHost(host: string) {
    Contains(host, "youtube.com") || Contains(host, "youtu.be")
  }

  /** detectSourceFromURL: by the lower-cased host, YouTube first, then
      SoundCloud, then Spotify; an unparsable URL or any other host is unknown. */
  function DetectSourceFromURL(raw: string, parse: UrlParser): (src: TrackSource)
    ensures src in {YouTube, SoundCloud, Spotify, UnknownSource}
    ensures parse(raw).None? ==> src == UnknownSource
    ensures parse(raw).Some? ==>
      var host := ToLower(parse(raw).value.host);
      && (src == YouTube <==> YouTubeHost(host))
      && (src == SoundCloud <==> !YouTubeHost(host) && Contains(host, "soundcloud.com"))
      && (src == Spotify <==> !YouTubeHost(host) && !Contains(host, "soundcloud.com") && Contains(host, "spotify.com"))
  {
    match parse(raw)
    case None => UnknownSource
    case Some(u) =>
      var host := ToLower(u.host);
      if Contains(host, "youtube.com") || Contains(host, "youtu.be") then YouTube
      else if Contains(host, "soundcloud.com") then SoundCloud
      else if Contains(host, "spotify.com") then Spotify
      else UnknownSource
  }

  /** The usual hosts of the three services are recognised whatever their
      letter case. */
  lemma KnownHostsDetected(yt: string, sc: string, sp: string, parse: UrlParser)
    requires parse(yt).Some? && parse(yt).value.host == "www.YouTube.com"
    requires parse(sc).Some? && parse(sc).value.host == "SoundCloud.com"
    requires parse(sp).Some? && parse(sp).value.host == "open.spotify.com"
    ensures DetectSourceFromURL(yt, parse) == YouTube
    ensures DetectSourceFromURL(sc, parse) == SoundCloud
    ensures DetectSourceFromURL(sp, parse) == Spotify
  {
    YouTubeHostFound();
    SoundCloudHostFound();
    LowerSpotifyHost();
    SpotifyHostNamesSpotify();
    SpotifyHostNotYouTube();
    SpotifyHostNotSoundCloud();
  }

  lemma YouTubeHostFound()
    ensures YouTubeHost(ToLower("www.YouTube.com"))
  {
    var h := ToLower("www.YouTube.com");
    assert h == "www.youtube.com";
    assert h[4..15] == "youtube.com";
    ContainsAt(h, "youtube.com", 4);
  }

  lemma SoundCloudHostFound()
    ensures !YouTubeHost(ToLower("SoundCloud.com")) && Contains(ToLower("SoundCloud.com"), "soundcloud.com")
  {
    var h := ToLower("SoundCloud.com");
    assert h == "soundcloud.com";
    assert h[0..14] == "soundcloud.com";
    ContainsAt(h, "soundcloud.com", 0);
    NoYouTubeIn(h);
  }

  lemma SpotifyHostNotYouTube()
    ensures !YouTubeHost("open.spotify.com")
  {
    SpotifyHostNoYo();
    NoYouTubeIn("open.spotify.com");
  }

  lemma SpotifyHostNotSoundCloud()
    ensures !Contains("open.spotify.com", "soundcloud.com")
  {
    NoSoundCloudIn("open.spotify.com");
  }

  lemma LowerSpotifyHost()
    ensures ToLower("open.spotify.com") == "open.spotify.com"
  {
  }

  lemma SpotifyHostNamesSpotify()
    ensures Contains("open.spotify.com", "spotify.com")
  {
    var h := "open.spotify.com";
    assert h[5..16] == "spotify.com";
    ContainsAt(h, "spotify.com", 5);
  }

  /** The one 'y' of open.spotify.com is followed by a dot. */
  lemma SpotifyHostNoYo()
    ensures var h := "open.spotify.com";
      forall i :: 0 <= i < |h| - 1 && h[i] == 'y' ==> h[i + 1] != 'o'
  {
    var h := "open.spotify.com";
    forall i | 0 <= i < |h| - 1 && h[i] == 'y'
      ensures h[i + 1] != 'o'
    {
      assert h[11] == 'y';
      if i != 11 {
        assert false;
      }
    }
  }

  /** A host where no 'y' is followed by an 'o' names neither youtube.com
      nor youtu.be. */
  lemma NoYouTubeIn(h: string)
    requires forall i :: 0 <= i < |h| - 1 && h[i] == 'y' ==> h[i + 1] != 'o'
    ensures !YouTubeHost(h)
  {
    forall i | 0 <= i <= |h| - 8
      ensures !HasPrefix(h[i..], "youtube.com") && !HasPrefix(h[i..], "youtu.be")
    {
      assert h[i..][..2] == [h[i], h[i + 1]];
    }
  }

  /** A host without a 'd' does not name soundcloud.com. */
  lemma NoSoundCloudIn(h: string)
    requires 'd' !in h
    ensures !Contains(h, "soundcloud.com")
  {
    forall i | 0 <= i <= |h| - 14
      ensures !HasPrefix(h[i..], "soundcloud.com")
    {
      assert h[i..][..14][4] == h[i + 4];
    }
  }

  predicate Usable(item: YtDlpItem) {
    item.webpageUrl != "" || item.url != "" || item.title != ""
  }

  /** pickYTDLPItem: the root when it has no entries, else the first usable
      entry. */
  function PickItem(root: YtDlpItem): (r: Result<YtDlpItem, Error>)
    ensures root.entries == [] ==> r == Ok(root)
    ensures root.entries != [] && r.Ok? ==>
      exists i :: 0 <= i < |root.entries| && r.value == root.entries[i] && Usable(r.value)
        && forall j :: 0 <= j < i ==> !Usable(root.entries[j])
    ensures root.entries != [] && r.Err? ==>
      r.error == ErrResolveFailed("no usable entries") && forall j :: 0 <= j < |root.entries| ==> !Usable(root.entries[j])
  {
    if |root.entries| == 0 then Ok(root)
    else FirstUsable(root.entries, 0)
  }

  function FirstUsable(entries: seq<YtDlpItem>, from: nat): (r: Result<YtDlpItem, Error>)
    requires from <= |entries|
    ensures r.Ok? ==>
      exists i :: from <= i < |entries| && r.value == entries[i] && Usable(r.value)
        && forall j :: from <= j < i ==> !Usable(entries[j])
    ensures r.Err? ==>
      r.error == ErrResolveFailed("no usable entries") && forall j :: from <= j < |entries| ==> !Usable(entries[j])
    decreases |entries| - from
  {
    if from == |entries| then Err(ErrResolveFailed("no usable entries"))
    else if Usable(entries[from]) then Ok(entries[from])
    else FirstUsable(entries, from + 1)
  }

  /** The usable entries, in order. */
  function UsableEntries(entries: seq<YtDlpItem>): (r: seq<YtDlpItem>)
    ensures |r| <= |entries|
    ensures forall k :: 0 <= k < |r| ==> Usable(r[k]) && r[k] in entries
  {
    if |entries| == 0 then []
    else if Usable(entries[0]) then [entries[0]] + UsableEntries(entries[1..])
    else UsableEntries(entries[1..])
  }

  /** pickYTDLPItem and pickYTDLPItems agree: the single pick is the first of
      the usable entries. */
  lemma {:induction false} PickItemIsFirstUsable(entries: seq<YtDlpItem>, from: nat)
    requires from <= |entries|
    ensures FirstUsable(entries, from).Ok? <==> UsableEntries(entries[from..]) != []
    ensures FirstUsable(entries, from).Ok? ==> FirstUsable(entries, from).value == UsableEntries(entries[from..])[0]
    decreases |entries| - from
  {
    if from < |entries| {
      assert entries[from..][1..] == entries[from + 1..];
      PickItemIsFirstUsable(entries, from + 1);
    }
  }

  /** One step of the loop keeps "picked so far, then the usable rest" equal
      to all the usable entries. */
  lemma PickStep(entries: seq<YtDlpItem>, i: nat, items: seq<YtDlpItem>)
    requires i < |entries| && items + UsableEntries(entries[i..]) == UsableEntries(entries)
    ensures (if Usable(entries[i]) then items + [entries[i]] else items) + UsableEntries(entries[i + 1..]) == UsableEntries(entries)
  {
    var head, tail := entries[i], entries[i + 1..];
    SuffixSplit(entries, i);
    UsableEntriesUnfold(entries[i..], head, tail);
    var rest := UsableEntries(tail);
    if Usable(head) {
      AppendAssoc(items, [head], rest);
    }
  }

  /** The suffix from i is its first element followed by the suffix from i + 1. */
  lemma SuffixSplit(entries: seq<YtDlpItem>, i: nat)
    requires i < |entries|
    ensures |entries[i..]| > 0 && entries[i..][0] == entries[i] && entries[i..][1..] == entries[i + 1..]
  {
  }

  lemma AppendAssoc(a: seq<YtDlpItem>, b: seq<YtDlpItem>, c: seq<YtDlpItem>)
    ensures (a + b) + c == a + (b + c)
  {
  }

  /** One step of UsableEntries, on a sequence given by its head and tail. */
  lemma UsableEntriesUnfold(entries: seq<YtDlpItem>, head: YtDlpItem, tail: seq<YtDlpItem>)
    requires |entries| > 0 && entries[0] == head && entries[1..] == tail
    ensures UsableEntries(entries) == (if Usable(head) then [head] + UsableEntries(tail) else UsableEntries(tail))
  {
  }

  lemma PrefixOfSplit(items: seq<YtDlpItem>, rest: seq<YtDlpItem>, all: seq<YtDlpItem>)
    requires items + rest == all
    ensures |items| <= |all| && all[..|items|] == items
  {
    assert all[..|items|] == (items + rest)[..|items|];
  }

  /** What pickYTDLPItems returns, stated without its loop: the root alone
      when it has no entries and is usable, otherwise the first `limit` usable
      entries (one for a non-positive limit); an error when nothing is usable. */
  function Picked(root: YtDlpItem, limit: int): Result<seq<YtDlpItem>, Error> {
    var lim := if limit <= 0 then 1 else limit;
    if root.entries == [] then
      (if Usable(root) then Ok([root]) else Err(ErrResolveFailed("no usable entries")))
    else
      var usable := UsableEntries(root.entries);
      if usable == [] then Err(ErrResolveFailed("no usable entries"))
      else Ok(usable[..Min(lim, |usable|)])
  }

  /** What Picked chooses: a non-empty run of at most `limit` usable
      entries taken from the front, or the error when none is usable. */
  lemma PickedShape(root: YtDlpItem, limit: int)
    ensures var r := Picked(root, limit);
      && (r.Ok? ==> 1 <= |r.value| <= (if limit <= 0 then 1 else limit))
      && (r.Ok? && root.entries != [] ==> |r.value| == Min(if limit <= 0 then 1 else limit, |UsableEntries(root.entries)|))
      && (r.Ok? && root.entries != [] ==> r.value == UsableEntries(root.entries)[..|r.value|])
      && (root.entries != [] ==> (r.Err? <==> UsableEntries(root.entries) == []))
      && (r.Err? ==> r.error == ErrResolveFailed("no usable entries"))
  {
  }

  /** pickYTDLPItems, written as the source's loop: at most `limit` usable
      entries in order (a non-positive limit means one), the usable root when
      there are no entries, and an error when nothing is usable. */
  method PickItems(root: YtDlpItem, limit: int) returns (r: Result<seq<YtDlpItem>, Error>)
    ensures r == Picked(root, limit)
    ensures r.Ok? ==> 1 <= |r.value| <= (if limit <= 0 then 1 else limit)
    ensures r.Ok? && root.entries != [] ==> |r.value| == Min(if limit <= 0 then 1 else limit, |UsableEntries(root.entries)|)
    ensures r.Ok? && root.entries != [] ==> r.value == UsableEntries(root.entries)[..|r.value|]
    ensures root.entries == [] ==> r == (if Usable(root) then Ok([root]) else Err(ErrResolveFailed("no usable entries")))
    ensures root.entries != [] ==> (r.Err? <==> UsableEntries(root.entries) == [])
    ensures r.Err? ==> r.error == ErrResolveFailed("no usable entries")
  {
    PickedShape(root, limit);
    var lim := if limit <= 0 then 1 else limit;
    if |root.entries| == 0 {
      if Usable(root) {
        return Ok([root]);
      }
      return Err(ErrResolveFailed("no usable entries"));
    }
    var items: seq<YtDlpItem> := [];
    var i := 0;
    while i < |root.entries|
      invariant 0 <= i <= |root.entries|
      invariant |items| < lim
      invariant items + UsableEntries(root.entries[i..]) == UsableEntries(root.entries)
    {
      var entry := root.entries[i];
      PickStep(root.entries, i, items);
      if !Usable(entry) {
        i := i + 1;
        continue;
      }
      items := items + [entry];
      if |items| >= lim {
        PrefixOfSplit(items, UsableEntries(root.entries[i + 1..]), UsableEntries(root.entries));
        return Ok(items);
      }
      i := i + 1;
    }
    assert items == UsableEntries(root.entries);
    assert items[..Min(lim, |items|)] == items;
    if |items| == 0 {
      return Err(ErrResolveFailed("no usable entries"));
    }
    return Ok(items);
  }

  /** The single pick of a search with entries is the first of the multiple
      picks with limit one: pickYTDLPItem and pickYTDLPItems agree. */
  lemma PickItemIsFirstPick(root: YtDlpItem)
    requires root.entries != []
    ensures PickItem(root).Ok? <==> Picked(root, 1).Ok?
    ensures PickItem(root).Ok? ==> Picked(root, 1).value == [PickItem(root).value]
  {
    PickItemIsFirstUsable(root.entries, 0);
    assert root.entries[0..] == root.entries;
  }

  /** The link of an item: webpage_url, falling back to url. */
  function Link(item: YtDlpItem): string {
    if item.webpageUrl != "" then item.webpageUrl else item.url
  }

  /** The track built from an item with a non-empty link: trimmed title with
      a placeholder, the hint as source unless it is unknown or empty, a
      non-negative duration and no requester. */
  function TrackOf(item: YtDlpItem, hint: TrackSource, parse: UrlParser): (t: Track)
    requires Link(item) != ""
    ensures t.url == Link(item) && t.id == item.id && t.thumbnail == item.thumbnail
    ensures t.title == (if TrimSpace(item.title) == "" then UnknownTitle else TrimSpace(item.title))
    ensures t.title != ""
    ensures hint != UnknownSource && hint.name != "" ==> t.source == hint
    ensures hint == UnknownSource || hint.name == "" ==> t.source == DetectSourceFromURL(Link(item), parse)
    ensures t.duration >= 0 && (item.duration >= 0 ==> t.duration == item.duration)
    ensures t.requestedBy == ""
  {
    var title := TrimSpace(item.title);
    var source := if hint == UnknownSource || hint.name == "" then DetectSourceFromURL(Link(item), parse) else hint;
    Track(item.id, if title == "" then UnknownTitle else title, Link(item), source,
          if item.duration < 0 then 0 else item.duration, item.thumbnail, "")
  }

  /** Resolve. */
  function Resolve(input: string, hint: TrackSource, parse: UrlParser, run: YtDlpRun): (r: Result<Track, Error>)
    ensures IsBlank(input) ==> r == Err(ErrResolveFailed("empty input"))
    ensures r.Ok? ==> !IsBlank(input) && r.value.url != "" && r.value.requestedBy == ""
    ensures !IsBlank(input) ==> ResolveOutcome(run(SearchTarget(input, hint, parse)), hint, parse, r)
  {
    if IsBlank(input) then Err(ErrResolveFailed("empty input"))
    else
      match run(SearchTarget(input, hint, parse))
      case Err(_) => Err(ErrResolveFailed("yt-dlp failed"))
      case Ok(root) =>
        match PickItem(root)
        case Err(e) => Err(e)
        case Ok(item) =>
          if Link(item) == "" then Err(ErrResolveFailed("missing track url"))
          else Ok(TrackOf(item, hint, parse))
  }

  /** How Resolve ends once yt-dlp was run: its failure, pickYTDLPItem's
      error, a picked item without a link, or the picked item's track. */
  predicate ResolveOutcome(out: Result<YtDlpItem, string>, hint: TrackSource, parse: UrlParser, r: Result<Track, Error>) {
    if out.Err? then r == Err(ErrResolveFailed("yt-dlp failed"))
    else
      var pick := PickItem(out.value);
      if pick.Err? then r == Err(pick.error)
      else if Link(pick.value) == "" then r == Err(ErrResolveFailed("missing track url"))
      else r == Ok(TrackOf(pick.value, hint, parse))
  }

  /** A search result with entries resolves to the first usable entry, and
      only when that entry has a link. */
  lemma ResolveTakesFirstUsable(input: string, hint: TrackSource, parse: UrlParser, run: YtDlpRun)
    requires !IsBlank(input) && run(SearchTarget(input, hint, parse)).Ok?
    requires run(SearchTarget(input, hint, parse)).value.entries != []
    ensures var usable := UsableEntries(run(SearchTarget(input, hint, parse)).value.entries);
      && (Resolve(input, hint, parse, run).Ok? <==> usable != [] && Link(usable[0]) != "")
      && (Resolve(input, hint, parse, run).Ok? ==> Resolve(input, hint, parse, run).value == TrackOf(usable[0], hint, parse))
  {
    var root := run(SearchTarget(input, hint, parse)).value;
    PickItemIsFirstUsable(root.entries, 0);
    assert root.entries[0..] == root.entries;
  }

  /** The `limit` clamp of ResolveSearch. */
  function ClampSearchLimit(limit: int): (n: int)
    ensures 1 <= n <= MaxSearchLimit
    ensures 1 <= limit <= MaxSearchLimit ==> n == limit
    ensures limit <= 0 ==> n == DefaultSearchLimit
    ensures limit > MaxSearchLimit ==> n == MaxSearchLimit
  {
    if limit <= 0 then DefaultSearchLimit else if limit > MaxSearchLimit then MaxSearchLimit else limit
  }

  /** The yt-dlp argument for a search of `n` results. */
  function MultiSearchTarget(query: string, hint: TrackSource, n: int): string {
    (if hint == SoundCloud then "scsearch" else "ytsearch") + FormatInt(n) + ":" + query
  }

  /** The items that have a link, in order. */
  function Linked(items: seq<YtDlpItem>): (r: seq<YtDlpItem>)
    ensures |r| <= |items|
    ensures forall k :: 0 <= k < |r| ==> Link(r[k]) != ""
  {
    if |items| == 0 then []
    else if Link(items[0]) == "" then Linked(items[1..])
    else [items[0]] + Linked(items[1..])
  }

  /** The loop of ResolveSearch that turns the picked items into tracks,
      skipping those without a link. */
  function TracksOf(items: seq<YtDlpItem>, hint: TrackSource, parse: UrlParser): (ts: seq<Track>)
    ensures |ts| == |Linked(items)|
  {
    if |items| == 0 then []
    else if Link(items[0]) == "" then TracksOf(items[1..], hint, parse)
    else [TrackOf(items[0], hint, parse)] + TracksOf(items[1..], hint, parse)
  }

  /** The loop builds, in order, the track of each item that has a link. */
  lemma {:induction false} TracksOfLinked(items: seq<YtDlpItem>, hint: TrackSource, parse: UrlParser)
    ensures forall k :: 0 <= k < |Linked(items)| ==>
      TracksOf(items, hint, parse)[k] == TrackOf(Linked(items)[k], hint, parse)
  {
    if |items| > 0 {
      TracksOfLinked(items[1..], hint, parse);
      if Link(items[0]) != "" {
        var ts := TracksOf(items, hint, parse);
        var ls := Linked(items);
        forall k | 0 <= k < |ls|
          ensures ts[k] == TrackOf(ls[k], hint, parse)
        {
          if k > 0 {
            assert ts[k] == TracksOf(items[1..], hint, parse)[k - 1];
            assert ls[k] == Linked(items[1..])[k - 1];
          }
        }
      }
    }
  }

  /** Every track built has a link and no requester yet. */
  lemma TracksHaveLinks(items: seq<YtDlpItem>, hint: TrackSource, parse: UrlParser)
    ensures forall k :: 0 <= k < |TracksOf(items, hint, parse)| ==>
      TracksOf(items, hint, parse)[k].url != "" && TracksOf(items, hint, parse)[k].requestedBy == ""
  {
    TracksOfLinked(items, hint, parse);
  }

  /** ResolveSearch: a URL resolves to exactly one track; anything else is a
      flat search for the clamped number of results, keeping the entries with
      a link and failing when none has one. */
  method ResolveSearch(input: string, hint: TrackSource, limit: int, parse: UrlParser, run: YtDlpRun, flatRun: YtDlpRun)
    returns (r: Result<seq<Track>, Error>)
    ensures IsBlank(input) ==> r == Err(ErrResolveFailed("empty input"))
    ensures !IsBlank(input) && LooksLikeURL(TrimSpace(input), parse) ==>
      (r.Ok? <==> Resolve(TrimSpace(input), hint, parse, run).Ok?)
    ensures !IsBlank(input) && LooksLikeURL(TrimSpace(input), parse) && r.Ok? ==>
      r.value == [Resolve(TrimSpace(input), hint, parse, run).value]
    ensures r.Ok? ==> SearchResults(r.value, ClampSearchLimit(limit))
    ensures !IsBlank(input) && !LooksLikeURL(TrimSpace(input), parse) && r.Ok? ==>
      flatRun(MultiSearchTarget(TrimSpace(input), hint, ClampSearchLimit(limit))).Ok?
    ensures !IsBlank(input) && !LooksLikeURL(TrimSpace(input), parse) ==>
      FlatOutcome(flatRun(MultiSearchTarget(TrimSpace(input), hint, ClampSearchLimit(limit))),
                  ClampSearchLimit(limit), hint, parse, r)
    ensures SearchOutcome(input, hint, ClampSearchLimit(limit), parse, run, flatRun, r)
  {
    if IsBlank(input) {
      return Err(ErrResolveFailed("empty input"));
    }
    var n := ClampSearchLimit(limit);
    var target := TrimSpace(input);
    if LooksLikeURL(target, parse) {
      r := ResolveOne(target, hint, parse, run);
    } else {
      r := FlatSearch(target, hint, n, parse, flatRun);
    }
  }

  /** How ResolveSearch ends for `n` results: blank input is refused, a URL
      becomes Resolve's one track (or its error), and anything else ends as
      the flat search does. */
  predicate SearchOutcome(input: string, hint: TrackSource, n: int, parse: UrlParser, run: YtDlpRun, flatRun: YtDlpRun,
                          r: Result<seq<Track>, Error>) {
    if IsBlank(input) then r == Err(ErrResolveFailed("empty input"))
    else if LooksLikeURL(TrimSpace(input), parse) then OneOutcome(Resolve(TrimSpace(input), hint, parse, run), r)
    else FlatOutcome(flatRun(MultiSearchTarget(TrimSpace(input), hint, n)), n, hint, parse, r)
  }

  /** A single resolution as a one-track list, its error passed on unchanged. */
  predicate OneOutcome(one: Result<Track, Error>, r: Result<seq<Track>, Error>) {
    if one.Ok? then r == Ok([one.value]) else r == Err(one.error)
  }

  /** Between one and `n` tracks, each with a link and no requester yet. */
  predicate SearchResults(ts: seq<Track>, n: int) {
    && 1 <= |ts| <= n
    && forall k :: 0 <= k < |ts| ==> ts[k].url != "" && ts[k].requestedBy == ""
  }

  /** The URL half of ResolveSearch: Resolve's track as a one-track list. */
  method ResolveOne(target: string, hint: TrackSource, parse: UrlParser, run: YtDlpRun)
    returns (r: Result<seq<Track>, Error>)
    ensures r.Ok? <==> Resolve(target, hint, parse, run).Ok?
    ensures r.Ok? ==> r.value == [Resolve(target, hint, parse, run).value]
    ensures r.Ok? ==> SearchResults(r.value, 1)
    ensures OneOutcome(Resolve(target, hint, parse, run), r)
  {
    var one := Resolve(target, hint, parse, run);
    if one.Err? {
      return Err(one.error);
    }
    return Ok([one.value]);
  }

  /** The search half of ResolveSearch: a flat yt-dlp search for `n`
      results, keeping the entries with a link and failing when none has one. */
  method FlatSearch(target: string, hint: TrackSource, n: int, parse: UrlParser, flatRun: YtDlpRun)
    returns (r: Result<seq<Track>, Error>)
    requires n >= 1
    ensures r.Ok? ==> SearchResults(r.value, n)
    ensures r.Ok? ==> flatRun(MultiSearchTarget(target, hint, n)).Ok?
    ensures FlatOutcome(flatRun(MultiSearchTarget(target, hint, n)), n, hint, parse, r)
  {
    var out := flatRun(MultiSearchTarget(target, hint, n));
    if out.Err? {
      return Err(ErrResolveFailed("yt-dlp failed"));
    }
    var items := PickItems(out.value, n);
    if items.Err? {
      return Err(items.error);
    }
    assert |items.value| <= n;
    var results := TracksOf(items.value, hint, parse);
    TracksHaveLinks(items.value, hint, parse);
    if |results| == 0 {
      return Err(ErrResolveFailed("no usable entries"));
    }
    return Ok(results);
  }

  /** How a flat search of `n` results ends once yt-dlp was run: its
      failure, pickYTDLPItems' error, no picked item with a link, or the
      tracks of the picked items that have one. */
  predicate FlatOutcome(out: Result<YtDlpItem, string>, n: int, hint: TrackSource, parse: UrlParser,
                        r: Result<seq<Track>, Error>) {
    if out.Err? then r == Err(ErrResolveFailed("yt-dlp failed"))
    else
      var picked := Picked(out.value, n);
      if picked.Err? then r == Err(picked.error)
      else if Linked(picked.value) == [] then r == Err(ErrResolveFailed("no usable entries"))
      else r == Ok(TracksOf(picked.value, hint, parse))
  }

  /** ResolveStreamURL: the trimmed `-g` output, which must not be empty. */
  function ResolveStreamURL(input: string, hint: TrackSource, parse: UrlParser, run: YtDlpStreamRun): (r: Result<string, Error>)
    ensures IsBlank(input) ==> r == Err(ErrResolveFailed("empty input"))
    ensures r.Ok? ==>
      (r.value != "" && run(SearchTarget(input, hint, parse)).Ok?
       && r.value == TrimSpace(run(SearchTarget(input, hint, parse)).value))
    ensures !IsBlank(input) && run(SearchTarget(input, hint, parse)).Ok? && IsBlank(run(SearchTarget(input, hint, parse)).value) ==>
      r == Err(ErrResolveFailed("empty stream url"))
    ensures !IsBlank(input) && run(SearchTarget(input, hint, parse)).Err? ==> r == Err(ErrResolveFailed("yt-dlp failed"))
    ensures !IsBlank(input) && run(SearchTarget(input, hint, parse)).Ok? && !IsBlank(run(SearchTarget(input, hint, parse)).value) ==>
      r == Ok(TrimSpace(run(SearchTarget(input, hint, parse)).value))
  {
    if IsBlank(input) then Err(ErrResolveFailed("empty input"))
    else
      match run(SearchTarget(input, hint, parse))
      case Err(_) => Err(ErrResolveFailed("yt-dlp failed"))
      case Ok(out) =>
        var streamURL := TrimSpace(out);
        if streamURL == "" then Err(ErrResolveFailed("empty stream url")) else Ok(streamURL)
  }

  /** All three entry points refuse blank input without running yt-dlp. */
  lemma BlankInputRejected(input: string, hint: TrackSource, parse: UrlParser, run: YtDlpRun, streamRun: YtDlpStreamRun)
    requires IsBlank(input)
    ensures Resolve(input, hint, parse, run) == Err(ErrResolveFailed("empty input"))
    ensures ResolveStreamURL(input, hint, parse, streamRun) == Err(ErrResolveFailed("empty input"))
  {
  }

  /** Resolve and ResolveStreamURL ask yt-dlp about the same target. */
  lemma StreamTargetMatchesResolve(input: string, hint: TrackSource, parse: UrlParser, run: YtDlpRun, streamRun: YtDlpStreamRun)
    requires Resolve(input, hint, parse, run).Ok? && ResolveStreamURL(input, hint, parse, streamRun).Ok?
    ensures run(SearchTarget(input, hint, parse)).Ok? && streamRun(SearchTarget(input, hint, parse)).Ok?
  {
  }
}

=== FILE: searchcache.dfy ===
/** The interactive search of internal/music/search.go: clamped, routed to
    Spotify or yt-dlp, and answered from a per-process cache whose entries
    live five minutes. */
module SearchCache {
  import opened Wrappers
  import opened GoStrings
  import opened MusicTypes
  import Resolver
  import SpotifyWeb
  import Service

  const DefaultSearchLimit := 4
  const MaxSearchLimit := 10
  const CacheTTL: Duration := 5 * Minute

  datatype Entry = Entry(results: seq<Track>, expiresAt: Time)
  type Cache = map<string, Entry>

  /** Every cached answer holds at least one track. */
  predicate CacheNonEmpty(cache: Cache) {
    forall k :: k in cache ==> |cache[k].results| > 0
  }

  /** The limit clamp of SearchTracks. */
  function ClampLimit(limit: int): (n: int)
    ensures 1 <= n <= MaxSearchLimit
    ensures 1 <= limit <= MaxSearchLimit ==> n == limit
    ensures limit <= 0 ==> n == DefaultSearchLimit
    ensures limit > MaxSearchLimit ==> n == MaxSearchLimit
  {
    if limit <= 0 then DefaultSearchLimit else if limit > MaxSearchLimit then MaxSearchLimit else limit
  }

  /** cacheKey: the source hint, a colon, and the trimmed lower-cased query.
      The limit is not part of the key. */
  function CacheKey(query: string, hint: TrackSource): (key: string)
    ensures HasPrefix(key, hint.name + ":")
    ensures key[|hint.name| + 1..] == ToLower(TrimSpace(query))
  {
    hint.name + ":" + ToLower(TrimSpace(query))
  }

  /** Padding around a query never changes its key. */
  lemma CacheKeyIgnoresPadding(query: string, hint: TrackSource)
    ensures CacheKey(TrimSpace(query), hint) == CacheKey(query, hint)
  {
    TrimSpaceIdempotent(query);
  }

  /** Hints without a colon in their name never share a key. */
  lemma KeysSeparateSources(q1: string, h1: TrackSource, q2: string, h2: TrackSource)
    requires ':' !in h1.name && ':' !in h2.name && h1 != h2
    ensures CacheKey(q1, h1) != CacheKey(q2, h2)
  {
    var k1, k2 := CacheKey(q1, h1), CacheKey(q2, h2);
    var n1, n2 := |h1.name|, |h2.name|;
    if n1 < n2 {
      assert k1[n1] == ':' && k2[n1] == h2.name[n1];
      assert k1[n1] != k2[n1];
    } else if n2 < n1 {
      assert k2[n2] == ':' && k1[n2] == h1.name[n2];
      assert k1[n2] != k2[n2];
    } else {
      assert k1[..n1] == h1.name && k2[..n1] == h2.name;
      assert h1.name != h2.name;
    }
  }

  /** getCachedResults: a hit while the entry has not expired; an expired
      entry is deleted. */
  function GetCached(cache: Cache, key: string, now: Time): (r: (Option<seq<Track>>, Cache))
    ensures r.0.Some? <==> key in cache && !After(now, cache[key].expiresAt)
    ensures r.0.Some? ==> r.0.value == cache[key].results && r.1 == cache
    ensures r.0.None? ==> key !in r.1 && r.1 == cache - {key}
  {
    if key !in cache then (None, cache)
    else if After(now, cache[key].expiresAt) then (None, cache - {key})
    else (Some(cache[key].results), cache)
  }

  /** setCachedResults: the entry expires five minutes after `now`. */
  function SetCached(cache: Cache, key: string, results: seq<Track>, now: Time): (c: Cache)
    ensures c.Keys == cache.Keys + {key}
    ensures c[key] == Entry(results, Add(now, CacheTTL))
    ensures forall k :: k in cache && k != key ==> c[k] == cache[k]
  {
    cache[key := Entry(results, Add(now, CacheTTL))]
  }

  /** A stored answer is served until five minutes after it was stored, and
      not afterwards. */
  lemma StoredAnswerLivesFiveMinutes(cache: Cache, key: string, results: seq<Track>, storedAt: Time, later: Time)
    ensures GetCached(SetCached(cache, key, results, storedAt), key, later).0 ==
      (if later.unixNanos <= storedAt.unixNanos + CacheTTL then Some(results) else None)
  {
  }

  /** A cached search answers every later search for the same hint whose query
      differs only in padding, whatever limit that search asks for, while the
      entry is alive. */
  lemma CacheServesAnyLimit(cache: Cache, query: string, hint: TrackSource, results: seq<Track>, storedAt: Time, later: Time)
    requires later.unixNanos <= storedAt.unixNanos + CacheTTL
    ensures GetCached(SetCached(cache, CacheKey(query, hint), results, storedAt), CacheKey(TrimSpace(query), hint), later).0
      == Some(results)
  {
    CacheKeyIgnoresPadding(query, hint);
  }

  /** The Spotify link test of SearchTracks. */
  predicate IsSpotifyLink(query: string) {
    Contains(ToLower(query), "spotify.com") || HasPrefix(ToLower(query), "spotify:track:")
  }

  /** What the uncached half answers for query `q`: Spotify input needs a
      client and goes to the Web API (a link resolves to its one track, other
      text is searched); anything else needs the resolver and ends as
      ResolveSearch does for `n` results. */
  predicate FetchOutcome(q: string, hint: TrackSource, n: int, hasResolver: bool, spotify: Option<SpotifyWeb.Client>,
                         now: Time, ext: Service.Externals, flatRun: Resolver.YtDlpRun, r: Result<seq<Track>, Error>)
  {
    && (Service.IsSpotifyInput(q, hint) && spotify.None? ==> r == Err(ErrSpotifyClientNil))
    && (Service.IsSpotifyInput(q, hint) && spotify.Some? && IsSpotifyLink(q) ==>
          var (one, _) := SpotifyWeb.ResolveTrack(spotify.value, q, now, ext.parse, ext.api);
          (r.Ok? <==> one.Ok?) && (r.Ok? ==> r.value == [one.value]))
    && (Service.IsSpotifyInput(q, hint) && spotify.Some? && !IsSpotifyLink(q) ==>
          r == SpotifyWeb.SearchTracks(spotify.value, q, n, now, ext.api).0)
    && (!Service.IsSpotifyInput(q, hint) && !hasResolver ==> r == Err(ErrResolverNil))
    && (!Service.IsSpotifyInput(q, hint) && hasResolver ==>
          Resolver.SearchOutcome(q, hint, n, ext.parse, ext.run, flatRun, r))
    && (!Service.IsSpotifyInput(q, hint) && r.Ok? ==> |r.value| <= n)
  }

  /** The uncached half of SearchTracks: Spotify input goes to the Web API,
      anything else to yt-dlp; an empty yt-dlp answer is an error. */
  method Fetch(q: string, hint: TrackSource, n: int, hasResolver: bool, spotify: Option<SpotifyWeb.Client>,
               now: Time, ext: Service.Externals, flatRun: Resolver.YtDlpRun)
    returns (r: Result<seq<Track>, Error>, spotify': Option<SpotifyWeb.Client>)
    requires 1 <= n <= MaxSearchLimit
    ensures spotify'.Some? == spotify.Some?
    ensures r.Ok? ==> |r.value| > 0
    ensures FetchOutcome(q, hint, n, hasResolver, spotify, now, ext, flatRun, r)
  {
    if Service.IsSpotifyInput(q, hint) {
      if spotify.None? {
        return Err(ErrSpotifyClientNil), spotify;
      }
      if IsSpotifyLink(q) {
        var (one, c1) := SpotifyWeb.ResolveTrack(spotify.value, q, now, ext.parse, ext.api);
        if one.Err? {
          return Err(one.error), Some(c1);
        }
        return Ok([one.value]), Some(c1);
      }
      var (found, c2) := SpotifyWeb.SearchTracks(spotify.value, q, n, now, ext.api);
      return found, Some(c2);
    }
    if !hasResolver {
      return Err(ErrResolverNil), spotify;
    }
    var results := Resolver.ResolveSearch(q, hint, n, ext.parse, ext.run, flatRun);
    if results.Err? {
      return results, spotify;
    }
    if |results.value| == 0 {
      return Err(ErrResolveFailed("no search results")), spotify;
    }
    return results, spotify;
  }

  /** SearchTracks. `now` is the lookup time, `storedAt` the time the fresh
      answer is cached; `spotify` comes back with its refreshed token cache. */
  method SearchTracks(cache: Cache, query: string, hint: TrackSource, limit: int,
                      hasResolver: bool, spotify: Option<SpotifyWeb.Client>,
                      now: Time, storedAt: Time, ext: Service.Externals, flatRun: Resolver.YtDlpRun)
    returns (r: Result<seq<Track>, Error>, cache': Cache, spotify': Option<SpotifyWeb.Client>)
    ensures IsBlank(query) ==> r == Err(ErrMissingInput) && cache' == cache
    ensures spotify'.Some? == spotify.Some?
    ensures CacheNonEmpty(cache) ==> CacheNonEmpty(cache')
    ensures CacheNonEmpty(cache) && r.Ok? ==> |r.value| > 0
    ensures
      var q := TrimSpace(query);
      var key := CacheKey(q, hint);
      var (hit, swept) := GetCached(cache, key, now);
      && (q != "" && hit.Some? ==> r == Ok(hit.value) && cache' == cache)
      && (q != "" && hit.None? && r.Err? ==> cache' == swept)
      && (q != "" && hit.None? && r.Ok? ==> cache' == SetCached(swept, key, r.value, storedAt))
      && (q != "" && hit.None? ==> FetchOutcome(q, hint, ClampLimit(limit), hasResolver, spotify, now, ext, flatRun, r))
  {
    var q := TrimSpace(query);
    if q == "" {
      return Err(ErrMissingInput), cache, spotify;
    }
    var n := ClampLimit(limit);
    var key := CacheKey(q, hint);
    var (hit, swept) := GetCached(cache, key, now);
    if hit.Some? {
      return Ok(hit.value), cache, spotify;
    }
    SweepKeepsNonEmpty(cache, key);
    r, cache', spotify' := FetchAndStore(swept, key, q, hint, n, hasResolver, spotify, now, storedAt, ext, flatRun);
  }

  /** Deleting an entry keeps every remaining answer non-empty. */
  lemma SweepKeepsNonEmpty(cache: Cache, key: string)
    ensures CacheNonEmpty(cache) ==> CacheNonEmpty(cache - {key})
  {
  }

  /** A cache miss: fetch, and store a successful answer under the key. */
  method FetchAndStore(swept: Cache, key: string, q: string, hint: TrackSource, n: int, hasResolver: bool,
                       spotify: Option<SpotifyWeb.Client>, now: Time, storedAt: Time,
                       ext: Service.Externals, flatRun: Resolver.YtDlpRun)
    returns (r: Result<seq<Track>, Error>, cache': Cache, spotify': Option<SpotifyWeb.Client>)
    requires 1 <= n <= MaxSearchLimit
    ensures spotify'.Some? == spotify.Some?
    ensures r.Err? ==> cache' == swept
    ensures r.Ok? ==> |r.value| > 0 && cache' == SetCached(swept, key, r.value, storedAt)
    ensures CacheNonEmpty(swept) ==> CacheNonEmpty(cache')
    ensures FetchOutcome(q, hint, n, hasResolver, spotify, now, ext, flatRun, r)
  {
    r, spotify' := Fetch(q, hint, n, hasResolver, spotify, now, ext, flatRun);
    if r.Err? {
      cache' := swept;
    } else {
      cache' := SetCached(swept, key, r.value, storedAt);
    }
  }
}

=== FILE: searchview.dfy ===
/** The search-result view of internal/features/music/search/search.go: the
    per-user session store, truncation, Markdown escaping, duration labels,
    the select-menu options and the result summary. Text is Go byte strings;
    non-ASCII literals are written through their UTF-8 encoding. */
module SearchView {
  import opened Wrappers
  import opened GoStrings
  import opened MusicTypes

  const MaxResults := 4
  const MaxSelectOptions := 25
  const SessionTTL: Duration := 2 * Minute
  const SearchCustomIDPrefix := "music_search_select"

  /** "…" in UTF-8. */
  const Ellipsis := "\U{E2}\U{80}\U{A6}"

  lemma EllipsisIsUtf8()
    ensures Utf8("\U{2026}") == Ellipsis
  {
  }

  /** "[실시간]" in UTF-8. */
  const LiveLabel := "[\U{EC}\U{8B}\U{A4}\U{EC}\U{8B}\U{9C}\U{EA}\U{B0}\U{84}]"
  /** "알 수 없음" in UTF-8. */
  const UnknownText := "\U{EC}\U{95}\U{8C} \U{EC}\U{88}\U{98} \U{EC}\U{97}\U{86}\U{EC}\U{9D}\U{8C}"
  /** "검색 결과가 없습니다." in UTF-8. */
  const NoResultsText := "\U{EA}\U{B2}\U{80}\U{EC}\U{83}\U{89} \U{EA}\U{B2}\U{B0}\U{EA}\U{B3}\U{BC}\U{EA}\U{B0}\U{80} \U{EC}\U{97}\U{86}\U{EC}\U{8A}\U{B5}\U{EB}\U{8B}\U{88}\U{EB}\U{8B}\U{A4}."
  const Bullet := Utf8(" \U{2022} ")

  // ---------------------------------------------------------------------
  // Sessions
  // ---------------------------------------------------------------------

  datatype Session = Session(guildID: string, userID: string, query: string, results: seq<Track>, createdAt: Time)
  type SessionStore = map<string, Session>

  function SessionKey(guildID: string, userID: string): string {
    guildID + ":" + userID
  }

  /** SaveSession: stamped with `now`; ignored without a guild or user ID. */
  function SaveSession(st: SessionStore, s: Session, now: Time): (st': SessionStore)
    ensures s.guildID == "" || s.userID == "" ==> st' == st
    ensures s.guildID != "" && s.userID != "" ==>
      && st'.Keys == st.Keys + {SessionKey(s.guildID, s.userID)}
      && st'[SessionKey(s.guildID, s.userID)] == s.(createdAt := now)
      && forall k :: k in st && k != SessionKey(s.guildID, s.userID) ==> st'[k] == st[k]
  {
    if s.guildID == "" || s.userID == "" then st
    else st[SessionKey(s.guildID, s.userID) := s.(createdAt := now)]
  }

  /** GetSession: a session older than two minutes is deleted and reported absent. */
  function GetSession(st: SessionStore, guildID: string, userID: string, now: Time): (r: (Option<Session>, SessionStore))
    ensures var key := SessionKey(guildID, userID);
      && (r.0.Some? <==> key in st && Sub(now, st[key].createdAt) <= SessionTTL)
      && (r.0.Some? ==> r.0.value == st[key] && r.1 == st)
      && (r.0.None? ==> r.1 == st - {key})
  {
    var key := SessionKey(guildID, userID);
    if key !in st then (None, st)
    else if Sub(now, st[key].createdAt) > SessionTTL then (None, DeleteSession(st, guildID, userID))
    else (Some(st[key]), st)
  }

  function DeleteSession(st: SessionStore, guildID: string, userID: string): (st': SessionStore)
    ensures SessionKey(guildID, userID) !in st'
    ensures forall k :: k in st && k != SessionKey(guildID, userID) ==> k in st' && st'[k] == st[k]
  {
    st - {SessionKey(guildID, userID)}
  }

  /** A saved session is found for two minutes after saving and not after. */
  lemma SavedSessionLivesTwoMinutes(st: SessionStore, s: Session, savedAt: Time, later: Time)
    requires s.guildID != "" && s.userID != ""
    ensures GetSession(SaveSession(st, s, savedAt), s.guildID, s.userID, later).0 ==
      (if later.unixNanos - savedAt.unixNanos <= SessionTTL then Some(s.(createdAt := savedAt)) else None)
  {
  }

  // ---------------------------------------------------------------------
  // Text helpers
  // ---------------------------------------------------------------------

  /** truncate: at most `max` bytes kept, the last one replaced by "…". */
  function Truncate(text: string, max: int): (r: string)
    ensures max <= 0 || |text| <= max ==> r == text
    ensures max == 1 && |text| > 1 ==> r == text[..1]
    ensures max > 1 && |text| > max ==> |r| == max + 2 && r[..max - 1] == text[..max - 1] && r[max - 1..] == Ellipsis
  {
    if max <= 0 || |text| <= max then text
    else if max <= 1 then text[..max]
    else text[..max - 1] + Ellipsis
  }

  /** The four bytes escapeMarkdown escapes. */
  const MarkdownSpecials: set<char> := {'*', '_', '`', '~'}

  /** escapeMarkdown: a backslash before each special byte and nothing else
      added; nothing is lost. */
  function EscapeMarkdown(text: string): (r: string)
    ensures Unescape(r, MarkdownSpecials) == text
    ensures (forall k :: 0 <= k < |text| ==> text[k] !in MarkdownSpecials) ==> r == text
    ensures |r| == |text| + SpecialCount(text, MarkdownSpecials)
    ensures Guarded(r, MarkdownSpecials)
  {
    UnescapeEscape(text, MarkdownSpecials);
    EscapeGuarded(text, MarkdownSpecials);
    if forall k :: 0 <= k < |text| ==> text[k] !in MarkdownSpecials then
      EscapePlain(text, MarkdownSpecials);
      Escape(text, MarkdownSpecials)
    else Escape(text, MarkdownSpecials)
  }

  /** mm:ss of a count of whole seconds; minutes are not capped at 59. */
  function Clock(totalSeconds: nat): string {
    Pad2(totalSeconds / 60) + ":" + Pad2(totalSeconds % 60)
  }

  lemma TwoDigits(n: nat)
    requires n < 100
    ensures |Pad2(n)| == 2
  {
    if n >= 10 {
      assert NatToDecimal(n) == NatToDecimal(n / 10) + [DigitChar(n % 10)];
    }
  }

  /** A clock reading gives back its seconds: the field before the last three
      bytes is the minutes, the last two bytes the seconds below 60. */
  lemma ClockReadsBack(totalSeconds: nat)
    ensures var c := Clock(totalSeconds);
      && |c| >= 5 && c[|c| - 3] == ':'
      && AllDigits(c[..|c| - 3]) && AllDigits(c[|c| - 2..])
      && DecimalValue(c[|c| - 2..]) < 60
      && DecimalValue(c[..|c| - 3]) * 60 + DecimalValue(c[|c| - 2..]) == totalSeconds
  {
    var m, s := Pad2(totalSeconds / 60), Pad2(totalSeconds % 60);
    var c := Clock(totalSeconds);
    TwoDigits(totalSeconds % 60);
    assert c == m + ":" + s;
    assert c[..|c| - 3] == m;
    assert c[|c| - 2..] == s;
    Pad2Value(totalSeconds / 60);
    Pad2Value(totalSeconds % 60);
  }

  /** formatDuration: "[mm:ss]" from whole seconds, or the live label. */
  function FormatDuration(d: Duration): (r: string)
    ensures d <= 0 ==> r == LiveLabel
    ensures d > 0 ==> r == "[" + Clock(d / Second) + "]"
  {
    if d <= 0 then LiveLabel else "[" + Clock(d / Second) + "]"
  }

  /** The source as the result list shows it: the raw name, neither trimmed
      nor re-cased, or a placeholder for an empty one. */
  function ShownSource(t: Track): string {
    if t.source.name == "" then UnknownText else t.source.name
  }

  /** formatResultDescription: the shown source, then the bullet, then the
      duration, each readable back from its place. */
  function FormatResultDescription(t: Track): (r: string)
    ensures |r| == |ShownSource(t)| + |Bullet| + |FormatDuration(t.duration)|
    ensures HasPrefix(r, ShownSource(t))
    ensures r[|ShownSource(t)|..|ShownSource(t)| + |Bullet|] == Bullet
    ensures r[|r| - |FormatDuration(t.duration)|..] == FormatDuration(t.duration)
  {
    var src, d := ShownSource(t), FormatDuration(t.duration);
    var r := src + Bullet + d;
    assert r[..|src|] == src;
    assert r[|src|..|src| + |Bullet|] == Bullet;
    assert r[|r| - |d|..] == d;
    r
  }

  // ---------------------------------------------------------------------
  // Components
  // ---------------------------------------------------------------------

  datatype SelectOption = SelectOption(caption: string, description: string, value: string)

  function Options(results: seq<Track>): (opts: seq<SelectOption>)
    ensures |opts| == Min(|results|, MaxSelectOptions)
    ensures forall i :: 0 <= i < |opts| ==>
      && opts[i].value == FormatInt(i)
      && opts[i].caption == Truncate(results[i].title, 80)
      && opts[i].description == Truncate(FormatResultDescription(results[i]), 100)
  {
    seq(Min(|results|, MaxSelectOptions), i requires 0 <= i < Min(|results|, MaxSelectOptions) =>
      SelectOption(Truncate(results[i].title, 80), Truncate(FormatResultDescription(results[i]), 100), FormatInt(i)))
  }

  /** Option values are distinct and each one reads back as its result index. */
  lemma OptionValuesIndexResults(results: seq<Track>, i: nat)
    requires i < |Options(results)|
    ensures i < |results| && Atoi(Options(results)[i].value) == Some(i)
  {
    AtoiFormatInt(i);
  }

  /** The summary line for result number n. */
  function SummaryLine(n: int, t: Track): string {
    FormatInt(n) + ". **" + (EscapeMarkdown(Truncate(t.title, 80)) + "** ") + FormatDuration(t.duration)
  }

  /** The first four results, one line each, numbered from 1. */
  function SummaryLines(results: seq<Track>): (lines: seq<string>)
    ensures |lines| == Min(|results|, MaxResults)
  {
    var m := Min(|results|, MaxResults);
    seq(m, i requires 0 <= i < m => SummaryLine(i + 1, results[i]))
  }

  /** Line i of the summary is the line for result i, numbered i + 1. */
  lemma SummaryLineAt(results: seq<Track>, i: nat)
    requires i < |SummaryLines(results)|
    ensures i < |results| && SummaryLines(results)[i] == SummaryLine(i + 1, results[i])
  {
  }

  /** A summary line shows its number, then the escaped, truncated title in
      bold, then the duration label. */
  lemma SummaryLineShape(n: int, t: Track)
    ensures var line := SummaryLine(n, t);
      var head := FormatInt(n) + ". **";
      var title := EscapeMarkdown(Truncate(t.title, 80));
      && HasPrefix(line, head)
      && HasPrefix(line[|head|..], title + "** ")
      && line[|head| + |title| + 3..] == FormatDuration(t.duration)
  {
    var head := FormatInt(n) + ". **";
    var title := EscapeMarkdown(Truncate(t.title, 80));
    ThreeParts(head, title + "** ", FormatDuration(t.duration));
  }

  lemma ThreeParts(a: string, b: string, c: string)
    ensures HasPrefix(a + b + c, a)
    ensures HasPrefix((a + b + c)[|a|..], b)
    ensures (a + b + c)[|a| + |b|..] == c
  {
    assert (a + b + c)[..|a|] == a;
    assert (a + b + c)[|a|..] == b + c;
    assert (b + c)[..|b|] == b;
  }

  /** buildResultSummary: up to four numbered lines, or the no-results text. */
  function BuildResultSummary(results: seq<Track>): (r: string)
    ensures results == [] ==> r == NoResultsText
    ensures results != [] ==> r == Join(SummaryLines(results), "\n")
  {
    var lines := SummaryLines(results);
    if |lines| == 0 then NoResultsText else Join(lines, "\n")
  }

  /** "검색어: **" in UTF-8. */
  const QueryHead := "\U{EA}\U{B2}\U{80}\U{EC}\U{83}\U{89}\U{EC}\U{96}\U{B4}: **"

  datatype SearchMenu = SearchMenu(customID: string, queryText: string, summary: string, options: seq<SelectOption>)

  /** BuildSearchComponents. */
  function BuildSearchComponents(customID: string, query: string, results: seq<Track>): (m: SearchMenu)
    ensures m.customID == if customID == "" then SearchCustomIDPrefix else customID
    ensures m.options == Options(results) && |m.options| <= MaxSelectOptions
    ensures m.summary == BuildResultSummary(results)
    ensures IsBlank(query) ==> m.queryText == QueryHead + EscapeMarkdown(UnknownText) + "**"
    ensures !IsBlank(query) ==> m.queryText == QueryHead + EscapeMarkdown(query) + "**"
  {
    var id := if customID == "" then SearchCustomIDPrefix else customID;
    var q := if IsBlank(query) then UnknownText else query;
    SearchMenu(id, QueryHead + EscapeMarkdown(q) + "**", BuildResultSummary(results), Options(results))
  }
}

=== FILE: service.dfy ===
/** The music Service of internal/music/service.go: input resolution with the
    Spotify-to-YouTube bridge, enqueueing, and the forwarders to the queue
    store, each guarded by the presence of its collaborator. */
module Service {
  import opened Wrappers
  import opened GoStrings
  import opened MusicTypes
  import QS = QueueStore
  import Resolver
  import SpotifyWeb

  /** What the service reaches outside the process. */
  datatype Externals = Externals(
    parse: Resolver.UrlParser,
    run: Resolver.YtDlpRun,
    api: SpotifyWeb.Api)

  /** A Service: whether its queue store and resolver are set, and its Spotify
      client (with the client's token cache) if any. */
  datatype Service = Service(hasQueue: bool, hasResolver: bool, spotify: Option<SpotifyWeb.Client>)

  /** isSpotifyInput: the Spotify hint, "spotify.com" anywhere in the input
      or "spotify:track:" at its start, in any letter case. */
  predicate IsSpotifyInput(input: string, hint: TrackSource): (r: bool)
    ensures hint == Spotify ==> r
    ensures Contains(input, "spotify.com") || HasPrefix(input, "spotify:track:") ==> r
  {
    ContainsLower(input, "spotify.com");
    ContainsLower(input, "spotify:track:");
    hint == Spotify || Contains(ToLower(input), "spotify.com") || HasPrefix(ToLower(input), "spotify:track:")
  }

  /** The letter case of the input never decides whether it is Spotify input. */
  lemma SpotifyInputIgnoresCase(input: string, hint: TrackSource)
    ensures IsSpotifyInput(ToUpper(input), hint) == IsSpotifyInput(input, hint)
    ensures IsSpotifyInput(ToLower(input), hint) == IsSpotifyInput(input, hint)
  {
    LowerOfUpper(input);
    LowerIdempotent(input);
  }

  /** The YouTube track found for a Spotify track, carrying the Spotify title,
      the Spotify thumbnail when there is one, and the requester. */
  function Bridge(playable: Track, spotifyTrack: Track, requestedBy: string): (t: Track)
    ensures t.title == spotifyTrack.title && t.requestedBy == requestedBy
    ensures t.thumbnail == (if spotifyTrack.thumbnail != "" then spotifyTrack.thumbnail else playable.thumbnail)
    ensures t.(title := playable.title, thumbnail := playable.thumbnail, requestedBy := playable.requestedBy) == playable
  {
    playable.(title := spotifyTrack.title,
              thumbnail := if spotifyTrack.thumbnail != "" then spotifyTrack.thumbnail else playable.thumbnail,
              requestedBy := requestedBy)
  }

  /** ResolveInput. The returned service differs from `svc` only in its
      Spotify client's token cache. */
  function ResolveInput(svc: Service, input: string, hint: TrackSource, requestedBy: string, now: Time, ext: Externals)
    : (r: (Result<Track, Error>, Service))
    ensures IsBlank(input) ==> r.0 == Err(ErrMissingInput)
    ensures !IsBlank(input) && !svc.hasResolver ==> r.0 == Err(ErrResolverNil)
    ensures !IsBlank(input) && svc.hasResolver && IsSpotifyInput(TrimSpace(input), hint) && svc.spotify.None? ==>
      r.0 == Err(ErrSpotifyClientNil)
    ensures r.0.Ok? ==> r.0.value.requestedBy == requestedBy
    ensures r.1.hasQueue == svc.hasQueue && r.1.hasResolver == svc.hasResolver && r.1.spotify.Some? == svc.spotify.Some?
    ensures !IsSpotifyInput(TrimSpace(input), hint) ==> r.1 == svc
  {
    ResolveTrimmed(svc, TrimSpace(input), hint, requestedBy, now, ext)
  }

  /** ResolveInput once the input is trimmed to `s`. */
  function ResolveTrimmed(svc: Service, s: string, hint: TrackSource, requestedBy: string, now: Time, ext: Externals)
    : (r: (Result<Track, Error>, Service))
    ensures s == "" ==> r.0 == Err(ErrMissingInput)
    ensures s != "" && !svc.hasResolver ==> r.0 == Err(ErrResolverNil)
    ensures s != "" && svc.hasResolver && IsSpotifyInput(s, hint) && svc.spotify.None? ==>
      r.0 == Err(ErrSpotifyClientNil)
    ensures r.0.Ok? ==> r.0.value.requestedBy == requestedBy
    ensures r.1.hasQueue == svc.hasQueue && r.1.hasResolver == svc.hasResolver && r.1.spotify.Some? == svc.spotify.Some?
    ensures !IsSpotifyInput(s, hint) ==> r.1 == svc
  {
    if s == "" then (Err(ErrMissingInput), svc)
    else if !svc.hasResolver then (Err(ErrResolverNil), svc)
    else if IsSpotifyInput(s, hint) then
      if svc.spotify.None? then (Err(ErrSpotifyClientNil), svc)
      else SpotifyPath(svc, s, requestedBy, now, ext)
    else
      match Resolver.Resolve(s, hint, ext.parse, ext.run)
      case Err(e) => (Err(e), svc)
      case Ok(t) => (Ok(t.(requestedBy := requestedBy)), svc)
  }

  /** The Spotify path: look the track up on Spotify, then find it on
      YouTube by its Spotify title. */
  function SpotifyPath(svc: Service, s: string, requestedBy: string, now: Time, ext: Externals)
    : (r: (Result<Track, Error>, Service))
    requires svc.spotify.Some?
    ensures r.0.Ok? ==> r.0.value.requestedBy == requestedBy
    ensures r.1 == svc.(spotify := r.1.spotify) && r.1.spotify.Some?
  {
    var (found, c1) := SpotifyWeb.ResolveTrack(svc.spotify.value, s, now, ext.parse, ext.api);
    var svc1 := svc.(spotify := Some(c1));
    if found.Err? then (Err(found.error), svc1)
    else
      match Resolver.Resolve(found.value.title, YouTube, ext.parse, ext.run)
      case Err(e) => (Err(e), svc1)
      case Ok(playable) => (Ok(Bridge(playable, found.value, requestedBy)), svc1)
  }

  /** Outside the Spotify path the resolver's track comes back with only its
      requester changed. */
  lemma PlainPathKeepsResolverTrack(svc: Service, input: string, hint: TrackSource, requestedBy: string, now: Time, ext: Externals)
    requires !IsBlank(input) && svc.hasResolver && !IsSpotifyInput(TrimSpace(input), hint)
    ensures ResolveInput(svc, input, hint, requestedBy, now, ext).0.Ok?
        <==> Resolver.Resolve(TrimSpace(input), hint, ext.parse, ext.run).Ok?
    ensures ResolveInput(svc, input, hint, requestedBy, now, ext).0.Ok? ==>
      ResolveInput(svc, input, hint, requestedBy, now, ext).0.value
        == Resolver.Resolve(TrimSpace(input), hint, ext.parse, ext.run).value.(requestedBy := requestedBy)
  {
  }

  /** On the Spotify path the YouTube lookup is for the Spotify title, and
      the result carries that title. */
  lemma SpotifyPathBridges(svc: Service, input: string, hint: TrackSource, requestedBy: string, now: Time, ext: Externals)
    requires !IsBlank(input) && svc.hasResolver && IsSpotifyInput(TrimSpace(input), hint) && svc.spotify.Some?
    requires ResolveInput(svc, input, hint, requestedBy, now, ext).0.Ok?
    ensures
      var found := SpotifyWeb.ResolveTrack(svc.spotify.value, TrimSpace(input), now, ext.parse, ext.api).0;
      && found.Ok?
      && Resolver.Resolve(found.value.title, YouTube, ext.parse, ext.run).Ok?
      && ResolveInput(svc, input, hint, requestedBy, now, ext).0.value
           == Bridge(Resolver.Resolve(found.value.title, YouTube, ext.parse, ext.run).value, found.value, requestedBy)
  {
    var s := TrimSpace(input);
    assert ResolveInput(svc, input, hint, requestedBy, now, ext) == ResolveTrimmed(svc, s, hint, requestedBy, now, ext);
    TrimmedSpotifyPath(svc, s, hint, requestedBy, now, ext);
  }

  lemma TrimmedSpotifyPath(svc: Service, s: string, hint: TrackSource, requestedBy: string, now: Time, ext: Externals)
    requires s != "" && svc.hasResolver && IsSpotifyInput(s, hint) && svc.spotify.Some?
    requires ResolveTrimmed(svc, s, hint, requestedBy, now, ext).0.Ok?
    ensures
      var found := SpotifyWeb.ResolveTrack(svc.spotify.value, s, now, ext.parse, ext.api).0;
      && found.Ok?
      && Resolver.Resolve(found.value.title, YouTube, ext.parse, ext.run).Ok?
      && ResolveTrimmed(svc, s, hint, requestedBy, now, ext).0.value
           == Bridge(Resolver.Resolve(found.value.title, YouTube, ext.parse, ext.run).value, found.value, requestedBy)
  {
    assert ResolveTrimmed(svc, s, hint, requestedBy, now, ext) == SpotifyPath(svc, s, requestedBy, now, ext);
    SpotifyPathBridgesTitle(svc, s, requestedBy, now, ext);
  }

  lemma SpotifyPathBridgesTitle(svc: Service, s: string, requestedBy: string, now: Time, ext: Externals)
    requires svc.spotify.Some? && SpotifyPath(svc, s, requestedBy, now, ext).0.Ok?
    ensures
      var found := SpotifyWeb.ResolveTrack(svc.spotify.value, s, now, ext.parse, ext.api).0;
      && found.Ok?
      && Resolver.Resolve(found.value.title, YouTube, ext.parse, ext.run).Ok?
      && SpotifyPath(svc, s, requestedBy, now, ext).0.value
           == Bridge(Resolver.Resolve(found.value.title, YouTube, ext.parse, ext.run).value, found.value, requestedBy)
  {
  }

  /** ResolveAndEnqueue: resolve, stamp with `now`, then enqueue. A missing
      queue store is only reported after resolution succeeded. */
  function ResolveAndEnqueue(svc: Service, store: QS.Store, guildID: string, input: string, hint: TrackSource,
                             requestedBy: string, priority: int, now: Time, ext: Externals)
    : (r: (Result<QueueItem, Error>, Service, QS.Store))
    requires QS.Valid(store)
    ensures QS.Valid(r.2)
    ensures
      var resolved := ResolveInput(svc, input, hint, requestedBy, now, ext).0;
      && (resolved.Err? ==> r.0 == Err(resolved.error) && r.2 == store)
      && (resolved.Ok? && !svc.hasQueue ==> r.0 == Err(ErrQueueStoreNil) && r.2 == store)
    ensures r.0.Ok? ==>
      && r.0.value.priority == priority
      && r.0.value.track.requestedBy == requestedBy
      && r.0.value.enqueuedAt == now
      && r.0.value in QS.Queue(r.2, guildID)
    ensures
      var (resolved, svc1) := ResolveInput(svc, input, hint, requestedBy, now, ext);
      && r.1 == svc1
      && (resolved.Ok? && svc.hasQueue ==>
            var item := QueueItem(resolved.value, priority, now);
            var queued := QS.Enqueue(store, guildID, item, now);
            && (r.0.Ok? <==> queued.Ok?)
            && (queued.Ok? ==> r.0 == Ok(item) && r.2 == queued.value)
            && (queued.Err? ==> r.0 == Err(queued.error) && r.2 == store))
  {
    var (resolved, svc1) := ResolveInput(svc, input, hint, requestedBy, now, ext);
    if resolved.Err? then (Err(resolved.error), svc1, store)
    else
      var item := QueueItem(resolved.value, priority, now);
      if !svc.hasQueue then (Err(ErrQueueStoreNil), svc1, store)
      else
        match QS.Enqueue(store, guildID, item, now)
        case Err(e) => (Err(e), svc1, store)
        case Ok(store') =>
          EnqueuedIsQueued(store, guildID, item, now);
          (Ok(item), svc1, store')
  }

  /** An item stamped with the enqueue time is in the queue afterwards. */
  lemma EnqueuedIsQueued(store: QS.Store, guildID: string, item: QueueItem, now: Time)
    requires QS.Valid(store) && item.enqueuedAt == now
    ensures QS.Enqueue(store, guildID, item, now).Ok? ==> item in QS.Queue(QS.Enqueue(store, guildID, item, now).value, guildID)
  {
    if QS.Enqueue(store, guildID, item, now).Ok? {
      var store' := QS.Enqueue(store, guildID, item, now).value;
      assert item in multiset(QS.Queue(store', guildID));
    }
  }

  // ---------------------------------------------------------------------
  // Forwarders
  // ---------------------------------------------------------------------

  function Dequeue(svc: Service, store: QS.Store, guildID: string): (r: Result<(QueueItem, QS.Store), Error>)
    requires QS.Valid(store)
    ensures !svc.hasQueue ==> r == Err(ErrQueueStoreNil)
    ensures svc.hasQueue ==> r == QS.Dequeue(store, guildID)
  {
    if !svc.hasQueue then Err(ErrQueueStoreNil) else QS.Dequeue(store, guildID)
  }

  function Peek(svc: Service, store: QS.Store, guildID: string): (r: Result<QueueItem, Error>)
    requires QS.Valid(store)
    ensures !svc.hasQueue ==> r == Err(ErrQueueStoreNil)
    ensures svc.hasQueue ==> r == QS.Peek(store, guildID)
  {
    if !svc.hasQueue then Err(ErrQueueStoreNil) else QS.Peek(store, guildID)
  }

  function List(svc: Service, store: QS.Store, guildID: string, limit: int): (r: Result<seq<QueueItem>, Error>)
    ensures !svc.hasQueue ==> r == Err(ErrQueueStoreNil)
    ensures svc.hasQueue ==> r == QS.List(store, guildID, limit)
  {
    if !svc.hasQueue then Err(ErrQueueStoreNil) else QS.List(store, guildID, limit)
  }

  function Clear(svc: Service, store: QS.Store, guildID: string): (r: Result<QS.Store, Error>)
    ensures !svc.hasQueue ==> r == Err(ErrQueueStoreNil)
    ensures svc.hasQueue ==> r == QS.Clear(store, guildID)
  {
    if !svc.hasQueue then Err(ErrQueueStoreNil) else QS.Clear(store, guildID)
  }

  function GetSettings(svc: Service, store: QS.Store, guildID: string): (r: Result<QueueSettings, Error>)
    ensures !svc.hasQueue ==> r == Err(ErrQueueStoreNil)
    ensures svc.hasQueue ==> r == QS.GetSettings(store, guildID)
  {
    if !svc.hasQueue then Err(ErrQueueStoreNil) else QS.GetSettings(store, guildID)
  }

  function SetSettings(svc: Service, store: QS.Store, guildID: string, s: QueueSettings): (r: Result<QS.Store, Error>)
    ensures !svc.hasQueue ==> r == Err(ErrQueueStoreNil)
    ensures svc.hasQueue ==> r == QS.SetSettings(store, guildID, s)
  {
    if !svc.hasQueue then Err(ErrQueueStoreNil) else QS.SetSettings(store, guildID, s)
  }

  /** ResolveSpotifySearch: the client is checked before the resolver. */
  function ResolveSpotifySearch(svc: Service, query: string, requestedBy: string, now: Time, ext: Externals)
    : (r: (Result<Track, Error>, Service))
    ensures svc.spotify.None? ==> r.0 == Err(ErrSpotifyClientNil)
    ensures svc.spotify.Some? && !svc.hasResolver ==> r.0 == Err(ErrResolverNil)
    ensures r.0.Ok? ==>
      && svc.spotify.Some?
      && SpotifyWeb.SearchTrack(svc.spotify.value, query, now, ext.api).0.Ok?
      && r.0.value.title == SpotifyWeb.SearchTrack(svc.spotify.value, query, now, ext.api).0.value.title
      && r.0.value.requestedBy == requestedBy
  {
    if svc.spotify.None? then (Err(ErrSpotifyClientNil), svc)
    else if !svc.hasResolver then (Err(ErrResolverNil), svc)
    else
      var (found, c1) := SpotifyWeb.SearchTrack(svc.spotify.value, query, now, ext.api);
      var svc1 := svc.(spotify := Some(c1));
      if found.Err? then (Err(found.error), svc1)
      else
        match Resolver.Resolve(found.value.title, YouTube, ext.parse, ext.run)
        case Err(e) => (Err(e), svc1)
        case Ok(playable) => (Ok(Bridge(playable, found.value, requestedBy)), svc1)
  }

  /** Validate: the queue store is checked before the resolver. */
  function Validate(svc: Service): (r: Option<Error>)
    ensures r.None? <==> svc.hasQueue && svc.hasResolver
    ensures !svc.hasQueue ==> r == Some(ErrQueueStoreNil)
    ensures svc.hasQueue && !svc.hasResolver ==> r == Some(ErrResolverNil)
  {
    if !svc.hasQueue then Some(ErrQueueStoreNil)
    else if !svc.hasResolver then Some(ErrResolverNil)
    else None
  }
}

=== FILE: sourcehints.dfy ===
/** The source-hint helpers the interaction handlers share. The same two
    functions are written out three times in the repository
    (internal/features/dashboard/listeners/helpers.go,
    internal/features/music/commands/helpers.go and, for detectSourceHint,
    internal/features/music/listeners/message.go); the copies are identical
    and are modelled once here. */
module SourceHints {
  import opened GoStrings
  import opened MusicTypes
  import Service

  predicate KnownSource(s: TrackSource) {
    s == YouTube || s == Spotify || s == SoundCloud || s == UnknownSource
  }

  predicate MentionsSoundCloud(lower: string) {
    Contains(lower, "soundcloud.com")
  }

  predicate MentionsYouTube(lower: string) {
    Contains(lower, "youtube.com") || Contains(lower, "youtu.be")
  }

  /** detectSourceHint: Spotify before SoundCloud before YouTube; the Spotify
      test is the one the music service uses to route input to Spotify. */
  function DetectSourceHint(input: string): (r: TrackSource)
    ensures KnownSource(r)
    ensures r == Spotify <==> Service.IsSpotifyInput(input, UnknownSource)
    ensures r == SoundCloud <==> !Service.IsSpotifyInput(input, UnknownSource) && MentionsSoundCloud(ToLower(input))
    ensures r == YouTube <==>
      !Service.IsSpotifyInput(input, UnknownSource) && !MentionsSoundCloud(ToLower(input)) && MentionsYouTube(ToLower(input))
  {
    var lower := ToLower(input);
    if Contains(lower, "spotify.com") || HasPrefix(lower, "spotify:track:") then Spotify
    else if Contains(lower, "soundcloud.com") then SoundCloud
    else if Contains(lower, "youtube.com") || Contains(lower, "youtu.be") then YouTube
    else UnknownSource
  }

  lemma LowerUpperChar(c: char)
    ensures LowerChar(UpperChar(c)) == LowerChar(c)
    ensures LowerChar(LowerChar(c)) == LowerChar(c)
  {
  }

  /** The classification ignores letter case. */
  lemma DetectIgnoresCase(input: string)
    ensures DetectSourceHint(ToUpper(input)) == DetectSourceHint(input)
    ensures DetectSourceHint(ToLower(input)) == DetectSourceHint(input)
  {
    forall i | 0 <= i < |input|
      ensures ToLower(ToUpper(input))[i] == ToLower(input)[i]
      ensures ToLower(ToLower(input))[i] == ToLower(input)[i]
    {
      LowerUpperChar(input[i]);
    }
    assert ToLower(ToUpper(input)) == ToLower(input);
    assert ToLower(ToLower(input)) == ToLower(input);
  }

  /** The key a provider option is recognised by. */
  function ProviderKey(provider: string): string {
    ToLower(TrimSpace(provider))
  }

  /** parseProviderHint: names and two-letter aliases of the three services;
      blank, "auto", "default" and anything else leave the source unknown. */
  function ParseProviderHint(provider: string): (r: TrackSource)
    ensures KnownSource(r)
    ensures r == YouTube <==> ProviderKey(provider) in {"youtube", "yt"}
    ensures r == Spotify <==> ProviderKey(provider) in {"spotify", "sp"}
    ensures r == SoundCloud <==> ProviderKey(provider) in {"soundcloud", "sc"}
  {
    var key := ProviderKey(provider);
    if key in {"", "auto", "default"} then UnknownSource
    else if key in {"youtube", "yt"} then YouTube
    else if key in {"spotify", "sp"} then Spotify
    else if key in {"soundcloud", "sc"} then SoundCloud
    else UnknownSource
  }

  lemma LowerOfLowerWord(w: string)
    requires forall k :: 0 <= k < |w| ==> 'a' <= w[k] <= 'z'
    ensures ToLower(w) == w
  {
  }

  lemma LowerOfUpperWord(w: string)
    requires forall k :: 0 <= k < |w| ==> 'a' <= w[k] <= 'z'
    ensures ToLower(ToUpper(w)) == w
  {
    var u := ToUpper(w);
    forall k | 0 <= k < |w|
      ensures ToLower(u)[k] == w[k]
    {
      LowerUpperChar(w[k]);
    }
  }

  /** A lower-case word keys to itself, and so does its upper-case form. */
  lemma LowerWordKey(w: string)
    requires forall k :: 0 <= k < |w| ==> 'a' <= w[k] <= 'z'
    ensures ProviderKey(w) == w
  {
    if w != [] {
      AsciiEdgesUnpadded(w);
    }
    LowerOfLowerWord(w);
  }

  lemma UpperWordKey(w: string)
    requires forall k :: 0 <= k < |w| ==> 'a' <= w[k] <= 'z'
    ensures ProviderKey(ToUpper(w)) == w
  {
    var u := ToUpper(w);
    if u != [] {
      assert 'A' <= u[0] <= 'Z' && 'A' <= u[|u| - 1] <= 'Z';
      AsciiEdgesUnpadded(u);
    }
    LowerOfUpperWord(w);
  }

  /** A provider option typed in capitals means the same as in lower case. */
  lemma ProviderHintIgnoresCase(w: string)
    requires forall k :: 0 <= k < |w| ==> 'a' <= w[k] <= 'z'
    ensures ParseProviderHint(ToUpper(w)) == ParseProviderHint(w)
  {
    LowerWordKey(w);
    UpperWordKey(w);
    SameKeySameHint(ToUpper(w), w);
  }

  lemma SameKeySameHint(a: string, b: string)
    requires ProviderKey(a) == ProviderKey(b)
    ensures ParseProviderHint(a) == ParseProviderHint(b)
  {
  }

  /** resolveSourceHint (message.go): the detected source, with YouTube
      standing in for an unknown one. */
  function ResolveSourceHint(input: string): (r: TrackSource)
    ensures r != UnknownSource && KnownSource(r)
    ensures DetectSourceHint(input) != UnknownSource ==> r == DetectSourceHint(input)
    ensures DetectSourceHint(input) == UnknownSource ==> r == YouTube
  {
    var hint := DetectSourceHint(input);
    if hint == UnknownSource then YouTube else hint
  }
}

=== FILE: spotify.dfy ===
/** The Spotify client of internal/music/spotify.go without its HTTP: the
    three endpoints (token, track, search) are functions from the request to
    the decoded reply, and the access-token cache is explicit state. */
module SpotifyWeb {
  import opened Wrappers
  import opened GoStrings
  import opened MusicTypes
  import Resolver

  /** The decoded `spotifyTrackResponse`: artist names and album image URLs
      in the order the API sent them. */
  datatype TrackPayload = TrackPayload(
    id: string,
    name: string,
    durationMs: int,
    artists: seq<string>,
    images: seq<string>)

  datatype TokenReply = TokenReply(status: int, accessToken: string, expiresIn: int)
  datatype TrackReply = TrackReply(status: int, payload: TrackPayload)
  datatype SearchReply = SearchReply(status: int, items: seq<TrackPayload>)

  /** The three endpoints: a transport or decoding failure is an `Err`.
      `token` gets the client credentials, `track` the bearer token and the
      track ID, `search` the bearer token, the query and the limit. */
  datatype Api = Api(
    token: (string, string) -> Result<TokenReply, Error>,
    track: (string, string) -> Result<TrackReply, Error>,
    search: (string, string, int) -> Result<SearchReply, Error>)

  /** A client: its credentials and the cached token. */
  datatype Client = Client(clientID: string, clientSecret: string, accessToken: string, expiresAt: Time)

  const TrackPrefix := "spotify:track:"
  const OpenTrackURL := "https://open.spotify.com/track/"
  /** " — ": U+2014 EM DASH between spaces, as its UTF-8 bytes. */
  const TitleSeparator := " \U{E2}\U{80}\U{94} "
  /** Seconds taken off a token's lifetime. */
  const ExpirySlack := 30

  predicate Status2xx(status: int) {
    200 <= status < 300
  }

  // ---------------------------------------------------------------------
  // Track IDs
  // ---------------------------------------------------------------------

  /** Segment `l` is "track" and has a successor. */
  predicate TrackAt(parts: seq<string>, l: int) {
    0 <= l && l + 1 < |parts| && parts[l] == "track"
  }

  /** `j` is the first such segment at or after `i`. */
  predicate FirstTrackAt(parts: seq<string>, i: int, j: int) {
    i <= j && TrackAt(parts, j) && forall l :: i <= l < j ==> !TrackAt(parts, l)
  }

  /** The segment after the first "track" segment from `i` on that has a
      successor; empty when there is none. */
  function AfterTrack(parts: seq<string>, i: nat): (id: string)
    requires i <= |parts|
    ensures forall j :: FirstTrackAt(parts, i, j) ==> id == parts[j + 1]
    ensures (forall l :: i <= l ==> !TrackAt(parts, l)) ==> id == ""
    decreases |parts| - i
  {
    if i == |parts| then ""
    else if parts[i] == "track" && i + 1 < |parts| then
      assert TrackAt(parts, i);
      parts[i + 1]
    else
      assert forall j :: FirstTrackAt(parts, i, j) ==> FirstTrackAt(parts, i + 1, j);
      AfterTrack(parts, i + 1)
  }

  /** extractSpotifyTrackID. */
  function ExtractTrackID(input: string, parse: Resolver.UrlParser): (id: string)
    ensures IsBlank(input) ==> id == ""
    ensures HasPrefix(TrimSpace(input), TrackPrefix) ==> id == TrimSpace(input)[|TrackPrefix|..]
    ensures !HasPrefix(TrimSpace(input), TrackPrefix) && id != "" ==>
      parse(TrimSpace(input)).Some? && Contains(ToLower(parse(TrimSpace(input)).value.host), "spotify.com")
    ensures !IsBlank(input) && !HasPrefix(TrimSpace(input), TrackPrefix) ==>
      LinkTrackID(TrimSpace(input), parse, id)
  {
    TrimmedTrackID(TrimSpace(input), parse)
  }

  /** extractSpotifyTrackID past its TrimSpace. */
  function TrimmedTrackID(s: string, parse: Resolver.UrlParser): (id: string)
    ensures s == "" ==> id == ""
    ensures HasPrefix(s, TrackPrefix) ==> id == s[|TrackPrefix|..]
    ensures !HasPrefix(s, TrackPrefix) && id != "" ==>
      parse(s).Some? && Contains(ToLower(parse(s).value.host), "spotify.com")
    ensures s != "" && !HasPrefix(s, TrackPrefix) ==> LinkTrackID(s, parse, id)
  {
    if s == "" then ""
    else match CutPrefix(s, TrackPrefix)
      case Some(rest) => rest
      case None =>
        match parse(s)
        case None => ""
        case Some(u) =>
          if !Contains(ToLower(u.host), "spotify.com") then ""
          else AfterTrack(Split(TrimChar(u.path, '/'), '/'), 0)
  }

  /** The ID a link gives: empty unless it parses with a spotify.com host,
      and then the segment after the path's first "track" segment. */
  ghost predicate LinkTrackID(s: string, parse: Resolver.UrlParser, id: string) {
    if parse(s).None? || !Contains(ToLower(parse(s).value.host), "spotify.com") then id == ""
    else
      var parts := Split(TrimChar(parse(s).value.path, '/'), '/');
      && (forall j :: FirstTrackAt(parts, 0, j) ==> id == parts[j + 1])
      && ((forall l :: 0 <= l ==> !TrackAt(parts, l)) ==> id == "")
  }

  /** The open.spotify.com link of a track, when the URL parser reads it as
      such, gives the track ID back. */
  lemma {:induction false} TrackURLGivesID(id: string, parse: Resolver.UrlParser)
    requires id != "" && '/' !in id && SpaceSuffixLen(id) == 0
    requires parse(OpenTrackURL + id) == Some(Resolver.Url("https", "open.spotify.com", "/track/" + id))
    ensures ExtractTrackID(OpenTrackURL + id, parse) == id
  {
    URLTrackID(id, parse);
    Unpadded(OpenTrackURL, id);
  }

  lemma URLTrackID(id: string, parse: Resolver.UrlParser)
    requires id != "" && '/' !in id
    requires parse(OpenTrackURL + id) == Some(Resolver.Url("https", "open.spotify.com", "/track/" + id))
    ensures TrimmedTrackID(OpenTrackURL + id, parse) == id
  {
    URLPrefixNoCut(id);
    SpotifyHost();
    TrackPathSegments(id);
  }

  lemma URLPrefixNoCut(id: string)
    ensures CutPrefix(OpenTrackURL + id, TrackPrefix) == None
  {
    var s := OpenTrackURL + id;
    assert s[..|TrackPrefix|][1] != TrackPrefix[1];
  }

  lemma SpotifyHost()
    ensures Contains(ToLower("open.spotify.com"), "spotify.com")
  {
    var host := "open.spotify.com";
    assert ToLower(host) == host;
    assert host[5..16] == "spotify.com";
    ContainsAt(host, "spotify.com", 5);
  }

  lemma TrackPathSegments(id: string)
    requires id != "" && '/' !in id
    ensures AfterTrack(Split(TrimChar("/track/" + id, '/'), '/'), 0) == id
  {
    var path := "/track/" + id;
    assert path[0] == '/' && path[1..] == "track/" + id;
    TrimCharPlain("track/" + id, '/');
    assert TrimChar(path, '/') == "track/" + id;
    assert Join(["track", id], ['/']) == "track/" + id by {
      assert ["track", id][1..] == [id];
    }
    SplitJoin(["track", id], '/');
  }

  /** An ASCII prefix that starts with a printable byte, before an ID that
      does not end in white space, leaves nothing for TrimSpace. */
  lemma Unpadded(prefix: string, id: string)
    requires prefix != [] && prefix[0] < '\U{80}' && !IsSpace(prefix[0])
    requires prefix[|prefix| - 1] < '\U{80}'
    requires id != "" && SpaceSuffixLen(id) == 0
    ensures TrimSpace(prefix + id) == prefix + id
  {
    var s := prefix + id;
    assert s[0] == prefix[0];
    AsciiHeadNoSpace(s);
    SuffixAfterAscii(prefix, id);
    TrimUnpadded(s);
  }

  lemma TrimCharPlain(s: string, c: char)
    requires |s| > 0 && s[0] != c && s[|s| - 1] != c
    ensures TrimChar(s, c) == s
  {
  }

  /** No artist has a name. */
  predicate Unnamed(artists: seq<string>) {
    forall k :: 0 <= k < |artists| ==> artists[k] == ""
  }

  /** A `spotify:track:` URI gives its remainder. */
  lemma URIGivesID(id: string, parse: Resolver.UrlParser)
    requires id != "" && SpaceSuffixLen(id) == 0
    ensures ExtractTrackID(TrackPrefix + id, parse) == id
  {
    URIPrefixCut(id);
    Unpadded(TrackPrefix, id);
  }

  lemma URIPrefixCut(id: string)
    ensures CutPrefix(TrackPrefix + id, TrackPrefix) == Some(id)
  {
    var s := TrackPrefix + id;
    assert s[..|TrackPrefix|] == TrackPrefix && s[|TrackPrefix|..] == id;
  }

  // ---------------------------------------------------------------------
  // Payload to track
  // ---------------------------------------------------------------------

  function NonEmptyNames(names: seq<string>): (r: seq<string>)
    ensures forall k :: 0 <= k < |r| ==> r[k] != "" && r[k] in names
    ensures |r| == 0 <==> Unnamed(names)
  {
    if |names| == 0 then []
    else if names[0] == "" then NonEmptyNames(names[1..])
    else [names[0]] + NonEmptyNames(names[1..])
  }

  /** artistNames: the non-empty names, in order, joined by ", "; empty
      exactly when no artist has a name, and a lone name stands alone. */
  function ArtistNames(artists: seq<string>): (r: string)
    ensures r == "" <==> Unnamed(artists)
    ensures |NonEmptyNames(artists)| == 1 ==> r == NonEmptyNames(artists)[0]
  {
    var ns := NonEmptyNames(artists);
    if |ns| > 0 then
      JoinNonEmpty(ns, ", ");
      Join(ns, ", ")
    else Join(ns, ", ")
  }

  lemma {:induction false} JoinNonEmpty(parts: seq<string>, sep: string)
    requires |parts| > 0 && parts[0] != ""
    ensures Join(parts, sep) != ""
  {
    if |parts| > 1 {
      assert |Join(parts, sep)| >= |parts[0]|;
    }
  }

  /** albumImageURL: the first image, or "". */
  function AlbumImageURL(images: seq<string>): (r: string)
    ensures |images| > 0 ==> r == images[0]
    ensures |images| == 0 ==> r == ""
  {
    if |images| == 0 then "" else images[0]
  }

  /** The name part of a title: the trimmed name, or the placeholder when
      the name is blank. */
  function TitleBase(name: string): (base: string)
    ensures base != ""
    ensures IsBlank(name) ==> base == Resolver.UnknownTitle
    ensures !IsBlank(name) ==> base == TrimSpace(name)
  {
    if IsBlank(name) then Resolver.UnknownTitle else TrimSpace(name)
  }

  /** The composed title: the trimmed name or a placeholder, then " — " and
      the artists when any artist has a name. */
  function ComposeTitle(name: string, artists: seq<string>): (title: string)
    ensures title != ""
    ensures HasPrefix(title, TitleBase(name))
    ensures Unnamed(artists) ==> title == TitleBase(name)
    ensures !Unnamed(artists) ==>
      title == TitleBase(name) + TitleSeparator + ArtistNames(artists)
  {
    var base := TitleBase(name);
    var artist := ArtistNames(artists);
    if artist != "" then
      PrefixOfConcat(base, TitleSeparator + artist);
      base + (TitleSeparator + artist)
    else base
  }

  /** Unnamed artists are skipped and the named ones listed in order. */
  lemma ArtistsJoinedInOrder(name: string, a: string, b: string)
    requires !IsBlank(name) && a != "" && b != ""
    ensures ComposeTitle(name, [a, "", b]) == TrimSpace(name) + TitleSeparator + (a + ", " + b)
  {
    NamesOfThree(a, b);
    var artists := [a, "", b];
    assert artists[0] != "";
  }

  lemma NamesOfThree(a: string, b: string)
    requires a != "" && b != ""
    ensures ArtistNames([a, "", b]) == a + ", " + b
  {
    var artists := [a, "", b];
    assert [b][1..] == [];
    assert NonEmptyNames([b]) == [b];
    assert ["", b][1..] == [b];
    assert NonEmptyNames(["", b]) == [b];
    assert artists[1..] == ["", b];
    assert NonEmptyNames(artists) == [a, b];
    assert [a, b][1..] == [b];
    assert Join([b], ", ") == b;
    assert Join([a, b], ", ") == a + ", " + b;
  }

  /** The track built from a payload: an open.spotify.com link, the Spotify
      source, the composed title and the first album image. */
  function TrackFromPayload(p: TrackPayload): (t: Track)
    ensures t.url == OpenTrackURL + p.id && t.id == p.id
    ensures t.source == Spotify && t.requestedBy == ""
    ensures t.title == ComposeTitle(p.name, p.artists)
    ensures t.thumbnail == AlbumImageURL(p.images)
    ensures t.duration == p.durationMs * Millisecond
  {
    Track(p.id, ComposeTitle(p.name, p.artists), OpenTrackURL + p.id, Spotify,
          p.durationMs * Millisecond, AlbumImageURL(p.images), "")
  }

  // ---------------------------------------------------------------------
  // Access token
  // ---------------------------------------------------------------------

  /** The cached token can be reused: it is non-empty and not yet expired. */
  predicate Live(c: Client, now: Time) {
    c.accessToken != "" && Before(now, c.expiresAt)
  }

  /** getAccessToken: reuse a non-empty token before its expiry; otherwise
      require credentials, ask for a token and keep it until 30 seconds
      before the lifetime the reply gives. */
  function GetAccessToken(c: Client, now: Time, api: Api): (r: (Result<string, Error>, Client))
    ensures Live(c, now) ==> r == (Ok(c.accessToken), c)
    ensures !Live(c, now) && c.clientID != "" && c.clientSecret != "" ==>
      var tok := api.token(c.clientID, c.clientSecret);
      && (r.0.Ok? <==> tok.Ok? && Status2xx(tok.value.status) && tok.value.accessToken != "")
      && (tok.Err? ==> r.0 == Err(tok.error))
      && (tok.Ok? && !Status2xx(tok.value.status) ==> r.0 == Err(ErrSpotifyResolveFailed("token status")))
      && (tok.Ok? && Status2xx(tok.value.status) && tok.value.accessToken == "" ==>
            r.0 == Err(ErrSpotifyResolveFailed("empty access token")))
    ensures !Live(c, now) && r.0.Ok? ==>
      var tok := api.token(c.clientID, c.clientSecret);
      tok.Ok? && r == (Ok(tok.value.accessToken),
                       c.(accessToken := tok.value.accessToken,
                          expiresAt := Add(now, (tok.value.expiresIn - ExpirySlack) * Second)))
    ensures r.0.Ok? ==> r.0.value != "" && r.0.value == r.1.accessToken
    ensures r.0.Err? ==> r.1 == c
    ensures r.1 != c ==>
      && api.token(c.clientID, c.clientSecret).Ok?
      && r.1.accessToken == api.token(c.clientID, c.clientSecret).value.accessToken
      && r.1.expiresAt == Add(now, (api.token(c.clientID, c.clientSecret).value.expiresIn - ExpirySlack) * Second)
    ensures !Live(c, now) && (c.clientID == "" || c.clientSecret == "") ==>
      r.0 == Err(ErrSpotifyResolveFailed("missing spotify client credentials"))
  {
    if Live(c, now) then (Ok(c.accessToken), c)
    else if c.clientID == "" || c.clientSecret == "" then
      (Err(ErrSpotifyResolveFailed("missing spotify client credentials")), c)
    else
      match api.token(c.clientID, c.clientSecret)
      case Err(e) => (Err(e), c)
      case Ok(reply) =>
        if !Status2xx(reply.status) then (Err(ErrSpotifyResolveFailed("token status")), c)
        else if reply.accessToken == "" then (Err(ErrSpotifyResolveFailed("empty access token")), c)
        else
          var c' := c.(accessToken := reply.accessToken,
                       expiresAt := Add(now, (reply.expiresIn - ExpirySlack) * Second));
          (Ok(reply.accessToken), c')
  }

  /** A freshly fetched token is reused by a request made before its expiry
      and refetched by one made at or after it. */
  lemma TokenReuseWindow(c: Client, now: Time, later: Time, api: Api)
    requires GetAccessToken(c, now, api).0.Ok?
    ensures
      var c1 := GetAccessToken(c, now, api).1;
      Before(later, c1.expiresAt) ==> GetAccessToken(c1, later, api) == (Ok(c1.accessToken), c1)
  {
  }

  // ---------------------------------------------------------------------
  // Endpoints
  // ---------------------------------------------------------------------

  /** ResolveTrack: the ID is extracted before any token is requested. */
  function ResolveTrack(c: Client, input: string, now: Time, parse: Resolver.UrlParser, api: Api): (r: (Result<Track, Error>, Client))
    ensures ExtractTrackID(input, parse) == "" ==> r == (Err(ErrSpotifyResolveFailed("unsupported spotify input")), c)
    ensures r.0.Ok? ==>
      GetAccessToken(c, now, api).0.Ok? &&
      var tok := GetAccessToken(c, now, api).0.value;
      && api.track(tok, ExtractTrackID(input, parse)).Ok?
      && Status2xx(api.track(tok, ExtractTrackID(input, parse)).value.status)
      && r.0.value == TrackFromPayload(api.track(tok, ExtractTrackID(input, parse)).value.payload)
    ensures ExtractTrackID(input, parse) != "" ==>
      var (tok, c1) := GetAccessToken(c, now, api);
      && r.1 == c1
      && (tok.Err? ==> r.0 == Err(tok.error))
      && (tok.Ok? ==>
            var reply := api.track(tok.value, ExtractTrackID(input, parse));
            && (reply.Err? ==> r.0 == Err(reply.error))
            && (reply.Ok? && !Status2xx(reply.value.status) ==> r.0 == Err(ErrSpotifyResolveFailed("spotify api status")))
            && (reply.Ok? && Status2xx(reply.value.status) ==> r.0 == Ok(TrackFromPayload(reply.value.payload))))
    ensures r.0.Ok? ==> r.0.value.source == Spotify
  {
    var id := ExtractTrackID(input, parse);
    if id == "" then (Err(ErrSpotifyResolveFailed("unsupported spotify input")), c)
    else
      var (tok, c1) := GetAccessToken(c, now, api);
      if tok.Err? then (Err(tok.error), c1)
      else
        match api.track(tok.value, id)
        case Err(e) => (Err(e), c1)
        case Ok(reply) =>
          if !Status2xx(reply.status) then (Err(ErrSpotifyResolveFailed("spotify api status")), c1)
          else (Ok(TrackFromPayload(reply.payload)), c1)
  }

  /** The `limit` clamp of SearchTracks. */
  function ClampLimit(limit: int): (n: int)
    ensures 1 <= n <= 10
    ensures 1 <= limit <= 10 ==> n == limit
    ensures limit <= 0 ==> n == 1
    ensures limit > 10 ==> n == 10
  {
    if limit <= 0 then 1 else if limit > 10 then 10 else limit
  }

  /** SearchTracks: a blank query fails before any token is requested; the
      API gets the trimmed query and the clamped limit. */
  function SearchTracks(c: Client, query: string, limit: int, now: Time, api: Api): (r: (Result<seq<Track>, Error>, Client))
    ensures IsBlank(query) ==> r == (Err(ErrSpotifyResolveFailed("empty query")), c)
    ensures r.0.Ok? ==>
      GetAccessToken(c, now, api).0.Ok? &&
      var tok := GetAccessToken(c, now, api).0.value;
      var reply := api.search(tok, TrimSpace(query), ClampLimit(limit));
      && reply.Ok? && Status2xx(reply.value.status)
      && |r.0.value| == |reply.value.items| > 0
      && forall k :: 0 <= k < |r.0.value| ==> r.0.value[k] == TrackFromPayload(reply.value.items[k])
    ensures !IsBlank(query) ==>
      var (tok, c1) := GetAccessToken(c, now, api);
      && r.1 == c1
      && (tok.Err? ==> r.0 == Err(tok.error))
      && (tok.Ok? ==>
            var reply := api.search(tok.value, TrimSpace(query), ClampLimit(limit));
            && (reply.Err? ==> r.0 == Err(reply.error))
            && (reply.Ok? && !Status2xx(reply.value.status) ==> r.0 == Err(ErrSpotifyResolveFailed("spotify api status")))
            && (reply.Ok? && Status2xx(reply.value.status) && |reply.value.items| == 0 ==>
                  r.0 == Err(ErrSpotifyResolveFailed("no search results")))
            && (reply.Ok? && Status2xx(reply.value.status) && |reply.value.items| > 0 ==>
                  r.0 == Ok(TracksFromPayloads(reply.value.items))))
  {
    var q := TrimSpace(query);
    if q == "" then (Err(ErrSpotifyResolveFailed("empty query")), c)
    else
      var n := ClampLimit(limit);
      var (tok, c1) := GetAccessToken(c, now, api);
      if tok.Err? then (Err(tok.error), c1)
      else
        match api.search(tok.value, q, n)
        case Err(e) => (Err(e), c1)
        case Ok(reply) =>
          if !Status2xx(reply.status) then (Err(ErrSpotifyResolveFailed("spotify api status")), c1)
          else if |reply.items| == 0 then (Err(ErrSpotifyResolveFailed("no search results")), c1)
          else (Ok(TracksFromPayloads(reply.items)), c1)
  }

  function TracksFromPayloads(items: seq<TrackPayload>): (ts: seq<Track>)
    ensures |ts| == |items|
    ensures forall k :: 0 <= k < |ts| ==> ts[k] == TrackFromPayload(items[k])
  {
    seq(|items|, k requires 0 <= k < |items| => TrackFromPayload(items[k]))
  }

  /** SearchTrack: the first result of a one-result search. */
  function SearchTrack(c: Client, query: string, now: Time, api: Api): (r: (Result<Track, Error>, Client))
    ensures r.0.Ok? <==> SearchTracks(c, query, 1, now, api).0.Ok?
    ensures r.0.Ok? ==> r.0.value == SearchTracks(c, query, 1, now, api).0.value[0]
  {
    var (res, c1) := SearchTracks(c, query, 1, now, api);
    if res.Err? then (Err(res.error), c1)
    else if |res.value| == 0 then (Err(ErrSpotifyResolveFailed("no search results")), c1)
    else (Ok(res.value[0]), c1)
  }
}

=== FILE: worker.dfy ===
/** The decisions of the playback worker (workerLoop and nextQueueItem in
    internal/music/player.go) as a step function. Each step is one thing the
    worker does between two points where it blocks: at the head of its loop,
    while waiting for work, or while a stream plays. */
module Worker {
  import opened Wrappers
  import opened MusicTypes
  import QS = QueueStore
  import Service
  import Resolver
  import P = Player

  /** Which loop a play belongs to, and so what follows it. */
  datatype Mode =
    | RepeatThenTop                             // the repeat-track loop entered right after dequeueing
    | Once(settings: QueueSettings)             // the single play, with the settings read before it
    | RepeatThenRequeue(settings: QueueSettings) // the repeat-track loop entered after the single play

  datatype Phase =
    | Top                                   // the head of the worker loop
    | Waiting(timed: bool)                  // no item: woken by a signal, or also by the 1 s timer after an error
    | Playing(item: QueueItem, mode: Mode)  // a stream is playing
    | Exited

  /** Why streamOpusFromOgg returned. */
  datatype StreamEnd =
    | ByContext        // the play context was cancelled
    | ByStop           // a stop signal was taken
    | BySkip           // a skip signal was taken
    | ByRestart        // a restart signal was taken: the stream is started again
    | AtEndOfStream
    | Broken(e: Error) // an Ogg read error

  datatype Event =
    | Tick                        // run the head of the loop
    | Poll(timerFired: bool)      // look at the wait's select cases
    | Streamed(end: StreamEnd)    // the current stream returned

  /** What the world supplies to a step: the clock, the shuffle choice, and
      the outside tools. */
  datatype Env = Env(now: Time, pick: nat, ext: Service.Externals, streamRun: Resolver.YtDlpStreamRun)

  /** The settings the worker starts from when it cannot read any. */
  const FallbackSettings := QueueSettings(RepeatNone, false, 0)

  /** A GetSettings call made under the worker's context: once that context is
      cancelled Redis reports an error. */
  function ReadSettings(w: P.World): (r: Result<QueueSettings, Error>)
    ensures w.player.worker.ctxDone ==> r.Err?
    ensures !w.player.worker.ctxDone ==> r == Service.GetSettings(w.svc, w.store, w.player.guildID)
  {
    if w.player.worker.ctxDone then Err(ErrExternal("context canceled"))
    else Service.GetSettings(w.svc, w.store, w.player.guildID)
  }

  /** nextQueueItem: shuffle (read with errors ignored) picks a random member
      when the store is present; otherwise the lowest score is taken. */
  function NextQueueItem(w: P.World, pick: nat): (r: Result<(QueueItem, QS.Store), Error>)
    requires QS.Valid(w.store)
    ensures !w.player.hasService ==> r == Err(ErrQueueStoreNil)
    ensures r.Ok? ==> QS.Valid(r.value.1)
    ensures r.Ok? ==> r.value.0 in QS.Queue(w.store, w.player.guildID)
    ensures r.Ok? ==> multiset(QS.Queue(r.value.1, w.player.guildID)) + multiset{r.value.0}
                        == multiset(QS.Queue(w.store, w.player.guildID))
  {
    if !w.player.hasService then Err(ErrQueueStoreNil)
    else
      var settings := match ReadSettings(w) case Ok(s) => s case Err(_) => QueueSettings(RepeatMode(""), false, 0);
      if settings.shuffle && w.svc.hasQueue then QS.DequeueRandom(w.store, w.player.guildID, pick)
      else
        var r := Service.Dequeue(w.svc, w.store, w.player.guildID);
        if r.Ok? then
          assert r.value.0 in multiset(QS.Queue(w.store, w.player.guildID));
          r
        else r
  }

  /** With shuffle on and a store present the next item is a random member. */
  lemma ShuffleUsesDequeueRandom(w: P.World, pick: nat)
    requires QS.Valid(w.store) && w.player.hasService && w.svc.hasQueue && !w.player.worker.ctxDone
    requires Service.GetSettings(w.svc, w.store, w.player.guildID).Ok?
    requires Service.GetSettings(w.svc, w.store, w.player.guildID).value.shuffle
    ensures NextQueueItem(w, pick) == QS.DequeueRandom(w.store, w.player.guildID, pick)
  {
  }

  /** Without shuffle the next item is the one Dequeue pops. */
  lemma NoShuffleUsesDequeue(w: P.World, pick: nat)
    requires QS.Valid(w.store) && w.player.hasService
    requires ReadSettings(w).Err? || !ReadSettings(w).value.shuffle
    ensures NextQueueItem(w, pick) == Service.Dequeue(w.svc, w.store, w.player.guildID)
  {
  }

  /** The worker goroutine returns: its deferred function clears `running`. */
  function Exit(w: P.World): (r: (P.World, Phase))
    ensures r.1 == Exited && !r.0.player.worker.running
    ensures r.0 == w.(player := w.player.(worker := w.player.worker.(running := false)))
  {
    (w.(player := w.player.(worker := w.player.worker.(running := false))), Exited)
  }

  /** The settings as last read: the service's stored ones when the worker
      has a service, its context is live and the read succeeds, otherwise
      `fallback`. */
  function Latest(w: P.World, fallback: QueueSettings): (r: QueueSettings)
    ensures !w.player.hasService || w.player.worker.ctxDone ==> r == fallback
    ensures w.player.hasService && !w.player.worker.ctxDone ==>
      var got := Service.GetSettings(w.svc, w.store, w.player.guildID);
      r == if got.Ok? then got.value else fallback
  {
    if w.player.hasService && ReadSettings(w).Ok? then ReadSettings(w).value else fallback
  }

  /** The repeat-queue check after a play: the settings are read once more and,
      in repeat-queue mode, the same URL, source, requester and priority are
      resolved and enqueued again (failures ignored; under a cancelled context
      the resolution fails). */
  function Requeue(w: P.World, item: QueueItem, settings: QueueSettings, env: Env): (r: (P.World, Phase))
    requires QS.Valid(w.store)
    ensures QS.Valid(r.0.store) && r.1 == Top && r.0.player == w.player
    ensures
      var latest := Latest(w, settings);
      && (!(latest.repeatMode == RepeatQueue && w.player.hasService) || w.player.worker.ctxDone ==> r.0 == w)
      && (latest.repeatMode == RepeatQueue && w.player.hasService && !w.player.worker.ctxDone ==>
            var again := Service.ResolveAndEnqueue(w.svc, w.store, w.player.guildID, item.track.url, item.track.source,
                                                    item.track.requestedBy, item.priority, env.now, env.ext);
            r.0.store == again.2 && r.0.svc == again.1)
  {
    var latest := Latest(w, settings);
    if latest.repeatMode == RepeatQueue && w.player.hasService && !w.player.worker.ctxDone then
      var again := Service.ResolveAndEnqueue(w.svc, w.store, w.player.guildID, item.track.url, item.track.source,
                                              item.track.requestedBy, item.priority, env.now, env.ext);
      (w.(svc := again.1, store := again.2), Top)
    else (w, Top)
  }

  function Rank(m: Mode): nat {
    match m
    case Once(_) => 1
    case _ => 0
  }

  /** playItem from the top: the state is reset and the stream URL resolved;
      a failure is handled as the play's outcome straight away, a success
      starts the stream. */
  function Begin(w: P.World, item: QueueItem, mode: Mode, env: Env): (r: (P.World, Phase))
    requires QS.Valid(w.store)
    ensures QS.Valid(r.0.store)
    ensures r.1 != Exited ==> r.0.player.worker.running == w.player.worker.running
    ensures r.1 == Exited ==> !r.0.player.worker.running
    ensures w.player.state.isPlaying ==> r.0.player.state.isPlaying
    ensures r.1.Playing? ==> r.1.item == item
    decreases Rank(mode), 1, 0
  {
    var (res, p1) := P.PlayItem(w.player, item, env.now, env.ext.parse, env.streamRun);
    if res.Err? then After(w.(player := p1), item, mode, Some(res.error), env)
    else (w.(player := p1.(media := p1.media.(ffmpegCmd := true, ffmpegStdout := true, ffmpegCancel := true))), Playing(item, mode))
  }

  /** What the worker does once playItem returned `outcome`. */
  function After(w: P.World, item: QueueItem, mode: Mode, outcome: Option<Error>, env: Env): (r: (P.World, Phase))
    requires QS.Valid(w.store)
    ensures QS.Valid(r.0.store)
    ensures r.1 != Exited ==> r.0.player.worker.running == w.player.worker.running
    ensures r.1 == Exited ==> !r.0.player.worker.running
    ensures w.player.state.isPlaying ==> r.0.player.state.isPlaying
    ensures r.1.Playing? ==> r.1.item == item
    ensures outcome == Some(ErrPlaybackStopped) ==> r.1 == Exited
    ensures outcome != Some(ErrPlaybackStopped) ==> r.1 != Exited
    decreases Rank(mode), if outcome.None? then 2 else 0, 1
  {
    match mode
    case RepeatThenTop =>
      if outcome == Some(ErrPlaybackStopped) then Exit(w)
      else if outcome.Some? || !w.player.hasService then (w, Top)
      else if ReadSettings(w).Ok? && ReadSettings(w).value.repeatMode == RepeatTrack then Begin(w, item, mode, env)
      else (w, Top)
    case Once(settings) => AfterOnce(w, item, settings, outcome, env)
    case RepeatThenRequeue(settings) =>
      if outcome == Some(ErrPlaybackStopped) then Exit(w)
      else if outcome.Some? || !w.player.hasService then Requeue(w, item, settings, env)
      else if ReadSettings(w).Ok? && ReadSettings(w).value.repeatMode == RepeatTrack then Begin(w, item, mode, env)
      else Requeue(w, item, settings, env)
  }

  /** After the single play: a skip goes back to the top, a stop ends the
      worker, and otherwise the latest settings choose between repeating the
      track and the repeat-queue check. */
  function AfterOnce(w: P.World, item: QueueItem, settings: QueueSettings, outcome: Option<Error>, env: Env): (r: (P.World, Phase))
    requires QS.Valid(w.store)
    ensures QS.Valid(r.0.store)
    ensures r.1 != Exited ==> r.0.player.worker.running == w.player.worker.running
    ensures r.1 == Exited ==> !r.0.player.worker.running
    ensures w.player.state.isPlaying ==> r.0.player.state.isPlaying
    ensures r.1.Playing? ==> r.1.item == item
    ensures outcome == Some(ErrPlaybackStopped) ==> r.1 == Exited
    ensures outcome != Some(ErrPlaybackStopped) ==> r.1 != Exited
    decreases 1, if outcome.None? then 2 else 0, 0
  {
    if outcome == Some(ErrPlaybackSkipped) then (w, Top)
    else if outcome == Some(ErrPlaybackStopped) then Exit(w)
    else Resume(w, item, Latest(w, settings), env)
  }

  /** A single play that ended normally: repeat-track starts it again,
      anything else goes to the repeat-queue check. */
  function Resume(w: P.World, item: QueueItem, latest: QueueSettings, env: Env): (r: (P.World, Phase))
    requires QS.Valid(w.store)
    ensures QS.Valid(r.0.store)
    ensures r.1 != Exited
    ensures r.0.player.worker.running == w.player.worker.running
    ensures w.player.state.isPlaying ==> r.0.player.state.isPlaying
    ensures r.1.Playing? ==> r.1.item == item
    decreases 0, 3, 0
  {
    if latest.repeatMode == RepeatTrack then Begin(w, item, RepeatThenRequeue(latest), env)
    else Requeue(w, item, latest, env)
  }

  /** The head of the loop: a cancelled context or a pending stop ends the
      worker; otherwise the next item is taken and played. */
  function TopStep(w: P.World, env: Env): (r: (P.World, Phase))
    requires QS.Valid(w.store)
    ensures QS.Valid(r.0.store)
    ensures w.player.worker.ctxDone ==> r == Exit(w)
    ensures !w.player.worker.ctxDone && w.player.signals.stop == P.Chan(true) ==>
      r == Exit(w.(player := w.player.(signals := w.player.signals.(stop := P.Chan(false)))))
    ensures !w.player.worker.ctxDone && w.player.signals.stop != P.Chan(true) && NextQueueItem(w, env.pick).Err? ==>
      r == (w, Waiting(NextQueueItem(w, env.pick).error != ErrQueueEmpty))
    ensures r.1 != Exited ==> r.0.player.worker.running == w.player.worker.running
    ensures r.1 == Exited ==> !r.0.player.worker.running
    ensures w.player.state.isPlaying ==> r.0.player.state.isPlaying
  {
    if w.player.worker.ctxDone then Exit(w)
    else
      var (stopped, stopCh) := P.Take(w.player.signals.stop);
      if stopped then Exit(w.(player := w.player.(signals := w.player.signals.(stop := stopCh))))
      else
        match NextQueueItem(w, env.pick)
        case Err(e) => (w, Waiting(e != ErrQueueEmpty))
        case Ok((item, store')) =>
          var w1 := w.(store := store');
          var settings := Latest(w1, FallbackSettings);
          if settings.repeatMode == RepeatTrack then Begin(w1, item, RepeatThenTop, env)
          else Begin(w1, item, Once(settings), env)
  }

  /** The wait's select, its cases taken in the order they are written. */
  function WaitStep(w: P.World, timed: bool, timerFired: bool): (r: (P.World, Phase))
    ensures w.player.worker.ctxDone ==> r == Exit(w)
    ensures !w.player.worker.ctxDone && w.player.signals.stop == P.Chan(true) ==>
      r == Exit(w.(player := w.player.(signals := w.player.signals.(stop := P.Chan(false)))))
    ensures r.0.store == w.store && r.0.svc == w.svc
    ensures r.1 == Top ==> w.player.worker.wakeCh == P.Chan(true) || (timed && timerFired)
    ensures r.1 != Exited ==> r.0.player.worker.running == w.player.worker.running
    ensures r.1 == Exited ==> !r.0.player.worker.running
    ensures r.0.player.state == w.player.state
  {
    if w.player.worker.ctxDone then Exit(w)
    else
      var (stopped, stopCh) := P.Take(w.player.signals.stop);
      if stopped then Exit(w.(player := w.player.(signals := w.player.signals.(stop := stopCh))))
      else
        var (woken, wakeCh) := P.Take(w.player.worker.wakeCh);
        if woken then (w.(player := w.player.(worker := w.player.worker.(wakeCh := wakeCh))), Top)
        else if timed && timerFired then (w, Top)
        else (w, Waiting(timed))
  }

  /** A stream returned: the signal that ended it is taken, the ffmpeg handles
      are dropped and, unless the stream restarts, the play's context is
      cancelled and its outcome handled. Stop, skip, a cancelled context and
      the end of the stream all end the play without an error. */
  function StreamStep(w: P.World, item: QueueItem, mode: Mode, end: StreamEnd, env: Env): (r: (P.World, Phase))
    requires QS.Valid(w.store)
    ensures QS.Valid(r.0.store)
    ensures r.1 != Exited ==> r.0.player.worker.running == w.player.worker.running
    ensures r.1 == Exited ==> !r.0.player.worker.running
    ensures w.player.state.isPlaying ==> r.0.player.state.isPlaying
  {
    var p := w.player;
    var m0 := p.media.(ffmpegCmd := false, ffmpegStdout := false, ffmpegCancel := false);
    match end
    case ByContext =>
      if !p.media.playCtxDone then (w, Playing(item, mode))
      else After(w.(player := p.(media := m0)), item, mode, None, env)
    case ByStop =>
      var (taken, ch) := P.Take(p.signals.stop);
      if !taken then (w, Playing(item, mode))
      else After(w.(player := p.(signals := p.signals.(stop := ch), media := m0.(playCtxDone := true))), item, mode, None, env)
    case BySkip =>
      var (taken, ch) := P.Take(p.signals.skip);
      if !taken then (w, Playing(item, mode))
      else After(w.(player := p.(signals := p.signals.(skip := ch), media := m0.(playCtxDone := true))), item, mode, None, env)
    case ByRestart =>
      var (taken, ch) := P.Take(p.signals.restart);
      if !taken then (w, Playing(item, mode))
      else if p.vc.None? then
        After(w.(player := p.(signals := p.signals.(restart := ch), media := m0.(playCtxDone := true))),
              item, mode, Some(ErrVoiceNotConnected), env)
      else (w.(player := p.(signals := p.signals.(restart := ch))), Playing(item, mode))
    case AtEndOfStream =>
      After(w.(player := p.(media := m0.(playCtxDone := true))), item, mode, None, env)
    case Broken(e) =>
      After(w.(player := p.(media := m0.(playCtxDone := true))), item, mode, Some(e), env)
  }

  /** One step of the worker. An event the phase does not wait for changes nothing. */
  function Step(w: P.World, ph: Phase, ev: Event, env: Env): (r: (P.World, Phase))
    requires QS.Valid(w.store)
    ensures QS.Valid(r.0.store)
    ensures ph == Exited ==> r == (w, ph)
    ensures r.1 == Exited && ph != Exited ==> !r.0.player.worker.running
    ensures r.1 != Exited ==> r.0.player.worker.running == w.player.worker.running
    ensures w.player.state.isPlaying ==> r.0.player.state.isPlaying
    ensures ph.Playing? && r.1.Playing? ==> r.1.item == ph.item
  {
    match (ph, ev)
    case (Top, Tick) => TopStep(w, env)
    case (Waiting(timed), Poll(fired)) => WaitStep(w, timed, fired)
    case (Playing(item, mode), Streamed(end)) => StreamStep(w, item, mode, end, env)
    case _ => (w, ph)
  }

  // ---------------------------------------------------------------------
  // Properties of the loop
  // ---------------------------------------------------------------------

  /** Under repeat-track a skip ends the stream without an error, so the same
      item is played again while the settings still say repeat-track. */
  lemma SkipReplaysUnderRepeatTrack(w: P.World, item: QueueItem, env: Env)
    requires QS.Valid(w.store)
    requires w.player.signals.skip == P.Chan(true) && w.player.hasService && !w.player.worker.ctxDone && w.player.vc.Some?
    requires Service.GetSettings(w.svc, w.store, w.player.guildID).Ok?
    requires Service.GetSettings(w.svc, w.store, w.player.guildID).value.repeatMode == RepeatTrack
    requires Resolver.ResolveStreamURL(item.track.url, item.track.source, env.ext.parse, env.streamRun).Ok?
    ensures Step(w, Playing(item, RepeatThenTop), Streamed(BySkip), env).1 == Playing(item, RepeatThenTop)
    ensures Step(w, Playing(item, RepeatThenTop), Streamed(BySkip), env).0.player.state.track == Some(item.track)
  {
    var w1 := SkipTaken(w);
    SkipStepTakesSignal(w, item, RepeatThenTop, env);
    assert ReadSettings(w1) == Service.GetSettings(w.svc, w.store, w.player.guildID);
    RepeatTrackBeginsAgain(w1, item, env);
    BeginPlays(w1, item, RepeatThenTop, env);
  }

  /** The world once a pending skip is taken and the stream torn down. */
  function SkipTaken(w: P.World): P.World {
    var p := w.player;
    var m0 := p.media.(ffmpegCmd := false, ffmpegStdout := false, ffmpegCancel := false);
    w.(player := p.(signals := p.signals.(skip := P.Chan(false)), media := m0.(playCtxDone := true)))
  }

  lemma SkipStepTakesSignal(w: P.World, item: QueueItem, mode: Mode, env: Env)
    requires QS.Valid(w.store) && w.player.signals.skip == P.Chan(true)
    ensures Step(w, Playing(item, mode), Streamed(BySkip), env) == After(SkipTaken(w), item, mode, None, env)
  {
  }

  lemma RepeatTrackBeginsAgain(w: P.World, item: QueueItem, env: Env)
    requires QS.Valid(w.store) && w.player.hasService
    requires ReadSettings(w).Ok? && ReadSettings(w).value.repeatMode == RepeatTrack
    ensures After(w, item, RepeatThenTop, None, env) == Begin(w, item, RepeatThenTop, env)
  {
  }

  /** With a voice connection and a stream URL the item starts playing. */
  lemma BeginPlays(w: P.World, item: QueueItem, mode: Mode, env: Env)
    requires QS.Valid(w.store) && w.player.vc.Some?
    requires Resolver.ResolveStreamURL(item.track.url, item.track.source, env.ext.parse, env.streamRun).Ok?
    ensures Begin(w, item, mode, env).1 == Playing(item, mode)
    ensures Begin(w, item, mode, env).0.player.state.track == Some(item.track)
  {
    var (res, p1) := P.PlayItem(w.player, item, env.now, env.ext.parse, env.streamRun);
    assert res.Ok?;
  }

  /** Repeat-track stops repeating once the settings say otherwise. */
  lemma RepeatEndsWhenModeChanges(w: P.World, item: QueueItem, env: Env)
    requires QS.Valid(w.store)
    requires w.player.hasService && !w.player.worker.ctxDone
    requires Service.GetSettings(w.svc, w.store, w.player.guildID).Ok?
    requires Service.GetSettings(w.svc, w.store, w.player.guildID).value.repeatMode != RepeatTrack
    ensures Step(w, Playing(item, RepeatThenTop), Streamed(AtEndOfStream), env).1 == Top
  {
  }

  /** Repeat-track stops repeating on a play error. */
  lemma RepeatEndsOnError(w: P.World, item: QueueItem, e: Error, env: Env)
    requires QS.Valid(w.store) && e != ErrPlaybackStopped
    ensures Step(w, Playing(item, RepeatThenTop), Streamed(Broken(e)), env).1 == Top
  {
  }

  /** After a single play in repeat-queue mode the item's URL, source,
      requester and priority are resolved and enqueued again. */
  lemma RepeatQueueEnqueuesAgain(w: P.World, item: QueueItem, settings: QueueSettings, env: Env)
    requires QS.Valid(w.store)
    requires w.player.hasService && !w.player.worker.ctxDone
    requires Service.GetSettings(w.svc, w.store, w.player.guildID).Ok?
    requires Service.GetSettings(w.svc, w.store, w.player.guildID).value.repeatMode == RepeatQueue
    ensures
      var r := Step(w, Playing(item, Once(settings)), Streamed(AtEndOfStream), env);
      var again := Service.ResolveAndEnqueue(w.svc, w.store, w.player.guildID, item.track.url, item.track.source,
                                              item.track.requestedBy, item.priority, env.now, env.ext);
      && r.1 == Top
      && r.0.store == again.2
      && (again.0.Ok? ==>
            && again.0.value.priority == item.priority
            && again.0.value.track.requestedBy == item.track.requestedBy
            && again.0.value in QS.Queue(r.0.store, w.player.guildID))
  {
    var w1 := EndTornDown(w);
    EndStepTearsDown(w, item, Once(settings), env);
    assert ReadSettings(w1) == Service.GetSettings(w.svc, w.store, w.player.guildID);
    OnceRequeues(w1, item, settings, env);
  }

  /** The world once a stream reached its end and was torn down. */
  function EndTornDown(w: P.World): P.World {
    var p := w.player;
    w.(player := p.(media := p.media.(ffmpegCmd := false, ffmpegStdout := false, ffmpegCancel := false, playCtxDone := true)))
  }

  lemma EndStepTearsDown(w: P.World, item: QueueItem, mode: Mode, env: Env)
    requires QS.Valid(w.store)
    ensures Step(w, Playing(item, mode), Streamed(AtEndOfStream), env) == After(EndTornDown(w), item, mode, None, env)
  {
  }

  lemma OnceRequeues(w: P.World, item: QueueItem, settings: QueueSettings, env: Env)
    requires QS.Valid(w.store) && w.player.hasService
    requires ReadSettings(w).Ok? && ReadSettings(w).value.repeatMode == RepeatQueue
    ensures After(w, item, Once(settings), None, env) == Requeue(w, item, ReadSettings(w).value, env)
  {
    assert After(w, item, Once(settings), None, env) == AfterOnce(w, item, settings, None, env);
  }

  /** Stop cancels the worker's context, so the worker's next step from the
      head of its loop or from a wait ends it, and the playback state still
      reads as playing. */
  lemma StopEndsWorker(w: P.World, ph: Phase, ev: Event, clearQueue: bool, env: Env)
    requires QS.Valid(w.store) && w.player.worker.cancel && w.player.signals.stop.Chan?
    requires (ph == Top && ev == Tick) || (ph.Waiting? && ev.Poll?)
    ensures
      var (_, p1, s1) := P.Stop(w.player, clearQueue, w.svc, w.store);
      var r := Step(P.World(p1, w.svc, s1), ph, ev, env);
      && r.1 == Exited && !r.0.player.worker.running
      && r.0.player.state == w.player.state
  {
    var (_, p1, s1) := P.Stop(w.player, clearQueue, w.svc, w.store);
    assert p1.worker.ctxDone;
    if clearQueue && w.player.hasService && Service.Clear(w.svc, w.store, w.player.guildID).Ok? {
      QS.ClearPreservesValid(w.store, w.player.guildID);
    }
  }

  /** An empty queue parks the worker until it is woken, stopped or cancelled. */
  lemma EmptyQueueWaits(w: P.World, env: Env)
    requires QS.Valid(w.store) && w.player.hasService && w.svc.hasQueue
    requires !w.player.worker.ctxDone && w.player.signals.stop != P.Chan(true)
    requires QS.Check(w.store, w.player.guildID).None? && QS.Queue(w.store, w.player.guildID) == []
    ensures Step(w, Top, Tick, env) == (w, Waiting(false))
  {
    QS.EmptyQueueErrors(w.store, w.player.guildID, env.pick);
  }
}

=== FILE: wrappers.dfy ===
/** Failure-carrying values shared by every module of the model. */
module Wrappers {

  /** A value that may be absent (Go's nil pointer / `ok == false`). */
  datatype Option<+T> = None | Some(value: T)

  /** A value or an error (Go's `(T, error)` pair). */
  datatype Result<+T, +E> = Ok(value: T) | Err(error: E)
}
